=== FILE: README.md ===
# Serenity engine core, modelled in Dafny

This project models the bookkeeping core of the Serenity engine. The repository holds three generations of that engine:

- a Rust Direct3D 11 prototype (`src/main.rs`, `src/shader.rs`);
- an older C++ Direct3D 12 engine under `src/` and `include/`;
- a newer one under `serenity-engine/`.

Almost everything the engine does goes through Direct3D, DXGI, DXC, SDL or Lua. Around those calls it keeps its own integer, sequence and string logic, and that logic is what is modelled here.

- **GPU resource bookkeeping.** Descriptor-heap handle arithmetic and its index round trip. Per-usage descriptor allocation in `create_buffer` and `create_texture`. The renderer's append-only buffer and texture registries. The pipeline hot-reload queue. Resource-barrier batching. The indirect-draw command list. The HRESULT failure test.
- **Scene data.** Flattening each game object's meshes into the scene's global arrays. Game-object construction. The bounded light table. The scene manager's current-scene rule. Both script registries.
- **Asset decoding.** The glTF node-tree walk, and the older mesh loader's byte-level position and index decoding (section 3.6.2, Accessors, of glTF 2.0).
- **Shader compilation.** The three front-ends: profiles, argument lists and error policy.
- **Core utilities.** Path resolution and the root-directory search. The logger's sinks and its `critical`/`error` semantics. The singleton slot. The key-state array. Both timers. Both application main loops.
- **The Rust prototype.** The quit state machine and the per-frame command order.

Foreign calls are handled in three ways:

- A Direct3D object is an opaque value.
- A Direct3D call is an event appended to a trace, which is a `seq` field of the class that issues it.
- A result the engine only receives becomes a parameter. This covers HRESULTs, DXC diagnostics, parsed glTF assets, clock readings, window events and which directories exist.

Log output is the sequence of records (level and text) the logger emits. A member keeps the log when the source logs something other than an announcement. That covers the root-directory search, the shader compilers, the older mesh loader, the light table's refusals, the pipeline reload, the scene manager's selection and the scene constructor. The `info` lines that only announce that an object was created or loaded are not kept elsewhere; each member that drops one is named under "## Left out". An exception or a `Log::critical` becomes an `Abort` or `Fail` result carrying an error kind. Outside the members above, the critical's own record is not kept.

Classes whose fields the C++ updates in place are Dafny classes. Examples are `DescriptorHeap`, `Device`, `Renderer`, `CommandList`, `Scene`, `GameObject`, `Lights`, `SceneManager`, `ScriptManager`, `Log`, `Timer` and `Application`. Their methods are proved against functions on values, and the properties of those functions are proved as lemmas. Pure helpers (enum-to-string switches, path functions, profiles) are functions. C++ `uint32_t` and `uint64_t` arithmetic is wrapped explicitly wherever the engine stores into those types.

Some headers and sources are out of step with each other. Each `.cpp`/`.rs` body is modelled as it is written, and each header only where its body lives in the header.

## Model

| member | source | states |
|---|---|---|
| D3DUtils.ThrowIfFailed | serenity-engine/include/serenity-engine/renderer/rhi/d3d_utils.hpp:12-19 | a call aborts with the critical "Hresult failed" exactly when the HRESULT is a failure code; success and warning codes pass |
| D3DUtils.SetName | serenity-engine/include/serenity-engine/renderer/rhi/d3d_utils.hpp:22-28 | `SetName` is issued only in a debug build, and naming aborts exactly when it is issued and fails |
| D3DUtils.CommandListTypeName | serenity-engine/include/serenity-engine/renderer/rhi/d3d_utils.hpp:30-52 | "Direct", "Compute" and "Copy" are given to exactly the direct, compute and copy types |
| D3DUtils.CommandListTypeNameRoundTrip | serenity-engine/include/serenity-engine/renderer/rhi/d3d_utils.hpp:30-52 | the name identifies the three named types, and every other type, bundles included, gets the one fallback name |
| D3DUtils.DescriptorHeapTypeName | serenity-engine/include/serenity-engine/renderer/rhi/d3d_utils.hpp:54-81 | each of the four heap types has its own name, given to it alone |
| D3DUtils.DescriptorHeapTypeNameRoundTrip | serenity-engine/include/serenity-engine/renderer/rhi/d3d_utils.hpp:54-81 | the name identifies the heap type for the four types; any other value gets the fallback name |
| DescriptorHeap.DescriptorHandle.Offset | serenity-engine/src/renderer/rhi/descriptor_heap.cpp:5-11 | moving a handle keeps its descriptor size and keeps each field within its C++ width: addresses wrap at 2^64, the index at 2^32 |
| DescriptorHeap.OffsetAdditive | serenity-engine/src/renderer/rhi/descriptor_heap.cpp:5-11 | offsetting by `a` and then by `b` is offsetting once by `a + b`, while the sum fits a `uint32_t` |
| DescriptorHeap.AddressRoundTrip | serenity-engine/src/renderer/rhi/descriptor_heap.cpp:60-73 | the address of slot `i` (a `uint32_t` index times a `uint32_t` size past any start) gives back `i` when taken relative to the start and divided by the size |
| DescriptorHeap.DescriptorHeap.constructor | serenity-engine/src/renderer/rhi/descriptor_heap.cpp:13-52 | the start handle is slot 0 at the heap's CPU start, with the GPU start only for shader-visible heaps (CBV/SRV/UAV and sampler) and 0 otherwise; the current handle starts at the start handle |
| DescriptorHeap.DescriptorHeap.Create | serenity-engine/src/renderer/rhi/descriptor_heap.cpp:13-52 | construction fails exactly when `CreateDescriptorHeap` fails, or when a debug build's `SetName` fails; otherwise the heap is as the constructor leaves it |
| DescriptorHeap.DescriptorHeap.GetHandleAtIndex | serenity-engine/src/renderer/rhi/descriptor_heap.cpp:67-73 | the handle for slot `index` carries that index and the heap's descriptor size |
| DescriptorHeap.DescriptorHeap.GetDescriptorIndex | serenity-engine/src/renderer/rhi/descriptor_heap.cpp:60-65 | the index is the CPU distance from the start, divided by the descriptor size and cast to `uint32_t` |
| DescriptorHeap.DescriptorHeap.OffsetCurrentHandle | serenity-engine/src/renderer/rhi/descriptor_heap.cpp:75-78 | the current handle moves `count` slots on and the heap stays consistent: the current address is the start plus the descriptors handed out |
| DescriptorHeap.DescriptorHeap.IndexRoundTrip | serenity-engine/src/renderer/rhi/descriptor_heap.cpp:60-73 | `get_descriptor_index(get_handle_at_index(i)) == i` for every `uint32_t` index |
| DescriptorHeap.DescriptorHeap.CurrentIndexConsistent | serenity-engine/src/renderer/rhi/descriptor_heap.cpp:75-78 | while fewer than 2^32 descriptors have been handed out, the current handle's index, the index read back from its address, and the count handed out agree |
| Buffer.BufferUsageName | serenity-engine/include/serenity-engine/renderer/rhi/buffer.hpp:17-51 | every usage gets a non-empty name |
| Buffer.BufferUsageNameRoundTrip | serenity-engine/include/serenity-engine/renderer/rhi/buffer.hpp:17-51 | the name identifies the usage: reading it back gives the usage it was made from |
| Buffer.Update | serenity-engine/include/serenity-engine/renderer/rhi/buffer.hpp:73-76 | without a mapping the call aborts with a bad optional access; with one, the first `size` bytes of the mapping become the first `size` bytes of the data and the rest of the mapping is unchanged |
| Device.DefaultTextureDesc | include/serenity-engine/renderer/rhi/texture.hpp:47-57 | a descriptor keeps its usage and size and takes the defaults: one mip level, four channels, four bytes per pixel, one array slice |
| Device.TextureFlags | src/renderer/rhi/device.cpp:127-155 | a texture allows depth-stencil use exactly when it is a depth-stencil texture, render-target use exactly when it is a render texture, and unordered access exactly when it is a shader-resource or UAV texture |
| Device.ClearValueMatchesUsage | src/renderer/rhi/device.cpp:173-202 | a clear value is given exactly to depth-stencil and render textures, always in the texture's own format, a depth clear only where depth-stencil use is allowed and a colour clear only where render-target use is; only depth textures start in the depth-write state |
| Device.TextureUploadSize | src/renderer/rhi/device.cpp:211-212 | the uploaded size is width times height times bytes per pixel whenever that fits a `uint32_t`, and is always below 2^32 |
| Device.TextureUploadSizeWraps | src/renderer/rhi/device.cpp:211-212 | the product wraps: a 65536 by 65536 texture of one byte per pixel uploads zero bytes |
| Device.BufferSize | include/serenity-engine/renderer/rhi/device.hpp:147-148 | the buffer has room for all its elements and for at least one; with no data it holds exactly one element |
| Device.MapConstantBuffer | include/serenity-engine/renderer/rhi/device.hpp:164-186 | a constant buffer's mapped memory is fresh, as long as the buffer, and starts with the first element of the data when there is one |
| Device.Device.constructor | src/renderer/rhi/device.cpp:72-79 | the RTV heap has three slots, all handed out to the swapchain's back buffers so its current handle is past its end; the CBV/SRV/UAV heap has 10000 slots and is the only shader-visible one; the DSV heap has three slots; no device call is made yet |
| Device.Device.CreateBuffer | include/serenity-engine/renderer/rhi/device.hpp:134-264 | creation fails exactly for a non-constant buffer without data, changing nothing; otherwise the buffer's size, resource and its CBV or SRV slot index are given, the CBV/SRV/UAV heap moves by one slot exactly for constant and structured buffers, and the device calls made are listed in order |
| Device.Device.CreateAcceptedBuffer | include/serenity-engine/renderer/rhi/device.hpp:145-263 | an upload resource, then a mapping (constant buffers, which are mapped exactly then) or a default-heap copy of all the data (others); one view in the current slot for constant and structured buffers; the mapping starts with the first element |
| Device.Device.CreateBufferView | include/serenity-engine/renderer/rhi/device.hpp:216-255 | the view goes into the heap's current slot, whose index is returned, and the heap moves on by one slot exactly when the usage takes a view |
| Device.Device.CreateTexture | src/renderer/rhi/device.cpp:114-287 | creation fails, changing nothing, exactly for usages other than depth-stencil and shader-resource; otherwise the texture gets a DSV slot (depth) or SRV slot (shader resource) from the matching heap, that heap alone moves on by one, and the resource, optional upload and view calls are listed in order |
| Device.Device.CreateTextureView | src/renderer/rhi/device.cpp:243-286 | a depth texture's DSV goes into the DSV heap's current slot and a shader-resource texture's SRV into the CBV/SRV/UAV heap's, each heap moving on by one only for its own kind |
| CommandList.SubmittedAppend | src/graphics/command_list.cpp:43-47 | the barriers submitted by a trace of calls are those of its first part followed by those of the rest, so later submissions never reorder earlier ones |
| CommandList.SubmittedSingle | src/graphics/command_list.cpp:43-47 | a single call submits its own barriers when it is a `ResourceBarrier`, and none otherwise |
| CommandList.SubmittedNone | src/graphics/command_list.cpp:49-149 | a trace of calls none of which is a `ResourceBarrier` submits no barrier |
| CommandList.CpuHandles | src/graphics/command_list.cpp:84-88 | one CPU handle per descriptor handle, in the same order |
| CommandList.CommandList.constructor | src/graphics/command_list.cpp:9-27 | the list keeps its type, its debug names are the type's name followed by " Command List" and " Command Allocator", and nothing has been recorded or queued |
| CommandList.CommandList.Create | src/graphics/command_list.cpp:9-27 | construction fails exactly when creating the allocator, creating the list or closing it fails, or, in a debug build, when naming either fails; otherwise the list is empty and consistent |
| CommandList.CommandList.AddResourceBarrier | src/graphics/command_list.cpp:35-41 | the transition is queued at the end and nothing is sent to the command list, keeping the invariant that submitted then queued barriers are all barriers added, in order |
| CommandList.CommandList.ExecuteBarriers | src/graphics/command_list.cpp:43-47 | one `ResourceBarrier` call carries the whole queue, in order, with its length as a `uint32_t`; the queue is then empty and every barrier ever added has been submitted exactly once, in order |
| CommandList.CommandList.SetHeaps | src/graphics/command_list.cpp:49-59 | the heaps are forwarded in the given order, with their count as a `uint32_t` |
| CommandList.CommandList.Reset | src/graphics/command_list.cpp:61-65 | the allocator is reset first and the list only when that succeeded; the call aborts exactly when either reset fails |
| CommandList.CommandList.ClearRenderTargetViews | src/graphics/command_list.cpp:67-72 | the view at the handle's CPU address is cleared to the four-component colour, with no rectangles |
| CommandList.CommandList.ClearDepthStencil | src/graphics/command_list.cpp:74-79 | only the depth plane is cleared, with the given depth, the stencil passed along unused and no rectangles |
| CommandList.CommandList.SetRenderTargets | src/graphics/command_list.cpp:81-101 | all render-target CPU handles are passed in order with their count, as one contiguous range, and a depth-stencil handle exactly when one is given |
| CommandList.CommandList.SetPrimitiveTopology | src/graphics/command_list.cpp:103-106 | the topology is forwarded unchanged |
| CommandList.CommandList.SetIndexBuffer | src/graphics/command_list.cpp:108-117 | the index buffer view uses the buffer's resource, its size narrowed to `uint32_t` and 16-bit indices |
| CommandList.CommandList.SetBindlessGraphicsRootSignature | src/graphics/command_list.cpp:119-122 | the engine's root signature is set as the graphics root signature |
| CommandList.CommandList.SetPipeline | src/graphics/command_list.cpp:124-127 | the pipeline's state object is set |
| CommandList.CommandList.SetGraphicsRootConstants | src/graphics/command_list.cpp:129-132 | all 64 root constants of parameter 0 are set from the data, from offset 0 |
| CommandList.CommandList.SetViewportAndScissorRect | src/graphics/command_list.cpp:134-139 | exactly one viewport and then exactly one scissor rectangle are set |
| CommandList.CommandList.Draw | src/graphics/command_list.cpp:141-144 | the counts are forwarded, starting from vertex 0 and instance 0 |
| CommandList.CommandList.DrawIndexed | src/graphics/command_list.cpp:146-149 | the counts are forwarded, starting from index 0, base vertex 0 and instance 0 |
| Renderer.ZeroedCommands | serenity-engine/src/renderer/renderer.cpp:172-177 | the command data is `n` value-initialised indirect commands of 24 bytes each, every byte zero |
| Renderer.ApplyReloadsLength | serenity-engine/src/renderer/renderer.cpp:206-231 | reloading pipelines never adds or removes a pipeline slot |
| Renderer.ApplyReloadsCompleted | serenity-engine/src/renderer/renderer.cpp:206-231 | the pass gets to the end of the schedule exactly when every scheduled index names an existing slot |
| Renderer.ApplyReloadsUntouched | serenity-engine/src/renderer/renderer.cpp:206-231 | a slot that was not scheduled keeps its pipeline |
| Renderer.ApplyReloadsIndexed | serenity-engine/src/renderer/renderer.cpp:206-231 | after a completed pass every scheduled slot's pipeline carries its own slot index, whether or not the rebuild produced a pipeline state |
| Renderer.ApplyReloadsStops | serenity-engine/src/renderer/renderer.cpp:208-215 | at the first index past the last slot the pass stops: the result is the pass over the indices before it, and the pass counts as not completed |
| Renderer.FrameBarriersBalanced | serenity-engine/src/renderer/renderer.cpp:46-134 | starting from a presented back buffer and a sampled render texture, each of the frame's four transitions starts from the state its resource is in, and the frame leaves both resources in their starting states |
| Renderer.FrameCallsSubmit | serenity-engine/src/renderer/renderer.cpp:46-134 | a frame submits the barriers queued before it followed by its own four transitions, in order, each exactly once |
| Renderer.OpenSubmits | serenity-engine/src/renderer/renderer.cpp:46-64 | the opening batch submits the earlier queue followed by the back-buffer and render-texture transitions to render target |
| Renderer.EndSubmits | serenity-engine/src/renderer/renderer.cpp:112-134 | the end of the frame submits the render texture's transition back to shader resource and then the back buffer's to present |
| Renderer.RecordFrameStart | serenity-engine/src/renderer/renderer.cpp:46-75 | the opening transitions are submitted, the back buffer and render texture cleared to opaque black and depth cleared to 1, then the render texture and depth view targeted, the CBV/SRV/UAV heap bound, triangle lists selected and the viewport and scissor set, in that order; nothing stays queued |
| Renderer.RecordFrameOpen | serenity-engine/src/renderer/renderer.cpp:46-64 | both opening transitions go out in one batch with anything queued earlier, followed by the two colour clears and the depth clear |
| Renderer.RecordPassSetup | serenity-engine/src/renderer/renderer.cpp:66-75 | the render texture with the depth view as targets, the one CBV/SRV/UAV heap, triangle lists, one viewport and one scissor rectangle, with no barrier queued or submitted |
| Renderer.RecordFrameEnd | serenity-engine/src/renderer/renderer.cpp:112-134 | the render texture goes back to shader resource in a batch of its own, the back buffer becomes the only target, without depth, and then goes back to present in a batch of its own |
| Renderer.RecordSingleBarrier | serenity-engine/src/renderer/renderer.cpp:113-115 | one transition is queued and submitted alone, in a batch of one |
| Renderer.Renderer.constructor | include/serenity-engine/renderer/renderer.hpp:84-99 | the buffer and texture registries and the reload schedule start empty, with one command-buffer index per frame in flight and default textures |
| Renderer.Renderer.BufferAt | include/serenity-engine/renderer/renderer.hpp:48-51 | the buffer at the index when the index is in the registry, and an out-of-range error exactly otherwise |
| Renderer.Renderer.TextureAt | include/serenity-engine/renderer/renderer.hpp:53-56 | the texture at the index when the index is in the registry, and an out-of-range error exactly otherwise |
| Renderer.Renderer.CreateBuffer | include/serenity-engine/renderer/renderer.hpp:29-37 | the returned index is the registry's old length as a `uint32_t`, and the registry grows by exactly the new buffer, whose size, resource and mapping are the device's; when the device rejects an empty non-constant buffer nothing is appended |
| Renderer.Renderer.DeviceBuffer | include/serenity-engine/renderer/rhi/device.hpp:134-264 | the device's buffer has room for its data, is mapped exactly when it is a constant buffer, and takes a heap slot exactly for constant and structured buffers |
| Renderer.Renderer.CreateTexture | include/serenity-engine/renderer/renderer.hpp:39-46 | the returned index is the registry's old length as a `uint32_t`, and the registry grows by exactly the new texture; unsupported usages fail and append nothing |
| Renderer.Renderer.ReloadPipelines | serenity-engine/src/renderer/renderer.cpp:206-231 | the pipelines become those of the reload pass over the schedule; the schedule is emptied when the pass completes and left as it was when an invalid index stops it; the log gains the pass's warnings (`ReloadRecords`) |
| Renderer.ReloadRecordsWarnings | serenity-engine/src/renderer/renderer.cpp:206-231 | a reload pass logs only warnings, at most one per scheduled index |
| Renderer.ReloadRecordsStop | serenity-engine/src/renderer/renderer.cpp:210-215 | a pass stopped by the first index past the last slot ends its log with the warning that names that index |
| Renderer.ReloadRecordsCompleted | serenity-engine/src/renderer/renderer.cpp:217-222 | when every scheduled index is valid, every record logged is a failed-rebuild warning |
| Renderer.Renderer.Render | serenity-engine/src/renderer/renderer.cpp:30-144 | the frame records exactly its opening, pass-setup and closing calls, adds its four transitions to the barriers submitted (none left queued), and then reloads the scheduled pipelines, logging the reload's warnings |
| Renderer.Renderer.CreateCommandBuffers | serenity-engine/src/renderer/renderer.cpp:169-178 | one buffer per frame in flight is appended to the registry and each frame's slot holds its position; creation fails only when the maximum primitive count is zero and there is at least one frame |
| Renderer.Renderer.AllocateCommandBuffers | serenity-engine/src/renderer/renderer.cpp:170-178 | the buffers made so far are appended in order and their positions are consecutive from the registry's old length; it fails exactly when the command data is empty and a buffer is wanted |
| Renderer.Renderer.CreateResources | serenity-engine/src/renderer/renderer.cpp:164-196 | resource creation always ends in an error: an empty command buffer when the primitive count is zero, otherwise the unimplemented render texture, after the command buffers and the depth texture (in the next DSV slot) were made |
| Renderer.Renderer.UpdateRenderpasses | serenity-engine/src/renderer/renderer.cpp:146-162 | the post-process constants take the frame count and the window size; their in-memory image (`PostProcessBufferBytes`) is copied to the start of the post-process buffer, and the call aborts exactly when that buffer index is out of range or the buffer is not mapped |
| Renderer.PostProcessBufferBytes | serenity-engine/src/renderer/renderer.cpp:153-161 | the `sizeof(interop::PostProcessBuffer)` bytes handed to the buffer: the frame count as a little-endian `uint32_t`, then the two dimensions |
| Renderer.PostProcessBufferRoundTrip | serenity-engine/src/renderer/renderer.cpp:153-161 | reading the copied image back field by field gives the frame count and both dimensions |
| ModelLoader.Elements | src/asset/model_loader.cpp:31-40 | an accessor yields exactly `count` elements, element `i` being what the parser decodes for index `i` |
| ModelLoader.DataFromAccessor | src/asset/model_loader.cpp:31-40 | the vector starts with `count` default elements and ends with every index set to its decoded element, in index order |
| ModelLoader.PrimitiveMeshData | src/asset/model_loader.cpp:85-114 | a primitive's positions, normals, first texture coordinates and indices are as long as their accessors' counts; its material is the primitive's, or 0 when it has none; a primitive without an index accessor fails with a bad optional access, and only such a primitive fails |
| ModelLoader.PrimitivesMeshData | src/asset/model_loader.cpp:81-116 | one mesh per primitive, in primitive order, each that primitive's own data; the walk fails exactly when some primitive has no index accessor |
| ModelLoader.ChildrenFailStays | src/asset/model_loader.cpp:74-78 | once a child's walk has failed, walking further children does not change the failure |
| ModelLoader.MeshDataFromNode | src/asset/model_loader.cpp:69-119 | the recursive, loop-based walk equals the reference walk of the node: all children's meshes depth first in child order, then the node's own primitives; a child or mesh index out of range and a primitive without indices end it with an error |
| ModelLoader.AppendPrimitivesMeshData | src/asset/model_loader.cpp:85-115 | the primitives' meshes are appended, in order, after the meshes gathered so far; a primitive without indices ends the loop with a bad optional access |
| ModelLoader.ChildEmbedded | src/asset/model_loader.cpp:74-78 | child `k`'s meshes appear unchanged inside its parent's list, right after the meshes of the children before it |
| ModelLoader.NodeContainsChild | src/asset/model_loader.cpp:69-119 | every child's meshes are a contiguous part of its parent's meshes, at the child's position, before the parent's own primitives |
| ModelLoader.ImageIndex | src/asset/model_loader.cpp:142-144 | a texture's image is its image index, else its fallback image index; with neither, the lookup fails with a bad optional access, and only then |
| ModelLoader.MaterialDataOf | src/asset/model_loader.cpp:128-166 | a material keeps its base colour factor, leaves metallic/roughness at zero, has the empty texture when it has no base colour texture, and fails with an out-of-range error when its texture index is past the textures |
| ModelLoader.MaterialsData | src/asset/model_loader.cpp:122-170 | the materials' data, one per material and in order, succeeds exactly when every material's data does |
| ModelLoader.MaterialsFailStays | src/asset/model_loader.cpp:126-167 | once a material has failed, adding more materials does not change the failure |
| ModelLoader.MaterialDataFromAsset | src/asset/model_loader.cpp:122-170 | the loop over the materials yields the reference material list of the whole asset |
| ModelLoader.Extension | src/asset/model_loader.cpp:193-200 | an extension is empty or starts with a dot and is a suffix of the path |
| ModelLoader.JoinedPathParts | src/asset/model_loader.cpp:193-200 | a model file `dir/stem.ext` has the extension `.ext` and the parent `dir` |
| ModelLoader.ParsedAsset | src/asset/model_loader.cpp:189-213 | ".gltf" files go to the text parser and ".glb" files to the binary one, any other extension is an unsupported-extension error, and a parser error is a parse-failure error |
| ModelLoader.NodesFailStays | src/asset/model_loader.cpp:222-227 | once a top-level node's walk has failed, walking further nodes does not change the failure |
| ModelLoader.NodesGrow | src/asset/model_loader.cpp:222-227 | walking more nodes only appends: the meshes of every earlier node stay, in place, followed by those of the next node |
| ModelLoader.ChildLoadedTwice | src/asset/model_loader.cpp:222-227 | every node that is some node's child has its meshes in the model at least twice: once inside its parent's walk and once in its own |
| ModelLoader.LoadModel | src/asset/model_loader.cpp:172-235 | an unreadable file fails; otherwise the model is every node's meshes then every material's data of the parsed asset, with images found relative to the file's parent directory, and any parse, walk or material error ends the load with that error |
| Scene.EnumerationLength | serenity-engine/src/scene/scene.cpp:70-79 | an iteration order of the game-object map visits as many objects as the map holds |
| Scene.GatherStep | serenity-engine/src/scene/scene.cpp:253-261 | gathering one more mesh appends exactly that mesh's data after the data gathered so far |
| Scene.AppendGathered | serenity-engine/src/scene/scene.cpp:253-261 | appending mesh `k`'s data to the scene array holding the meshes before it gives the array holding one mesh more |
| Scene.GatherSlice | serenity-engine/src/scene/scene.cpp:229-262 | mesh `k`'s data sits in the flattened array right after the data of the meshes before it |
| Scene.PartAtOffset | serenity-engine/src/scene/scene.cpp:236-240 | a mesh's `uint32_t` offset into the scene array finds exactly that mesh's data, while the array fits `uint32_t` |
| Scene.MeshBuffersLocateData | serenity-engine/src/scene/scene.cpp:232-248 | the record of each mesh locates its own positions and indices in the scene arrays and carries its own index count |
| Scene.TexturedCount | serenity-engine/src/scene/scene.cpp:274-289 | at most one albedo texture per material |
| Scene.TexturedCountStep | serenity-engine/src/scene/scene.cpp:274-289 | one more material adds one texture exactly when both its dimensions are non-zero |
| Scene.AlbedoDesc | serenity-engine/src/scene/scene.cpp:276-285 | an albedo texture is an sRGB shader-resource texture of four bytes per pixel with the material texture's size, uploading width times height times 4 bytes in `uint32_t` |
| Scene.FlattenMeshes | serenity-engine/src/scene/scene.cpp:228-262 | each scene array becomes its old contents followed by the meshes' data, in mesh order, and there is one record per mesh, locating that mesh |
| Scene.CreateAlbedoTexture | serenity-engine/src/scene/scene.cpp:276-288 | one texture is added to the registry, the CBV/SRV/UAV heap moves on by one slot, and the SRV index read back is the slot the texture took, while the registry position fits `uint32_t` |
| Scene.Scene.constructor | serenity-engine/src/scene/scene.cpp:9-26 | the scene keeps its name and starts with empty arrays, no game objects and 100 default transform records; the init script, named after the scene and made absolute by the file system, is registered with the script manager (`Registered`) and its index kept; the log gains `Created scene` with the name |
| Scene.Scene.Reload | serenity-engine/src/scene/scene.cpp:28-41 | every array and the game objects are cleared, and the transform records are back to 100 defaults |
| Scene.Scene.AppendMeshes | serenity-engine/src/scene/scene.cpp:228-263 | the scene arrays grow by the meshes' data in order, the older mesh records stay, and one record per mesh follows them, locating its data from the array sizes before the object |
| Scene.Scene.AppendMaterial | serenity-engine/src/scene/scene.cpp:268-294 | a material whose pixels are not 8-bit fails with a bad variant access; otherwise its record keeps its colours, refers to the next SRV slot when it has an albedo texture, and is invalid otherwise |
| Scene.Scene.BuildMaterials | serenity-engine/src/scene/scene.cpp:265-295 | one record per material in order, one texture per material with an albedo; the loop fails exactly when some material's pixels are not 8-bit |
| Scene.Scene.CreateGameObject | serenity-engine/src/scene/scene.cpp:211-301 | the object takes the number of existing objects, its mesh and material counts and the offsets of its first records; its meshes are flattened into the scene arrays; its material records follow the existing ones, each referring to its own albedo slot; a non-8-bit material fails after the meshes were appended |
| Scene.Scene.InsertGameObject | serenity-engine/src/scene/scene.cpp:137 | the object is stored under its name, replacing an object of that name, and the map grows exactly when the name is new |
| Scene.CompletedFrom | serenity-engine/src/scene/scene.cpp:70-78 | the number of objects, in iteration order, whose update does not throw before the first that does: every one before it passes and the one at it aborts |
| Scene.UpdateObjects | serenity-engine/src/scene/scene.cpp:68-79 | the loop on values: objects up to and including the first that throws are updated, later ones untouched, one transform record per object that completed, and the outcome is that object's abort or a pass when none throws |
| Scene.Scene.Update | serenity-engine/src/scene/scene.cpp:68-79 | the transform records are cleared and rebuilt in iteration order. An object whose update throws (a bad script index, an unmapped material buffer) ends the loop with its abort: earlier objects are updated and recorded, it keeps what its update changed, later ones are untouched. When none throws, every object is updated once and there is one record per object |
| SceneObject.Float3Elements | serenity-engine/src/scene/game_object.cpp:27-39 | one 12-byte element per `XMFLOAT3` of a position or normal span |
| SceneObject.Float2Elements | serenity-engine/src/scene/game_object.cpp:41-46 | one 8-byte element per `XMFLOAT2` of a texture-coordinate span |
| SceneObject.U16Elements | serenity-engine/src/scene/game_object.cpp:48-53 | one 2-byte element per `uint16_t` index |
| SceneObject.U16ElementsDecode | serenity-engine/src/scene/game_object.cpp:48-53 | every index element reads back, little-endian, as the index it was made from |
| SceneObject.RegisterBuffer | serenity-engine/src/scene/game_object.cpp:9-13 | `create_buffer` fails with an empty-buffer error exactly when a non-constant buffer gets no data; otherwise it returns the registry's old length (as `uint32_t`), grows the registry by one and takes a heap slot only for usages that need a view |
| SceneObject.CreateMeshBuffers | serenity-engine/src/scene/game_object.cpp:24-59 | a mesh fails exactly when one of its four spans is empty; otherwise its four buffers are the next four registry positions, its material index and index count are copied from the mesh data |
| SceneObject.CreateVertexBuffers | serenity-engine/src/scene/game_object.cpp:27-39 | the position and normal buffers: fail exactly when either span is empty, else the next two registry positions |
| SceneObject.CreateSurfaceBuffers | serenity-engine/src/scene/game_object.cpp:41-53 | the texture-coordinate and index buffers: fail exactly when either span is empty, else the next two registry positions |
| SceneObject.CreateMeshes | serenity-engine/src/scene/game_object.cpp:20-62 | the mesh loop fails exactly when some mesh has an empty span; otherwise mesh `k` owns registry positions `first + 4k` to `first + 4k + 3` |
| SceneObject.CreateMeshAt | serenity-engine/src/scene/game_object.cpp:22-61 | one iteration of the mesh loop keeps the meshes built so far and adds mesh `k` with the next four buffers |
| SceneObject.CreateMaterial | serenity-engine/src/scene/game_object.cpp:68-101 | a material fails with a bad-variant error exactly when its pixels are not 8-bit; otherwise its record has the model's base colour and metallic-roughness factor, its buffer is the next registry position, and it has an albedo texture (with the heap slot taken first) exactly when both texture dimensions are non-zero, else `INVALID_INDEX_U32` |
| SceneObject.CreateAlbedo | serenity-engine/src/scene/game_object.cpp:72-88 | a texture is created, and its SRV slot returned, only when both dimensions are non-zero; otherwise nothing is created and the slot is `INVALID_INDEX_U32` |
| SceneObject.MaterialSlotsTaken | serenity-engine/src/scene/game_object.cpp:74-99 | a material takes two heap slots when it has an albedo texture and one otherwise |
| SceneObject.CreateMaterials | serenity-engine/src/scene/game_object.cpp:64-104 | the material loop fails exactly when some material's pixels are not 8-bit; otherwise material `k` owns buffer `first + k` and its albedo slot counts the buffers and textures made before it |
| SceneObject.CreateMaterialAt | serenity-engine/src/scene/game_object.cpp:66-103 | one iteration of the material loop keeps the materials built so far and adds material `k` as `CreateMaterials` describes it |
| SceneObject.CreateModel | serenity-engine/src/scene/game_object.cpp:17-104 | the meshes are all made before any material; the model is rejected exactly when a mesh has an empty span (empty-buffer error) or, failing that, a material has non-8-bit pixels (bad-variant error) |
| SceneObject.GameObject.constructor | serenity-engine/src/scene/game_object.cpp:6-15 | the transform's constant buffer is created first, without data, at the registry's old length, and takes one heap slot; the object starts with no meshes, no materials, no script and the default transform |
| SceneObject.GameObject.LoadModel | serenity-engine/src/scene/game_object.cpp:17-104 | the object's meshes and materials are those `CreateModel` describes, with the metallic-roughness factor copied; a rejected model aborts with its error |
| SceneObject.GameObject.Update | serenity-engine/src/scene/game_object.cpp:107-129 | a script index past the registry throws before anything changes; otherwise the transform is the script's result (only when the object has a script) with its matrices recomputed, and every material's record is copied into its constant buffer |
| SceneObject.WriteMaterials | serenity-engine/src/scene/game_object.cpp:122-128 | the copy loop passes exactly when every material's buffer exists and is mapped, and then each buffer holds the record of the last material copied into it |
| SceneObject.WriteMaterial | serenity-engine/src/scene/game_object.cpp:124-127 | one copy keeps every earlier record that no later material overwrote |
| SceneObject.MaterialsRebased | serenity-engine/src/scene/game_object.cpp:86-87 | heap slot numbers that agree modulo 2^32 describe the same materials |
| SceneObject.MaterialBuffersDistinct | serenity-engine/src/scene/game_object.cpp:94-101 | while registry positions fit in `uint32_t`, no two materials share a constant buffer |
| SceneObject.MeshBuffersDistinct | serenity-engine/src/scene/game_object.cpp:20-62 | while registry positions fit in `uint32_t`, every mesh's four buffers are distinct and no two meshes share one |
| LegacySceneObject.LegacyGameObject.constructor | src/scene/game_object.cpp:6-15 | the transform's constant buffer is created first, without data, at the registry's old length; the object starts with no meshes and no materials |
| LegacySceneObject.LegacyGameObject.LoadModel | src/scene/game_object.cpp:17-91 | the same meshes and materials as the newer object, rejected on the same inputs, except that the records do not take the metallic-roughness factor |
| LegacySceneObject.LegacyMetallicZero | src/scene/game_object.cpp:80-88 | every material record the older object makes has a zero metallic-roughness factor, whatever the model says |
| ShadingRenderpass.CommandWords | serenity-engine/src/renderer/renderpass/shading_renderpass.cpp:84-92 | a command is six 32-bit words, the signed base vertex stored in two's complement |
| ShadingRenderpass.WordsBytes | serenity-engine/src/renderer/renderpass/shading_renderpass.cpp:100-101 | the words' image is four little-endian bytes per word |
| ShadingRenderpass.CommandBytes | serenity-engine/src/renderer/renderpass/shading_renderpass.cpp:100-101 | a command's image is 24 bytes |
| ShadingRenderpass.Signed | serenity-engine/src/renderer/renderpass/shading_renderpass.cpp:90 | a 32-bit word read as an `INT` lies in the `INT` range |
| ShadingRenderpass.WordsBytesAt | serenity-engine/src/renderer/renderpass/shading_renderpass.cpp:100-101 | word `i` of a laid-out sequence of words reads back as that word |
| ShadingRenderpass.SignedWrap32 | serenity-engine/src/renderer/renderpass/shading_renderpass.cpp:90 | an `INT` stored in two's complement reads back as itself |
| ShadingRenderpass.DecodeCommandBytes | serenity-engine/src/renderer/renderpass/shading_renderpass.cpp:84-101 | round trip: the GPU reads back every field of a command the pass wrote, whenever its base vertex fits an `INT` |
| ShadingRenderpass.CommandsBytes | serenity-engine/src/renderer/renderpass/shading_renderpass.cpp:100-101 | the image of a list of commands is 24 bytes per command |
| ShadingRenderpass.CommandsBytesAt | serenity-engine/src/renderer/renderpass/shading_renderpass.cpp:100-101 | command `k` occupies bytes `24k` to `24k + 24` of the list's image |
| ShadingRenderpass.CommandSignature.constructor | serenity-engine/src/renderer/renderpass/shading_renderpass.cpp:41-44 | a signature starts with its D3D object and no commands |
| ShadingRenderpass.CommandSignature.RebuildCommands | serenity-engine/src/renderer/renderpass/shading_renderpass.cpp:77-94 | the list is cleared and then holds exactly one command per mesh part, in order: the part's game object, its index count and start, one instance, no vertex or instance offset |
| ShadingRenderpass.UploadCommands | serenity-engine/src/renderer/renderpass/shading_renderpass.cpp:98-101 | the copy fails with a bad-index error past the registry and with a bad-optional-access error on an unmapped buffer; otherwise the mapping starts with the commands' image and the bytes past it are unchanged |
| ShadingRenderpass.Render | serenity-engine/src/renderer/renderpass/shading_renderpass.cpp:41-106 | the commands are rebuilt from the mesh parts and the root constants set before anything can fail; `ExecuteIndirect` is recorded, with the command count and the command buffer, exactly when the upload succeeds, which happens exactly when the buffer exists and is mapped |
| ShadingRenderpass.UploadedCommandDrawsPart | serenity-engine/src/renderer/renderpass/shading_renderpass.cpp:77-105 | after a successful pass, command `k` as the GPU reads it from the buffer draws mesh part `k` |
| SceneLights.AfterAdd | src/scene/lights.cpp:78-96 | a light is appended when the table has room and it is not a second directional light; otherwise the stored lights stay as they were |
| SceneLights.AfterAddBounded | src/scene/lights.cpp:80-95 | adding never takes the table past its capacity, grows it by at most one and keeps every stored light |
| SceneLights.AfterAddSunOnly | src/scene/lights.cpp:86-92 | adding keeps the rule that a directional light is stored only in the sun's slot |
| SceneLights.AfterAddsKeepSun | src/scene/lights.cpp:78-96 | after any lights are added behind the sun, the sun stays in its slot as the only directional light and the table stays within capacity |
| SceneLights.ModelMatrices | src/scene/lights.cpp:112-126 | one model matrix per light after the sun |
| SceneLights.ModelMatricesOfLights | src/scene/lights.cpp:115-126 | model matrix `i - 1` is built from light `i`, for every light after the sun |
| SceneLights.RenderResourcesBytes | src/scene/lights.cpp:139-147 | the light pass's root constants are three 32-bit words, 12 bytes |
| SceneLights.CreateLightBuffers | src/scene/lights.cpp:11-55 | the light buffer, the cube's positions and its indices take the next three registry positions, in that order, and none of them can fail |
| SceneLights.RecordLightPass | src/scene/lights.cpp:133-151 | the root signature and pipeline are bound first; each buffer lookup fails with a bad-index error past the registry, after the calls made before it; on success the calls end with the render resources, the cube's index buffer and a 36-index draw of one instance per light after the sun |
| SceneLights.RecordLightDraw | src/scene/lights.cpp:139-150 | the render resources need the light and cube-position buffers, the index buffer is looked up after they are set, and the calls made before a failure are kept |
| SceneLights.Lights.constructor | src/scene/lights.cpp:9-56 | the table starts with the sun alone, at the sun's angle of -90 degrees, and the three buffers at the next three registry positions |
| SceneLights.Lights.AddLight | src/scene/lights.cpp:78-96 | the stored lights become `AfterAdd` of the old ones, the count grows by one exactly when the light is accepted, the slots past the count are untouched, and the log gains `AddLightRecords` |
| SceneLights.AddLightRecords | src/scene/lights.cpp:80-92 | a light is refused with exactly one warning, and accepted exactly when nothing is logged; a full table is the warning reported even for a second directional light |
| SceneLights.Lights.Update | src/scene/lights.cpp:98-126 | only the sun's direction changes among the lights; the model matrices below the count are those of the lights after the sun and the rest are untouched |
| SceneLights.Lights.SetSunDirection | src/scene/lights.cpp:100-110 | only the sun's direction changes |
| SceneLights.Lights.WriteModelMatrices | src/scene/lights.cpp:115-126 | the matrices below the count are those of the lights after the sun; the rest are untouched |
| SceneLights.Lights.Render | src/scene/lights.cpp:133-151 | the pass fails with a bad-index error exactly when one of its three buffers is past the registry; on success it records the light pass with one cube instance per light after the sun |
| SceneManagement.AddedScenesKeepCurrent | src/scene/scene_manager.cpp:5-14 | once a manager has a current scene, adding scenes (new names or replacements) never moves it and it stays among the scenes |
| SceneManagement.FirstAddedIsCurrent | src/scene/scene_manager.cpp:9-13 | from an empty manager, the current scene is the first one added, whatever is added after it |
| SceneManagement.SelectionKeepsValid | src/scene/scene_manager.cpp:16-40 | a selection leaves the current scene among the scenes, and once there is a scene there is always a current one |
| SceneManagement.SceneManager.constructor | serenity-engine/include/serenity-engine/scene/scene_manager.hpp:18-28 | a manager starts with no scenes and no current scene |
| SceneManagement.SceneManager.AddScene | src/scene/scene_manager.cpp:5-14 | the scene is stored under its name, replacing one of the same name, and becomes current only when it is the only scene |
| SceneManagement.SceneManager.SetCurrentScene | src/scene/scene_manager.cpp:16-40 | a known name becomes current; an unknown one falls back, with a warning, to the scene `begin()` points at, or, with no scenes, is only reported as an error |
| EngineLog.FormatSourceLocation | serenity-engine/src/core/log.cpp:80-84 | the suffix starts with a newline and `[file : ` followed by the file name, and ends with `.]` |
| EngineLog.Without | serenity-engine/src/core/log.cpp:74-78 | the list without the pointer keeps every other pointer as often as before and none equal to it |
| EngineLog.WithoutConcat | serenity-engine/src/core/log.cpp:76 | removing a pointer from a concatenation removes it from each part, so the others keep their order |
| EngineLog.WithoutSnoc | serenity-engine/src/core/log.cpp:76 | examining one more pointer adds it to the kept list exactly when it differs from the removed one |
| EngineLog.Erase | serenity-engine/src/core/log.cpp:76 | `std::erase` on the sinks leaves exactly `Without` of them |
| EngineLog.Log.constructor | serenity-engine/src/core/log.cpp:9-37 | the logger has the console and the file sink, in that order; the console sink is at `info` and the file sink at `trace`, each switched off by its flag; the logger is at `info` and has logged `Created logger` |
| EngineLog.Log.LogInfo | serenity-engine/src/core/log.cpp:45-48 | one `info` record with the message is added |
| EngineLog.Log.LogWarn | serenity-engine/src/core/log.cpp:50-53 | one `warn` record with the message is added |
| EngineLog.Log.LogError | serenity-engine/src/core/log.cpp:55-58 | one `error` record with the message and the location suffix is added, and nothing is thrown |
| EngineLog.Log.LogCritical | serenity-engine/src/core/log.cpp:60-66 | the same text is recorded at `critical` and thrown |
| EngineLog.Log.AddSink | serenity-engine/src/core/log.cpp:68-72 | the sink is appended to the logger's sinks and recorded under its name, replacing any sink of that name in the map only |
| EngineLog.Log.DeleteSink | serenity-engine/src/core/log.cpp:74-78 | every pointer equal to the named sink (a null pointer for an unknown name) leaves the list, the others keep their order, and the name maps to a null pointer |
| EngineLog.AddThenDelete | serenity-engine/src/core/log.cpp:68-78 | deleting a sink right after adding it leaves the list as `Without` of the old one |
| ScriptManagement.FirstWithPath | serenity-engine/src/scripting/script_manager.cpp:25-36 | the lowest index whose script has the path, or none exactly when no script has it |
| ScriptManagement.RegisteredGrowsByAtMostOne | serenity-engine/src/scripting/script_manager.cpp:23-45 | registering adds at most one entry, changes no existing one, and returns the index of an entry with the script's path |
| ScriptManagement.RegisteredIgnoresName | serenity-engine/src/scripting/script_manager.cpp:25-36 | registering a known path returns the earliest such entry, keeping its old name |
| ScriptManagement.RegisteredIdempotent | serenity-engine/src/scripting/script_manager.cpp:23-45 | registering two scripts with the same path gives one entry and the same index twice |
| ScriptManagement.ScriptPathAt | serenity-engine/src/scripting/script_manager.cpp:47-49 | the path of the script at the index, and a bad-index error exactly when the index is past the registry |
| ScriptManagement.ScriptManager.constructor | serenity-engine/src/scripting/script_manager.cpp:5-21 | the registry starts empty |
| ScriptManagement.ScriptManager.FindScript | serenity-engine/src/scripting/script_manager.cpp:29-35 | the search returns the lowest index whose path matches, or none |
| ScriptManagement.ScriptManager.CreateScript | serenity-engine/src/scripting/script_manager.cpp:23-45 | the registry and the returned index are those of `Registered`, the index as a `uint32_t` |
| ScriptManagement.ScriptManager.ExecuteScript | serenity-engine/src/scripting/script_manager.cpp:47-57 | the path handed to Lua is `ScriptPathAt` of the registry |
| LegacyScriptManagement.AppendedDistinct | src/scripting/script_manager.cpp:22-31 | every registration gets its own entry: two in a row return different indices and keep both scripts and every older entry |
| LegacyScriptManagement.ScriptManager.constructor | src/scripting/script_manager.cpp:5-20 | the registry starts empty |
| LegacyScriptManagement.ScriptManager.CreateScript | src/scripting/script_manager.cpp:22-31 | the script is appended and the old length returned as a `uint32_t` |
| LegacyScriptManagement.ScriptManager.ExecuteScript | src/scripting/script_manager.cpp:33-43 | the path handed to Lua is `ScriptPathAt` of the registry |
| FileSystem.ParentPath | serenity-engine/src/core/file_system.cpp:26 | `parent_path()` drops the last component and leaves `/` as it is |
| FileSystem.NearestWith | serenity-engine/src/core/file_system.cpp:15-27 | the nearest of the start and its ancestors below `/` with the sub-directory: none exactly when no such path has it, and no path between the start and the one found has it |
| FileSystem.RootOf | serenity-engine/src/core/file_system.cpp:15-33 | the root is the nearest directory with `data`, followed by `/`; a root-not-found error exactly when there is none |
| FileSystem.LocateRoot | serenity-engine/src/core/file_system.cpp:7-34 | the search's result is `RootOf` the working directory; it logs the executable path, then either the located root or the critical message with the caller's location |
| FileSystem.PrefixNotGreater | serenity-engine/include/serenity-engine/core/file_system.hpp:54-57 | a string never compares below a string it is a prefix of |
| FileSystem.ProperPrefixLess | serenity-engine/include/serenity-engine/core/file_system.hpp:54-57 | a proper prefix compares below the longer string |
| FileSystem.FileSystem.AbsolutePath | serenity-engine/include/serenity-engine/core/file_system.hpp:27-47 | a path that compares below the root is returned as it is; any other is prefixed with the root |
| FileSystem.RootPrefixedPathGetsRootAgain | serenity-engine/include/serenity-engine/core/file_system.hpp:27-57 | a path that already starts with the root does not count as absolute, so the root is put in front of it a second time |
| FileSystem.RootPrefixIsAbsolute | serenity-engine/include/serenity-engine/core/file_system.hpp:27-57 | a proper prefix of the root, the empty path among them, is returned unchanged |
| LegacyFileSystem.LegacySearch | src/core/file_system.cpp:14-26 | whatever the older search returns within its steps has the sub-directory |
| LegacyFileSystem.LegacySearchNeverEnds | src/core/file_system.cpp:14-26 | when neither the start nor any ancestor, `/` included, has the sub-directory, the search has not stopped after any number of steps |
| LegacyFileSystem.LegacyLocateRoot | src/core/file_system.cpp:7-32 | the older constructor's loop, cut off after a number of steps: when it stops, the root is the directory found followed by `/serenity-engine/`, and it is logged |
| LegacyFileSystem.IntendedRoot | src/core/file_system.cpp:7-32 | the evidently intended search always ends: a root exactly when some ancestor below `/` has the engine directory, the nearest one, else a root-not-found error |
| LegacyFileSystem.LegacyAgreesBelowRoot | src/core/file_system.cpp:14-26 | where some ancestor below `/` matches, the older search, given enough steps, finds the same directory as the intended one |
| LegacyFileSystem.LegacyFileSystem.RelativePath | include/serenity-engine/core/file_system.hpp:22-25 | the relative path is the root, then `/`, then the path, whatever the path is |
| LegacyMeshLoader.ReadPositions | src/asset/mesh_loader.cpp:65-77 | exactly `count` positions, position `i` being the `XMFLOAT3` at `start + i * stride` |
| LegacyMeshLoader.ReadIndices | src/asset/mesh_loader.cpp:79-90 | for 16- and 32-bit index types exactly `count` indices, index `i` being the `uint16_t` at `start + i * stride`; for any other type none |
| LegacyMeshLoader.FailureRecords | src/asset/mesh_loader.cpp:27-35 | a failed parse logs at most an error and a warning, and nothing at any other level |
| LegacyMeshLoader.ReadMesh | src/asset/mesh_loader.cpp:38-92 | the mesh holds the positions and indices read at the accessors' offsets and strides from the first primitive of the node the default scene index names, and its index count is the number of indices read |
| LegacyMeshLoader.LoadMesh | src/asset/mesh_loader.cpp:14-111 | the same mesh whether or not the parser succeeded; a failure adds only its error and warning records, and every load ends with the `Loaded mesh from path` record |
| LegacyMeshLoader.UnsignedIntKeepsLowHalf | src/asset/mesh_loader.cpp:86-89 | a 32-bit index is read as its low 16 bits |
| LegacyMeshLoader.Float3RoundTrip | src/asset/mesh_loader.cpp:70-74 | a position stored as three little-endian floats reads back unchanged |
| LegacyMeshLoader.UnsignedShortRoundTrip | src/asset/mesh_loader.cpp:82-85 | a 16-bit index stored little-endian reads back unchanged |
| ShaderCompilation.TargetProfile | serenity-engine/src/renderer/shader_compiler.cpp:45-68 | each of vertex, pixel and compute gets its own `_6_6` profile, in both directions, and any other value the empty profile |
| ShaderCompilation.ShaderTypeName | include/serenity-engine/renderer/shader.hpp:21-46 | each shader type has its own label, in both directions, and any other value the empty label |
| ShaderCompilation.CompilationArguments | serenity-engine/src/renderer/shader_compiler.cpp:70-93 | twelve arguments: the entry point after `-E`, the profile after `-T`, the include directory after `-I`, and last the debug flag in a debug build or full optimisation otherwise |
| ShaderCompilation.BuildArguments | serenity-engine/src/renderer/shader_compiler.cpp:70-93 | the vector built and then extended holds exactly `CompilationArguments` |
| ShaderCompilation.Handled | serenity-engine/src/renderer/shader_compiler.cpp:27-40 | a call aborts exactly when its HRESULT failed, with the HRESULT error under `throw_if_failed` and the compile-failed error under `critical` |
| ShaderCompilation.CompileResult | serenity-engine/src/renderer/shader_compiler.cpp:95-143 | the compile yields the object blob exactly when every call succeeds and the diagnostics are empty or tolerated; non-empty critical diagnostics, after the calls before them succeed, give the diagnostics error |
| ShaderCompilation.HandleResult | serenity-engine/src/renderer/shader_compiler.cpp:27-40 | one HRESULT through its handler gives `Handled` and records its critical message only when it failed |
| ShaderCompilation.FinishCompile | serenity-engine/src/renderer/shader_compiler.cpp:115-143 | once the source has compiled, reading the diagnostics and the object gives `CompileResult` and records what those steps log |
| ShaderCompilation.RunCompile | serenity-engine/src/renderer/shader_compiler.cpp:95-143 | the steps of a compile give `CompileResult` and record, in order, what each step logs up to the first exception |
| ShaderCompilation.IgnoreErrorStillAborts | serenity-engine/src/renderer/shader_compiler.cpp:27-40 | `ignore_error` does not keep a failed call from aborting the compile |
| ShaderCompilation.IgnoreErrorOnlyToleratesDiagnostics | serenity-engine/src/renderer/shader_compiler.cpp:115-133 | a compile that fails with `ignore_error` fails without it too, and one that fails only without it had diagnostics |
| ShaderCompilation.ShaderCompiler.constructor | serenity-engine/src/renderer/shader_compiler.cpp:7-18 | the include directory is the absolute path of `shaders/`, and `Created shader compiler` is logged |
| ShaderCompilation.ShaderCompiler.Compile | serenity-engine/src/renderer/shader_compiler.cpp:25-144 | DXC is given the absolute source path and `CompilationArguments` for the shader's profile; the result and the log are `CompileResult` and `CompileRecords` under the handling `ignore_error` selects |
| LegacyShaderCompilation.LegacyTargetProfile | src/graphics/shader_compiler.cpp:31-49 | vertex and pixel get their `_6_6` profiles, in both directions, and any other value, compute included, the empty profile |
| LegacyShaderCompilation.LegacyShaderTypeName | src/graphics/shader_compiler.cpp:116-134 | vertex and pixel get their labels, in both directions, and any other value the empty label |
| LegacyShaderCompilation.LegacyNoTolerance | src/graphics/shader_compiler.cpp:92-112 | the older compile succeeds only without diagnostics, and a failed compile call gives the compile-failed error |
| LegacyShaderCompilation.LegacyShaderCompiler.constructor | src/graphics/shader_compiler.cpp:7-18 | the include directory is the root directory, and `Created shader compiler` is logged |
| LegacyShaderCompilation.LegacyShaderCompiler.Compile | src/graphics/shader_compiler.cpp:25-139 | DXC is given the root-relative source path and `CompilationArguments` for the older profile; the result and the log are `CompileResult` and `CompileRecords` under the older handling |
| Singleton.Constructed | include/serenity-engine/core/singleton_instance.hpp:14-22 | construction succeeds exactly when no instance is live, and then the candidate is the instance; otherwise it throws and the instance stays as it was |
| Singleton.Got | include/serenity-engine/core/singleton_instance.hpp:35-43 | `get()` returns the instance exactly when one is live, and throws the instance-does-not-exist error otherwise |
| Singleton.GetAfterConstruct | include/serenity-engine/core/singleton_instance.hpp:14-43 | after a construction that passed, `get()` returns the candidate constructed |
| Singleton.SecondConstructFails | include/serenity-engine/core/singleton_instance.hpp:14-22 | of two constructions in a row, the second always throws and the first candidate stays the instance |
| Singleton.DestroyThenConstruct | include/serenity-engine/core/singleton_instance.hpp:14-27 | once the instance is destroyed, `get()` throws and a new instance can be constructed |
| Singleton.SingletonSlot.constructor | include/serenity-engine/core/singleton_instance.hpp:53 | there is no instance at start |
| Singleton.SingletonSlot.Construct | include/serenity-engine/core/singleton_instance.hpp:14-22 | the new slot and outcome are `Constructed` of the old slot |
| Singleton.SingletonSlot.Destroy | include/serenity-engine/core/singleton_instance.hpp:24-27 | the destructor empties the slot |
| Singleton.SingletonSlot.Get | include/serenity-engine/core/singleton_instance.hpp:30-43 | `get()` is `Got` of the slot, and it succeeds exactly when `exists()` holds |
| Input.KeyValue | include/serenity-engine/core/input.hpp:7-20 | every key's value lies within the enumeration, and only `Count` has the value `Count` |
| Input.KeyValueInjective | include/serenity-engine/core/input.hpp:7-20 | different keys have different values |
| Input.KeyboardState.constructor | include/serenity-engine/core/input.hpp:25 | one state per key, all released |
| Input.KeyboardState.IsKeyPressed | include/serenity-engine/core/input.hpp:27-30 | the key's state, and an out-of-range error exactly for `Count` |
| Input.KeyboardState.SetKeyState | include/serenity-engine/core/input.hpp:32-35 | the key's entry, and no other, takes the state; for `Count` it throws and nothing changes |
| Timing.WholeMilliseconds | serenity-engine/src/utils/timer.cpp:11-15 | the conversion truncates toward zero: a non-negative duration gives the whole milliseconds it holds, a non-positive one their negation |
| Timing.WholeMillisecondsExact | serenity-engine/src/utils/timer.cpp:11-15 | a duration of exactly `k` milliseconds converts to `k` |
| Timing.Timer.constructor | include/serenity-engine/utils/timer.hpp:9-22 | both times start at the clock's epoch |
| Timing.Timer.Tick | serenity-engine/src/utils/timer.cpp:5-9 | the end time takes the old start time and the start time takes the clock reading |
| Timing.Timer.DeltaTime | serenity-engine/src/utils/timer.cpp:11-15 | the delta is the whole milliseconds from the end time to the start time, never negative on a clock that does not go back |
| Timing.TicksApart | serenity-engine/src/utils/timer.cpp:5-15 | two ticks `k` whole milliseconds apart give a delta of `k` |
| LegacyTiming.AsWrittenDelta | src/utils/timer.cpp:11-15 | the older delta, end time minus start time, is never positive on a clock that does not go back |
| LegacyTiming.IntendedDelta | src/utils/timer.cpp:11-15 | the intended delta, start time minus end time, is the non-negative whole milliseconds between the two frames |
| LegacyTiming.AsWrittenIsNegated | src/utils/timer.cpp:11-15 | the older delta is exactly the intended one negated |
| LegacyTiming.AsWrittenDeltaIsNegative | src/utils/timer.cpp:11-15 | frames that start 5 ms apart report -5 ms where 5 ms is intended |
| LegacyTiming.LegacyTimer.constructor | include/serenity-engine/utils/timer.hpp:9-22 | both frame times start at the clock's epoch |
| LegacyTiming.LegacyTimer.Tick | src/utils/timer.cpp:5-9 | the end time takes the old start time and the start time takes the clock reading |
| LegacyTiming.LegacyTimer.AsWrittenDeltaTime | src/utils/timer.cpp:11-15 | the older timer's delta is never positive on a clock that does not go back |
| LegacyTiming.LegacyTimer.IntendedDeltaTime | src/utils/timer.cpp:11-15 | the corrected delta is never negative on such a clock and is the older one negated |
| EngineApplication.WindowFor | serenity-engine/src/core/application.cpp:12-20 | a configured size gives a window of that size and a screen share a window covering that share |
| EngineApplication.LogToFileIgnored | serenity-engine/src/core/application.cpp:8 | the log is created with `log_to_console` for both sinks, so `log_to_file` changes nothing |
| EngineApplication.SubsystemOrder | serenity-engine/src/core/application.cpp:5-29 | the log comes first and the file system second; the window is created before the renderer and the editor that draw into it, and the scene and script managers come last |
| EngineApplication.IterationsRun | serenity-engine/src/core/application.cpp:37-53 | the loop runs up to and including the first iteration with Escape, or every iteration when none has it |
| EngineApplication.NewerTrace | serenity-engine/src/core/application.cpp:38-53 | three calls per iteration |
| EngineApplication.NewerTraceIterations | serenity-engine/src/core/application.cpp:40-48 | iteration `k` polls, updates with its delta and renders, in that order |
| EngineApplication.NewerTraceSnoc | serenity-engine/src/core/application.cpp:38-53 | one more iteration appends its three calls |
| EngineApplication.KeepsRunning | serenity-engine/src/core/application.cpp:38-45 | the loop goes on past an iteration without Escape while iterations remain |
| EngineApplication.LoopEnd | serenity-engine/src/core/application.cpp:37-53 | the loop stops after the first iteration with Escape, or when the iterations run out, and it says whether it saw Escape |
| EngineApplication.NewerDeltas | serenity-engine/src/core/application.cpp:34-52 | the first `update` is given 0, and on a clock that does not go back no `update` is given a negative delta |
| EngineApplication.SteadyClockDelta | serenity-engine/src/core/application.cpp:50-52 | iterations whose clock readings are `gap` whole milliseconds apart hand `gap` to every `update` but the first |
| EngineApplication.Application.constructor | serenity-engine/src/core/application.cpp:5-29 | the subsystems are created as `Subsystems` lists them, no frame has been rendered and no call made |
| EngineApplication.Application.Render | serenity-engine/src/core/application.cpp:56-61 | the renderer draws once and the frame count goes up by one, as a `uint32_t` |
| EngineApplication.Application.Run | serenity-engine/src/core/application.cpp:31-54 | the calls made are the trace of the iterations that run, the frame count grows by their number modulo 2^32, and the result says whether some iteration saw Escape |
| LegacyEngineApplication.LegacyTrace | src/core/application.cpp:31-45 | four calls per iteration; each `update` is handed the timer's delta as written (end time minus start time) |
| LegacyEngineApplication.LegacyTraceIterations | src/core/application.cpp:33-44 | iteration `k` polls, ticks with its clock reading, updates with the timer's delta as written (end minus start, see Findings) and renders, in that order |
| LegacyEngineApplication.LegacyTraceSnoc | src/core/application.cpp:31-45 | one more iteration appends its four calls |
| LegacyEngineApplication.LegacyDeltas | src/core/application.cpp:28-43 | on a clock that does not go back and starts after the epoch, every `update` is given a delta of at most 0: the intended frame time negated (see Findings) |
| LegacyEngineApplication.LegacyApplication.constructor | src/core/application.cpp:7-24 | the log, the file system, a window titled `serenity-engine` covering 90% of the screen each way, the device and the editor, in that order |
| LegacyEngineApplication.LegacyApplication.Run | src/core/application.cpp:26-46 | the calls made are the trace of the iterations that run, each `update` given `get_delta_time` as written, and the result says whether some iteration saw Escape |
| RustShader.CompileFlags | src/shader.rs:82-86 | debug information and no optimisation exactly in a build with debug assertions, no flags otherwise |
| RustShader.Request | src/shader.rs:95-108 | a path holding a NUL panics with the conversion message; otherwise the request carries the path, the build's flags, and the stage's own entry point and profile |
| RustShader.RequestStrings | src/shader.rs:95-108 | both entry points and profiles are NUL-terminated, the two stages ask for different ones, and each entry point's first two letters name its profile's stage |
| RustShader.CheckErrors | src/shader.rs:62-77 | a missing error blob or text that is not UTF-8 panics, with the null-blob message for a missing blob; otherwise the text is printed |
| RustShader.AfterCompile | src/shader.rs:110-130 | a successful compile prints nothing and returns the blob; a failed one prints the error code first, then the diagnostics or panics in `check_errors`, and otherwise still returns whatever blob the compiler left |
| RustShader.CompileShader | src/shader.rs:81-131 | a path that cannot be converted panics before the compiler runs and prints nothing; otherwise the result and the printed lines are `AfterCompile` of the compiler's answer |
| RustShader.CreateShader | src/shader.rs:19-60 | a panic during compilation propagates; no blob panics with the compile-failed message; the shader is created, from exactly the blob's bytes, only when the device accepts them, and a refusal panics with the create-failed message |
| RustShader.CompileErrorStillCreates | src/shader.rs:19-130 | a compile error with readable diagnostics prints the code and the diagnostics, and the shader is still created exactly when a blob was left that the device accepts |
| RustFrameLoop.IndexBufferDesc | src/main.rs:212-220 | an immutable index buffer without CPU access, whose byte width is four bytes per index whenever that fits a `u32` |
| RustFrameLoop.IndexBytes | src/main.rs:222-227 | the memory `pSysMem` points at holds four little-endian bytes per index, in order |
| RustFrameLoop.IndexBufferMatchesData | src/main.rs:211-233 | the index buffer is 12 bytes wide, exactly the size of its data, and each index reads back from those bytes |
| RustFrameLoop.Hwnd | src/main.rs:144-150 | a Win32 handle gives its `HWND`; any other handle panics with the no-HWND message |
| RustFrameLoop.FirstEnding | src/main.rs:253-265 | the position of the first quit or Escape event, none exactly when no event ends the loop, and no event before it does |
| RustFrameLoop.DrainEvents | src/main.rs:253-265 | the event loop ends the game loop exactly when some event is a quit or Escape, stopping right after the first one; otherwise it goes through the whole batch |
| RustFrameLoop.Frames | src/main.rs:267-293 | `n` frames make `n` times the frame's calls |
| RustFrameLoop.FramesAreFrameCommands | src/main.rs:267-293 | every frame makes the same calls in the same order |
| RustFrameLoop.LoopEnding | src/main.rs:252-295 | the loop draws at most one frame per pass and never un-draws one |
| RustFrameLoop.EndingPass | src/main.rs:252-295 | the loop ends on the first pass with an ending event, with no call made in that pass, unless a `Present` failed first |
| RustFrameLoop.GameLoop | src/main.rs:252-295 | the outcome is `LoopEnding` of the passes and the calls are those of the frames drawn, a failed `Present` panicking |

## Left out

- Direct3D 11/12, DXGI, DXC and SDL object creation is not modelled. This covers devices, swapchains, queues, fences, root signatures, pipeline state objects, command signatures, committed resources and `UpdateSubresources`. These are foreign calls: their results are parameters, or they appear as trace events.
- CPU/GPU synchronisation (fences, `frame_start`/`frame_end` waits, `present` timing) is not modelled. Only the order of the recorded calls is kept.
- Floating-point arithmetic is not modelled: transforms, the light math in `src/scene/lights.cpp` (sin, cos, sqrt) and the camera. Matrices and floats are opaque values or IEEE bit patterns supplied by the caller.
- Lua (sol2) execution is not modelled: the `execute_script` bodies, `Scene::load_scene_from_script` and `GameObject::update`'s script call. A script run is an event, and the transform it produces is a parameter.
- The `Created script with path` log line and the Lua state set-up in both script managers' constructors are not modelled.
- File and image I/O and third-party parsers are not modelled. The glTF asset arrives already parsed, as a value. The accessor reader and the image decoder are parameters. `FileSystem::read_file` and `write_to_file` are not part of this model.
- The editor, the ImGui callbacks, the window classes and spdlog's actual output are not modelled. The application models take "Escape was pressed" as an input.
- Scene.Scene.Update: the scene-buffer upload before the loop and the two uploads after it (`serenity-engine/src/scene/scene.cpp:63-65` and `81-89`) are not modelled. Those two later uploads write into `DynamicStructuredBuffer`s (`scene.cpp:186-198`), which the modelled `create_buffer` never maps, so in this model they would end in `bad_optional_access` after every loop that completes. The buffers' indices come from `create_scene_buffers`, which is not modelled.
- The render passes that only record commands (atmosphere, cube map, post-processing, the editor pass) are not modelled. Neither are the scene camera, the scene's light update, `create_scene_buffers` and the scene buffer upload.
- Renderer.Renderer.CreateResources: the modelled device (`src/renderer/rhi/device.cpp`) accepts only depth-stencil and shader-resource textures, and rejects the render texture requested here. So once the command buffers exist, this member always ends in the device's abort.
- Device.Device.CreateTexture: an unsupported usage becomes `Fail(NotImplemented)`, standing for the `Log::critical` exit.
- Device.Device.constructor: the DXGI factory, the adapter choice, the debug layer, the `Created graphics device` record (`src/renderer/rhi/device.cpp:88`) and the descriptor-heap constructor's log lines are not modelled. `NUM_BACK_BUFFERS` is 3, as `include/serenity-engine/graphics/swapchain.hpp:66` declares; the newer engine's swapchain header is not part of this model.
- Buffer.Update: requires the copied size to fit the mapped memory. `memcpy` past the mapping is undefined behaviour, so the model does not describe it.
- ShadingRenderpass.Render: the set-up before the command list is rebuilt is not modelled. That covers the pipeline, the root signature, the index buffer and the render-resource lookups. The command buffer is a `DynamicStructuredBuffer`, which the modelled `create_buffer` never maps, so the upload aborts for a buffer made that way. The newer engine's `device.hpp` is not part of this model.
- The light buffer upload (`src/scene/lights.cpp:128-130`) and the light pipeline creation are not modelled. `MAX_LIGHT_COUNT` and `MAX_PRIMITIVE_COUNT` are declared in shader headers that are not part of this model, so they are parameters.
- SceneObject.GameObject.constructor: a Dafny constructor cannot fail, so the model-dependent half of the C++ constructor is the separate method `LoadModel`, which the caller runs straight after construction.
- ModelLoader.LoadModel: the node transforms, the warning logged for a file with several scenes and the `Loaded model from path` record (`src/asset/model_loader.cpp:232`) are not modelled. The critical records of a failed load or parse (lines 181, 203 and 211) are kept only as `ParsedAsset`'s error kinds.
- ModelLoader.MeshDataFromNode: requires an acyclic node graph, as section 3.5.2 (Nodes and Hierarchy) of glTF 2.0 does. It also requires the attribute lookups to stay inside the accessor array, because `operator[]` past the end is undefined behaviour. That requirement covers the primitives of every mesh of the asset, including meshes no node reaches, so it is stronger than what the C++ walk needs. A cyclic file makes the C++ recursion run until the stack overflows.
- LegacyMeshLoader.LoadMesh: its `create_buffer` calls (`src/asset/mesh_loader.cpp:95-107`) go to the older graphics device, which is not part of this model.
- FileSystem.RootOf, FileSystem.LocateRoot and LegacyFileSystem.LegacyLocateRoot: paths are modelled as POSIX paths, a sequence of components under `/`, joined with `/`. The engine runs on Windows, where `current_path().string()` starts with a drive root and uses `\` separators. So the model's root strings, its "Located root directory" log text and the strings `is_path_absolute` compares differ in form from the program's. The search itself (nearest ancestor first, the root being its own parent) is the same.
- LegacyFileSystem.LegacyLocateRoot: the older `file_system.cpp` assigns `m_root_directory`, while the older header declares the static `s_root_directory`. The model keeps one root string per file-system value.
- The older `Log()` default constructor and the destructors' log lines are not modelled.
- EngineApplication.Application.Run: requires the frame count to be below 2^32 on entry. Every count the class itself reaches satisfies this.
- EngineApplication.Application.constructor: the window, renderer and editor internals are not modelled; only their order and the choices made among them are.
- RustFrameLoop.GameLoop: the SDL, DXGI and Direct3D 11 device, swapchain and view creation in `src/main.rs` are not modelled, apart from the constants they use. The two `println!` lines of `src/main.rs` (the adapter description, line 66, and the start message, line 249) are console output and are not modelled. `Printed` lines model only the error output of `src/shader.rs`.
- RustShader.CreateShader: `CString::from_raw` on a blob-owned buffer, and slices built from raw pointers, are not modelled. Only lengths and results are.
- `std::unordered_map` iteration order is not modelled. In `SceneManager::set_current_scene` the "first" scene is any scene in the map. In `Scene::update` the order is a parameter.
- Renderer.Renderer.UpdateRenderpasses: the `static_cast<float>` of the window's integer size is floating point, so the caller passes the two `float` bit patterns. The header that declares `interop::PostProcessBuffer` is not part of this model; its layout is taken as the frame count at offset 0 and the size at offset 4, in the order the renderer fills them in. The atmosphere pass update and the light buffer it reads are not modelled.
- Renderer.Renderer.Render: the lookups it makes through `get_buffer_at_index`, `get_texture_at_index`, `m_command_signature.value()` and `m_command_buffer_indices.at(...)` (`serenity-engine/src/renderer/renderer.cpp:77-108`) can throw in C++. The model does not check them, so its `Render` never fails.
- SceneManagement.SceneManager.AddScene: `m_current_scene` is an `unordered_map` iterator (`serenity-engine/include/serenity-engine/scene/scene_manager.hpp:28`), and the model keeps the current scene's name instead. An insertion in `add_scene` (`src/scene/scene_manager.cpp:7`) that makes the map rehash invalidates that iterator, and `get_current_scene` then dereferences it. The model does not capture this, so `SceneManagement.AddedScenesKeepCurrent` holds only under the name-based abstraction.
- LegacyMeshLoader.ReadMesh and LegacyMeshLoader.LoadMesh: they require every accessor's byte range to lie inside its buffer. The C++ reads those bytes through raw pointers (`src/asset/mesh_loader.cpp:65-90`) without any check, and a read past the end is undefined behaviour, so it has no error path to model.
- Device.Device.CreateBuffer: the `Created {usage} with name {name}` record (`include/serenity-engine/renderer/rhi/device.hpp:259-261`) is not modelled. The critical for a buffer without data (line 139) is kept only as the `EmptyBuffer` abort.
- CommandList.CommandList.Create: the `Created command list and allocator of type` record (`src/graphics/command_list.cpp:25-26`) is not modelled.
- DescriptorHeap.DescriptorHeap.Create: the `Created descriptor heap of type` record (`serenity-engine/src/renderer/rhi/descriptor_heap.cpp:50-51`) is not modelled.
- Renderer.Renderer.constructor: the `Created renderer` record (`serenity-engine/src/renderer/renderer.cpp:22`) is not modelled.
- ShadingRenderpass.CommandSignature.constructor: the `Created command signature` record (`serenity-engine/src/renderer/rhi/command_signature.cpp:40`) is not modelled.
- Scene.Scene.constructor: the reserve of `m_game_objects` is not modelled, and `load_scene_from_script` runs Lua, which is not modelled.

## Findings

| source | as written | input that shows it | evidently intended | confidence | as-written member | corrected member |
|---|---|---|---|---|---|---|
| src/core/file_system.cpp:14-26 | The root search loops while the path `has_parent_path()`. `/` is its own parent and keeps a parent path, so the loop stops only on a match. | A working directory such that neither it nor any ancestor, `/` included, contains `serenity-engine`. The search examines `/` forever. | Stop at `/` and raise `critical`, as the newer `serenity-engine/src/core/file_system.cpp:15` does by comparing the path with its parent | not executed | LegacyFileSystem.LegacySearchNeverEnds | LegacyFileSystem.IntendedRoot |
| src/utils/timer.cpp:11-15 | `get_delta_time` returns frame end minus frame start. `tick` puts the newer reading into the start time, so this is minus the elapsed time. | Two ticks 5 ms apart give a delta of -5 ms. The older main loop passes it on, so `update` receives the frame time negated (LegacyEngineApplication.LegacyDeltas). | Start minus end, as the newer `serenity-engine/src/utils/timer.cpp:11-15` computes | not executed | LegacyTiming.AsWrittenDeltaIsNegative | LegacyTiming.IntendedDelta |

=== FILE: application.dfy ===
/**
 * The application shell: the constructor creates the engine's subsystems, and
 * `run` loops over frames until Escape is pressed. The model records the
 * subsystems created, in order, and the calls each loop iteration makes. The
 * window's events and the clock are inputs: each iteration is described by
 * whether Escape was down after polling, and by the clock reading that
 * iteration takes. The loop runs over a finite sequence of such iterations; a
 * run whose sequence ends before Escape is cut off there.
 */
module EngineApplication {
  import opened Common
  import opened Interop
  import opened Timing

  /** `Uint2`: a window size in pixels. */
  datatype Uint2 = Uint2(x: nat, y: nat)

  /** `ApplicationConfig::dimensions`: a window size, or the share of the
      screen to cover, in percent. */
  datatype Dimensions = WindowSize(size: Uint2) | ScreenPercent(percent: Float2)

  datatype ApplicationConfig = ApplicationConfig(logToConsole: bool, logToFile: bool, dimensions: Dimensions)

  /** A subsystem the constructor creates, with what it is created from. */
  datatype Subsystem =
    | LogSubsystem(consoleEnabled: bool, fileEnabled: bool)
    | DefaultLogSubsystem
    | FileSystemSubsystem
    | SizedWindow(size: Uint2)
    | CoveringWindow(title: string, percent: Float2)
    | RendererSubsystem
    | DeviceSubsystem
    | SceneManagerSubsystem
    | EditorSubsystem
    | ScriptManagerSubsystem

  /** The window the configuration asks for. The older constructor's windows
      carry a title; the newer one's do not, which is the empty title here. */
  function WindowFor(dimensions: Dimensions): (w: Subsystem)
    ensures dimensions.WindowSize? ==> w == SizedWindow(dimensions.size)
    ensures dimensions.ScreenPercent? ==> w == CoveringWindow("", dimensions.percent)
  {
    match dimensions
    case WindowSize(size) => SizedWindow(size)
    case ScreenPercent(percent) => CoveringWindow("", percent)
  }

  /** The subsystems the constructor creates, in order. The log is given
      `log_to_console` for both of its flags. */
  function Subsystems(config: ApplicationConfig): (created: seq<Subsystem>)
  {
    [LogSubsystem(config.logToConsole, config.logToConsole), FileSystemSubsystem, WindowFor(config.dimensions),
     RendererSubsystem, SceneManagerSubsystem, EditorSubsystem, ScriptManagerSubsystem]
  }

  /** `log_to_file` changes nothing: the file sink follows `log_to_console`. */
  lemma LogToFileIgnored(config: ApplicationConfig, logToFile: bool)
    ensures Subsystems(config.(logToFile := logToFile)) == Subsystems(config)
    ensures Subsystems(config)[0] == LogSubsystem(config.logToConsole, config.logToConsole)
  {
  }

  /** The log comes first and the window is created before the renderer and
      the editor that draw into it; a size builds a sized window and a share of
      the screen a covering one. */
  lemma SubsystemOrder(config: ApplicationConfig)
    ensures var created := Subsystems(config);
      |created| == 7 && created[0].LogSubsystem? && created[1] == FileSystemSubsystem &&
      (created[2].SizedWindow? <==> config.dimensions.WindowSize?) &&
      (created[2].CoveringWindow? <==> config.dimensions.ScreenPercent?) &&
      created[3] == RendererSubsystem && created[5] == EditorSubsystem
  {
  }

  /** What one loop iteration meets: whether Escape is down once events are
      polled, and the clock reading it takes. */
  datatype Iteration = Iteration(escapePressed: bool, clock: int)

  /** A call the loop makes. */
  datatype Call = Polled | Ticked(now: int) | Updated(deltaTime: int) | Rendered

  /** How many iterations run: up to and including the first with Escape. */
  function IterationsRun(iterations: seq<Iteration>): (n: nat)
    ensures n <= |iterations| && (iterations != [] ==> 0 < n)
    ensures n < |iterations| ==> iterations[n - 1].escapePressed
    ensures forall k | 0 <= k < n - 1 :: !iterations[k].escapePressed
    ensures (exists k | 0 <= k < |iterations| :: iterations[k].escapePressed) <==>
            (0 < n && iterations[n - 1].escapePressed)
    decreases |iterations|
  {
    if iterations == [] then 0
    else if iterations[0].escapePressed then 1
    else
      var rest := IterationsRun(iterations[1..]);
      assert forall k | 1 <= k < |iterations| :: iterations[k] == iterations[1..][k - 1];
      rest + 1
  }

  /** The delta the newer loop hands to the `k`-th `update`: 0 the first time,
      then the whole milliseconds between the clock readings of the two
      previous iterations (the first one measured from `startClock`). */
  function LoopDelta(startClock: int, iterations: seq<Iteration>, k: nat): int
    requires k <= |iterations|
  {
    if k == 0 then 0
    else if k == 1 then WholeMilliseconds(iterations[0].clock - startClock)
    else WholeMilliseconds(iterations[k - 1].clock - iterations[k - 2].clock)
  }

  /** The calls of the newer loop's `k`-th iteration. */
  function NewerCalls(startClock: int, iterations: seq<Iteration>, k: nat): seq<Call>
    requires k < |iterations|
  {
    [Polled, Updated(LoopDelta(startClock, iterations, k)), Rendered]
  }

  /** The calls of the first `n` iterations of the newer loop. */
  function NewerTrace(startClock: int, iterations: seq<Iteration>, n: nat): (calls: seq<Call>)
    requires n <= |iterations|
    ensures |calls| == 3 * n
  {
    if n == 0 then [] else NewerTrace(startClock, iterations, n - 1) + NewerCalls(startClock, iterations, n - 1)
  }

  /** The trace is the iterations' calls one after the other: the `k`-th
      iteration polls, updates with its delta and renders. */
  lemma {:induction false} NewerTraceIterations(startClock: int, iterations: seq<Iteration>, n: nat, k: nat)
    requires k < n <= |iterations|
    ensures NewerTrace(startClock, iterations, n)[3 * k..3 * k + 3] == NewerCalls(startClock, iterations, k)
  {
    var before := NewerTrace(startClock, iterations, n - 1);
    if k < n - 1 {
      NewerTraceIterations(startClock, iterations, n - 1, k);
      assert (before + NewerCalls(startClock, iterations, n - 1))[3 * k..3 * k + 3] == before[3 * k..3 * k + 3];
    } else {
      assert (before + NewerCalls(startClock, iterations, n - 1))[3 * k..3 * k + 3] == NewerCalls(startClock, iterations, k);
    }
  }

  /** One more iteration of the newer loop. */
  lemma NewerTraceSnoc(startClock: int, iterations: seq<Iteration>, i: nat)
    requires i < |iterations|
    ensures NewerTrace(startClock, iterations, i + 1) ==
            NewerTrace(startClock, iterations, i) + [Polled, Updated(LoopDelta(startClock, iterations, i)), Rendered]
  {
  }

  /** The loop goes on past an iteration without Escape while iterations remain. */
  lemma KeepsRunning(iterations: seq<Iteration>, i: nat)
    requires i < |iterations| && i <= IterationsRun(iterations)
    requires i == 0 || !iterations[i - 1].escapePressed
    ensures i < IterationsRun(iterations)
  {
  }

  /** Where the loop stops: after the first iteration with Escape, or when the
      iterations run out, and it says whether it saw Escape. */
  lemma LoopEnd(iterations: seq<Iteration>, i: nat, quit: bool)
    requires i <= IterationsRun(iterations)
    requires quit <==> 0 < i && iterations[i - 1].escapePressed
    requires quit || i == |iterations|
    ensures i == IterationsRun(iterations)
    ensures quit <==> exists k | 0 <= k < |iterations| :: iterations[k].escapePressed
  {
  }

  /** The first `update` is given 0, and on a clock that does not go back no
      `update` is given a negative delta. */
  lemma NewerDeltas(startClock: int, iterations: seq<Iteration>, k: nat)
    requires k <= |iterations|
    requires forall j | 0 <= j < |iterations| :: startClock <= iterations[j].clock
    requires forall j | 0 < j < |iterations| :: iterations[j - 1].clock <= iterations[j].clock
    ensures k == 0 ==> LoopDelta(startClock, iterations, k) == 0
    ensures LoopDelta(startClock, iterations, k) >= 0
  {
  }

  /** Iterations whose clock readings are `gap` whole milliseconds apart hand
      `gap` to every `update` but the first. */
  lemma SteadyClockDelta(startClock: int, iterations: seq<Iteration>, k: nat, gap: int)
    requires 0 < k <= |iterations|
    requires iterations[0].clock == startClock + gap * NS_PER_MS
    requires forall j | 0 < j < |iterations| :: iterations[j].clock == iterations[j - 1].clock + gap * NS_PER_MS
    ensures LoopDelta(startClock, iterations, k) == gap
  {
    WholeMillisecondsExact(gap);
    if k > 1 {
      assert iterations[k - 1].clock - iterations[k - 2].clock == gap * NS_PER_MS;
    }
  }

  /** `++m_frame_count` on a `uint32_t`. */
  lemma Wrap32Succ(count: nat, n: nat)
    ensures Wrap32(Wrap32(count + n) + 1) == Wrap32(count + n + 1)
  {
    var q := (count + n) / U32_LIMIT;
    assert count + n == q * U32_LIMIT + Wrap32(count + n);
    assert count + n + 1 == q * U32_LIMIT + (Wrap32(count + n) + 1);
  }

  /** The newer `core::Application`. */
  class Application {
    /** The subsystems created, in order. */
    var subsystems: seq<Subsystem>
    /** `m_frame_count`: the frames rendered, as a `uint32_t`. */
    var frameCount: nat
    /** The calls the loop has made. */
    var calls: seq<Call>

    constructor (config: ApplicationConfig)
      ensures subsystems == Subsystems(config) && frameCount == 0 && calls == []
    {
      subsystems := Subsystems(config);
      frameCount := 0;
      calls := [];
    }

    /** `render`: the renderer draws the frame and the count goes up by one. */
    method Render()
      modifies this`frameCount, this`calls
      ensures frameCount == Wrap32(old(frameCount) + 1)
      ensures calls == old(calls) + [Rendered]
    {
      calls := calls + [Rendered];
      frameCount := Wrap32(frameCount + 1);
    }

    /** `run`, from the clock reading `startClock`: each iteration polls, sees
        Escape, updates with the last delta, renders, and reads the clock. The
        iteration that sees Escape still updates and renders; then the loop
        ends. The result says whether it ended on Escape. */
    method Run(startClock: int, iterations: seq<Iteration>) returns (quit: bool)
      requires frameCount < U32_LIMIT
      modifies this`frameCount, this`calls
      ensures var n := IterationsRun(iterations);
        calls == old(calls) + NewerTrace(startClock, iterations, n) &&
        frameCount == Wrap32(old(frameCount) + n)
      ensures quit <==> exists k | 0 <= k < |iterations| :: iterations[k].escapePressed
    {
      var start := startClock;
      var deltaTime := 0;
      quit := false;
      var i := 0;
      while !quit && i < |iterations|
        invariant 0 <= i <= IterationsRun(iterations)
        invariant quit <==> 0 < i && iterations[i - 1].escapePressed
        invariant !quit ==> i == 0 || !iterations[i - 1].escapePressed
        invariant deltaTime == LoopDelta(startClock, iterations, i)
        invariant start == if i == 0 then startClock else iterations[i - 1].clock
        invariant calls == old(calls) + NewerTrace(startClock, iterations, i)
        invariant frameCount == Wrap32(old(frameCount) + i)
      {
        KeepsRunning(iterations, i);
        NewerTraceSnoc(startClock, iterations, i);
        if iterations[i].escapePressed {
          quit := true;
        }
        calls := calls + [Polled, Updated(deltaTime)];
        Wrap32Succ(old(frameCount), i);
        Render();
        var end := iterations[i].clock;
        deltaTime := WholeMilliseconds(end - start);
        start := end;
        i := i + 1;
      }
      LoopEnd(iterations, i, quit);
    }
  }
}

/**
 * The older application shell: a fixed set of subsystems, and a loop that
 * measures each frame with a `Timer`. The loop's `update` is given the timer's
 * delta as written (end time minus start time), which is the negation of the
 * frame time the timer was evidently meant to return.
 */
module LegacyEngineApplication {
  import opened Common
  import opened Interop
  import opened Timing
  import opened LegacyTiming
  import opened EngineApplication

  /** The bit pattern of `90.0f`. */
  const NINETY_F32: F32 := 0x42B4_0000

  /** The window's title. */
  const WINDOW_TITLE: string := "serenity-engine"

  /** The subsystems the older constructor creates, in order: a window titled
      after the engine covering 90% of the screen each way. */
  const LEGACY_SUBSYSTEMS: seq<Subsystem> :=
    [DefaultLogSubsystem, FileSystemSubsystem, CoveringWindow(WINDOW_TITLE, Float2(NINETY_F32, NINETY_F32)),
     DeviceSubsystem, EditorSubsystem]

  /** The delta the older loop hands to the `k`-th `update`: `get_delta_time`
      as written, the first measured from the timer's default time point, 0. */
  function LegacyLoopDelta(iterations: seq<Iteration>, k: nat): int
    requires k < |iterations|
  {
    AsWrittenDelta(iterations[k].clock, if k == 0 then 0 else iterations[k - 1].clock)
  }

  /** The calls of the older loop's `k`-th iteration. */
  function LegacyCalls(iterations: seq<Iteration>, k: nat): seq<Call>
    requires k < |iterations|
  {
    [Polled, Ticked(iterations[k].clock), Updated(LegacyLoopDelta(iterations, k)), Rendered]
  }

  /** The calls of the first `n` iterations of the older loop. */
  function LegacyTrace(iterations: seq<Iteration>, n: nat): (calls: seq<Call>)
    requires n <= |iterations|
    ensures |calls| == 4 * n
  {
    if n == 0 then [] else LegacyTrace(iterations, n - 1) + LegacyCalls(iterations, n - 1)
  }

  /** The `k`-th iteration polls, ticks with its clock reading, takes the
      delta, updates and renders, in that order. */
  lemma {:induction false} LegacyTraceIterations(iterations: seq<Iteration>, n: nat, k: nat)
    requires k < n <= |iterations|
    ensures LegacyTrace(iterations, n)[4 * k..4 * k + 4] == LegacyCalls(iterations, k)
  {
    var before := LegacyTrace(iterations, n - 1);
    if k < n - 1 {
      LegacyTraceIterations(iterations, n - 1, k);
      assert (before + LegacyCalls(iterations, n - 1))[4 * k..4 * k + 4] == before[4 * k..4 * k + 4];
    } else {
      assert (before + LegacyCalls(iterations, n - 1))[4 * k..4 * k + 4] == LegacyCalls(iterations, k);
    }
  }

  /** One more iteration of the older loop. */
  lemma LegacyTraceSnoc(iterations: seq<Iteration>, i: nat)
    requires i < |iterations|
    ensures LegacyTrace(iterations, i + 1) == LegacyTrace(iterations, i) + LegacyCalls(iterations, i)
  {
  }

  /** On a clock that does not go back and starts after the epoch, every
      `update` is given a delta of at most 0: the negation of the whole
      milliseconds since the previous iteration, which is what the intended
      delta gives. */
  lemma LegacyDeltas(iterations: seq<Iteration>, k: nat)
    requires k < |iterations|
    requires forall j | 0 <= j < |iterations| :: 0 <= iterations[j].clock
    requires forall j | 0 < j < |iterations| :: iterations[j - 1].clock <= iterations[j].clock
    ensures LegacyLoopDelta(iterations, k) <= 0
    ensures LegacyLoopDelta(iterations, k) ==
            -IntendedDelta(iterations[k].clock, if k == 0 then 0 else iterations[k - 1].clock)
  {
    AsWrittenIsNegated(iterations[k].clock, if k == 0 then 0 else iterations[k - 1].clock);
  }

  /** The older `core::Application`. */
  class LegacyApplication {
    /** The subsystems created, in order. */
    var subsystems: seq<Subsystem>
    /** The calls the loop has made. */
    var calls: seq<Call>

    constructor ()
      ensures subsystems == LEGACY_SUBSYSTEMS && calls == []
    {
      subsystems := LEGACY_SUBSYSTEMS;
      calls := [];
    }

    /** `run`: each iteration polls, sees Escape, ticks a fresh timer, takes
        its delta, updates and renders; the iteration that sees Escape still
        does all of that. */
    method Run(iterations: seq<Iteration>) returns (quit: bool)
      modifies this`calls
      ensures calls == old(calls) + LegacyTrace(iterations, IterationsRun(iterations))
      ensures quit <==> exists k | 0 <= k < |iterations| :: iterations[k].escapePressed
    {
      var timer := new LegacyTimer();
      quit := false;
      var i := 0;
      while !quit && i < |iterations|
        invariant 0 <= i <= IterationsRun(iterations)
        invariant quit <==> 0 < i && iterations[i - 1].escapePressed
        invariant !quit ==> i == 0 || !iterations[i - 1].escapePressed
        invariant timer.frameStartTime == if i == 0 then 0 else iterations[i - 1].clock
        invariant calls == old(calls) + LegacyTrace(iterations, i)
      {
        KeepsRunning(iterations, i);
        LegacyTraceSnoc(iterations, i);
        calls := calls + [Polled];
        if iterations[i].escapePressed {
          quit := true;
        }
        timer.Tick(iterations[i].clock);
        calls := calls + [Ticked(iterations[i].clock)];
        var deltaTime := timer.AsWrittenDeltaTime();
        calls := calls + [Updated(deltaTime), Rendered];
        i := i + 1;
      }
      LoopEnd(iterations, i, quit);
    }
  }
}

=== FILE: buffer.dfy ===
/**
 * GPU buffers of the Direct3D 12 backend: what a buffer is used for, the
 * descriptor slots it was given, and the CPU-visible mapping that constant
 * buffers keep so that `update` can copy bytes into them.
 */
module Buffer {
  import opened Common

  /** An opaque `ID3D12Resource`. */
  type ResourceId = nat

  datatype BufferUsage =
    | ConstantBuffer
    | StructuredBuffer
    | DynamicStructuredBuffer
    | UAVBuffer
    | IndexBuffer

  /** `buffer_usage_to_string`. */
  function BufferUsageName(usage: BufferUsage): (name: string)
    ensures |name| > 0
  {
    match usage
    case ConstantBuffer => "Constant Buffer"
    case StructuredBuffer => "Structured Buffer"
    case DynamicStructuredBuffer => "Dynamic Structured Buffer"
    case UAVBuffer => "UAV Buffer"
    case IndexBuffer => "Index Buffer"
  }

  function BufferUsageOfName(name: string): Option<BufferUsage>
  {
    if name == "Constant Buffer" then Some(ConstantBuffer)
    else if name == "Structured Buffer" then Some(StructuredBuffer)
    else if name == "Dynamic Structured Buffer" then Some(DynamicStructuredBuffer)
    else if name == "UAV Buffer" then Some(UAVBuffer)
    else if name == "Index Buffer" then Some(IndexBuffer)
    else None
  }

  /** Each usage has its own name: the log line of `create_buffer` identifies the usage. */
  lemma BufferUsageNameRoundTrip(usage: BufferUsage)
    ensures BufferUsageOfName(BufferUsageName(usage)) == Some(usage)
  {
  }

  datatype BufferCreationDesc = BufferCreationDesc(usage: BufferUsage, name: string)

  /** `rhi::Buffer`: a value struct; `mapped` is the memory `mapped_pointer` points at. */
  datatype Buffer = Buffer(resource: ResourceId, cbvIndex: nat, srvIndex: nat, uavIndex: nat,
                           sizeInBytes: nat, mapped: Option<array<byte>>)

  /** `Buffer::update`: copies the first `size` bytes of `data` to the start of the
      mapped memory. Without a mapping `optional::value` throws. Nothing compares
      `size` with the buffer's size: a copy past the mapping is undefined
      behaviour, an obligation the source leaves to its callers. */
  method Update(buffer: Buffer, data: seq<byte>, size: nat) returns (r: Outcome)
    requires size <= |data|
    requires buffer.mapped.Some? ==> size <= buffer.mapped.value.Length
    modifies if buffer.mapped.Some? then {buffer.mapped.value} else {}
    ensures r.Abort? <==> buffer.mapped.None?
    ensures r.Abort? ==> r.error == BadOptionalAccess
    ensures buffer.mapped.Some? ==>
      var memory := buffer.mapped.value;
      memory[..size] == data[..size] && memory[size..] == old(memory[size..])
  {
    if buffer.mapped.None? {
      return Abort(BadOptionalAccess);
    }
    var memory := buffer.mapped.value;
    forall i | 0 <= i < size {
      memory[i] := data[i];
    }
    r := Pass;
  }
}

=== FILE: bytes.dfy ===
/**
 * Little-endian byte layout of unsigned integers, as the engine's host (x86-64)
 * stores them: the form in which indirect draw commands are copied into GPU
 * memory and in which glTF buffers hold their indices (section 3.6.2 of the
 * glTF 2.0 specification requires little-endian component data).
 */
module Bytes {
  import opened Common

  /** 256 to the power `n`: the number of values `n` bytes can hold. */
  function Pow256(n: nat): (p: nat)
    ensures p >= 1
  {
    if n == 0 then 1 else 256 * Pow256(n - 1)
  }

  /** The `n` low-order bytes of `x`, least significant first. */
  function EncodeLE(x: nat, n: nat): (bytes: seq<byte>)
    ensures |bytes| == n
  {
    if n == 0 then [] else [(x % 256) as byte] + EncodeLE(x / 256, n - 1)
  }

  /** The unsigned value of a little-endian byte string. */
  function DecodeLE(bytes: seq<byte>): nat
  {
    if bytes == [] then 0 else bytes[0] as nat + 256 * DecodeLE(bytes[1..])
  }

  /** `n` bytes hold values below 256^n. */
  lemma {:induction false} DecodeLEBound(bytes: seq<byte>)
    ensures DecodeLE(bytes) < Pow256(|bytes|)
  {
    if bytes != [] {
      DecodeLEBound(bytes[1..]);
      assert DecodeLE(bytes[1..]) + 1 <= Pow256(|bytes| - 1);
      calc {
        DecodeLE(bytes);
        < 256 + 256 * DecodeLE(bytes[1..]);
        == 256 * (DecodeLE(bytes[1..]) + 1);
        <= { MulMonotone(256, DecodeLE(bytes[1..]) + 1, Pow256(|bytes| - 1)); }
           256 * Pow256(|bytes| - 1);
      }
    }
  }

  /** Decoding the encoding of a value that fits gives the value back. */
  lemma {:induction false} DecodeEncodeLE(x: nat, n: nat)
    requires x < Pow256(n)
    ensures DecodeLE(EncodeLE(x, n)) == x
  {
    if n == 0 {
    } else {
      var q := x / 256;
      assert x == 256 * q + x % 256;
      DecodeEncodeLE(q, n - 1);
      assert EncodeLE(x, n)[1..] == EncodeLE(q, n - 1);
    }
  }

  /** Encoding the value of a byte string gives the string back. */
  lemma {:induction false} EncodeDecodeLE(bytes: seq<byte>)
    ensures EncodeLE(DecodeLE(bytes), |bytes|) == bytes
  {
    if bytes != [] {
      var rest := DecodeLE(bytes[1..]);
      var x := DecodeLE(bytes);
      assert x == bytes[0] as nat + 256 * rest;
      assert x % 256 == bytes[0] as nat && x / 256 == rest;
      EncodeDecodeLE(bytes[1..]);
    }
  }

  /** The first `k` bytes of an encoding are the encoding of the value modulo 256^k:
      reading the low bytes of a wider integer keeps its low-order part. */
  lemma {:induction false} EncodeLEPrefix(x: nat, n: nat, k: nat)
    requires k <= n
    ensures EncodeLE(x, n)[..k] == EncodeLE(x % Pow256(k), k)
  {
    if k == 0 {
    } else {
      EncodeLEPrefix(x / 256, n - 1, k - 1);
      ModOfDiv(x, Pow256(k - 1));
      assert EncodeLE(x, n)[..k] == [(x % 256) as byte] + EncodeLE(x / 256, n - 1)[..k - 1];
    }
  }

  /** (x mod 256m) splits into its low byte and (x / 256) mod m. */
  lemma ModOfDiv(x: nat, m: nat)
    requires m >= 1
    ensures (x % (256 * m)) % 256 == x % 256
    ensures (x % (256 * m)) / 256 == (x / 256) % m
  {
    var q := x / 256;
    var r := x % 256;
    var a := q / m;
    var b := q % m;
    assert x == 256 * q + r;
    assert q == m * a + b;
    assert x == (256 * m) * a + (256 * b + r);
    assert 0 <= 256 * b + r < 256 * m by {
      MulMonotone(256, b + 1, m);
    }
    DivModUnique(x, 256 * m, a, 256 * b + r);
  }

  const LE16_SIZE: nat := 2
  const LE32_SIZE: nat := 4

  /** A `uint32_t` laid out in memory. */
  function U32Bytes(x: nat): (bytes: seq<byte>)
    requires x < U32_LIMIT
    ensures |bytes| == LE32_SIZE
  {
    EncodeLE(x, LE32_SIZE)
  }

  /** Reading a `uint16_t` from the first two bytes of a `uint32_t` keeps its low 16 bits. */
  lemma {:induction false} LowHalfOfU32(x: nat)
    requires x < U32_LIMIT
    ensures DecodeLE(U32Bytes(x)[..LE16_SIZE]) == x % U16_LIMIT
  {
    EncodeLEPrefix(x, LE32_SIZE, LE16_SIZE);
    assert Pow256(2) == U16_LIMIT;
    DecodeEncodeLE(x % U16_LIMIT, LE16_SIZE);
  }
}

=== FILE: command_list.dfy ===
/**
 * The command list of the Direct3D 12 backend: a wrapper around an
 * `ID3D12GraphicsCommandList` and its allocator that batches resource barriers.
 * `add_resource_barrier` only queues a transition; `execute_barriers` submits the
 * whole queue in one `ResourceBarrier` call. The other members forward their
 * arguments to the command list.
 *
 * The D3D command list is not modelled: every call made on it (or on its
 * allocator) is appended to `calls`. The invariant is that no queued barrier is
 * lost, duplicated or reordered: the barriers submitted so far, followed by the
 * ones still queued, are exactly the ones that were added.
 */
module CommandList {
  import opened Common
  import opened D3DUtils
  import opened DescriptorHeap
  import opened Buffer
  import opened Device

  /** `RootSignature::NUM_32_BIT_ROOT_CONSTANTS`. */
  const NUM_32_BIT_ROOT_CONSTANTS: nat := 64

  const COMMAND_LIST_SUFFIX: string := " Command List"
  const COMMAND_ALLOCATOR_SUFFIX: string := " Command Allocator"

  /** `CD3DX12_RESOURCE_BARRIER::Transition(resource, before, after)`. */
  datatype Barrier = Transition(resource: ResourceId, before: ResourceState, after: ResourceState)

  datatype ClearFlag = ClearDepth | ClearStencil | ClearDepthAndStencil

  datatype IndexFormat = R16Uint | R32Uint

  datatype Viewport = Viewport(topLeftX: real, topLeftY: real, width: real, height: real, minDepth: real, maxDepth: real)

  datatype Rect = Rect(left: int, top: int, right: int, bottom: int)

  /** A call made on the D3D command list or its allocator, with its arguments. */
  datatype Call =
    | ResetAllocator
    | ResetList
    | ResourceBarrier(count: nat, barriers: seq<Barrier>)
    | SetDescriptorHeaps(heapCount: nat, heaps: seq<DescriptorHeap>)
    | ClearRenderTargetView(rtv: nat, color: seq<real>, rectCount: nat)
    | ClearDepthStencilView(dsv: nat, flags: ClearFlag, depth: real, stencil: nat, rectCount: nat)
    | OMSetRenderTargets(rtvCount: nat, rtvs: seq<nat>, singleHandle: bool, depthStencil: Option<nat>)
    | IASetPrimitiveTopology(topology: nat)
    | IASetIndexBuffer(location: ResourceId, sizeInBytes: nat, format: IndexFormat)
    | SetGraphicsRootSignature(rootSignature: nat)
    | SetPipelineState(pipelineState: nat)
    | SetGraphicsRoot32BitConstants(rootParameter: nat, valueCount: nat, data: seq<byte>, destOffset: nat)
    | RSSetViewports(viewportCount: nat, viewport: Viewport)
    | RSSetScissorRects(rectCount: nat, rect: Rect)
    | DrawInstanced(vertexCount: nat, instanceCount: nat, startVertex: nat, startInstance: nat)
    | DrawIndexedInstanced(indexCount: nat, instanceCount: nat, startIndex: nat, baseVertex: int, startInstance: nat)
    | ExecuteIndirect(signature: nat, maxCommandCount: nat, argumentBuffer: ResourceId, argumentBufferOffset: nat,
                      countBuffer: Option<ResourceId>, countBufferOffset: nat)

  /** Every barrier handed to `ResourceBarrier` in a trace of calls, in order. */
  function Submitted(calls: seq<Call>): seq<Barrier>
  {
    if calls == [] then []
    else Submitted(calls[..|calls| - 1]) +
         (if calls[|calls| - 1].ResourceBarrier? then calls[|calls| - 1].barriers else [])
  }

  /** Appending a call to a trace adds its barriers, if any, after those already submitted. */
  lemma {:induction false} SubmittedAppend(calls: seq<Call>, more: seq<Call>)
    ensures Submitted(calls + more) == Submitted(calls) + Submitted(more)
    decreases |more|
  {
    if more == [] {
      assert calls + more == calls;
    } else {
      var last := more[|more| - 1];
      var front := more[..|more| - 1];
      assert (calls + more)[..|calls + more| - 1] == calls + front;
      SubmittedAppend(calls, front);
      assert Submitted(calls + more) == Submitted(calls + front) +
        (if last.ResourceBarrier? then last.barriers else []);
    }
  }

  /** A call that is not a `ResourceBarrier` submits no barrier. */
  lemma {:induction false} SubmittedSingle(c: Call)
    ensures Submitted([c]) == if c.ResourceBarrier? then c.barriers else []
  {
    assert [c][..0] == [];
  }

  /** A trace without barrier batches submits nothing. */
  lemma {:induction false} SubmittedNone(calls: seq<Call>)
    requires forall i | 0 <= i < |calls| :: !calls[i].ResourceBarrier?
    ensures Submitted(calls) == []
  {
    if calls != [] {
      SubmittedNone(calls[..|calls| - 1]);
    }
  }

  /** Every `ResourceBarrier` call states the number of barriers it carries, as a `uint32_t`. */
  predicate BatchesCounted(calls: seq<Call>)
  {
    forall i | 0 <= i < |calls| :: calls[i].ResourceBarrier? ==> calls[i].count == Wrap32(|calls[i].barriers|)
  }

  /** The CPU halves of a span of descriptor handles, in order. */
  function CpuHandles(handles: seq<DescriptorHandle>): (cpus: seq<nat>)
    ensures |cpus| == |handles|
    ensures forall i | 0 <= i < |handles| :: cpus[i] == handles[i].cpu
  {
    if handles == [] then [] else CpuHandles(handles[..|handles| - 1]) + [handles[|handles| - 1].cpu]
  }

  class CommandList {
    const commandListType: int
    /** The debug names given to the command list and its allocator. */
    const listName: string
    const allocatorName: string
    /** Calls made on the D3D command list and allocator, oldest first. */
    var calls: seq<Call>
    /** `m_resource_barriers`: transitions queued but not yet submitted. */
    var pendingBarriers: seq<Barrier>
    /** Every transition ever queued, oldest first. */
    ghost var added: seq<Barrier>

    ghost predicate Valid()
      reads this
    {
      Submitted(calls) + pendingBarriers == added && BatchesCounted(calls)
    }

    /** The list as the constructor leaves it once D3D has created it. */
    constructor (commandListType: int)
      ensures Valid()
      ensures this.commandListType == commandListType
      ensures listName == CommandListTypeName(commandListType) + COMMAND_LIST_SUFFIX
      ensures allocatorName == CommandListTypeName(commandListType) + COMMAND_ALLOCATOR_SUFFIX
      ensures calls == [] && pendingBarriers == [] && added == []
    {
      this.commandListType := commandListType;
      var typeName := CommandListTypeName(commandListType);
      listName := typeName + COMMAND_LIST_SUFFIX;
      allocatorName := typeName + COMMAND_ALLOCATOR_SUFFIX;
      calls := [];
      pendingBarriers := [];
      added := [];
    }

    /** The whole constructor: creating the allocator, creating the list and closing
        it go through `throw_if_failed`, and so do the two debug names. */
    static method Create(commandListType: int, createAllocatorResult: HResult, createListResult: HResult,
                         closeResult: HResult, debugBuild: bool, listNameResult: HResult,
                         allocatorNameResult: HResult)
      returns (r: Result<CommandList>)
      ensures r.Fail? <==>
        Failed(createAllocatorResult) || Failed(createListResult) || Failed(closeResult) ||
        (debugBuild && (Failed(listNameResult) || Failed(allocatorNameResult)))
      ensures r.Fail? ==> r.error == HResultFailed
      ensures r.Ok? ==> fresh(r.value) && r.value.Valid() && r.value.calls == [] &&
                        r.value.pendingBarriers == [] && r.value.commandListType == commandListType
    {
      var created := ThrowIfFailed(createAllocatorResult);
      if created.Abort? {
        return Fail(created.error);
      }
      created := ThrowIfFailed(createListResult);
      if created.Abort? {
        return Fail(created.error);
      }
      created := ThrowIfFailed(closeResult);
      if created.Abort? {
        return Fail(created.error);
      }
      var named := SetName(debugBuild, listNameResult);
      if named.outcome.Abort? {
        return Fail(named.outcome.error);
      }
      named := SetName(debugBuild, allocatorNameResult);
      if named.outcome.Abort? {
        return Fail(named.outcome.error);
      }
      var list := new CommandList(commandListType);
      r := Ok(list);
    }

    /** `add_resource_barrier`: queue one transition; nothing reaches the command list. */
    method AddResourceBarrier(resource: ResourceId, before: ResourceState, after: ResourceState)
      requires Valid()
      modifies this`pendingBarriers, this`added
      ensures Valid()
      ensures pendingBarriers == old(pendingBarriers) + [Transition(resource, before, after)]
      ensures added == old(added) + [Transition(resource, before, after)]
    {
      pendingBarriers := pendingBarriers + [Transition(resource, before, after)];
      added := added + [Transition(resource, before, after)];
    }

    /** `execute_barriers`: submit every queued transition in one call, in queue order,
        then empty the queue. */
    method ExecuteBarriers()
      requires Valid()
      modifies this`calls, this`pendingBarriers
      ensures Valid()
      ensures calls == old(calls) + [ResourceBarrier(Wrap32(|old(pendingBarriers)|), old(pendingBarriers))]
      ensures pendingBarriers == []
      ensures Submitted(calls) == added
    {
      var batch := ResourceBarrier(Wrap32(|pendingBarriers|), pendingBarriers);
      SubmittedAppend(calls, [batch]);
      SubmittedSingle(batch);
      calls := calls + [batch];
      pendingBarriers := [];
    }

    /** Appends one call that is not a barrier submission. */
    method Record(c: Call)
      requires Valid() && !c.ResourceBarrier?
      modifies this`calls
      ensures Valid()
      ensures calls == old(calls) + [c]
    {
      SubmittedAppend(calls, [c]);
      SubmittedSingle(c);
      calls := calls + [c];
    }

    /** `set_descriptor_heaps`: forwards every heap, in the given order. */
    method SetHeaps(heaps: seq<DescriptorHeap>)
      requires Valid()
      modifies this`calls
      ensures Valid()
      ensures calls == old(calls) + [SetDescriptorHeaps(Wrap32(|heaps|), heaps)]
    {
      var forwarded: seq<DescriptorHeap> := [];
      var i := 0;
      while i < |heaps|
        invariant 0 <= i <= |heaps|
        invariant forwarded == heaps[..i]
      {
        forwarded := forwarded + [heaps[i]];
        i := i + 1;
      }
      assert heaps[..|heaps|] == heaps;
      Record(SetDescriptorHeaps(Wrap32(|heaps|), forwarded));
    }

    /** `reset`: the allocator is reset first, then the list; a failure of either
        is fatal, and a failed allocator reset stops before the list is reset. */
    method Reset(allocatorResult: HResult, listResult: HResult) returns (r: Outcome)
      requires Valid()
      modifies this`calls
      ensures Valid()
      ensures r.Abort? <==> Failed(allocatorResult) || Failed(listResult)
      ensures calls == old(calls) + (if Failed(allocatorResult) then [ResetAllocator]
                                     else [ResetAllocator, ResetList])
    {
      Record(ResetAllocator);
      r := ThrowIfFailed(allocatorResult);
      if r.Abort? {
        return;
      }
      Record(ResetList);
      r := ThrowIfFailed(listResult);
    }

    /** `clear_render_target_views`: the whole view, no rectangles. */
    method ClearRenderTargetViews(rtv: DescriptorHandle, clearColor: seq<real>)
      requires Valid() && |clearColor| == 4
      modifies this`calls
      ensures Valid()
      ensures calls == old(calls) + [ClearRenderTargetView(rtv.cpu, clearColor, 0)]
    {
      Record(ClearRenderTargetView(rtv.cpu, clearColor, 0));
    }

    /** `clear_depth_stencil_view`: only the depth plane is cleared, although a
        stencil value is passed along. */
    method ClearDepthStencil(dsv: DescriptorHandle, depth: real, stencil: nat)
      requires Valid() && stencil < U32_LIMIT
      modifies this`calls
      ensures Valid()
      ensures calls == old(calls) + [ClearDepthStencilView(dsv.cpu, ClearDepth, depth, stencil, 0)]
    {
      Record(ClearDepthStencilView(dsv.cpu, ClearDepth, depth, stencil, 0));
    }

    /** `set_render_targets`: every render-target handle in order, and a depth-stencil
        handle exactly when one is supplied. */
    method SetRenderTargets(rtvs: seq<DescriptorHandle>, dsv: Option<DescriptorHandle>)
      requires Valid()
      modifies this`calls
      ensures Valid()
      ensures calls == old(calls) + [OMSetRenderTargets(Wrap32(|rtvs|), CpuHandles(rtvs), true,
                                                        if dsv.Some? then Some(dsv.value.cpu) else None)]
    {
      var cpus: seq<nat> := [];
      var i := 0;
      while i < |rtvs|
        invariant 0 <= i <= |rtvs|
        invariant cpus == CpuHandles(rtvs[..i])
      {
        assert rtvs[..i + 1][..i] == rtvs[..i];
        cpus := cpus + [rtvs[i].cpu];
        i := i + 1;
      }
      assert rtvs[..|rtvs|] == rtvs;
      if dsv.Some? {
        Record(OMSetRenderTargets(Wrap32(|cpus|), cpus, true, Some(dsv.value.cpu)));
      } else {
        Record(OMSetRenderTargets(Wrap32(|cpus|), cpus, true, None));
      }
    }

    /** `set_primitive_topology`. */
    method SetPrimitiveTopology(topology: nat)
      requires Valid()
      modifies this`calls
      ensures Valid()
      ensures calls == old(calls) + [IASetPrimitiveTopology(topology)]
    {
      Record(IASetPrimitiveTopology(topology));
    }

    /** `set_index_buffer`: always 16-bit indices, and the buffer's size narrowed to `uint32_t`. */
    method SetIndexBuffer(buffer: Buffer)
      requires Valid()
      modifies this`calls
      ensures Valid()
      ensures calls == old(calls) + [IASetIndexBuffer(buffer.resource, Wrap32(buffer.sizeInBytes), R16Uint)]
    {
      Record(IASetIndexBuffer(buffer.resource, Wrap32(buffer.sizeInBytes), R16Uint));
    }

    /** `set_bindless_graphics_root_signature`: the one root signature of the engine. */
    method SetBindlessGraphicsRootSignature(rootSignature: nat)
      requires Valid()
      modifies this`calls
      ensures Valid()
      ensures calls == old(calls) + [SetGraphicsRootSignature(rootSignature)]
    {
      Record(SetGraphicsRootSignature(rootSignature));
    }

    /** `set_pipeline_state`. */
    method SetPipeline(pipelineState: nat)
      requires Valid()
      modifies this`calls
      ensures Valid()
      ensures calls == old(calls) + [SetPipelineState(pipelineState)]
    {
      Record(SetPipelineState(pipelineState));
    }

    /** `set_graphics_32_bit_root_constants`: all 64 constants of root parameter 0, from offset 0. */
    method SetGraphicsRootConstants(data: seq<byte>)
      requires Valid()
      modifies this`calls
      ensures Valid()
      ensures calls == old(calls) + [SetGraphicsRoot32BitConstants(0, NUM_32_BIT_ROOT_CONSTANTS, data, 0)]
    {
      Record(SetGraphicsRoot32BitConstants(0, NUM_32_BIT_ROOT_CONSTANTS, data, 0));
    }

    /** `set_viewport_and_scissor_rect`: one viewport, then one scissor rectangle. */
    method SetViewportAndScissorRect(viewport: Viewport, scissorRect: Rect)
      requires Valid()
      modifies this`calls
      ensures Valid()
      ensures calls == old(calls) + [RSSetViewports(1, viewport), RSSetScissorRects(1, scissorRect)]
    {
      Record(RSSetViewports(1, viewport));
      Record(RSSetScissorRects(1, scissorRect));
    }

    /** `draw_instanced`: from vertex 0 and instance 0. */
    method Draw(vertexCount: nat, instanceCount: nat)
      requires Valid()
      modifies this`calls
      ensures Valid()
      ensures calls == old(calls) + [DrawInstanced(vertexCount, instanceCount, 0, 0)]
    {
      Record(DrawInstanced(vertexCount, instanceCount, 0, 0));
    }

    /** `draw_indexed_instanced`: from index 0, base vertex 0 and instance 0. */
    method DrawIndexed(indexCount: nat, instanceCount: nat)
      requires Valid()
      modifies this`calls
      ensures Valid()
      ensures calls == old(calls) + [DrawIndexedInstanced(indexCount, instanceCount, 0, 0, 0)]
    {
      Record(DrawIndexedInstanced(indexCount, instanceCount, 0, 0, 0));
    }
  }
}

=== FILE: common.dfy ===
/**
 * Shared vocabulary of the engine model: optional values, results of operations
 * that can end in a fatal log (`Log::critical` throws), fixed-width integer
 * arithmetic and the C++ integer division used by `std::chrono::duration_cast`.
 */
module Common {

  datatype Option<T> = None | Some(value: T)

  /** Why an operation gave up: each kind is one message the engine hands to
      `Log::critical` (which throws) or one standard-library exception it lets escape. */
  datatype Error =
    | HResultFailed       // `throw_if_failed` on a failed HRESULT
    | EmptyBuffer         // `create_buffer` given no data for a non-constant buffer
    | NotImplemented      // `create_texture` for a usage the device does not handle
    | BadIndex            // `std::vector::at` past the end
    | BadOptionalAccess   // `std::optional::value` on an empty optional
    | BadVariantAccess    // `std::get` asking a variant for the alternative it does not hold
    | GltfLoadFailed      // the glTF file could not be read
    | UnsupportedModelExtension  // a model file that is neither `.gltf` nor `.glb`
    | GltfParseFailed     // the glTF parser reported an error
    | RootDirectoryNotFound  // no directory on the way up holds the engine's data
    | ShaderCompileFailed // the compiler call itself failed
    | ShaderDiagnostics   // the compiler reported errors about the source
    | InstanceAlreadyExists  // a second instance of a singleton type
    | InstanceDoesNotExist   // `get` on a singleton type with no instance
    | BadArraySubscript   // `std::array::at` past the end

  /** The text the engine logs (or the exception's `what()`) for each kind; for
      messages that carry values, the format string. */
  function Message(e: Error): string
  {
    match e
    case HResultFailed => "Hresult failed"
    case EmptyBuffer =>
      "Attempting to create buffer with no data (Only constant buffers can be created with no initial data"
    case NotImplemented => "This function has not been implemented yet!"
    case BadIndex => "invalid vector subscript"
    case BadOptionalAccess => "bad optional access"
    case BadVariantAccess => "bad variant access"
    case GltfLoadFailed => "Failed to load GLTF data from model with path : "
    case UnsupportedModelExtension => "GLTF file extension {} is unsupported. The supported types are : GLTF and GLB"
    case GltfParseFailed => "Error while loading model {}. GLTF error code : {}"
    case RootDirectoryNotFound => "Could not locate root directory. Do you have a data folder in project directory?"
    case ShaderCompileFailed => "Failed to compile shader with path : {}"
    case ShaderDiagnostics => "Shader path : {}, Error : {}"
    case InstanceAlreadyExists => "Instance already exist for type {}"
    case InstanceDoesNotExist => "Instance does not exist for type {}"
    case BadArraySubscript => "invalid array<T, N> subscript"
  }

  /** The outcome of an operation that either yields a value or aborts. */
  datatype Result<T> = Ok(value: T) | Fail(error: Error)

  /** The outcome of an operation that yields nothing but may abort. */
  datatype Outcome = Pass | Abort(error: Error)

  /** An unsigned 8-bit value, the element of every byte buffer in the engine. */
  newtype byte = x: int | 0 <= x < 256

  const U16_LIMIT: nat := 0x1_0000
  const U32_LIMIT: nat := 0x1_0000_0000
  const U64_LIMIT: nat := 0x1_0000_0000_0000_0000

  /** `static_cast<uint32_t>(-1)`, the engine's "no index" marker. */
  const INVALID_INDEX_U32: nat := 0xFFFF_FFFF

  /** Reduction of an integer into `uint32_t`, as C++ unsigned arithmetic does. */
  function Wrap32(x: int): (r: nat)
    ensures r < U32_LIMIT
    ensures 0 <= x < U32_LIMIT ==> r == x
  {
    x % U32_LIMIT
  }

  /** Reduction of an integer into `uint64_t` / `size_t`. */
  function Wrap64(x: int): (r: nat)
    ensures r < U64_LIMIT
    ensures 0 <= x < U64_LIMIT ==> r == x
  {
    x % U64_LIMIT
  }

  /** `std::to_string` / `std::to_wstring` of an unsigned value: its decimal digits. */
  function Decimal(n: nat): (s: string)
    ensures |s| > 0 && forall i | 0 <= i < |s| :: '0' <= s[i] <= '9'
    decreases n
  {
    var digit := [(48 + n % 10) as char];
    if n < 10 then digit else Decimal(n / 10) + digit
  }

  function Max(a: int, b: int): (r: int)
    ensures r >= a && r >= b && (r == a || r == b)
  {
    if a >= b then a else b
  }

  /** C++ integer division, which truncates toward zero (Dafny's `/` is Euclidean). */
  function TruncDiv(a: int, b: nat): (q: int)
    requires b > 0
    ensures a >= 0 ==> q >= 0 && q * b <= a < (q + 1) * b
    ensures a <= 0 ==> q <= 0 && (q - 1) * b < a <= q * b
  {
    if a >= 0 then a / b else -((-a) / b)
  }

  /** Truncating division is odd: negating the dividend negates the quotient. */
  lemma TruncDivNegate(a: int, b: nat)
    requires b > 0
    ensures TruncDiv(-a, b) == -TruncDiv(a, b)
  {
  }

  // ------------------------------------------------- integer arithmetic facts

  lemma MulNonNegative(a: int, b: int)
    requires a >= 0 && b >= 0
    ensures a * b >= 0
  {
  }

  /** Multiplying by a non-negative factor keeps the order. */
  lemma MulMonotone(a: int, b: int, c: int)
    requires a >= 0 && b <= c
    ensures a * b <= a * c
  {
    MulNonNegative(a, c - b);
    assert a * c - a * b == a * (c - b);
  }

  /** A product of a positive factor and a whole number is outside (-d, d) unless the number is 0. */
  lemma MulAwayFromZero(d: int, t: int)
    ensures d > 0 && t >= 1 ==> d * t >= d
    ensures d > 0 && t <= -1 ==> d * t <= -d
  {
    if d > 0 && t >= 1 {
      MulNonNegative(d, t - 1);
      assert d * t == d * (t - 1) + d;
    }
    if d > 0 && t <= -1 {
      MulNonNegative(d, -t - 1);
      assert d * t == -(d * (-t - 1)) - d;
    }
  }

  /** Quotient and remainder are determined by any decomposition with a
      remainder in range. */
  lemma DivModUnique(a: int, m: int, k: int, r: int)
    requires m > 0 && 0 <= r < m && a == m * k + r
    ensures a % m == r && a / m == k
  {
    var k', r' := a / m, a % m;
    assert m * (k' - k) == r - r';
    MulAwayFromZero(m, k' - k);
  }
}

=== FILE: d3d_utils.dfy ===
/**
 * Direct3D 12 helpers of the renderer: HRESULT checking, debug names and the
 * names of command-list and descriptor-heap types.
 *
 * D3D enumerations are plain integers (a C++ enum may hold any value of its
 * underlying type), so each naming function has a fallback for codes that are
 * not one of the named enumerators.
 */
module D3DUtils {
  import opened Common

  /** A COM result code: a signed 32-bit integer. */
  newtype HResult = x: int | -0x8000_0000 <= x < 0x8000_0000

  const S_OK: HResult := 0
  const E_FAIL: HResult := -0x7FFF_BFFB   // 0x80004005 as a signed value

  /** `FAILED(hr)`: the severity bit is set, i.e. the code is negative. */
  predicate Failed(hr: HResult) { hr < 0 }

  // D3D12_COMMAND_LIST_TYPE enumerators.
  const COMMAND_LIST_TYPE_DIRECT: int := 0
  const COMMAND_LIST_TYPE_BUNDLE: int := 1
  const COMMAND_LIST_TYPE_COMPUTE: int := 2
  const COMMAND_LIST_TYPE_COPY: int := 3

  // D3D12_DESCRIPTOR_HEAP_TYPE enumerators.
  const DESCRIPTOR_HEAP_TYPE_CBV_SRV_UAV: int := 0
  const DESCRIPTOR_HEAP_TYPE_SAMPLER: int := 1
  const DESCRIPTOR_HEAP_TYPE_RTV: int := 2
  const DESCRIPTOR_HEAP_TYPE_DSV: int := 3

  const INVALID_COMMAND_QUEUE_TYPE: string := "INVALID COMMAND QUEUE TYPE"
  const INVALID_DESCRIPTOR_HEAP_TYPE: string := "INVALID DESCRIPTOR HEAP TYPE"

  /** `throw_if_failed`: a failed HRESULT ends in a fatal log, any other passes. */
  function ThrowIfFailed(hr: HResult): (r: Outcome)
    ensures r.Abort? <==> Failed(hr)
    ensures r.Abort? ==> r.error == HResultFailed
  {
    if Failed(hr) then Abort(HResultFailed) else Pass
  }

  /** What `set_name` did: whether `SetName` was issued on the object, and how it ended. */
  datatype NameRequest = NameRequest(issued: bool, outcome: Outcome)

  /** `set_name`: only debug builds call `SetName`, and its result goes through
      `throw_if_failed`; `setNameResult` is what `SetName` would return. */
  function SetName(debugBuild: bool, setNameResult: HResult): (r: NameRequest)
    ensures r.issued == debugBuild
    ensures r.outcome.Abort? <==> debugBuild && Failed(setNameResult)
  {
    if debugBuild then NameRequest(true, ThrowIfFailed(setNameResult)) else NameRequest(false, Pass)
  }

  /** `command_list_type_to_wstring`. */
  function CommandListTypeName(commandListType: int): (name: string)
    ensures commandListType == COMMAND_LIST_TYPE_DIRECT <==> name == "Direct"
    ensures commandListType == COMMAND_LIST_TYPE_COMPUTE <==> name == "Compute"
    ensures commandListType == COMMAND_LIST_TYPE_COPY <==> name == "Copy"
  {
    if commandListType == COMMAND_LIST_TYPE_DIRECT then "Direct"
    else if commandListType == COMMAND_LIST_TYPE_COMPUTE then "Compute"
    else if commandListType == COMMAND_LIST_TYPE_COPY then "Copy"
    else INVALID_COMMAND_QUEUE_TYPE
  }

  /** Reading a command-list type back from its name; the fallback name reads as nothing. */
  function CommandListTypeOfName(name: string): Option<int>
  {
    if name == "Direct" then Some(COMMAND_LIST_TYPE_DIRECT)
    else if name == "Compute" then Some(COMMAND_LIST_TYPE_COMPUTE)
    else if name == "Copy" then Some(COMMAND_LIST_TYPE_COPY)
    else None
  }

  /** The name identifies the type for the three named types, and every other
      code (bundles, video queues, arbitrary values) shares the fallback name. */
  lemma CommandListTypeNameRoundTrip(commandListType: int)
    ensures CommandListTypeOfName(CommandListTypeName(commandListType)) ==
      (if commandListType in {COMMAND_LIST_TYPE_DIRECT, COMMAND_LIST_TYPE_COMPUTE, COMMAND_LIST_TYPE_COPY}
       then Some(commandListType) else None)
    ensures commandListType !in {COMMAND_LIST_TYPE_DIRECT, COMMAND_LIST_TYPE_COMPUTE, COMMAND_LIST_TYPE_COPY} ==>
      CommandListTypeName(commandListType) == INVALID_COMMAND_QUEUE_TYPE
  {
  }

  /** `descriptor_heap_type_to_wstring`. */
  function DescriptorHeapTypeName(heapType: int): (name: string)
    ensures heapType == DESCRIPTOR_HEAP_TYPE_CBV_SRV_UAV <==> name == "CBV SRV UAV"
    ensures heapType == DESCRIPTOR_HEAP_TYPE_SAMPLER <==> name == "Sampler"
    ensures heapType == DESCRIPTOR_HEAP_TYPE_RTV <==> name == "RTV"
    ensures heapType == DESCRIPTOR_HEAP_TYPE_DSV <==> name == "DSV"
  {
    if heapType == DESCRIPTOR_HEAP_TYPE_CBV_SRV_UAV then "CBV SRV UAV"
    else if heapType == DESCRIPTOR_HEAP_TYPE_SAMPLER then "Sampler"
    else if heapType == DESCRIPTOR_HEAP_TYPE_RTV then "RTV"
    else if heapType == DESCRIPTOR_HEAP_TYPE_DSV then "DSV"
    else INVALID_DESCRIPTOR_HEAP_TYPE
  }

  function DescriptorHeapTypeOfName(name: string): Option<int>
  {
    if name == "CBV SRV UAV" then Some(DESCRIPTOR_HEAP_TYPE_CBV_SRV_UAV)
    else if name == "Sampler" then Some(DESCRIPTOR_HEAP_TYPE_SAMPLER)
    else if name == "RTV" then Some(DESCRIPTOR_HEAP_TYPE_RTV)
    else if name == "DSV" then Some(DESCRIPTOR_HEAP_TYPE_DSV)
    else None
  }

  predicate IsDescriptorHeapType(heapType: int)
  {
    0 <= heapType <= 3
  }

  lemma DescriptorHeapTypeNameRoundTrip(heapType: int)
    ensures DescriptorHeapTypeOfName(DescriptorHeapTypeName(heapType)) ==
      (if IsDescriptorHeapType(heapType) then Some(heapType) else None)
    ensures !IsDescriptorHeapType(heapType) ==> DescriptorHeapTypeName(heapType) == INVALID_DESCRIPTOR_HEAP_TYPE
  {
  }
}

=== FILE: descriptor_heap.dfy ===
/**
 * Descriptor heaps of the Direct3D 12 backend: a contiguous block of descriptors
 * with a handle to its first slot and a "current" handle that is bumped each time
 * a descriptor is written (a linear allocator that never frees).
 *
 * A `DescriptorHandle` is a C++ value struct (copied into and out of the heap), so
 * it is a datatype here; the heap itself is updated in place, so it is a class.
 * CPU handles are `size_t`, GPU handles `uint64_t`, sizes and indices `uint32_t`:
 * the arithmetic wraps accordingly.
 */
module DescriptorHeap {
  import opened Common
  import opened D3DUtils

  datatype DescriptorHandle = DescriptorHandle(cpu: nat, gpu: nat, descriptorSize: nat, index: nat)
  {
    /** Every field fits its C++ type. */
    predicate WellFormed()
    {
      cpu < U64_LIMIT && gpu < U64_LIMIT && descriptorSize < U32_LIMIT && index < U32_LIMIT
    }

    /** `DescriptorHandle::offset`: move `count` descriptors forward. */
    function Offset(count: nat): (h: DescriptorHandle)
      requires WellFormed() && count < U32_LIMIT
      ensures h.WellFormed() && h.descriptorSize == descriptorSize
    {
      DescriptorHandle(Advance(cpu, count, descriptorSize), Advance(gpu, count, descriptorSize),
                       descriptorSize, Wrap32(index + count))
    }
  }

  /** The address `count` descriptors of `size` bytes past `address`, in 64-bit arithmetic. */
  function Advance(address: int, count: nat, size: nat): (a: nat)
    ensures a < U64_LIMIT
  {
    Wrap64(address + count * size)
  }

  /** Advancing by `a` and then by `b` descriptors is advancing by `a + b`. */
  lemma AdvanceAdditive(address: int, a: nat, b: nat, size: nat)
    ensures Advance(Advance(address, a, size), b, size) == Advance(address, a + b, size)
  {
    Distribute(a, b, size);
    Wrap64Step(address, a * size, b * size, (a + b) * size);
  }

  /** Adding to a wrapped value wraps like adding to the unwrapped one. */
  lemma Wrap64Add(x: int, y: int)
    ensures Wrap64(Wrap64(x) + y) == Wrap64(x + y)
  {
    ModShift(x, y, U64_LIMIT);
  }

  lemma Wrap32Add(x: int, y: int)
    ensures Wrap32(Wrap32(x) + y) == Wrap32(x + y)
  {
    ModShift(x, y, U32_LIMIT);
  }

  /** Advancing an address by `x` and then by `y` is advancing it by `x + y`. */
  lemma Wrap64Step(s: int, x: int, y: int, z: int)
    requires z == x + y
    ensures Wrap64(Wrap64(s + x) + y) == Wrap64(s + z)
  {
    Wrap64Add(s + x, y);
    assert s + x + y == s + z;
  }

  /** Taking the base back off an address that did not wrap gives the offset. */
  lemma Wrap64Unbase(base: int, p: int)
    requires 0 <= p < U64_LIMIT
    ensures Wrap64(Wrap64(base + p) - base) == p
  {
    Wrap64Add(base + p, -base);
    assert base + p + -base == p;
  }

  lemma Distribute(a: int, b: int, d: int)
    ensures (a + b) * d == a * d + b * d
  {
  }

  lemma ModShift(x: int, y: int, m: int)
    requires m > 0
    ensures (x % m + y) % m == (x + y) % m
  {
    var q := x / m;
    var r := (x + y) % m;
    assert x + y == m * ((x + y) / m) + r;
    assert x % m + y == m * ((x + y) / m - q) + r;
    DivModUnique(x % m + y, m, (x + y) / m - q, r);
  }

  /** Offsetting twice is offsetting once by the sum (while the sum fits a `uint32_t`). */
  lemma OffsetAdditive(h: DescriptorHandle, a: nat, b: nat)
    requires h.WellFormed() && a + b < U32_LIMIT
    ensures h.Offset(a).Offset(b) == h.Offset(a + b)
  {
    AdvanceAdditive(h.cpu, a, b, h.descriptorSize);
    AdvanceAdditive(h.gpu, a, b, h.descriptorSize);
    Wrap32Add(h.index + a, b);
  }

  lemma ProductFits64(i: nat, d: nat)
    requires i < U32_LIMIT && d < U32_LIMIT
    ensures i * d < U64_LIMIT
  {
    var m := U32_LIMIT - 1;
    MulMonotone(i, d, m);
    MulMonotone(m, i, m);
    assert i * m == m * i;
    assert m * m < U64_LIMIT;
  }

  /** The address of slot `i`, taken relative to the start and divided by the
      descriptor size, is `i` again. */
  lemma AddressRoundTrip(base: nat, i: nat, d: nat)
    requires base < U64_LIMIT && i < U32_LIMIT && 0 < d < U32_LIMIT
    ensures Wrap32(Wrap64(Wrap64(base + i * d) - base) / d) == i
  {
    var p := i * d;
    ProductFits64(i, d);
    Wrap64Unbase(base, p);
    DivModUnique(p, d, i, 0);
  }

  /** `D3D12_DESCRIPTOR_HEAP_FLAG_SHADER_VISIBLE` is set exactly for CBV/SRV/UAV and sampler heaps. */
  predicate ShaderVisible(heapType: int)
  {
    heapType == DESCRIPTOR_HEAP_TYPE_CBV_SRV_UAV || heapType == DESCRIPTOR_HEAP_TYPE_SAMPLER
  }

  class DescriptorHeap {
    const heapType: int
    const numDescriptors: nat
    const descriptorSize: nat
    /** `m_descriptor_handle_for_start`, fixed once the heap is built. */
    const start: DescriptorHandle
    /** `m_current_descriptor_handle`, the next free slot. */
    var current: DescriptorHandle
    /** How many descriptors the current handle has been moved past, without wrap-around. */
    ghost var handedOut: nat

    /** The start handle is slot 0 and carries the heap's descriptor size. */
    predicate StartValid()
    {
      start.WellFormed() && start.index == 0 && start.descriptorSize == descriptorSize
    }

    ghost predicate Valid()
      reads this
    {
      StartValid() && current.WellFormed() && current.descriptorSize == descriptorSize &&
      current.index == Wrap32(handedOut) &&
      current.cpu == Advance(start.cpu, handedOut, descriptorSize) &&
      current.gpu == Advance(start.gpu, handedOut, descriptorSize)
    }

    /** The heap as the constructor leaves it once D3D has created it; the
        D3D-provided increment size and heap-start addresses are parameters. */
    constructor (heapType: int, numDescriptors: nat, descriptorSize: nat, cpuStart: nat, gpuStart: nat)
      requires numDescriptors < U32_LIMIT && descriptorSize < U32_LIMIT
      requires cpuStart < U64_LIMIT && gpuStart < U64_LIMIT
      ensures Valid() && handedOut == 0
      ensures this.heapType == heapType && this.numDescriptors == numDescriptors
      ensures this.descriptorSize == descriptorSize
      ensures start.cpu == cpuStart
      ensures start.gpu == (if ShaderVisible(heapType) then gpuStart else 0)
      ensures current == start
    {
      this.heapType := heapType;
      this.numDescriptors := numDescriptors;
      this.descriptorSize := descriptorSize;
      var s := DescriptorHandle(cpuStart, if ShaderVisible(heapType) then gpuStart else 0, descriptorSize, 0);
      start := s;
      current := s;
      handedOut := 0;
    }

    /** The whole constructor: `CreateDescriptorHeap` and `SetName` go through
        `throw_if_failed`, so either failing aborts construction. */
    static method Create(heapType: int, numDescriptors: nat, createResult: HResult,
                         debugBuild: bool, setNameResult: HResult,
                         descriptorSize: nat, cpuStart: nat, gpuStart: nat)
      returns (r: Result<DescriptorHeap>)
      requires numDescriptors < U32_LIMIT && descriptorSize < U32_LIMIT
      requires cpuStart < U64_LIMIT && gpuStart < U64_LIMIT
      ensures r.Fail? <==> Failed(createResult) || (debugBuild && Failed(setNameResult))
      ensures r.Fail? ==> r.error == HResultFailed
      ensures r.Ok? ==> fresh(r.value) && r.value.Valid() && r.value.handedOut == 0 &&
                        r.value.heapType == heapType && r.value.current == r.value.start &&
                        r.value.start.gpu == (if ShaderVisible(heapType) then gpuStart else 0)
    {
      var created := ThrowIfFailed(createResult);
      if created.Abort? {
        return Fail(created.error);
      }
      var named := SetName(debugBuild, setNameResult);
      if named.outcome.Abort? {
        return Fail(named.outcome.error);
      }
      var heap := new DescriptorHeap(heapType, numDescriptors, descriptorSize, cpuStart, gpuStart);
      r := Ok(heap);
    }

    /** `get_handle_at_index`: a copy of the start handle moved `index` slots on. */
    function GetHandleAtIndex(index: nat): (h: DescriptorHandle)
      requires StartValid() && index < U32_LIMIT
      ensures h.WellFormed() && h.index == index && h.descriptorSize == descriptorSize
    {
      start.Offset(index)
    }

    /** `get_descriptor_index`: the slot a handle points at, from its CPU address. */
    function GetDescriptorIndex(h: DescriptorHandle): (index: nat)
      requires descriptorSize > 0
      ensures index < U32_LIMIT
    {
      Wrap32(Wrap64(h.cpu - start.cpu) / descriptorSize)
    }

    /** `offset_current_handle`. */
    method OffsetCurrentHandle(count: nat)
      requires Valid() && count < U32_LIMIT
      modifies this`current, this`handedOut
      ensures Valid()
      ensures current == old(current).Offset(count)
      ensures handedOut == old(handedOut) + count
    {
      var next := current.Offset(count);
      AdvanceAdditive(start.cpu, handedOut, count, descriptorSize);
      AdvanceAdditive(start.gpu, handedOut, count, descriptorSize);
      Wrap32Add(handedOut, count);
      current := next;
      handedOut := handedOut + count;
    }

    /** Reading back the index of a handle made by `get_handle_at_index` gives the
        index it was made for: CPU addresses wrap at 2^64, but a `uint32_t`
        index times a `uint32_t` size never reaches that. */
    lemma {:induction false} IndexRoundTrip(index: nat)
      requires StartValid() && descriptorSize > 0 && index < U32_LIMIT
      ensures GetDescriptorIndex(GetHandleAtIndex(index)) == index
    {
      AddressRoundTrip(start.cpu, index, descriptorSize);
    }

    /** While fewer than 2^32 descriptors have been handed out, the current handle's
        address and its index agree. */
    lemma {:induction false} CurrentIndexConsistent()
      requires Valid() && descriptorSize > 0 && handedOut < U32_LIMIT
      ensures GetDescriptorIndex(current) == current.index == handedOut
    {
      AddressRoundTrip(start.cpu, handedOut, descriptorSize);
    }
  }
}

=== FILE: device.dfy ===
/**
 * The graphics device of the Direct3D 12 backend: it owns the three descriptor
 * heaps and creates buffers and textures, writing one descriptor per view into
 * the heaps' current slots.
 *
 * The ID3D12Device is not modelled: every call the device makes on it is
 * appended to `calls`, and resources are numbered in creation order. The heap
 * slots a buffer or texture receives, what its memory holds and which calls were
 * made are the state the contracts speak about.
 */
module Device {
  import opened Common
  import opened D3DUtils
  import opened DescriptorHeap
  import opened Buffer

  /** Back buffers of the swapchain; each has a render-target view in the RTV heap. */
  const NUM_BACK_BUFFERS: nat := 3
  const FRAMES_IN_FLIGHT: nat := 3

  const RTV_HEAP_CAPACITY: nat := 3
  const CBV_SRV_UAV_HEAP_CAPACITY: nat := 10000
  const DSV_HEAP_CAPACITY: nat := 3

  // ---------------------------------------------------------------- textures

  datatype TextureUsage = DepthStencilTexture | ShaderResourceTexture | UAVTexture | RenderTexture

  /** `TextureCreationDesc`: sizes are `uint32_t`, a `DXGI_FORMAT` is a code. */
  datatype TextureCreationDesc = TextureCreationDesc(
    usage: TextureUsage, format: nat, mipLevels: nat, numChannels: nat, bytesPerPixel: nat,
    arraySize: nat, width: nat, height: nat, name: string)
  {
    predicate WellFormed()
    {
      mipLevels < U32_LIMIT && bytesPerPixel < U32_LIMIT && width < U32_LIMIT && height < U32_LIMIT
    }
  }

  /** A descriptor with the header's defaults: one mip, four channels of one byte, one slice. */
  function DefaultTextureDesc(usage: TextureUsage, format: nat, width: nat, height: nat, name: string): (desc: TextureCreationDesc)
    ensures desc.mipLevels == 1 && desc.numChannels == 4 && desc.bytesPerPixel == 4 && desc.arraySize == 1
    ensures desc.usage == usage && desc.width == width && desc.height == height
  {
    TextureCreationDesc(usage, format, 1, 4, 4, 1, width, height, name)
  }

  datatype Texture = Texture(resource: ResourceId, srvIndex: nat, uavIndex: nat, rtvIndex: nat, dsvIndex: nat)

  datatype ResourceFlags = AllowDepthStencil | AllowUnorderedAccess | AllowRenderTarget | NoFlags

  datatype ResourceState =
    | GenericRead | CommonState | CopyDest | DepthWrite | PixelShaderResource | RenderTarget | Present

  /** `D3D12_CLEAR_VALUE`. */
  datatype ClearValue = DepthStencilClear(format: nat, depth: real, stencil: nat)
                      | ColorClear(format: nat, red: real, green: real, blue: real, alpha: real)

  /** Only depth-stencil and shader-resource textures can be created; every other
      usage ends in a fatal log before anything is created. */
  predicate TextureSupported(usage: TextureUsage)
  {
    usage == DepthStencilTexture || usage == ShaderResourceTexture
  }

  /** The resource flags chosen per usage. */
  function TextureFlags(usage: TextureUsage): (flags: ResourceFlags)
    ensures flags == AllowDepthStencil <==> usage == DepthStencilTexture
    ensures flags == AllowUnorderedAccess <==> usage == ShaderResourceTexture || usage == UAVTexture
    ensures flags == AllowRenderTarget <==> usage == RenderTexture
  {
    match usage
    case DepthStencilTexture => AllowDepthStencil
    case ShaderResourceTexture => AllowUnorderedAccess
    case UAVTexture => AllowUnorderedAccess
    case RenderTexture => AllowRenderTarget
  }

  /** The state a texture resource starts in. */
  function InitialTextureState(usage: TextureUsage): ResourceState
  {
    match usage
    case DepthStencilTexture => DepthWrite
    case RenderTexture => PixelShaderResource
    case _ => CopyDest
  }

  /** The optimised clear value: depth 1 and stencil 1 for depth textures, opaque
      black for render targets, none otherwise. */
  function TextureClearValue(usage: TextureUsage, format: nat): Option<ClearValue>
  {
    match usage
    case DepthStencilTexture => Some(DepthStencilClear(format, 1.0, 1))
    case RenderTexture => Some(ColorClear(format, 0.0, 0.0, 0.0, 1.0))
    case _ => None
  }

  /** Only a depth-stencil texture can be depth-cleared, only a render texture
      colour-cleared, and every clear value carries the texture's own format. */
  lemma ClearValueMatchesUsage(usage: TextureUsage, format: nat)
    ensures TextureClearValue(usage, format).Some? <==> usage in {DepthStencilTexture, RenderTexture}
    ensures TextureClearValue(usage, format).Some? ==>
      TextureClearValue(usage, format).value.format == format &&
      (TextureClearValue(usage, format).value.DepthStencilClear? <==> TextureFlags(usage) == AllowDepthStencil) &&
      (TextureClearValue(usage, format).value.ColorClear? <==> TextureFlags(usage) == AllowRenderTarget)
    ensures InitialTextureState(usage) == DepthWrite <==> TextureFlags(usage) == AllowDepthStencil
  {
  }

  /** Bytes uploaded for a texture: width * height * bytes per pixel in `uint32_t`. */
  function TextureUploadSize(desc: TextureCreationDesc): (size: nat)
    ensures size < U32_LIMIT
    ensures desc.width * desc.height * desc.bytesPerPixel < U32_LIMIT ==>
      size == desc.width * desc.height * desc.bytesPerPixel
  {
    Wrap32(desc.width * desc.height * desc.bytesPerPixel)
  }

  /** The size wraps: a 65536 x 65536 single-byte texture uploads nothing. */
  lemma TextureUploadSizeWraps()
    ensures TextureUploadSize(TextureCreationDesc(ShaderResourceTexture, 0, 1, 1, 1, 1, 65536, 65536, "")) == 0
  {
  }

  // ------------------------------------------------------------------ buffers

  /** `sizeof(T) * max(data.size(), 1)`: a buffer holds all its data, and always
      has room for at least one element. */
  function BufferSize(elementSize: nat, count: nat): (size: nat)
    ensures size >= elementSize * count && size >= elementSize
    ensures count == 0 ==> size == elementSize
  {
    MulMonotone(elementSize, 1, Max(count, 1));
    elementSize * Max(count, 1)
  }

  /** Usages that take a slot of the CBV/SRV/UAV heap: an SRV for structured
      buffers and a CBV for constant buffers; the rest get no view. */
  predicate TakesDescriptor(usage: BufferUsage)
  {
    usage == StructuredBuffer || usage == ConstantBuffer
  }

  /** The bytes of a span of elements, in order. */
  function Flatten(elements: seq<seq<byte>>): seq<byte>
  {
    if elements == [] then [] else elements[0] + Flatten(elements[1..])
  }

  lemma {:induction false} FlattenLength(elements: seq<seq<byte>>, elementSize: nat)
    requires forall e | e in elements :: |e| == elementSize
    ensures |Flatten(elements)| == elementSize * |elements|
  {
    if elements != [] {
      var rest := elements[1..];
      assert forall e | e in rest :: e in elements;
      FlattenLength(rest, elementSize);
      assert elements[0] in elements;
      assert |Flatten(elements)| == elementSize + elementSize * |rest|;
      MulSucc(elementSize, |rest|);
    }
  }

  lemma MulSucc(a: int, n: int)
    ensures a * (n + 1) == a + a * n
  {
  }

  // ------------------------------------------------------------ device calls

  datatype HeapKind = UploadHeap | DefaultHeap

  /** The ID3D12Device calls (and copy-queue submissions) the device makes. */
  datatype DeviceCall =
    | CreateBufferResource(heap: HeapKind, sizeInBytes: nat, initialState: ResourceState, resource: ResourceId)
    | CreateTextureResource(width: nat, height: nat, mipLevels: nat, format: nat, flags: ResourceFlags,
                            initialState: ResourceState, clearValue: Option<ClearValue>, resource: ResourceId)
    | MapResource(resource: ResourceId)
    /** `UpdateSubresources` from an upload resource, then execute and flush the copy queue. */
    | CopyToGpu(destination: ResourceId, source: ResourceId, bytes: seq<byte>, rowPitch: nat)
    | CreateBufferSrv(resource: ResourceId, descriptor: nat, numElements: nat, stride: nat)
    | CreateTextureSrv(resource: ResourceId, descriptor: nat, format: nat, mipLevels: nat)
    | CreateCbv(resource: ResourceId, descriptor: nat, sizeInBytes: nat)
    | CreateDsv(resource: ResourceId, descriptor: nat, format: nat)

  /** The resource a buffer of this usage ends up with: the upload resource itself
      for a constant buffer, the default-heap copy made after it otherwise. */
  function BufferResource(usage: BufferUsage, upload: ResourceId): ResourceId
  {
    if usage == ConstantBuffer then upload else upload + 1
  }

  /** The calls `create_buffer` makes for its memory: an upload resource (mapped,
      for a constant buffer; a staging copy into a default-heap resource otherwise). */
  function BufferResourceCalls(usage: BufferUsage, size: nat, data: seq<seq<byte>>, upload: ResourceId): seq<DeviceCall>
  {
    [CreateBufferResource(UploadHeap, size, GenericRead, upload)] +
    (if usage == ConstantBuffer then [MapResource(upload)]
     else [CreateBufferResource(DefaultHeap, size, CommonState, upload + 1),
           CopyToGpu(upload + 1, upload, Flatten(data), size)])
  }

  /** The one view a buffer's usage calls for, written into heap slot `descriptor`. */
  function BufferViewCalls(usage: BufferUsage, resource: ResourceId, descriptor: nat, count: nat,
                           elementSize: nat, size: nat): seq<DeviceCall>
  {
    match usage
    case StructuredBuffer => [CreateBufferSrv(resource, descriptor, Wrap32(count), elementSize)]
    case ConstantBuffer => [CreateCbv(resource, descriptor, Wrap32(size))]
    case _ => []
  }

  /** The upload heap memory of a new constant buffer, with the first element of
      `data` (when there is one) copied to its start. */
  method MapConstantBuffer(size: nat, elementSize: nat, data: seq<seq<byte>>) returns (memory: array<byte>)
    requires elementSize <= size && forall e | e in data :: |e| == elementSize
    ensures fresh(memory) && memory.Length == size
    ensures |data| > 0 ==> memory[..elementSize] == data[0]
  {
    memory := new byte[size];
    if |data| > 0 {
      assert data[0] in data;
      var _ := Update(Buffer(0, 0, 0, 0, size, Some(memory)), data[0], elementSize);
      assert memory[..elementSize] == data[0][..elementSize];
    }
  }

  /** The calls `create_texture` makes for a supported usage. */
  function TextureCreationCalls(desc: TextureCreationDesc, data: Option<seq<byte>>, texture: ResourceId,
                                descriptor: nat): seq<DeviceCall>
    requires data.Some? ==> |data.value| >= TextureUploadSize(desc)
  {
    TextureResourceCalls(desc, data, texture) + TextureViewCalls(desc, texture, descriptor)
  }

  /** The texture resource and, given data, the upload of its first `size` bytes. */
  function TextureResourceCalls(desc: TextureCreationDesc, data: Option<seq<byte>>, texture: ResourceId): seq<DeviceCall>
    requires data.Some? ==> |data.value| >= TextureUploadSize(desc)
  {
    var size := TextureUploadSize(desc);
    [CreateTextureResource(desc.width, desc.height, desc.mipLevels % U16_LIMIT, desc.format,
                           TextureFlags(desc.usage), InitialTextureState(desc.usage),
                           TextureClearValue(desc.usage, desc.format), texture)] +
    (if data.Some?
     then [CreateBufferResource(UploadHeap, size, CommonState, texture + 1),
           CopyToGpu(texture, texture + 1, data.value[..size], Wrap32(desc.bytesPerPixel * desc.width))]
     else [])
  }

  /** The one view a texture's usage calls for, written into heap slot `descriptor`. */
  function TextureViewCalls(desc: TextureCreationDesc, texture: ResourceId, descriptor: nat): seq<DeviceCall>
  {
    match desc.usage
    case DepthStencilTexture => [CreateDsv(texture, descriptor, desc.format)]
    case ShaderResourceTexture => [CreateTextureSrv(texture, descriptor, desc.format, desc.mipLevels)]
    case _ => []
  }

  /** What D3D reports for one heap: its descriptor increment and heap-start addresses. */
  datatype HeapPlacement = HeapPlacement(descriptorSize: nat, cpuStart: nat, gpuStart: nat)
  {
    predicate WellFormed()
    {
      descriptorSize < U32_LIMIT && cpuStart < U64_LIMIT && gpuStart < U64_LIMIT
    }
  }

  class Device {
    const rtvHeap: DescriptorHeap
    const cbvSrvUavHeap: DescriptorHeap
    const dsvHeap: DescriptorHeap
    /** Calls made on the ID3D12Device so far, oldest first. */
    var calls: seq<DeviceCall>
    /** The number the next created resource receives. */
    var nextResource: ResourceId

    ghost function Repr(): set<object>
    {
      {this, rtvHeap, cbvSrvUavHeap, dsvHeap}
    }

    ghost predicate Valid()
      reads Repr()
    {
      rtvHeap != cbvSrvUavHeap && rtvHeap != dsvHeap && cbvSrvUavHeap != dsvHeap &&
      rtvHeap.Valid() && cbvSrvUavHeap.Valid() && dsvHeap.Valid() &&
      rtvHeap.heapType == DESCRIPTOR_HEAP_TYPE_RTV &&
      cbvSrvUavHeap.heapType == DESCRIPTOR_HEAP_TYPE_CBV_SRV_UAV &&
      dsvHeap.heapType == DESCRIPTOR_HEAP_TYPE_DSV
    }

    /** The heap part of the constructor: an RTV heap of three slots that starts
        out past the swapchain's back buffers (so it is already full), a
        shader-visible CBV/SRV/UAV heap of 10000 slots and a DSV heap of three. */
    constructor (rtv: HeapPlacement, cbvSrvUav: HeapPlacement, dsv: HeapPlacement)
      requires rtv.WellFormed() && cbvSrvUav.WellFormed() && dsv.WellFormed()
      ensures Valid() && fresh(Repr())
      ensures calls == [] && nextResource == 0
      ensures rtvHeap.numDescriptors == RTV_HEAP_CAPACITY && rtvHeap.handedOut == NUM_BACK_BUFFERS
      ensures rtvHeap.current == rtvHeap.start.Offset(NUM_BACK_BUFFERS)
      ensures rtvHeap.current.index == rtvHeap.numDescriptors
      ensures cbvSrvUavHeap.numDescriptors == CBV_SRV_UAV_HEAP_CAPACITY && cbvSrvUavHeap.current == cbvSrvUavHeap.start
      ensures cbvSrvUavHeap.start.gpu == cbvSrvUav.gpuStart && rtvHeap.start.gpu == 0 && dsvHeap.start.gpu == 0
      ensures dsvHeap.numDescriptors == DSV_HEAP_CAPACITY && dsvHeap.current == dsvHeap.start
    {
      var r := new DescriptorHeap(DESCRIPTOR_HEAP_TYPE_RTV, RTV_HEAP_CAPACITY, rtv.descriptorSize, rtv.cpuStart, rtv.gpuStart);
      r.OffsetCurrentHandle(NUM_BACK_BUFFERS);
      var c := new DescriptorHeap(DESCRIPTOR_HEAP_TYPE_CBV_SRV_UAV, CBV_SRV_UAV_HEAP_CAPACITY,
                                  cbvSrvUav.descriptorSize, cbvSrvUav.cpuStart, cbvSrvUav.gpuStart);
      var d := new DescriptorHeap(DESCRIPTOR_HEAP_TYPE_DSV, DSV_HEAP_CAPACITY, dsv.descriptorSize, dsv.cpuStart, dsv.gpuStart);
      rtvHeap, cbvSrvUavHeap, dsvHeap := r, c, d;
      calls, nextResource := [], 0;
    }

    /** `create_buffer<T>` with `sizeof(T) == elementSize` and `data` the span's
        elements as bytes. Only constant buffers may be created without data; a
        constant buffer gets only its first element copied in. The heap's
        capacity is never consulted. */
    method CreateBuffer(desc: BufferCreationDesc, elementSize: nat, data: seq<seq<byte>>) returns (r: Result<Buffer>)
      requires Valid()
      requires elementSize > 0 && forall e | e in data :: |e| == elementSize
      modifies this, cbvSrvUavHeap
      ensures Valid()
      ensures r.Fail? <==> desc.usage != ConstantBuffer && |data| == 0
      ensures r.Fail? ==> r.error == EmptyBuffer && unchanged(this) && unchanged(cbvSrvUavHeap)
      ensures r.Ok? ==>
        var slot := old(cbvSrvUavHeap.current);
        var size := BufferSize(elementSize, |data|);
        var resource := BufferResource(desc.usage, old(nextResource));
        r.value == Buffer(resource,
                          if desc.usage == ConstantBuffer then slot.index else 0,
                          if desc.usage == StructuredBuffer then slot.index else 0,
                          0, size, r.value.mapped) &&
        cbvSrvUavHeap.current == (if TakesDescriptor(desc.usage) then slot.Offset(1) else slot) &&
        calls == old(calls) + BufferResourceCalls(desc.usage, size, data, old(nextResource)) +
                 BufferViewCalls(desc.usage, resource, slot.index, |data|, elementSize, size) &&
        nextResource == old(nextResource) + 2
      ensures r.Ok? ==> (r.value.mapped.Some? <==> desc.usage == ConstantBuffer)
      ensures r.Ok? && r.value.mapped.Some? ==>
        fresh(r.value.mapped.value) && r.value.mapped.value.Length == r.value.sizeInBytes
    {
      if desc.usage != ConstantBuffer && |data| == 0 {
        return Fail(EmptyBuffer);
      }
      var buffer := CreateAcceptedBuffer(desc, elementSize, data);
      r := Ok(buffer);
    }

    /** `create_buffer` past its emptiness check. */
    method CreateAcceptedBuffer(desc: BufferCreationDesc, elementSize: nat, data: seq<seq<byte>>) returns (buffer: Buffer)
      requires Valid()
      requires elementSize > 0 && forall e | e in data :: |e| == elementSize
      modifies this, cbvSrvUavHeap
      ensures Valid()
      ensures
        var slot := old(cbvSrvUavHeap.current);
        var size := BufferSize(elementSize, |data|);
        var resource := BufferResource(desc.usage, old(nextResource));
        buffer == Buffer(resource,
                         if desc.usage == ConstantBuffer then slot.index else 0,
                         if desc.usage == StructuredBuffer then slot.index else 0,
                         0, size, buffer.mapped) &&
        cbvSrvUavHeap.current == (if TakesDescriptor(desc.usage) then slot.Offset(1) else slot) &&
        calls == old(calls) + BufferResourceCalls(desc.usage, size, data, old(nextResource)) +
                 BufferViewCalls(desc.usage, resource, slot.index, |data|, elementSize, size) &&
        nextResource == old(nextResource) + 2
      ensures buffer.mapped.Some? <==> desc.usage == ConstantBuffer
      ensures buffer.mapped.Some? ==>
        var memory := buffer.mapped.value;
        fresh(memory) && memory.Length == buffer.sizeInBytes &&
        (|data| > 0 ==> memory[..elementSize] == data[0])
    {
      var size := BufferSize(elementSize, |data|);
      var upload := nextResource;
      var resource := BufferResource(desc.usage, upload);
      var mapped: Option<array<byte>> := None;
      if desc.usage == ConstantBuffer {
        var memory := MapConstantBuffer(size, elementSize, data);
        mapped := Some(memory);
      }
      calls := calls + BufferResourceCalls(desc.usage, size, data, upload);
      var slotIndex := CreateBufferView(desc.usage, resource, |data|, elementSize, size);
      nextResource := upload + 2;
      buffer := Buffer(resource,
                       if desc.usage == ConstantBuffer then slotIndex else 0,
                       if desc.usage == StructuredBuffer then slotIndex else 0,
                       0, size, mapped);
    }

    /** The view part of `create_buffer`: an SRV for a structured buffer or a CBV
        for a constant buffer goes into the current CBV/SRV/UAV slot, whose index
        is returned, and the heap moves on by one slot. */
    method CreateBufferView(usage: BufferUsage, resource: ResourceId, count: nat, elementSize: nat, size: nat)
      returns (slotIndex: nat)
      requires Valid()
      modifies this`calls, cbvSrvUavHeap
      ensures Valid()
      ensures slotIndex == old(cbvSrvUavHeap.current.index)
      ensures cbvSrvUavHeap.current ==
        (if TakesDescriptor(usage) then old(cbvSrvUavHeap.current).Offset(1) else old(cbvSrvUavHeap.current))
      ensures calls == old(calls) + BufferViewCalls(usage, resource, slotIndex, count, elementSize, size)
    {
      slotIndex := cbvSrvUavHeap.current.index;
      calls := calls + BufferViewCalls(usage, resource, slotIndex, count, elementSize, size);
      if TakesDescriptor(usage) {
        cbvSrvUavHeap.OffsetCurrentHandle(1);
      }
    }

    /** `create_texture`: a default-heap texture whose flags, initial state and
        clear value follow its usage, an upload when `data` is given (the
        pointer being non-null), and a DSV or SRV in the matching heap. */
    method CreateTexture(desc: TextureCreationDesc, data: Option<seq<byte>>) returns (r: Result<Texture>)
      requires Valid() && desc.WellFormed()
      requires data.Some? ==> |data.value| >= TextureUploadSize(desc)
      modifies this, cbvSrvUavHeap, dsvHeap
      ensures Valid()
      ensures r.Fail? <==> !TextureSupported(desc.usage)
      ensures r.Fail? ==> r.error == NotImplemented && unchanged(this) &&
                          unchanged(cbvSrvUavHeap) && unchanged(dsvHeap)
      ensures r.Ok? ==>
        var t := r.value;
        var depth := desc.usage == DepthStencilTexture;
        var slot := if depth then old(dsvHeap.current) else old(cbvSrvUavHeap.current);
        t.resource == old(nextResource) &&
        t.dsvIndex == (if depth then slot.index else 0) &&
        t.srvIndex == (if depth then 0 else slot.index) &&
        t.uavIndex == 0 && t.rtvIndex == 0 &&
        dsvHeap.current == (if depth then old(dsvHeap.current).Offset(1) else old(dsvHeap.current)) &&
        cbvSrvUavHeap.current == (if depth then old(cbvSrvUavHeap.current) else old(cbvSrvUavHeap.current).Offset(1)) &&
        calls == old(calls) + TextureCreationCalls(desc, data, old(nextResource), slot.index) &&
        nextResource == old(nextResource) + 2
    {
      if !TextureSupported(desc.usage) {
        return Fail(NotImplemented);
      }
      var resource := nextResource;
      calls := calls + TextureResourceCalls(desc, data, resource);
      var texture := CreateTextureView(desc, resource);
      nextResource := nextResource + 2;
      r := Ok(texture);
    }

    /** The view part of `create_texture`: a DSV for a depth texture, an SRV for a
        shader-resource texture, each in the next free slot of its heap. */
    method CreateTextureView(desc: TextureCreationDesc, resource: ResourceId) returns (t: Texture)
      requires Valid() && TextureSupported(desc.usage)
      modifies this`calls, cbvSrvUavHeap, dsvHeap
      ensures Valid()
      ensures
        var depth := desc.usage == DepthStencilTexture;
        var slot := if depth then old(dsvHeap.current) else old(cbvSrvUavHeap.current);
        t == Texture(resource, if depth then 0 else slot.index, 0, 0, if depth then slot.index else 0) &&
        dsvHeap.current == (if depth then old(dsvHeap.current).Offset(1) else old(dsvHeap.current)) &&
        cbvSrvUavHeap.current == (if depth then old(cbvSrvUavHeap.current) else old(cbvSrvUavHeap.current).Offset(1)) &&
        calls == old(calls) + TextureViewCalls(desc, resource, slot.index)
    {
      if desc.usage == DepthStencilTexture {
        var slot := dsvHeap.current;
        calls := calls + [CreateDsv(resource, slot.index, desc.format)];
        t := Texture(resource, 0, 0, 0, slot.index);
        dsvHeap.OffsetCurrentHandle(1);
      } else {
        var slot := cbvSrvUavHeap.current;
        calls := calls + [CreateTextureSrv(resource, slot.index, desc.format, desc.mipLevels)];
        t := Texture(resource, slot.index, 0, 0, 0);
        cbvSrvUavHeap.OffsetCurrentHandle(1);
      }
    }
  }
}

=== FILE: file_system.dfy ===
/**
 * The engine's file system helper. At start-up it walks from the working
 * directory towards the filesystem root until it finds a directory with a
 * `data` sub-directory, which becomes the root directory; afterwards it turns
 * paths relative to that root into absolute ones.
 *
 * Paths are absolute POSIX paths held as their components, so `/a/b` is
 * `Path(["a", "b"])` and `/` is `Path([])`. `std::filesystem::path::parent_path`
 * drops the last component and leaves `/` as it is, so every path has a parent
 * and the root is its own parent. The directory tree is a parameter: which
 * paths have the sub-directory searched for.
 */
module FileSystem {
  import opened Common
  import opened EngineLog

  datatype Path = Path(components: seq<string>)

  /** `parent_path()`. */
  function ParentPath(p: Path): (parent: Path)
    ensures p.components != [] ==> parent.components == p.components[..|p.components| - 1]
    ensures p.components == [] ==> parent == p
  {
    if p.components == [] then p else Path(p.components[..|p.components| - 1])
  }

  /** The components joined by `/`. */
  function JoinComponents(components: seq<string>): string
  {
    if components == [] then ""
    else if |components| == 1 then components[0]
    else components[0] + "/" + JoinComponents(components[1..])
  }

  /** `path.string()`. */
  function PathString(p: Path): string
  {
    "/" + JoinComponents(p.components)
  }

  /** The path made of the first `k` components of `p`: an ancestor of `p`, or `p` itself. */
  function Ancestor(p: Path, k: nat): Path
    requires k <= |p.components|
  {
    Path(p.components[..k])
  }

  /** The path the search stops at, if any: the nearest of `start` and its
      ancestors that has the sub-directory, never looking at `/` (the one path
      equal to its own parent). */
  function NearestWith(start: Path, has: Path -> bool): (found: Option<Path>)
    ensures found.Some? ==> has(found.value) && 0 < |found.value.components| <= |start.components| &&
                             found.value == Ancestor(start, |found.value.components|)
    ensures found.Some? ==> forall k | |found.value.components| < k <= |start.components| :: !has(Ancestor(start, k))
    ensures found.None? <==> forall k | 0 < k <= |start.components| :: !has(Ancestor(start, k))
    decreases |start.components|
  {
    if start.components == [] then None
    else if has(start) then
      assert start == Ancestor(start, |start.components|);
      Some(start)
    else
      var parent := ParentPath(start);
      assert forall k | 0 <= k <= |parent.components| :: Ancestor(parent, k) == Ancestor(start, k);
      assert Ancestor(start, |start.components|) == start;
      NearestWith(parent, has)
  }

  const DATA_DIRECTORY: string := "data"
  const ROOT_NOT_FOUND: string := "Could not locate root directory. Do you have a data folder in project directory?"

  /** The root directory the search yields: the directory found, with `/` appended. */
  function RootOf(start: Path, hasData: Path -> bool): (r: Result<string>)
    ensures r.Fail? <==> NearestWith(start, hasData).None?
    ensures r.Fail? ==> r.error == RootDirectoryNotFound
    ensures r.Ok? ==> r.value == PathString(NearestWith(start, hasData).value) + "/"
  {
    match NearestWith(start, hasData)
    case None => Fail(RootDirectoryNotFound)
    case Some(found) => Ok(PathString(found) + "/")
  }

  /** The constructor's search: from the working directory up, while the path
      differs from its parent, stopping at the first one with a `data`
      directory; raising `critical` when none has one. */
  method LocateRoot(log: Log, start: Path, hasData: Path -> bool, location: SourceLocation) returns (r: Result<string>)
    modifies log`records
    ensures r == RootOf(start, hasData)
    ensures r.Ok? ==> log.records == old(log.records) + [Record(Info, "Executable path : " + PathString(start)),
                                                        Record(Info, "Located root directory " + r.value)]
    ensures r.Fail? ==> log.records == old(log.records) + [Record(Info, "Executable path : " + PathString(start)),
                                                          Record(Critical, ROOT_NOT_FOUND + FormatSourceLocation(location))]
  {
    var current := start;
    log.LogInfo("Executable path : " + PathString(start));
    var rootDirectory := "";
    var found := false;
    while current != ParentPath(current)
      invariant |current.components| <= |start.components| && current == Ancestor(start, |current.components|)
      invariant NearestWith(current, hasData) == NearestWith(start, hasData)
      invariant log.records == old(log.records) + [Record(Info, "Executable path : " + PathString(start))]
      decreases |current.components|
    {
      if hasData(current) {
        found := true;
        rootDirectory := PathString(current) + "/";
        break;
      }
      assert forall k | 0 <= k <= |current.components| - 1 :: Ancestor(ParentPath(current), k) == Ancestor(current, k);
      current := ParentPath(current);
    }
    if !found {
      var _ := log.LogCritical(ROOT_NOT_FOUND, location);
      return Fail(RootDirectoryNotFound);
    }
    log.LogInfo("Located root directory " + rootDirectory);
    r := Ok(rootDirectory);
  }

  /** Standard `std::string::compare`'s order: the first differing character
      decides, and a proper prefix comes first. */
  predicate LexLess(a: string, b: string)
    decreases |a|
  {
    if a == [] then b != []
    else if b == [] then false
    else if a[0] != b[0] then a[0] < b[0]
    else LexLess(a[1..], b[1..])
  }

  /** A string never comes before one it is a prefix of. */
  lemma {:induction false} PrefixNotGreater(a: string, b: string)
    requires a <= b
    ensures !LexLess(b, a)
    decreases |a|
  {
    if a != [] {
      PrefixNotGreater(a[1..], b[1..]);
    }
  }

  /** A proper prefix comes first. */
  lemma {:induction false} ProperPrefixLess(a: string, b: string)
    requires a <= b && |a| < |b|
    ensures LexLess(a, b)
    decreases |a|
  {
    if a != [] {
      ProperPrefixLess(a[1..], b[1..]);
    }
  }

  /** The engine's `FileSystem`, once its root directory is known
      (`get_root_directory` reads the field). */
  datatype FileSystem = FileSystem(rootDirectory: string)
  {
    /** `is_path_absolute`: `root.compare(path) >= 1`, that is, the root comes after the path. */
    predicate IsPathAbsolute(path: string)
    {
      LexLess(path, rootDirectory)
    }

    /** `get_absolute_path`: the path as it is when it counts as absolute,
        otherwise the root followed by the path. The wide-string overload
        tests and builds the same strings. */
    function AbsolutePath(path: string): (r: string)
      ensures IsPathAbsolute(path) ==> r == path
      ensures !IsPathAbsolute(path) ==> r == rootDirectory + path && rootDirectory <= r
    {
      if IsPathAbsolute(path) then path else rootDirectory + path
    }
  }

  /** A path that already starts with the root (the root itself included) does
      not count as absolute, so the root is put in front of it again. */
  lemma RootPrefixedPathGetsRootAgain(fs: FileSystem, rest: string)
    ensures !fs.IsPathAbsolute(fs.rootDirectory + rest)
    ensures fs.AbsolutePath(fs.rootDirectory + rest) == fs.rootDirectory + fs.rootDirectory + rest
  {
    PrefixNotGreater(fs.rootDirectory, fs.rootDirectory + rest);
  }

  /** A proper prefix of the root, the empty path among them, counts as
      absolute and is returned as it is. */
  lemma RootPrefixIsAbsolute(fs: FileSystem, path: string)
    requires path < fs.rootDirectory
    ensures fs.AbsolutePath(path) == path
  {
    ProperPrefixLess(path, fs.rootDirectory);
  }
}

/**
 * The older engine's file system helper: the same upward search, for a
 * directory with a `serenity-engine` sub-directory, and the root followed by
 * `/` as the only way to build a path. Its loop stops only on a match, so a
 * search that matches nowhere never ends: `/` is its own parent and is looked
 * at again and again. The model counts the steps it may take.
 */
module LegacyFileSystem {
  import opened Common
  import opened EngineLog
  import opened FileSystem

  const ENGINE_DIRECTORY: string := "serenity-engine"

  /** The outcome of the older search within `fuel` steps: the path found, or
      none when the steps ran out first. */
  function LegacySearch(current: Path, has: Path -> bool, fuel: nat): (found: Option<Path>)
    ensures found.Some? ==> has(found.value)
    decreases fuel
  {
    if fuel == 0 then None
    else if has(current) then Some(current)
    else LegacySearch(ParentPath(current), has, fuel - 1)
  }

  /** The discrepancy: when neither the working directory nor any of its
      ancestors, `/` included, has the directory, the search never stops,
      however many steps it is given. */
  lemma {:induction false} LegacySearchNeverEnds(current: Path, has: Path -> bool, fuel: nat)
    requires forall k | 0 <= k <= |current.components| :: !has(Ancestor(current, k))
    ensures LegacySearch(current, has, fuel) == None
    decreases fuel
  {
    if fuel > 0 {
      assert current == Ancestor(current, |current.components|);
      var parent := ParentPath(current);
      assert forall k | 0 <= k <= |parent.components| :: Ancestor(parent, k) == Ancestor(current, k);
      LegacySearchNeverEnds(parent, has, fuel - 1);
    }
  }

  /** The older constructor's loop, run for at most `fuel` steps: `None` when it
      has not stopped by then. */
  method LegacyLocateRoot(log: Log, start: Path, hasEngine: Path -> bool, location: SourceLocation, fuel: nat)
    returns (r: Option<Result<string>>)
    modifies log`records
    ensures r.None? <==> LegacySearch(start, hasEngine, fuel).None?
    ensures r.Some? ==> r.value == Ok(PathString(LegacySearch(start, hasEngine, fuel).value) + "/" + ENGINE_DIRECTORY + "/")
    ensures r.Some? ==> log.records == old(log.records) + [Record(Info, "Located root directory " + r.value.value)]
    ensures r.None? ==> log.records == old(log.records)
  {
    var current := start;
    var steps: nat := fuel;
    while steps > 0
      invariant steps <= fuel
      invariant LegacySearch(current, hasEngine, steps) == LegacySearch(start, hasEngine, fuel)
      invariant log.records == old(log.records)
    {
      if hasEngine(current) {
        var rootDirectory := PathString(current) + "/" + ENGINE_DIRECTORY + "/";
        log.LogInfo("Located root directory " + rootDirectory);
        return Some(Ok(rootDirectory));
      }
      current := ParentPath(current);
      steps := steps - 1;
    }
    return None;
  }

  /** The evidently intended search: the same walk, stopping at `/` as the
      newer engine does. It always ends, and finds the nearest directory that
      has the engine's directory. */
  function IntendedRoot(start: Path, hasEngine: Path -> bool): (r: Result<string>)
    ensures r.Ok? <==> exists k | 0 < k <= |start.components| :: hasEngine(Ancestor(start, k))
    ensures r.Ok? ==> r.value == PathString(NearestWith(start, hasEngine).value) + "/" + ENGINE_DIRECTORY + "/"
    ensures r.Fail? ==> r.error == RootDirectoryNotFound
  {
    match NearestWith(start, hasEngine)
    case None => Fail(RootDirectoryNotFound)
    case Some(found) => Ok(PathString(found) + "/" + ENGINE_DIRECTORY + "/")
  }

  /** Where the older search does stop below `/`, it agrees with the intended one. */
  lemma {:induction false} LegacyAgreesBelowRoot(current: Path, has: Path -> bool, fuel: nat)
    requires fuel > |current.components|
    requires NearestWith(current, has).Some?
    ensures LegacySearch(current, has, fuel) == NearestWith(current, has)
    decreases |current.components|
  {
    if !has(current) {
      var parent := ParentPath(current);
      LegacyAgreesBelowRoot(parent, has, fuel - 1);
    }
  }

  /** The older `FileSystem`: the root is a static string, which
      `get_root_directory` returns. */
  datatype LegacyFileSystem = LegacyFileSystem(rootDirectory: string)
  {
    /** `get_relative_path`: the root, `/`, and the path, whatever the path is. */
    function RelativePath(path: string): (r: string)
      ensures |r| == |rootDirectory| + 1 + |path|
      ensures r[..|rootDirectory|] == rootDirectory && r[|rootDirectory|] == '/'
      ensures r[|rootDirectory| + 1..] == path
    {
      rootDirectory + "/" + path
    }
  }
}

=== FILE: game_object.dfy ===
/**
 * A game object that owns its GPU data: a constant buffer for its transform,
 * four buffers per mesh (positions, normals, texture coordinates, indices)
 * and, per material, an optional albedo texture and a constant buffer holding
 * the material record. Every buffer and texture lives in the renderer's
 * registries; the object keeps their positions there.
 */
module SceneObject {
  import opened Common
  import opened Bytes
  import opened Interop
  import ModelLoader
  import opened DescriptorHeap
  import opened Buffers = Buffer
  import opened Device
  import opened Renderer
  import Scene

  /** A mesh's four buffers in the renderer's registry, its material (local to
      its model) and its index count, all `uint32_t`. */
  datatype Mesh = Mesh(positionBufferIndex: nat, normalBufferIndex: nat, textureCoordsBufferIndex: nat,
                       indexBufferIndex: nat, materialIndex: nat, indices: nat)

  /** A material record and the position of the constant buffer holding it. */
  datatype Material = Material(materialData: MaterialBuffer, materialBufferIndex: nat)

  /** The debug names of one mesh's four buffers. */
  datatype MeshBufferNames = MeshBufferNames(positions: string, normals: string, textureCoords: string, indices: string)

  /** The debug names of one material's albedo texture and constant buffer. */
  datatype MaterialNames = MaterialNames(texture: string, buffer: string)

  /** The transform component: scale, rotation and translation (as float bit
      patterns) and the matrices last computed from them. */
  datatype Transform = Transform(scale: Float3, rotation: Float3, translation: Float3,
                                 transformBufferData: TransformBufferData)

  /** The bit pattern of `1.0f`. */
  const ONE_F32: F32 := 0x3F80_0000

  /** A default `Transform`: unit scale, no rotation, no translation. */
  const DEFAULT_TRANSFORM: Transform :=
    Transform(Float3(ONE_F32, ONE_F32, ONE_F32), Float3(0, 0, 0), Float3(0, 0, 0), ZERO_TRANSFORM)

  // ------------------------------------------------------- element images

  /** A span of `XMFLOAT3`s as `create_buffer` sees it, element by element. */
  function Float3Elements(vs: seq<Float3>): (es: seq<seq<byte>>)
    ensures |es| == |vs| && forall e | e in es :: |e| == FLOAT3_SIZE
  {
    seq(|vs|, i requires 0 <= i < |vs| => Float3Bytes(vs[i]))
  }

  /** A span of `XMFLOAT2`s, element by element. */
  function Float2Elements(vs: seq<Float2>): (es: seq<seq<byte>>)
    ensures |es| == |vs| && forall e | e in es :: |e| == FLOAT2_SIZE
  {
    seq(|vs|, i requires 0 <= i < |vs| => Float2Bytes(vs[i]))
  }

  /** A span of `uint16_t` indices, element by element. */
  function U16Elements(vs: seq<U16>): (es: seq<seq<byte>>)
    ensures |es| == |vs| && forall e | e in es :: |e| == U16_SIZE
  {
    seq(|vs|, i requires 0 <= i < |vs| => U16Bytes(vs[i]))
  }

  /** Each index reads back from its two little-endian bytes. */
  lemma U16ElementsDecode(vs: seq<U16>)
    ensures forall i | 0 <= i < |vs| :: DecodeLE(U16Elements(vs)[i]) == vs[i]
  {
  }

  // ---------------------------------------------------------------- meshes

  /** Whether one of a mesh's four spans is empty, which `create_buffer`
      refuses for every usage but constant buffers. */
  predicate MissingMeshData(meshData: ModelLoader.MeshData)
  {
    |meshData.positions| == 0 || |meshData.normals| == 0 || |meshData.textureCoords| == 0 || |meshData.indices| == 0
  }

  /** The mesh whose four buffers were registered at `first` onwards. */
  function MeshOf(meshData: ModelLoader.MeshData, first: nat): Mesh
  {
    Mesh(Wrap32(first), Wrap32(first + 1), Wrap32(first + 2), Wrap32(first + 3),
         Wrap32(meshData.materialIndex), Wrap32(|meshData.indices|))
  }

  /** `Renderer::create_buffer`, seen from a game object: the registry
      position it returns and the heap slot it used. */
  method RegisterBuffer(renderer: Renderer, desc: BufferCreationDesc, elementSize: nat, data: seq<seq<byte>>)
    returns (r: Result<nat>)
    requires renderer.Valid() && elementSize > 0 && forall e | e in data :: |e| == elementSize
    modifies renderer`allocatedBuffers, renderer.device, renderer.device.cbvSrvUavHeap
    ensures renderer.Valid()
    ensures r.Fail? <==> desc.usage != ConstantBuffer && |data| == 0
    ensures r.Fail? ==> r.error == EmptyBuffer
    ensures r.Ok? ==> (r.value == Wrap32(|old(renderer.allocatedBuffers)|) &&
      |renderer.allocatedBuffers| == |old(renderer.allocatedBuffers)| + 1)
    ensures r.Ok? ==> (renderer.device.cbvSrvUavHeap.current.index ==
      if TakesDescriptor(desc.usage) then Wrap32(old(renderer.device.cbvSrvUavHeap.current.index) + 1)
      else old(renderer.device.cbvSrvUavHeap.current.index))
  {
    r := renderer.CreateBuffer(desc, elementSize, data);
  }

  /** The four buffers of one mesh, in the order positions, normals, texture
      coordinates, indices; the first empty span stops the construction. The
      three structured buffers take a heap slot each, the index buffer none. */
  method CreateMeshBuffers(renderer: Renderer, names: MeshBufferNames, meshData: ModelLoader.MeshData) returns (r: Result<Mesh>)
    requires renderer.Valid()
    modifies renderer`allocatedBuffers, renderer.device, renderer.device.cbvSrvUavHeap
    ensures renderer.Valid()
    ensures r.Fail? <==> MissingMeshData(meshData)
    ensures r.Fail? ==> r.error == EmptyBuffer
    ensures r.Ok? ==> (r.value == MeshOf(meshData, |old(renderer.allocatedBuffers)|) &&
      |renderer.allocatedBuffers| == |old(renderer.allocatedBuffers)| + 4 &&
      renderer.device.cbvSrvUavHeap.current.index == Wrap32(old(renderer.device.cbvSrvUavHeap.current.index) + 3))
  {
    ghost var slot := renderer.device.cbvSrvUavHeap.current.index;
    var vertices := CreateVertexBuffers(renderer, names, meshData);
    if vertices.Fail? {
      return Fail(vertices.error);
    }
    var surface := CreateSurfaceBuffers(renderer, names, meshData);
    if surface.Fail? {
      return Fail(surface.error);
    }
    Wrap32Add(slot + 2, 1);
    r := Ok(Mesh(vertices.value.0, vertices.value.1, surface.value.0, surface.value.1,
                 Wrap32(meshData.materialIndex), Wrap32(|meshData.indices|)));
  }

  /** The first two buffers of a mesh, positions then normals, each taking a
      heap slot. */
  method CreateVertexBuffers(renderer: Renderer, names: MeshBufferNames, meshData: ModelLoader.MeshData)
    returns (r: Result<(nat, nat)>)
    requires renderer.Valid()
    modifies renderer`allocatedBuffers, renderer.device, renderer.device.cbvSrvUavHeap
    ensures renderer.Valid()
    ensures r.Fail? <==> |meshData.positions| == 0 || |meshData.normals| == 0
    ensures r.Fail? ==> r.error == EmptyBuffer
    ensures r.Ok? ==> (r.value == (Wrap32(|old(renderer.allocatedBuffers)|), Wrap32(|old(renderer.allocatedBuffers)| + 1)) &&
      |renderer.allocatedBuffers| == |old(renderer.allocatedBuffers)| + 2 &&
      renderer.device.cbvSrvUavHeap.current.index == Wrap32(old(renderer.device.cbvSrvUavHeap.current.index) + 2))
  {
    ghost var slot := renderer.device.cbvSrvUavHeap.current.index;
    var positions := RegisterBuffer(renderer, BufferCreationDesc(StructuredBuffer, names.positions),
                                    FLOAT3_SIZE, Float3Elements(meshData.positions));
    if positions.Fail? {
      return Fail(positions.error);
    }
    var normals := RegisterBuffer(renderer, BufferCreationDesc(StructuredBuffer, names.normals),
                                  FLOAT3_SIZE, Float3Elements(meshData.normals));
    if normals.Fail? {
      return Fail(normals.error);
    }
    Wrap32Add(slot + 1, 1);
    r := Ok((positions.value, normals.value));
  }

  /** The last two buffers of a mesh, texture coordinates (taking a heap slot)
      then indices (taking none). */
  method CreateSurfaceBuffers(renderer: Renderer, names: MeshBufferNames, meshData: ModelLoader.MeshData)
    returns (r: Result<(nat, nat)>)
    requires renderer.Valid()
    modifies renderer`allocatedBuffers, renderer.device, renderer.device.cbvSrvUavHeap
    ensures renderer.Valid()
    ensures r.Fail? <==> |meshData.textureCoords| == 0 || |meshData.indices| == 0
    ensures r.Fail? ==> r.error == EmptyBuffer
    ensures r.Ok? ==> (r.value == (Wrap32(|old(renderer.allocatedBuffers)|), Wrap32(|old(renderer.allocatedBuffers)| + 1)) &&
      |renderer.allocatedBuffers| == |old(renderer.allocatedBuffers)| + 2 &&
      renderer.device.cbvSrvUavHeap.current.index == Wrap32(old(renderer.device.cbvSrvUavHeap.current.index) + 1))
  {
    var textureCoords := RegisterBuffer(renderer, BufferCreationDesc(StructuredBuffer, names.textureCoords),
                                        FLOAT2_SIZE, Float2Elements(meshData.textureCoords));
    if textureCoords.Fail? {
      return Fail(textureCoords.error);
    }
    var indices := RegisterBuffer(renderer, BufferCreationDesc(IndexBuffer, names.indices),
                                  U16_SIZE, U16Elements(meshData.indices));
    if indices.Fail? {
      return Fail(indices.error);
    }
    r := Ok((textureCoords.value, indices.value));
  }

  /** The mesh loop of the constructor: one mesh per mesh data, in order, its
      buffers registered four at a time; the first empty span throws. */
  method CreateMeshes(renderer: Renderer, meshData: seq<ModelLoader.MeshData>, names: nat -> MeshBufferNames)
    returns (r: Result<seq<Mesh>>)
    requires renderer.Valid()
    modifies renderer`allocatedBuffers, renderer.device, renderer.device.cbvSrvUavHeap
    ensures renderer.Valid()
    ensures r.Fail? <==> exists k | 0 <= k < |meshData| :: MissingMeshData(meshData[k])
    ensures r.Fail? ==> r.error == EmptyBuffer
    ensures r.Ok? ==> (|r.value| == |meshData| &&
      |renderer.allocatedBuffers| == |old(renderer.allocatedBuffers)| + 4 * |meshData| &&
      renderer.device.cbvSrvUavHeap.current.index ==
        Wrap32(old(renderer.device.cbvSrvUavHeap.current.index) + 3 * |meshData|))
    ensures r.Ok? ==> forall k | 0 <= k < |meshData| ::
      r.value[k] == MeshOf(meshData[k], |old(renderer.allocatedBuffers)| + 4 * k)
  {
    ghost var firstBuffer := |renderer.allocatedBuffers|;
    ghost var firstSlot := renderer.device.cbvSrvUavHeap.current.index;
    var meshes: seq<Mesh> := [];
    for k := 0 to |meshData|
      invariant renderer.Valid() && |meshes| == k
      invariant forall j | 0 <= j < k :: !MissingMeshData(meshData[j])
      invariant |renderer.allocatedBuffers| == firstBuffer + 4 * k
      invariant renderer.device.cbvSrvUavHeap.current.index == Wrap32(firstSlot + 3 * k)
      invariant MeshesOf(meshes, meshData, firstBuffer)
    {
      var mesh := CreateMeshAt(renderer, meshData, k, names(k), meshes, firstBuffer, firstSlot);
      if mesh.Fail? {
        return Fail(mesh.error);
      }
      meshes := meshes + [mesh.value];
    }
    r := Ok(meshes);
  }

  /** The first `|built|` meshes of a model, their buffers numbered from
      `firstBuffer`. */
  predicate MeshesOf(built: seq<Mesh>, meshData: seq<ModelLoader.MeshData>, firstBuffer: nat)
  {
    |built| <= |meshData| && forall j | 0 <= j < |built| :: built[j] == MeshOf(meshData[j], firstBuffer + 4 * j)
  }

  /** One step of the mesh loop: mesh `k` made after the first `k`, with the
      registry and the heap where those left them. */
  method CreateMeshAt(renderer: Renderer, meshData: seq<ModelLoader.MeshData>, k: nat, names: MeshBufferNames,
                      built: seq<Mesh>, ghost firstBuffer: nat, ghost firstSlot: nat)
    returns (r: Result<Mesh>)
    requires renderer.Valid() && k < |meshData| && |built| == k && MeshesOf(built, meshData, firstBuffer)
    requires |renderer.allocatedBuffers| == firstBuffer + 4 * k
    requires renderer.device.cbvSrvUavHeap.current.index == Wrap32(firstSlot + 3 * k)
    modifies renderer`allocatedBuffers, renderer.device, renderer.device.cbvSrvUavHeap
    ensures renderer.Valid()
    ensures r.Fail? <==> MissingMeshData(meshData[k])
    ensures r.Fail? ==> r.error == EmptyBuffer
    ensures r.Ok? ==> (|renderer.allocatedBuffers| == firstBuffer + 4 * (k + 1) &&
      renderer.device.cbvSrvUavHeap.current.index == Wrap32(firstSlot + 3 * (k + 1)) &&
      MeshesOf(built + [r.value], meshData, firstBuffer))
  {
    r := CreateMeshBuffers(renderer, names, meshData[k]);
    if r.Ok? {
      Wrap32Add(firstSlot + 3 * k, 3);
    }
  }

  // ------------------------------------------------------------- materials

  /** The metallic-roughness factor a material record gets: copied, or left
      value-initialised by the older engine. */
  function MetallicOf(data: ModelLoader.MaterialData, copyMetallic: bool): Float2
  {
    if copyMetallic then data.metallicRoughnessFactor else ZERO_FLOAT2
  }

  /** Material `k` of a model, with the constant buffers of the materials
      numbered from `firstBuffer` and the heap slots they and the albedo
      textures take counted from `firstSlot`. The texture's slot is known only
      while the texture registry's positions fit in `uint32_t` (`noWrap`). */
  predicate MaterialOf(material: Material, materials: seq<ModelLoader.MaterialData>, k: nat, firstBuffer: nat, firstSlot: nat,
                       noWrap: bool, copyMetallic: bool)
    requires k < |materials|
  {
    var data := materials[k];
    material.materialData.baseColor == data.baseColor &&
    material.materialData.metallicRoughnessFactor == MetallicOf(data, copyMetallic) &&
    material.materialBufferIndex == Wrap32(firstBuffer + k) &&
    (!Scene.HasAlbedo(data.baseColorTexture) ==> material.materialData.albedoTextureSrvIndex == INVALID_INDEX_U32) &&
    (noWrap && Scene.HasAlbedo(data.baseColorTexture) ==>
       material.materialData.albedoTextureSrvIndex == Wrap32(firstSlot + k + Scene.TexturedCount(materials[..k])))
  }

  /** The first `|built|` materials of a model. */
  predicate MaterialsOf(built: seq<Material>, materials: seq<ModelLoader.MaterialData>, firstBuffer: nat, firstSlot: nat,
                        noWrap: bool, copyMetallic: bool)
  {
    |built| <= |materials| &&
    forall j | 0 <= j < |built| :: MaterialOf(built[j], materials, j, firstBuffer, firstSlot, noWrap, copyMetallic)
  }

  /** One material: its pixels must be 8-bit (`std::get` throws otherwise);
      an albedo texture is created when both its dimensions are non-zero; the
      record is then placed in a new constant buffer. */
  method CreateMaterial(renderer: Renderer, names: MaterialNames, data: ModelLoader.MaterialData, copyMetallic: bool)
    returns (r: Result<Material>)
    requires renderer.Valid() && Scene.TextureReadable(data.baseColorTexture)
    modifies renderer`allocatedBuffers, renderer`allocatedTextures
    modifies renderer.device, renderer.device.cbvSrvUavHeap, renderer.device.dsvHeap
    ensures renderer.Valid()
    ensures r.Fail? <==> data.baseColorTexture.data.Floats?
    ensures r.Fail? ==> r.error == BadVariantAccess
    ensures r.Ok? ==> (r.value.materialData.baseColor == data.baseColor &&
      r.value.materialData.metallicRoughnessFactor == MetallicOf(data, copyMetallic) &&
      r.value.materialBufferIndex == Wrap32(|old(renderer.allocatedBuffers)|) &&
      |renderer.allocatedBuffers| == |old(renderer.allocatedBuffers)| + 1)
    ensures r.Ok? && !Scene.HasAlbedo(data.baseColorTexture) ==>
      r.value.materialData.albedoTextureSrvIndex == INVALID_INDEX_U32 &&
      |renderer.allocatedTextures| == |old(renderer.allocatedTextures)| &&
      renderer.device.cbvSrvUavHeap.current.index == Wrap32(old(renderer.device.cbvSrvUavHeap.current.index) + 1)
    ensures r.Ok? && Scene.HasAlbedo(data.baseColorTexture) ==>
      |renderer.allocatedTextures| == |old(renderer.allocatedTextures)| + 1 &&
      renderer.device.cbvSrvUavHeap.current.index == Wrap32(old(renderer.device.cbvSrvUavHeap.current.index) + 2) &&
      (|old(renderer.allocatedTextures)| < U32_LIMIT ==>
         r.value.materialData.albedoTextureSrvIndex == old(renderer.device.cbvSrvUavHeap.current.index))
  {
    var texture := data.baseColorTexture;
    if texture.data.Floats? {
      return Fail(BadVariantAccess);
    }
    ghost var slot := renderer.device.cbvSrvUavHeap.current.index;
    var srv := CreateAlbedo(renderer, names.texture, texture);
    ghost var textureSlot := renderer.device.cbvSrvUavHeap.current.index;
    var record := MaterialBuffer(data.baseColor, MetallicOf(data, copyMetallic), srv);
    var buffer := RegisterBuffer(renderer, BufferCreationDesc(ConstantBuffer, names.buffer),
                                 MATERIAL_BUFFER_SIZE, [MaterialBufferBytes(record)]);
    MaterialSlotsTaken(slot, textureSlot, renderer.device.cbvSrvUavHeap.current.index, Scene.HasAlbedo(texture));
    r := Ok(Material(record, buffer.value));
  }

  /** The albedo texture of a material, when both its dimensions are non-zero:
      its SRV slot, or `INVALID_INDEX_U32` when there is none. */
  method CreateAlbedo(renderer: Renderer, name: string, texture: ModelLoader.TextureData) returns (srv: nat)
    requires renderer.Valid() && texture.data.Bytes8? && Scene.TextureReadable(texture)
    modifies renderer`allocatedTextures, renderer.device, renderer.device.cbvSrvUavHeap, renderer.device.dsvHeap
    ensures renderer.Valid()
    ensures !Scene.HasAlbedo(texture) ==> (srv == INVALID_INDEX_U32 &&
      |renderer.allocatedTextures| == |old(renderer.allocatedTextures)| &&
      renderer.device.cbvSrvUavHeap.current.index == old(renderer.device.cbvSrvUavHeap.current.index))
    ensures Scene.HasAlbedo(texture) ==> (|renderer.allocatedTextures| == |old(renderer.allocatedTextures)| + 1 &&
      renderer.device.cbvSrvUavHeap.current.index == Wrap32(old(renderer.device.cbvSrvUavHeap.current.index) + 1) &&
      (|old(renderer.allocatedTextures)| < U32_LIMIT ==> srv == old(renderer.device.cbvSrvUavHeap.current.index)))
  {
    srv := INVALID_INDEX_U32;
    if Scene.HasAlbedo(texture) {
      srv := Scene.CreateAlbedoTexture(renderer, Scene.AlbedoDesc(name, texture), texture.data.bytes);
    }
  }

  /** The heap slots one material takes: its texture's, if any, then its
      constant buffer's. */
  lemma MaterialSlotsTaken(slot: nat, textureSlot: nat, bufferSlot: nat, textured: bool)
    requires textureSlot == if textured then Wrap32(slot + 1) else slot
    requires bufferSlot == Wrap32(textureSlot + 1)
    ensures bufferSlot == Wrap32(slot + if textured then 2 else 1)
  {
    Wrap32Add(slot + 1, 1);
  }

  /** The material loop of the constructor: one material per material data,
      in order; the first material whose pixels are not 8-bit throws. */
  method CreateMaterials(renderer: Renderer, materials: seq<ModelLoader.MaterialData>, names: nat -> MaterialNames,
                         copyMetallic: bool)
    returns (r: Result<seq<Material>>)
    requires renderer.Valid() && forall k | 0 <= k < |materials| :: Scene.TextureReadable(materials[k].baseColorTexture)
    modifies renderer`allocatedBuffers, renderer`allocatedTextures
    modifies renderer.device, renderer.device.cbvSrvUavHeap, renderer.device.dsvHeap
    ensures renderer.Valid()
    ensures r.Fail? <==> exists k | 0 <= k < |materials| :: materials[k].baseColorTexture.data.Floats?
    ensures r.Fail? ==> r.error == BadVariantAccess
    ensures r.Ok? ==> (|r.value| == |materials| &&
      |renderer.allocatedBuffers| == |old(renderer.allocatedBuffers)| + |materials| &&
      |renderer.allocatedTextures| == |old(renderer.allocatedTextures)| + Scene.TexturedCount(materials))
    ensures r.Ok? ==> MaterialsOf(r.value, materials, |old(renderer.allocatedBuffers)|,
                                  old(renderer.device.cbvSrvUavHeap.current.index),
                                  |old(renderer.allocatedTextures)| + |materials| < U32_LIMIT, copyMetallic)
  {
    ghost var firstBuffer := |renderer.allocatedBuffers|;
    ghost var firstSlot := renderer.device.cbvSrvUavHeap.current.index;
    ghost var firstCount := |renderer.allocatedTextures|;
    ghost var noWrap := firstCount + |materials| < U32_LIMIT;
    var built: seq<Material> := [];
    for k := 0 to |materials|
      invariant renderer.Valid() && |built| == k
      invariant forall j | 0 <= j < k :: materials[j].baseColorTexture.data.Bytes8?
      invariant |renderer.allocatedBuffers| == firstBuffer + k
      invariant |renderer.allocatedTextures| == firstCount + Scene.TexturedCount(materials[..k])
      invariant renderer.device.cbvSrvUavHeap.current.index == Wrap32(firstSlot + k + Scene.TexturedCount(materials[..k]))
      invariant MaterialsOf(built, materials, firstBuffer, firstSlot, noWrap, copyMetallic)
    {
      var material := CreateMaterialAt(renderer, materials, k, names(k), copyMetallic, built,
                                       firstBuffer, firstSlot, firstCount, noWrap);
      if material.Fail? {
        return Fail(material.error);
      }
      built := built + [material.value];
    }
    assert materials[..|materials|] == materials;
    r := Ok(built);
  }

  /** One step of the material loop: material `k` made after the first `k`,
      with the registries and the heap where those left them. */
  method CreateMaterialAt(renderer: Renderer, materials: seq<ModelLoader.MaterialData>, k: nat, names: MaterialNames,
                          copyMetallic: bool, built: seq<Material>,
                          ghost firstBuffer: nat, ghost firstSlot: nat, ghost firstCount: nat, ghost noWrap: bool)
    returns (r: Result<Material>)
    requires renderer.Valid() && k < |materials| && |built| == k
    requires Scene.TextureReadable(materials[k].baseColorTexture)
    requires noWrap == (firstCount + |materials| < U32_LIMIT)
    requires |renderer.allocatedBuffers| == firstBuffer + k
    requires |renderer.allocatedTextures| == firstCount + Scene.TexturedCount(materials[..k])
    requires renderer.device.cbvSrvUavHeap.current.index == Wrap32(firstSlot + k + Scene.TexturedCount(materials[..k]))
    requires MaterialsOf(built, materials, firstBuffer, firstSlot, noWrap, copyMetallic)
    modifies renderer`allocatedBuffers, renderer`allocatedTextures
    modifies renderer.device, renderer.device.cbvSrvUavHeap, renderer.device.dsvHeap
    ensures renderer.Valid()
    ensures r.Fail? <==> materials[k].baseColorTexture.data.Floats?
    ensures r.Fail? ==> r.error == BadVariantAccess
    ensures r.Ok? ==> (|renderer.allocatedBuffers| == firstBuffer + k + 1 &&
      |renderer.allocatedTextures| == firstCount + Scene.TexturedCount(materials[..k + 1]) &&
      renderer.device.cbvSrvUavHeap.current.index == Wrap32(firstSlot + (k + 1) + Scene.TexturedCount(materials[..k + 1])) &&
      MaterialsOf(built + [r.value], materials, firstBuffer, firstSlot, noWrap, copyMetallic))
  {
    r := CreateMaterial(renderer, names, materials[k], copyMetallic);
    if r.Fail? {
      return;
    }
    Scene.TexturedCountStep(materials, k);
    var counted := Scene.TexturedCount(materials[..k]);
    Wrap32Add(firstSlot + k + counted, if Scene.HasAlbedo(materials[k].baseColorTexture) then 2 else 1);
    assert MaterialOf(r.value, materials, k, firstBuffer, firstSlot, noWrap, copyMetallic);
  }

  // ------------------------------------------------------------ the object

  /** The debug names of mesh `i`'s buffers: the model path followed by the
      buffer kind and the mesh number (the position buffer's name has no
      separating space). */
  function MeshNames(gltfScenePath: string, i: nat): MeshBufferNames
  {
    MeshBufferNames(gltfScenePath + "Position Buffer Mesh " + Decimal(i),
                    gltfScenePath + " Normal Buffer Mesh " + Decimal(i),
                    gltfScenePath + " Texture Coords Buffer Mesh " + Decimal(i),
                    gltfScenePath + " Index Buffer Mesh " + Decimal(i))
  }

  /** The debug names of material `i`'s texture and buffer. */
  function MaterialNamesOf(objectName: string, i: nat): MaterialNames
  {
    MaterialNames(objectName + " Albedo Texture Material " + Decimal(i), objectName + " Material Buffer " + Decimal(i))
  }

  /** Whether the script the object names cannot be run: `execute_script`
      indexes the registry of `scriptCount` scripts with `.at`. */
  predicate ScriptFails(scriptIndex: nat, scriptCount: nat)
  {
    scriptIndex != INVALID_INDEX_U32 && scriptIndex >= scriptCount
  }

  /** The transform after an update: the script's `update_transform` result
      when the object has a script, then the matrices recomputed. */
  function UpdatedTransform(transform: Transform, scriptIndex: nat, runScript: Transform -> Transform,
                            matrices: Transform -> TransformBufferData): Transform
  {
    var moved := if scriptIndex != INVALID_INDEX_U32 then runScript(transform) else transform;
    moved.(transformBufferData := matrices(moved))
  }

  /** Whether the constructor throws on this model: a mesh with an empty span,
      or a material whose pixels are not 8-bit. */
  predicate ModelRejected(model: ModelLoader.ModelData)
  {
    (exists k | 0 <= k < |model.meshData| :: MissingMeshData(model.meshData[k])) ||
    (exists k | 0 <= k < |model.materialData| :: model.materialData[k].baseColorTexture.data.Floats?)
  }

  /** What the constructor throws: the meshes come first. */
  function ModelError(model: ModelLoader.ModelData): Error
  {
    if exists k | 0 <= k < |model.meshData| :: MissingMeshData(model.meshData[k]) then EmptyBuffer
    else BadVariantAccess
  }

  /** The meshes and then the materials of a model, as the constructor makes
      them. */
  method CreateModel(renderer: Renderer, model: ModelLoader.ModelData, meshNames: nat -> MeshBufferNames,
                     materialNames: nat -> MaterialNames, copyMetallic: bool)
    returns (r: Result<(seq<Mesh>, seq<Material>)>)
    requires renderer.Valid()
    requires forall k | 0 <= k < |model.materialData| :: Scene.TextureReadable(model.materialData[k].baseColorTexture)
    modifies renderer`allocatedBuffers, renderer`allocatedTextures
    modifies renderer.device, renderer.device.cbvSrvUavHeap, renderer.device.dsvHeap
    ensures renderer.Valid()
    ensures r.Fail? <==> ModelRejected(model)
    ensures r.Fail? ==> r.error == ModelError(model)
    ensures r.Ok? ==> (|r.value.0| == |model.meshData| &&
      forall k | 0 <= k < |model.meshData| ::
        r.value.0[k] == MeshOf(model.meshData[k], |old(renderer.allocatedBuffers)| + 4 * k))
    ensures r.Ok? ==> (|r.value.1| == |model.materialData| &&
      MaterialsOf(r.value.1, model.materialData,
                  |old(renderer.allocatedBuffers)| + 4 * |model.meshData|,
                  old(renderer.device.cbvSrvUavHeap.current.index) + 3 * |model.meshData|,
                  |old(renderer.allocatedTextures)| + |model.materialData| < U32_LIMIT, copyMetallic))
  {
    ghost var firstBuffer := |renderer.allocatedBuffers|;
    ghost var firstSlot := renderer.device.cbvSrvUavHeap.current.index;
    ghost var noWrap := |renderer.allocatedTextures| + |model.materialData| < U32_LIMIT;
    var meshes := CreateMeshes(renderer, model.meshData, meshNames);
    if meshes.Fail? {
      return Fail(meshes.error);
    }
    ghost var built := meshes.value;
    assert forall k | 0 <= k < |model.meshData| :: built[k] == MeshOf(model.meshData[k], firstBuffer + 4 * k);
    var materials := CreateMaterials(renderer, model.materialData, materialNames, copyMetallic);
    if materials.Fail? {
      return Fail(materials.error);
    }
    MaterialsRebased(materials.value, model.materialData, firstBuffer + 4 * |model.meshData|,
                     firstSlot + 3 * |model.meshData|, noWrap, copyMetallic);
    r := Ok((meshes.value, materials.value));
  }

  class GameObject {
    const renderer: Renderer
    const name: string
    /** The transform's constant buffer, created before anything else. */
    const transformBufferIndex: nat
    var meshes: seq<Mesh>
    var materials: seq<Material>
    var scriptIndex: nat
    var transform: Transform

    ghost predicate Valid()
      reads this, renderer, renderer.device, renderer.device.Repr()
    {
      renderer.Valid()
    }

    /** The constructor up to the model: the transform's constant buffer,
        created without data, and the name. The meshes and materials follow in
        `LoadModel`. */
    constructor (renderer: Renderer, objectName: string, gltfScenePath: string)
      requires renderer.Valid()
      modifies renderer`allocatedBuffers, renderer.device, renderer.device.cbvSrvUavHeap
      ensures Valid() && this.renderer == renderer && name == objectName
      ensures transformBufferIndex == Wrap32(|old(renderer.allocatedBuffers)|)
      ensures |renderer.allocatedBuffers| == |old(renderer.allocatedBuffers)| + 1
      ensures renderer.device.cbvSrvUavHeap.current.index == Wrap32(old(renderer.device.cbvSrvUavHeap.current.index) + 1)
      ensures meshes == [] && materials == [] && scriptIndex == INVALID_INDEX_U32 && transform == DEFAULT_TRANSFORM
    {
      var index := RegisterBuffer(renderer, BufferCreationDesc(ConstantBuffer, gltfScenePath + " Transform Buffer"),
                                  TRANSFORM_BUFFER_SIZE, []);
      this.renderer := renderer;
      transformBufferIndex := index.value;
      name := objectName;
      meshes, materials := [], [];
      scriptIndex := INVALID_INDEX_U32;
      transform := DEFAULT_TRANSFORM;
    }

    /** The constructor's meshes and materials, from the loaded model: the
        meshes' buffers first, then the materials. An empty span in a mesh
        throws before any material is made. */
    method LoadModel(gltfScenePath: string, model: ModelLoader.ModelData) returns (r: Outcome)
      requires Valid() && meshes == [] && materials == []
      requires forall k | 0 <= k < |model.materialData| :: Scene.TextureReadable(model.materialData[k].baseColorTexture)
      modifies this`meshes, this`materials, renderer`allocatedBuffers, renderer`allocatedTextures
      modifies renderer.device, renderer.device.cbvSrvUavHeap, renderer.device.dsvHeap
      ensures Valid()
      ensures r.Abort? <==> ModelRejected(model)
      ensures r.Abort? ==> r.error == ModelError(model)
      ensures r.Pass? ==> (|meshes| == |model.meshData| &&
        forall k | 0 <= k < |model.meshData| ::
          meshes[k] == MeshOf(model.meshData[k], |old(renderer.allocatedBuffers)| + 4 * k))
      ensures r.Pass? ==> (|materials| == |model.materialData| &&
        MaterialsOf(materials, model.materialData,
                    |old(renderer.allocatedBuffers)| + 4 * |model.meshData|,
                    old(renderer.device.cbvSrvUavHeap.current.index) + 3 * |model.meshData|,
                    |old(renderer.allocatedTextures)| + |model.materialData| < U32_LIMIT, true))
    {
      var built := CreateModel(renderer, model, (i: nat) => MeshNames(gltfScenePath, i),
                               (i: nat) => MaterialNamesOf(name, i), true);
      if built.Fail? {
        return Abort(built.error);
      }
      meshes, materials := built.value.0, built.value.1;
      r := Pass;
    }

    /** `update`: the script runs (and moves the object) only when the object
        has one, the matrices are recomputed, and then every material's record
        is copied into its constant buffer (`WriteMaterials`). The Lua call and
        the matrix arithmetic are `runScript` and `matrices`. */
    method Update(scriptCount: nat, runScript: Transform -> Transform, matrices: Transform -> TransformBufferData)
      returns (r: Outcome)
      requires MaterialMemoryLargeEnough(renderer.allocatedBuffers, materials)
      modifies this`transform, MaterialMemory(renderer.allocatedBuffers, materials)
      ensures ScriptFails(scriptIndex, scriptCount) ==> r == Abort(BadIndex) && transform == old(transform)
      ensures !ScriptFails(scriptIndex, scriptCount) ==>
        transform == UpdatedTransform(old(transform), scriptIndex, runScript, matrices)
      ensures r.Pass? <==> !ScriptFails(scriptIndex, scriptCount) && AllMapped(renderer.allocatedBuffers, materials, |materials|)
      ensures r.Abort? ==> r.error in {BadIndex, BadOptionalAccess}
      ensures r.Pass? ==> MaterialsWritten(renderer.allocatedBuffers, materials, |materials|)
    {
      if ScriptFails(scriptIndex, scriptCount) {
        return Abort(BadIndex);
      }
      transform := UpdatedTransform(transform, scriptIndex, runScript, matrices);
      r := WriteMaterials(renderer.allocatedBuffers, materials);
    }
  }

  // ----------------------------------------------------- material uploads

  /** Whether material `k`'s constant buffer is in the registry `buffers` and
      mapped. */
  predicate BufferMapped(buffers: seq<Buffers.Buffer>, materials: seq<Material>, k: nat)
    requires k < |materials|
  {
    materials[k].materialBufferIndex < |buffers| && buffers[materials[k].materialBufferIndex].mapped.Some?
  }

  /** The mapped memory of material `k`'s constant buffer. */
  function MemoryAt(buffers: seq<Buffers.Buffer>, materials: seq<Material>, k: nat): array<byte>
    requires k < |materials| && BufferMapped(buffers, materials, k)
  {
    buffers[materials[k].materialBufferIndex].mapped.value
  }

  /** The mapped memory of every material buffer that exists. */
  ghost function MaterialMemory(buffers: seq<Buffers.Buffer>, materials: seq<Material>): set<array<byte>>
  {
    set k | 0 <= k < |materials| && BufferMapped(buffers, materials, k) :: MemoryAt(buffers, materials, k)
  }

  /** Whether every mapped material buffer holds a whole record; the copy
      `update` makes reads past the end of a smaller one. */
  predicate MaterialMemoryLargeEnough(buffers: seq<Buffers.Buffer>, materials: seq<Material>)
  {
    forall k | 0 <= k < |materials| && BufferMapped(buffers, materials, k) ::
      MemoryAt(buffers, materials, k).Length >= MATERIAL_BUFFER_SIZE
  }

  /** Whether the buffers of the first `end` materials are all mapped. */
  predicate AllMapped(buffers: seq<Buffers.Buffer>, materials: seq<Material>, end: nat)
    requires end <= |materials|
  {
    forall j | 0 <= j < end :: BufferMapped(buffers, materials, j)
  }

  /** Whether no material among `materials[k + 1..end]` shares material `k`'s
      memory, so that `k`'s record is the last one copied there. */
  predicate LastWriter(buffers: seq<Buffers.Buffer>, materials: seq<Material>, k: nat, end: nat)
    requires k < end <= |materials| && BufferMapped(buffers, materials, k)
  {
    forall j | k < j < end && BufferMapped(buffers, materials, j) ::
      MemoryAt(buffers, materials, j) != MemoryAt(buffers, materials, k)
  }

  /** Whether, after copying the first `end` materials in order, every memory
      holds the record of the last material copied into it. */
  ghost predicate MaterialsWritten(buffers: seq<Buffers.Buffer>, materials: seq<Material>, end: nat)
    requires end <= |materials| && MaterialMemoryLargeEnough(buffers, materials)
    reads MaterialMemory(buffers, materials)
  {
    forall k | 0 <= k < end && BufferMapped(buffers, materials, k) && LastWriter(buffers, materials, k, end) ::
      MemoryAt(buffers, materials, k)[..MATERIAL_BUFFER_SIZE] == MaterialBufferBytes(materials[k].materialData)
  }

  /** The material loop of `update`: each material's record copied into its
      constant buffer, in order. A buffer position past the registry throws
      (`get_buffer_at_index` uses `.at`), and so does an unmapped buffer. */
  method WriteMaterials(buffers: seq<Buffers.Buffer>, materials: seq<Material>) returns (r: Outcome)
    requires MaterialMemoryLargeEnough(buffers, materials)
    modifies MaterialMemory(buffers, materials)
    ensures r.Pass? <==> AllMapped(buffers, materials, |materials|)
    ensures r.Abort? ==> r.error in {BadIndex, BadOptionalAccess}
    ensures r.Pass? ==> MaterialsWritten(buffers, materials, |materials|)
  {
    for k := 0 to |materials|
      invariant AllMapped(buffers, materials, k)
      invariant MaterialsWritten(buffers, materials, k)
    {
      r := WriteMaterial(buffers, materials, k);
      if r.Abort? {
        return;
      }
    }
    r := Pass;
  }

  /** One step of the material loop: material `k`'s record copied into its
      buffer, which keeps the records of the earlier materials that last
      wrote elsewhere. */
  method WriteMaterial(buffers: seq<Buffers.Buffer>, materials: seq<Material>, k: nat) returns (r: Outcome)
    requires k < |materials| && MaterialMemoryLargeEnough(buffers, materials)
    requires AllMapped(buffers, materials, k) && MaterialsWritten(buffers, materials, k)
    modifies MaterialMemory(buffers, materials)
    ensures r.Pass? <==> BufferMapped(buffers, materials, k)
    ensures r.Pass? ==> AllMapped(buffers, materials, k + 1)
    ensures r.Abort? ==> r.error in {BadIndex, BadOptionalAccess}
    ensures r.Pass? ==> MaterialsWritten(buffers, materials, k + 1)
  {
    var index := materials[k].materialBufferIndex;
    if index >= |buffers| {
      return Abort(BadIndex);
    }
    if buffers[index].mapped.None? {
      return Abort(BadOptionalAccess);
    }
    var memory := MemoryAt(buffers, materials, k);
    assert memory in MaterialMemory(buffers, materials);
    var record := MaterialBufferBytes(materials[k].materialData);
    label Before:
    r := Buffers.Update(buffers[index], record, MATERIAL_BUFFER_SIZE);
    assert memory[..MATERIAL_BUFFER_SIZE] == record;
    forall j | 0 <= j < k && BufferMapped(buffers, materials, j) && LastWriter(buffers, materials, j, k + 1)
      ensures MemoryAt(buffers, materials, j)[..MATERIAL_BUFFER_SIZE] == MaterialBufferBytes(materials[j].materialData)
    {
      assert MemoryAt(buffers, materials, j) != memory;
      assert LastWriter(buffers, materials, j, k);
      assert old@Before(MaterialsWritten(buffers, materials, k));
    }
  }

  /** Materials built with slots counted from `firstSlot` are those counted
      from any number equal to it modulo 2^32. */
  lemma MaterialsRebased(built: seq<Material>, materials: seq<ModelLoader.MaterialData>, firstBuffer: nat, firstSlot: nat,
                         noWrap: bool, copyMetallic: bool)
    requires MaterialsOf(built, materials, firstBuffer, Wrap32(firstSlot), noWrap, copyMetallic)
    ensures MaterialsOf(built, materials, firstBuffer, firstSlot, noWrap, copyMetallic)
  {
    forall j | 0 <= j < |built| ensures MaterialOf(built[j], materials, j, firstBuffer, firstSlot, noWrap, copyMetallic) {
      Wrap32Add(firstSlot, j + Scene.TexturedCount(materials[..j]));
    }
  }

  /** While the registry positions fit in `uint32_t`, every material owns its
      own constant buffer. */
  lemma MaterialBuffersDistinct(built: seq<Material>, materials: seq<ModelLoader.MaterialData>, firstBuffer: nat,
                                firstSlot: nat, noWrap: bool, copyMetallic: bool)
    requires MaterialsOf(built, materials, firstBuffer, firstSlot, noWrap, copyMetallic)
    requires firstBuffer + |built| <= U32_LIMIT
    ensures forall i, j | 0 <= i < j < |built| :: built[i].materialBufferIndex != built[j].materialBufferIndex
  {
    forall i, j | 0 <= i < j < |built| ensures built[i].materialBufferIndex != built[j].materialBufferIndex {
      assert MaterialOf(built[i], materials, i, firstBuffer, firstSlot, noWrap, copyMetallic);
      assert MaterialOf(built[j], materials, j, firstBuffer, firstSlot, noWrap, copyMetallic);
    }
  }

  /** While the registry positions fit in `uint32_t`, no two meshes share a
      buffer, and each mesh's four buffers are distinct. */
  lemma MeshBuffersDistinct(built: seq<Mesh>, meshData: seq<ModelLoader.MeshData>, firstBuffer: nat)
    requires MeshesOf(built, meshData, firstBuffer)
    requires firstBuffer + 4 * |built| <= U32_LIMIT
    ensures forall i, j | 0 <= i < j < |built| :: built[i].indexBufferIndex < built[j].positionBufferIndex
    ensures forall i | 0 <= i < |built| ::
      built[i].positionBufferIndex < built[i].normalBufferIndex < built[i].textureCoordsBufferIndex < built[i].indexBufferIndex
  {
  }
}

=== FILE: input.dfy ===
/**
 * The engine's input state: which keys are down and where the mouse is. The
 * window's message handler fills it; the application reads it.
 */
module Input {
  import opened Common
  import opened Interop

  /** `Keys`, a `uint8_t` enumeration; `Count` is a value of it too. */
  datatype Key = W | A | S | D | Space | Escape | ArrowUp | ArrowLeft | ArrowDown | ArrowRight | Count

  /** `get_enum_class_value`: the key's position in the enumeration. */
  function KeyValue(key: Key): (v: nat)
    ensures v <= KEY_COUNT
    ensures v == KEY_COUNT <==> key == Count
  {
    match key
    case W => 0 case A => 1 case S => 2 case D => 3 case Space => 4 case Escape => 5
    case ArrowUp => 6 case ArrowLeft => 7 case ArrowDown => 8 case ArrowRight => 9
    case Count => 10
  }

  /** Different keys have different positions. */
  lemma KeyValueInjective(a: Key, b: Key)
    requires KeyValue(a) == KeyValue(b)
    ensures a == b
  {
  }

  /** The number of keys held: the value of `Count`. */
  const KEY_COUNT: nat := 10

  /** `KeyboardState`: `key_states`, all released at first. */
  class KeyboardState {
    const keyStates: array<bool>

    constructor ()
      ensures keyStates.Length == KEY_COUNT && fresh(keyStates)
      ensures forall i | 0 <= i < KEY_COUNT :: !keyStates[i]
    {
      keyStates := new bool[KEY_COUNT](_ => false);
    }

    /** `is_key_pressed`: `.at` throws for `Count`. */
    method IsKeyPressed(key: Key) returns (r: Result<bool>)
      requires keyStates.Length == KEY_COUNT
      ensures r.Fail? <==> key == Count
      ensures r.Fail? ==> r.error == BadArraySubscript
      ensures r.Ok? ==> r.value == keyStates[KeyValue(key)]
    {
      var index := KeyValue(key);
      if index >= keyStates.Length {
        return Fail(BadArraySubscript);
      }
      r := Ok(keyStates[index]);
    }

    /** `set_key_state`: the key's entry, and no other, takes the state; `.at`
        throws for `Count` and nothing changes. */
    method SetKeyState(key: Key, state: bool) returns (r: Outcome)
      requires keyStates.Length == KEY_COUNT
      modifies keyStates
      ensures r == (if key == Count then Abort(BadArraySubscript) else Pass)
      ensures r.Pass? ==> keyStates[..] == old(keyStates[..])[KeyValue(key) := state]
      ensures r.Abort? ==> keyStates[..] == old(keyStates[..])
    {
      var index := KeyValue(key);
      if index >= keyStates.Length {
        return Abort(BadArraySubscript);
      }
      keyStates[index] := state;
      r := Pass;
    }
  }

  /** `MouseState`. */
  datatype MouseState = MouseState(leftButtonDown: bool, rightButtonDown: bool, mousePosition: Float2)

  /** Its default: no button down, the cursor at the origin. */
  const DEFAULT_MOUSE_STATE: MouseState := MouseState(false, false, ZERO_FLOAT2)
}

=== FILE: interop.dfy ===
/**
 * Values shared between the engine and its shaders: single-precision vectors,
 * the per-material and per-mesh records of a scene, and the per-object
 * transform record. The engine never computes with the floating-point
 * components in the parts modelled here, so a `float` is kept as its 32-bit
 * pattern and copied around unchanged.
 */
module Interop {
  import opened Common
  import opened Bytes

  /** The bit pattern of a `float`. */
  type F32 = x: nat | x < U32_LIMIT

  /** The bit pattern of `0.0f`. */
  const ZERO_F32: F32 := 0

  /** An index buffer element, `uint16_t`. */
  type U16 = x: nat | x < U16_LIMIT

  /** `math::XMFLOAT2`, `XMFLOAT3`, `XMFLOAT4`. */
  datatype Float2 = Float2(x: F32, y: F32)
  datatype Float3 = Float3(x: F32, y: F32, z: F32)
  datatype Float4 = Float4(x: F32, y: F32, z: F32, w: F32)

  const ZERO_FLOAT2: Float2 := Float2(0, 0)

  const FLOAT2_SIZE: nat := 8
  const FLOAT3_SIZE: nat := 12
  const FLOAT4_SIZE: nat := 16
  const U16_SIZE: nat := 2

  /** The in-memory image of an `XMFLOAT2`: its components in order. */
  function Float2Bytes(v: Float2): (bytes: seq<byte>)
    ensures |bytes| == FLOAT2_SIZE
  {
    U32Bytes(v.x) + U32Bytes(v.y)
  }

  /** The in-memory image of an `XMFLOAT3`. */
  function Float3Bytes(v: Float3): (bytes: seq<byte>)
    ensures |bytes| == FLOAT3_SIZE
  {
    U32Bytes(v.x) + U32Bytes(v.y) + U32Bytes(v.z)
  }

  /** The in-memory image of an `XMFLOAT4`. */
  function Float4Bytes(v: Float4): (bytes: seq<byte>)
    ensures |bytes| == FLOAT4_SIZE
  {
    U32Bytes(v.x) + U32Bytes(v.y) + U32Bytes(v.z) + U32Bytes(v.w)
  }

  /** The in-memory image of a `uint16_t`. */
  function U16Bytes(i: U16): (bytes: seq<byte>)
    ensures |bytes| == U16_SIZE && DecodeLE(bytes) == i
  {
    DecodeEncodeLE(i, U16_SIZE);
    EncodeLE(i, U16_SIZE)
  }

  /** `interop::MaterialBuffer`: the albedo texture's SRV slot, or
      `INVALID_INDEX_U32` when the material has no texture. */
  datatype MaterialBuffer = MaterialBuffer(baseColor: Float4, metallicRoughnessFactor: Float2,
                                           albedoTextureSrvIndex: nat)

  /** The size of a `MaterialBuffer`: its fields one after the other. */
  const MATERIAL_BUFFER_SIZE: nat := FLOAT4_SIZE + FLOAT2_SIZE + LE32_SIZE

  /** The in-memory image of a `MaterialBuffer`, its fields in declaration
      order; the SRV slot is a `uint32_t`. */
  function MaterialBufferBytes(m: MaterialBuffer): (bytes: seq<byte>)
    ensures |bytes| == MATERIAL_BUFFER_SIZE
    ensures bytes[..FLOAT4_SIZE] == Float4Bytes(m.baseColor)
    ensures bytes[FLOAT4_SIZE..FLOAT4_SIZE + FLOAT2_SIZE] == Float2Bytes(m.metallicRoughnessFactor)
    ensures DecodeLE(bytes[FLOAT4_SIZE + FLOAT2_SIZE..]) == Wrap32(m.albedoTextureSrvIndex)
  {
    DecodeEncodeLE(Wrap32(m.albedoTextureSrvIndex), LE32_SIZE);
    var bytes := Float4Bytes(m.baseColor) + Float2Bytes(m.metallicRoughnessFactor) + U32Bytes(Wrap32(m.albedoTextureSrvIndex));
    assert bytes[FLOAT4_SIZE + FLOAT2_SIZE..] == U32Bytes(Wrap32(m.albedoTextureSrvIndex));
    bytes
  }

  /** The size of a `TransformBuffer`: two 4x4 `float` matrices. */
  const TRANSFORM_BUFFER_SIZE: nat := 2 * 16 * LE32_SIZE

  /** `interop::MeshBuffer`: where one mesh's data starts in each of the scene's
      global arrays, and which game object and material it belongs to. The two
      mesh-local matrices are not part of this model. */
  datatype MeshBuffer = MeshBuffer(meshIndex: nat, gameObjectIndex: nat,
                                   positionOffset: nat, normalOffset: nat, textureCoordOffset: nat,
                                   indicesOffset: nat, indicesCount: nat, materialIndex: nat)

  /** `interop::TransformBufferData`: the model matrix and its transposed
      inverse, sixteen floats each, row by row. */
  datatype TransformBufferData = TransformBufferData(modelMatrix: seq<F32>, transposedInverseModelMatrix: seq<F32>)

  /** A value-initialised `TransformBufferData`: both matrices zero. */
  const ZERO_TRANSFORM: TransformBufferData := TransformBufferData(seq(16, _ => 0), seq(16, _ => 0))

  /** `interop::GameObjectBuffer`. */
  datatype GameObjectBuffer = GameObjectBuffer(transformBuffer: TransformBufferData)

  const DEFAULT_GAME_OBJECT_BUFFER: GameObjectBuffer := GameObjectBuffer(ZERO_TRANSFORM)
}

=== FILE: legacy_game_object.dfy ===
/**
 * The older engine's game object: the same transform buffer, meshes and
 * materials as the newer one, but with buffer names that carry no mesh or
 * material number, and material records that copy only the base colour.
 */
module LegacySceneObject {
  import opened Common
  import opened Interop
  import ModelLoader
  import opened DescriptorHeap
  import opened Buffer
  import opened Renderer
  import Scene
  import opened SceneObject

  /** The debug names of every mesh's buffers: the model path and the buffer
      kind (the position buffer's name has no separating space). */
  function LegacyMeshNames(gltfScenePath: string): MeshBufferNames
  {
    MeshBufferNames(gltfScenePath + "Position Buffer", gltfScenePath + " Normal Buffer",
                    gltfScenePath + " Texture Coords Buffer", gltfScenePath + " Index Buffer")
  }

  /** The debug names of every material's texture and buffer. */
  function LegacyMaterialNames(objectName: string): MaterialNames
  {
    MaterialNames(objectName + " albedo texture", objectName + " material buffer")
  }

  class LegacyGameObject {
    const renderer: Renderer
    const name: string
    /** The transform's constant buffer, created before anything else. */
    const transformBufferIndex: nat
    var meshes: seq<Mesh>
    var materials: seq<Material>

    ghost predicate Valid()
      reads this, renderer, renderer.device, renderer.device.Repr()
    {
      renderer.Valid()
    }

    /** The constructor up to the model: the transform's constant buffer,
        created without data, and the name. */
    constructor (renderer: Renderer, objectName: string, gltfScenePath: string)
      requires renderer.Valid()
      modifies renderer`allocatedBuffers, renderer.device, renderer.device.cbvSrvUavHeap
      ensures Valid() && this.renderer == renderer && name == objectName
      ensures transformBufferIndex == Wrap32(|old(renderer.allocatedBuffers)|)
      ensures |renderer.allocatedBuffers| == |old(renderer.allocatedBuffers)| + 1
      ensures renderer.device.cbvSrvUavHeap.current.index == Wrap32(old(renderer.device.cbvSrvUavHeap.current.index) + 1)
      ensures meshes == [] && materials == []
    {
      var index := RegisterBuffer(renderer, BufferCreationDesc(ConstantBuffer, gltfScenePath + " Transform Buffer"),
                                  TRANSFORM_BUFFER_SIZE, []);
      this.renderer := renderer;
      transformBufferIndex := index.value;
      name := objectName;
      meshes, materials := [], [];
    }

    /** The constructor's meshes and materials: four buffers per mesh, then per
        material an optional albedo texture and a constant buffer whose record
        has the base colour and a zero metallic-roughness factor. */
    method LoadModel(gltfScenePath: string, model: ModelLoader.ModelData) returns (r: Outcome)
      requires Valid() && meshes == [] && materials == []
      requires forall k | 0 <= k < |model.materialData| :: Scene.TextureReadable(model.materialData[k].baseColorTexture)
      modifies this`meshes, this`materials, renderer`allocatedBuffers, renderer`allocatedTextures
      modifies renderer.device, renderer.device.cbvSrvUavHeap, renderer.device.dsvHeap
      ensures Valid()
      ensures r.Abort? <==> ModelRejected(model)
      ensures r.Abort? ==> r.error == ModelError(model)
      ensures r.Pass? ==> (|meshes| == |model.meshData| &&
        forall k | 0 <= k < |model.meshData| ::
          meshes[k] == MeshOf(model.meshData[k], |old(renderer.allocatedBuffers)| + 4 * k))
      ensures r.Pass? ==> (|materials| == |model.materialData| &&
        MaterialsOf(materials, model.materialData,
                    |old(renderer.allocatedBuffers)| + 4 * |model.meshData|,
                    old(renderer.device.cbvSrvUavHeap.current.index) + 3 * |model.meshData|,
                    |old(renderer.allocatedTextures)| + |model.materialData| < U32_LIMIT, false))
    {
      var built := CreateModel(renderer, model, (i: nat) => LegacyMeshNames(gltfScenePath),
                               (i: nat) => LegacyMaterialNames(name), false);
      if built.Fail? {
        return Abort(built.error);
      }
      meshes, materials := built.value.0, built.value.1;
      r := Pass;
    }
  }

  /** The older records carry no metallic-roughness factor: every material's
      is zero, whatever the model says. */
  lemma LegacyMetallicZero(built: seq<Material>, materials: seq<ModelLoader.MaterialData>, firstBuffer: nat,
                           firstSlot: nat, noWrap: bool)
    requires MaterialsOf(built, materials, firstBuffer, firstSlot, noWrap, false)
    ensures forall k | 0 <= k < |built| :: built[k].materialData.metallicRoughnessFactor == ZERO_FLOAT2
  {
    forall k | 0 <= k < |built| ensures built[k].materialData.metallicRoughnessFactor == ZERO_FLOAT2 {
      assert MaterialOf(built[k], materials, k, firstBuffer, firstSlot, noWrap, false);
    }
  }
}

=== FILE: legacy_mesh_loader.dfy ===
/**
 * The older engine's mesh loader: it reads one glTF primitive's positions and
 * indices straight out of the glTF buffers, element by element at the
 * accessor's stride, and hands both to the device as a position buffer and an
 * index buffer. Reading the file is tinygltf's job; the model takes the parsed
 * glTF document and the parser's verdict as inputs.
 */
module LegacyMeshLoader {
  import opened Common
  import opened Bytes
  import opened Interop
  import opened EngineLog

  /** glTF component types of an accessor (section 5.1.3 of the glTF 2.0 specification). */
  const COMPONENT_TYPE_UNSIGNED_SHORT: int := 5123
  const COMPONENT_TYPE_UNSIGNED_INT: int := 5125

  /** The names the loader gives its two buffers: the index buffer is named like
      the position buffer. */
  const POSITION_BUFFER_NAME: string := "Position Buffer"
  const INDEX_BUFFER_NAME: string := "Position Buffer"

  /** The parts of a tinygltf document the loader reads. `stride` is what
      `Accessor::ByteStride` reports for the accessor's view. */
  datatype GltfAccessor = GltfAccessor(bufferView: nat, byteOffset: nat, count: nat, componentType: int, stride: nat)
  datatype GltfBufferView = GltfBufferView(buffer: nat, byteOffset: nat)
  datatype GltfPrimitive = GltfPrimitive(attributes: map<string, nat>, indices: nat)
  datatype GltfMesh = GltfMesh(primitives: seq<GltfPrimitive>)
  datatype GltfNode = GltfNode(mesh: nat)
  datatype GltfModel = GltfModel(defaultScene: nat, nodes: seq<GltfNode>, meshes: seq<GltfMesh>,
                                 accessors: seq<GltfAccessor>, bufferViews: seq<GltfBufferView>,
                                 buffers: seq<seq<byte>>)

  /** What the loader hands to the device: the positions, the indices and the
      `indices_count` it stores in the mesh. */
  datatype LoadedMesh = LoadedMesh(positions: seq<Float3>, indices: seq<U16>, indicesCount: nat)

  /** The `float` whose bit pattern starts at `offset`. */
  function F32At(data: seq<byte>, offset: nat): F32
    requires offset + 4 <= |data|
  {
    DecodeLEBound(data[offset..offset + 4]);
    assert Pow256(4) == U32_LIMIT by {
      assert Pow256(2) == U16_LIMIT;
    }
    DecodeLE(data[offset..offset + 4])
  }

  /** The `XMFLOAT3` whose three components start at `offset`. */
  function Float3At(data: seq<byte>, offset: nat): Float3
    requires offset + FLOAT3_SIZE <= |data|
  {
    Float3(F32At(data, offset), F32At(data, offset + 4), F32At(data, offset + 8))
  }

  /** The `uint16_t` that starts at `offset`. */
  function U16At(data: seq<byte>, offset: nat): U16
    requires offset + U16_SIZE <= |data|
  {
    DecodeLEBound(data[offset..offset + 2]);
    DecodeLE(data[offset..offset + 2])
  }

  /** Whether the index accessor's elements are read: only for 16- and 32-bit indices. */
  predicate IndicesRead(componentType: int)
  {
    componentType == COMPONENT_TYPE_UNSIGNED_SHORT || componentType == COMPONENT_TYPE_UNSIGNED_INT
  }

  /** Whether `count` elements of `size` bytes, `stride` bytes apart from
      `start`, lie inside the buffer. */
  predicate ElementsInside(data: seq<byte>, start: nat, stride: nat, count: nat, size: nat)
  {
    count == 0 || start + (count - 1) * stride + size <= |data|
  }

  /** The accessor `attributes["POSITION"]` names: `std::map::operator[]` yields
      accessor 0 when the primitive has no position attribute. */
  function PositionAccessor(primitive: GltfPrimitive): nat
  {
    if "POSITION" in primitive.attributes then primitive.attributes["POSITION"] else 0
  }

  /** Whether the loader's reads stay inside the document: the scene index used
      as a node index, the node's mesh, its first primitive, the two accessors,
      their views and buffers, and every element read. Anything else is
      undefined behaviour in the engine. */
  predicate Readable(model: GltfModel)
  {
    model.defaultScene < |model.nodes| &&
    model.nodes[model.defaultScene].mesh < |model.meshes| &&
    var mesh := model.meshes[model.nodes[model.defaultScene].mesh];
    |mesh.primitives| > 0 &&
    var primitive := mesh.primitives[0];
    primitive.indices < |model.accessors| && PositionAccessor(primitive) < |model.accessors| &&
    AccessorReadable(model, model.accessors[PositionAccessor(primitive)], FLOAT3_SIZE) &&
    var indexAccessor := model.accessors[primitive.indices];
    (IndicesRead(indexAccessor.componentType) ==> AccessorReadable(model, indexAccessor, U16_SIZE)) &&
    (!IndicesRead(indexAccessor.componentType) ==> AccessorViewed(model, indexAccessor))
  }

  /** Whether an accessor's view and buffer exist. */
  predicate AccessorViewed(model: GltfModel, accessor: GltfAccessor)
  {
    accessor.bufferView < |model.bufferViews| &&
    model.bufferViews[accessor.bufferView].buffer < |model.buffers|
  }

  /** Whether an accessor's elements of `size` bytes lie inside its buffer. */
  predicate AccessorReadable(model: GltfModel, accessor: GltfAccessor, size: nat)
  {
    AccessorViewed(model, accessor) &&
    var view := model.bufferViews[accessor.bufferView];
    ElementsInside(model.buffers[view.buffer], view.byteOffset + accessor.byteOffset, accessor.stride,
                   accessor.count, size)
  }

  /** The first byte of an accessor's data: the view's offset plus the accessor's. */
  function AccessorStart(model: GltfModel, accessor: GltfAccessor): nat
    requires AccessorViewed(model, accessor)
  {
    model.bufferViews[accessor.bufferView].byteOffset + accessor.byteOffset
  }

  /** The buffer an accessor reads from. */
  function AccessorData(model: GltfModel, accessor: GltfAccessor): seq<byte>
    requires AccessorViewed(model, accessor)
  {
    model.buffers[model.bufferViews[accessor.bufferView].buffer]
  }

  /** The primitive the loader reads: the first one of the mesh of the node whose
      index is the default scene's. */
  function ReadPrimitive(model: GltfModel): GltfPrimitive
    requires Readable(model)
  {
    model.meshes[model.nodes[model.defaultScene].mesh].primitives[0]
  }

  /** The positions loop: element `i` is the `XMFLOAT3` at `start + i * stride`. */
  method ReadPositions(data: seq<byte>, start: nat, stride: nat, count: nat) returns (positions: seq<Float3>)
    requires ElementsInside(data, start, stride, count, FLOAT3_SIZE)
    ensures |positions| == count
    ensures forall i | 0 <= i < count ::
              start + i * stride + FLOAT3_SIZE <= |data| && positions[i] == Float3At(data, start + i * stride)
  {
    positions := [];
    for i := 0 to count
      invariant |positions| == i
      invariant forall j | 0 <= j < i ::
                  start + j * stride + FLOAT3_SIZE <= |data| && positions[j] == Float3At(data, start + j * stride)
    {
      ElementInside(start, stride, count, i);
      positions := positions + [Float3At(data, start + i * stride)];
    }
  }

  /** The indices loop: for 16- and 32-bit indices, element `i` is the
      `uint16_t` at `start + i * stride`; for any other type nothing is read. */
  method ReadIndices(data: seq<byte>, start: nat, stride: nat, count: nat, componentType: int) returns (indices: seq<U16>)
    requires IndicesRead(componentType) ==> ElementsInside(data, start, stride, count, U16_SIZE)
    ensures IndicesRead(componentType) ==> |indices| == count
    ensures !IndicesRead(componentType) ==> indices == []
    ensures forall i | 0 <= i < |indices| ::
              start + i * stride + U16_SIZE <= |data| && indices[i] == U16At(data, start + i * stride)
  {
    indices := [];
    for i := 0 to count
      invariant IndicesRead(componentType) ==> |indices| == i
      invariant !IndicesRead(componentType) ==> indices == []
      invariant forall j | 0 <= j < |indices| ::
                  start + j * stride + U16_SIZE <= |data| && indices[j] == U16At(data, start + j * stride)
    {
      if componentType == COMPONENT_TYPE_UNSIGNED_SHORT {
        ElementInside(start, stride, count, i);
        indices := indices + [U16At(data, start + i * stride)];
      } else if componentType == COMPONENT_TYPE_UNSIGNED_INT {
        ElementInside(start, stride, count, i);
        indices := indices + [U16At(data, start + i * stride)];
      }
    }
  }

  /** Every element before the last starts no later than the last one. */
  lemma ElementInside(start: nat, stride: nat, count: nat, i: nat)
    requires i < count
    ensures start + i * stride <= start + (count - 1) * stride
  {
    assert i * stride <= (count - 1) * stride by {
      MulMonotone(stride, i, count - 1);
    }
  }

  /** What a failed load logs: the parser's error, then its warning, each only
      when it is not empty. */
  function FailureRecords(error: string, warning: string, location: SourceLocation): (records: seq<Record>)
    ensures |records| <= 2
    ensures forall r | r in records :: r.level == Err || r.level == Warn
  {
    (if error != [] then [Record(Err, error + FormatSourceLocation(location))] else []) +
    (if warning != [] then [Record(Warn, warning)] else [])
  }

  /** What `load_mesh` reads from the document: element `i` of the position
      accessor, and for 16- and 32-bit indices element `i` of the index accessor,
      each at the view's offset plus the accessor's plus `i` strides; the stored
      index count is the number of indices read. */
  predicate ReadFrom(model: GltfModel, mesh: LoadedMesh)
    requires Readable(model)
  {
    var primitive := ReadPrimitive(model);
    var positionAccessor := model.accessors[PositionAccessor(primitive)];
    var indexAccessor := model.accessors[primitive.indices];
    |mesh.positions| == positionAccessor.count &&
    (forall i | 0 <= i < positionAccessor.count ::
      AccessorStart(model, positionAccessor) + i * positionAccessor.stride + FLOAT3_SIZE
        <= |AccessorData(model, positionAccessor)| &&
      mesh.positions[i] == Float3At(AccessorData(model, positionAccessor),
                                    AccessorStart(model, positionAccessor) + i * positionAccessor.stride)) &&
    (IndicesRead(indexAccessor.componentType) ==> |mesh.indices| == indexAccessor.count) &&
    (!IndicesRead(indexAccessor.componentType) ==> mesh.indices == []) &&
    (forall i | 0 <= i < |mesh.indices| ::
      AccessorStart(model, indexAccessor) + i * indexAccessor.stride + U16_SIZE
        <= |AccessorData(model, indexAccessor)| &&
      mesh.indices[i] == U16At(AccessorData(model, indexAccessor),
                               AccessorStart(model, indexAccessor) + i * indexAccessor.stride)) &&
    mesh.indicesCount == Wrap32(|mesh.indices|)
  }

  /** The decoding part of `load_mesh`. */
  method ReadMesh(model: GltfModel) returns (mesh: LoadedMesh)
    requires Readable(model)
    ensures ReadFrom(model, mesh)
  {
    var primitive := ReadPrimitive(model);
    var positionAccessor := model.accessors[PositionAccessor(primitive)];
    var indexAccessor := model.accessors[primitive.indices];
    var positions := ReadPositions(AccessorData(model, positionAccessor), AccessorStart(model, positionAccessor),
                                   positionAccessor.stride, positionAccessor.count);
    var indices: seq<U16>;
    if IndicesRead(indexAccessor.componentType) {
      indices := ReadIndices(AccessorData(model, indexAccessor), AccessorStart(model, indexAccessor),
                             indexAccessor.stride, indexAccessor.count, indexAccessor.componentType);
    } else {
      indices := ReadIndices([], 0, 0, indexAccessor.count, indexAccessor.componentType);
    }
    mesh := LoadedMesh(positions, indices, Wrap32(|indices|));
  }

  /** `load_mesh`: what it reads, whether or not the parser succeeded (a
      failure is only logged, and the loader carries on with what the parser
      left), and what it logs. */
  method LoadMesh(log: Log, loaded: bool, error: string, warning: string, location: SourceLocation,
                  meshPath: string, model: GltfModel)
    returns (mesh: LoadedMesh)
    requires Readable(model)
    modifies log`records
    ensures ReadFrom(model, mesh)
    ensures log.records == old(log.records) + (if loaded then [] else FailureRecords(error, warning, location))
                           + [Record(Info, "Loaded mesh from path : " + meshPath)]
  {
    if !loaded {
      if error != [] {
        log.LogError(error, location);
      }
      if warning != [] {
        log.LogWarn(warning);
      }
    }
    mesh := ReadMesh(model);
    log.LogInfo("Loaded mesh from path : " + meshPath);
  }

  /** For 32-bit indices only the first two bytes of each element are read:
      on a little-endian host, the index keeps its low 16 bits. */
  lemma UnsignedIntKeepsLowHalf(data: seq<byte>, offset: nat, index: nat)
    requires index < U32_LIMIT && offset + LE32_SIZE <= |data|
    requires data[offset..offset + LE32_SIZE] == U32Bytes(index)
    ensures U16At(data, offset) == index % U16_LIMIT
  {
    assert data[offset..offset + 2] == U32Bytes(index)[..LE16_SIZE];
    LowHalfOfU32(index);
  }

  /** A position written in place as an `XMFLOAT3` is read back unchanged. */
  lemma Float3RoundTrip(data: seq<byte>, offset: nat, v: Float3)
    requires offset + FLOAT3_SIZE <= |data|
    requires data[offset..offset + FLOAT3_SIZE] == Float3Bytes(v)
    ensures Float3At(data, offset) == v
  {
    var bytes := data[offset..offset + FLOAT3_SIZE];
    assert data[offset..offset + 4] == bytes[..4] == U32Bytes(v.x);
    assert data[offset + 4..offset + 8] == bytes[4..8] == U32Bytes(v.y);
    assert data[offset + 8..offset + 12] == bytes[8..12] == U32Bytes(v.z);
    DecodeEncodeLE(v.x, LE32_SIZE);
    DecodeEncodeLE(v.y, LE32_SIZE);
    DecodeEncodeLE(v.z, LE32_SIZE);
  }

  /** 16-bit indices written in place are read back unchanged. */
  lemma UnsignedShortRoundTrip(data: seq<byte>, offset: nat, index: U16)
    requires offset + U16_SIZE <= |data|
    requires data[offset..offset + U16_SIZE] == U16Bytes(index)
    ensures U16At(data, offset) == index
  {
  }
}

=== FILE: lights.dfy ===
/**
 * The light table of the older engine: a fixed array of lights with a count,
 * the directional "sun" at slot 0 and at most one directional light overall,
 * one model matrix per visualised light, and the instanced draw of a cube per
 * light that is not the sun.
 *
 * Light positions, colours and matrices are floating-point values the engine
 * only copies; they are kept as bit patterns (`Interop.F32`), and a model
 * matrix as the scale and translation it is built from.
 */
module SceneLights {
  import opened Common
  import opened Bytes
  import opened Interop
  import opened DescriptorHeap
  import opened Buffer
  import opened CommandList
  import opened Renderer
  import SceneObject
  import EngineLog

  /** `interop::SUN_LIGHT_INDEX`: the sun is the first light, and the model
      matrix array starts with the light after it. */
  const SUN_LIGHT_INDEX: nat := 0

  /** The bit patterns of `1.0f`, `-1.0f`, `5.8f` and `-90.0f`. */
  const ONE_F32: F32 := 0x3F80_0000
  const MINUS_ONE_F32: F32 := 0xBF80_0000
  const SUN_INTENSITY: F32 := 0x40B9_999A
  const SUN_ANGLE: F32 := 0xC2B4_0000

  /** The visualisation cube: eight corners and twelve triangles. */
  const CUBE_POSITIONS: seq<Float3> := [
    Float3(MINUS_ONE_F32, MINUS_ONE_F32, MINUS_ONE_F32), Float3(MINUS_ONE_F32, ONE_F32, MINUS_ONE_F32),
    Float3(ONE_F32, ONE_F32, MINUS_ONE_F32), Float3(ONE_F32, MINUS_ONE_F32, MINUS_ONE_F32),
    Float3(MINUS_ONE_F32, MINUS_ONE_F32, ONE_F32), Float3(MINUS_ONE_F32, ONE_F32, ONE_F32),
    Float3(ONE_F32, ONE_F32, ONE_F32), Float3(ONE_F32, MINUS_ONE_F32, ONE_F32)]
  const CUBE_INDICES: seq<U16> := [
    0, 1, 2, 0, 2, 3, 4, 6, 5, 4, 7, 6, 4, 5, 1, 4, 1, 0, 3, 2, 6, 3, 6, 7, 1, 5, 6, 1, 6, 2, 4, 0, 3, 4, 3, 7]
  const CUBE_INDEX_COUNT: nat := 36

  const LIGHT_BUFFER_NAME: string := "Light Buffer Index"
  const CUBE_POSITION_BUFFER_NAME: string := "Light Cube position buffer"
  const CUBE_INDEX_BUFFER_NAME: string := "Light Cube index buffer"

  datatype LightType = Directional | Point

  /** `interop::Light`. */
  datatype Light = Light(lightType: LightType, positionOrDirection: Float3, color: Float3, intensity: F32, scale: F32)

  /** What fills the table's slots before any light is added. */
  const ZERO_LIGHT: Light := Light(Point, Float3(0, 0, 0), Float3(0, 0, 0), 0, 0)

  /** The sun the constructor adds: white, intensity 5.8, no visualisation scale,
      pointing along the direction computed from its angle. */
  function SunLight(direction: Float3): Light
  {
    Light(Directional, direction, Float3(ONE_F32, ONE_F32, ONE_F32), SUN_INTENSITY, 0)
  }

  /** A model matrix: `XMMatrixScaling(s, s, s) * XMMatrixTranslation(t)`, or the
      zero matrix of a value-initialised slot. */
  datatype ModelMatrix = ZeroMatrix | ScaleTranslation(scale: F32, translation: Float3)

  function ModelMatrixOf(light: Light): ModelMatrix
  {
    ScaleTranslation(light.scale, light.positionOrDirection)
  }

  /** `add_light` rejects a light when the table is full, or when it is a second
      directional light (one is already at or before the sun's slot). */
  predicate Accepts(count: nat, maxLightCount: nat, light: Light)
  {
    count < maxLightCount && !(light.lightType == Directional && count > SUN_LIGHT_INDEX)
  }

  const FULL_TABLE_WARNING: string := "Not adding light the MAX_LIGHT_COUNT is already reached."
  const SECOND_DIRECTIONAL_WARNING: string :=
    "Not adding light since directional light already exists (only 1 such light is allowed in the engine currently)."

  /** What `add_light` logs: nothing for an accepted light, and one warning naming
      the reason for a refused one, the full table taking precedence. */
  function AddLightRecords(count: nat, maxLightCount: nat, light: Light): (records: seq<EngineLog.Record>)
    ensures records == [] <==> Accepts(count, maxLightCount, light)
    ensures records != [] ==> |records| == 1 && records[0].level == EngineLog.Warn
    ensures count >= maxLightCount ==> records == [EngineLog.Record(EngineLog.Warn, FULL_TABLE_WARNING)]
  {
    if count >= maxLightCount then [EngineLog.Record(EngineLog.Warn, FULL_TABLE_WARNING)]
    else if light.lightType == Directional && count > SUN_LIGHT_INDEX then
      [EngineLog.Record(EngineLog.Warn, SECOND_DIRECTIONAL_WARNING)]
    else []
  }

  /** The stored lights after `add_light`, as a function of the stored lights
      (slots below the count) before it. */
  function AfterAdd(stored: seq<Light>, maxLightCount: nat, light: Light): (after: seq<Light>)
    ensures Accepts(|stored|, maxLightCount, light) ==> after == stored + [light]
    ensures !Accepts(|stored|, maxLightCount, light) ==> after == stored
  {
    if Accepts(|stored|, maxLightCount, light) then stored + [light] else stored
  }

  /** The table holds at most one directional light, and only in the sun's slot. */
  predicate SunOnly(stored: seq<Light>)
  {
    forall i | 0 <= i < |stored| :: stored[i].lightType == Directional ==> i == SUN_LIGHT_INDEX
  }

  /** Adding never takes the table past its capacity, grows it by at most one,
      and keeps every stored light. */
  lemma AfterAddBounded(stored: seq<Light>, maxLightCount: nat, light: Light)
    requires |stored| <= maxLightCount
    ensures |stored| <= |AfterAdd(stored, maxLightCount, light)| <= |stored| + 1
    ensures |AfterAdd(stored, maxLightCount, light)| <= maxLightCount
    ensures AfterAdd(stored, maxLightCount, light)[..|stored|] == stored
  {
  }

  /** Adding keeps the one-sun rule: a directional light is only ever stored in
      the sun's slot. */
  lemma AfterAddSunOnly(stored: seq<Light>, maxLightCount: nat, light: Light)
    requires SunOnly(stored)
    ensures SunOnly(AfterAdd(stored, maxLightCount, light))
  {
  }

  /** A sequence of `add_light` calls, in order. */
  function AfterAdds(stored: seq<Light>, maxLightCount: nat, lights: seq<Light>): seq<Light>
    decreases |lights|
  {
    if lights == [] then stored
    else AfterAdds(AfterAdd(stored, maxLightCount, lights[0]), maxLightCount, lights[1..])
  }

  /** Whatever lights are added after the sun, it stays in its slot, it is the only
      directional light, and the table never outgrows its capacity. */
  lemma {:induction false} AfterAddsKeepSun(stored: seq<Light>, maxLightCount: nat, lights: seq<Light>)
    requires SunOnly(stored) && 1 <= |stored| <= maxLightCount
    ensures var after := AfterAdds(stored, maxLightCount, lights);
      SunOnly(after) && 1 <= |after| <= maxLightCount && after[SUN_LIGHT_INDEX] == stored[SUN_LIGHT_INDEX]
    decreases |lights|
  {
    if lights != [] {
      var next := AfterAdd(stored, maxLightCount, lights[0]);
      AfterAddSunOnly(stored, maxLightCount, lights[0]);
      AfterAddBounded(stored, maxLightCount, lights[0]);
      AfterAddsKeepSun(next, maxLightCount, lights[1..]);
    }
  }

  /** The model matrices `update` fills: slot `j` belongs to light `j + 1`, since
      the sun has no cube. */
  function ModelMatrices(stored: seq<Light>): (matrices: seq<ModelMatrix>)
    requires |stored| >= 1
    ensures |matrices| == |stored| - 1
  {
    seq(|stored| - 1, j requires 0 <= j < |stored| - 1 => ModelMatrixOf(stored[j + 1]))
  }

  /** Each light that is not the sun has exactly one model matrix, and it is the
      one built from that light. */
  lemma ModelMatricesOfLights(stored: seq<Light>, i: nat)
    requires 1 <= i < |stored|
    ensures ModelMatrices(stored)[i - 1] == ModelMatrixOf(stored[i])
  {
  }

  /** The root constants of the light pass: `interop::LightRenderResources`, three
      `uint32_t`s. */
  function RenderResourcesBytes(sceneBufferCbvIndex: nat, lightBufferCbvIndex: nat, cubePositionSrvIndex: nat)
    : (bytes: seq<byte>)
    ensures |bytes| == 3 * LE32_SIZE
  {
    U32Bytes(Wrap32(sceneBufferCbvIndex)) + U32Bytes(Wrap32(lightBufferCbvIndex)) +
    U32Bytes(Wrap32(cubePositionSrvIndex))
  }

  /** The calls of a light pass that found its buffers: root signature, pipeline,
      then the draw. */
  function LightPassCalls(rootSignature: nat, pipelineState: nat, resources: seq<byte>, indexBuffer: Buffer,
                          instanceCount: nat): seq<Call>
  {
    [SetGraphicsRootSignature(rootSignature), SetPipelineState(pipelineState)] +
    LightDrawCalls(resources, indexBuffer, instanceCount)
  }

  /** The draw of the light pass: render resources, the cube's index buffer, and
      the instanced draw. */
  function LightDrawCalls(resources: seq<byte>, indexBuffer: Buffer, instanceCount: nat): seq<Call>
  {
    [SetGraphicsRoot32BitConstants(0, NUM_32_BIT_ROOT_CONSTANTS, resources, 0),
     IASetIndexBuffer(indexBuffer.resource, Wrap32(indexBuffer.sizeInBytes), R16Uint),
     DrawIndexedInstanced(CUBE_INDEX_COUNT, instanceCount, 0, 0, 0)]
  }

  /** The constructor's three buffers: the light buffer (a constant buffer, so no
      data is needed), then the cube's positions and indices, each a structured
      buffer with its data. None of them can fail. */
  method CreateLightBuffers(renderer: Renderer, lightBufferSize: nat) returns (lightBuffer: nat, positions: nat, indices: nat)
    requires renderer.Valid() && lightBufferSize > 0
    modifies renderer`allocatedBuffers, renderer.device, renderer.device.cbvSrvUavHeap
    ensures renderer.Valid()
    ensures lightBuffer == Wrap32(|old(renderer.allocatedBuffers)|)
    ensures positions == Wrap32(|old(renderer.allocatedBuffers)| + 1)
    ensures indices == Wrap32(|old(renderer.allocatedBuffers)| + 2)
    ensures |renderer.allocatedBuffers| == |old(renderer.allocatedBuffers)| + 3
  {
    var created := SceneObject.RegisterBuffer(renderer, BufferCreationDesc(ConstantBuffer, LIGHT_BUFFER_NAME),
                                              lightBufferSize, []);
    lightBuffer := created.value;
    created := SceneObject.RegisterBuffer(renderer, BufferCreationDesc(StructuredBuffer, CUBE_POSITION_BUFFER_NAME),
                                          FLOAT3_SIZE, SceneObject.Float3Elements(CUBE_POSITIONS));
    positions := created.value;
    created := SceneObject.RegisterBuffer(renderer, BufferCreationDesc(StructuredBuffer, CUBE_INDEX_BUFFER_NAME),
                                          U16_SIZE, SceneObject.U16Elements(CUBE_INDICES));
    indices := created.value;
    Wrap32Add(|old(renderer.allocatedBuffers)|, 1);
    Wrap32Add(|old(renderer.allocatedBuffers)|, 2);
  }

  /** `render` once the light table has given its buffers and instance count:
      each registry lookup fails past the end (`.at` throws), after the calls
      made before it. The pipeline state is the one the caller looked up. */
  method RecordLightPass(list: CommandList, buffers: seq<Buffer>, lightBufferIndex: nat,
                         cubePositionBufferIndex: nat, cubeIndexBufferIndex: nat, sceneBufferCbvIndex: nat,
                         rootSignature: nat, pipelineState: nat, instanceCount: nat) returns (r: Outcome)
    requires list.Valid()
    modifies list`calls
    ensures list.Valid()
    ensures r.Abort? <==> lightBufferIndex >= |buffers| || cubePositionBufferIndex >= |buffers| ||
                          cubeIndexBufferIndex >= |buffers|
    ensures r.Abort? ==> r.error == BadIndex
    ensures |list.calls| >= |old(list.calls)| + 2 && list.calls[..|old(list.calls)| + 2] ==
            old(list.calls) + [SetGraphicsRootSignature(rootSignature), SetPipelineState(pipelineState)]
    ensures r.Pass? ==> list.calls == old(list.calls) + LightPassCalls(rootSignature, pipelineState,
      RenderResourcesBytes(sceneBufferCbvIndex, buffers[lightBufferIndex].cbvIndex,
                           buffers[cubePositionBufferIndex].srvIndex),
      buffers[cubeIndexBufferIndex], instanceCount)
  {
    list.SetBindlessGraphicsRootSignature(rootSignature);
    list.SetPipeline(pipelineState);
    ghost var bound := list.calls;
    r := RecordLightDraw(list, buffers, lightBufferIndex, cubePositionBufferIndex, cubeIndexBufferIndex,
                         sceneBufferCbvIndex, instanceCount);
    assert list.calls[..|old(list.calls)| + 2] == list.calls[..|bound|][..|old(list.calls)| + 2];
  }

  /** The part of `render` after the pipeline is bound: the render resources
      need the light and cube-position buffers, the index buffer is looked up
      after they are set. */
  method RecordLightDraw(list: CommandList, buffers: seq<Buffer>, lightBufferIndex: nat,
                         cubePositionBufferIndex: nat, cubeIndexBufferIndex: nat, sceneBufferCbvIndex: nat,
                         instanceCount: nat) returns (r: Outcome)
    requires list.Valid()
    modifies list`calls
    ensures list.Valid()
    ensures r.Abort? <==> lightBufferIndex >= |buffers| || cubePositionBufferIndex >= |buffers| ||
                          cubeIndexBufferIndex >= |buffers|
    ensures r.Abort? ==> r.error == BadIndex
    ensures |list.calls| >= |old(list.calls)| && list.calls[..|old(list.calls)|] == old(list.calls)
    ensures r.Pass? ==> list.calls == old(list.calls) + LightDrawCalls(
      RenderResourcesBytes(sceneBufferCbvIndex, buffers[lightBufferIndex].cbvIndex,
                           buffers[cubePositionBufferIndex].srvIndex),
      buffers[cubeIndexBufferIndex], instanceCount)
  {
    if lightBufferIndex >= |buffers| || cubePositionBufferIndex >= |buffers| {
      return Abort(BadIndex);
    }
    list.SetGraphicsRootConstants(RenderResourcesBytes(sceneBufferCbvIndex, buffers[lightBufferIndex].cbvIndex,
                                                       buffers[cubePositionBufferIndex].srvIndex));
    if cubeIndexBufferIndex >= |buffers| {
      return Abort(BadIndex);
    }
    list.SetIndexBuffer(buffers[cubeIndexBufferIndex]);
    list.DrawIndexed(CUBE_INDEX_COUNT, instanceCount);
    r := Pass;
  }

  /** `scene::Lights`. `MAX_LIGHT_COUNT` is the capacity the table is built with. */
  class Lights {
    const maxLightCount: nat
    const lightBufferIndex: nat
    const cubePositionBufferIndex: nat
    const cubeIndexBufferIndex: nat
    /** `m_light_buffer.lights` and `m_light_buffer.model_matrix`. */
    const lights: array<Light>
    const modelMatrices: array<ModelMatrix>
    /** `m_light_buffer.light_count` and `m_light_buffer.sun_angle`. */
    var lightCount: nat
    var sunAngle: F32

    /** The table's invariant: within capacity, the sun in its slot, and no other
        directional light. */
    ghost predicate Valid()
      reads this, lights
    {
      maxLightCount < U32_LIMIT && lights.Length == maxLightCount && modelMatrices.Length == maxLightCount &&
      1 <= lightCount <= maxLightCount && lights[SUN_LIGHT_INDEX].lightType == Directional &&
      SunOnly(lights[..lightCount])
    }

    /** The lights stored so far. */
    ghost function Stored(): seq<Light>
      reads this, lights
      requires lightCount <= lights.Length
    {
      lights[..lightCount]
    }

    /** The constructor: the light buffer, the sun, then the cube's position and
        index buffers. The buffers with data cannot fail; the light buffer is a
        constant buffer and needs none. */
    constructor (renderer: Renderer, maxLightCount: nat, lightBufferSize: nat, sunDirection: Float3)
      requires renderer.Valid() && 1 <= maxLightCount < U32_LIMIT && lightBufferSize > 0
      modifies renderer`allocatedBuffers, renderer.device, renderer.device.cbvSrvUavHeap
      ensures Valid() && fresh(lights) && fresh(modelMatrices)
      ensures this.maxLightCount == maxLightCount && sunAngle == SUN_ANGLE
      ensures lightCount == 1 && lights[SUN_LIGHT_INDEX] == SunLight(sunDirection)
      ensures lightBufferIndex == Wrap32(|old(renderer.allocatedBuffers)|)
      ensures cubePositionBufferIndex == Wrap32(|old(renderer.allocatedBuffers)| + 1)
      ensures cubeIndexBufferIndex == Wrap32(|old(renderer.allocatedBuffers)| + 2)
      ensures |renderer.allocatedBuffers| == |old(renderer.allocatedBuffers)| + 3
      ensures renderer.Valid()
    {
      this.maxLightCount := maxLightCount;
      var lightBuffer, positions, indices := CreateLightBuffers(renderer, lightBufferSize);
      lightBufferIndex, cubePositionBufferIndex, cubeIndexBufferIndex := lightBuffer, positions, indices;
      lights := new Light[maxLightCount](_ => ZERO_LIGHT);
      modelMatrices := new ModelMatrix[maxLightCount](_ => ZeroMatrix);
      lightCount := 0;
      sunAngle := SUN_ANGLE;
      new;
      lights[SUN_LIGHT_INDEX] := SunLight(sunDirection);
      lightCount := 1;
    }

    /** `add_light`: a full table, or a second directional light, is refused with
        a warning; otherwise the light goes into the first free slot. */
    method AddLight(light: Light, log: EngineLog.Log)
      requires Valid()
      modifies this`lightCount, lights, log`records
      ensures Valid()
      ensures Stored() == AfterAdd(old(Stored()), maxLightCount, light)
      ensures lightCount == old(lightCount) + (if Accepts(old(lightCount), maxLightCount, light) then 1 else 0)
      ensures forall i | lightCount <= i < lights.Length :: lights[i] == old(lights[i])
      ensures log.records == old(log.records) + AddLightRecords(old(lightCount), maxLightCount, light)
    {
      if lightCount >= maxLightCount {
        log.LogWarn(FULL_TABLE_WARNING);
        return;
      }
      if light.lightType == Directional && lightCount > SUN_LIGHT_INDEX {
        log.LogWarn(SECOND_DIRECTIONAL_WARNING);
        return;
      }
      ghost var before := lights[..lightCount];
      lights[lightCount] := light;
      lightCount := lightCount + 1;
      assert lights[..lightCount] == before + [light];
      AfterAddSunOnly(before, maxLightCount, light);
    }

    /** `update`, without the floating-point work: the sun takes the direction
        computed from its angle (normalised), and model matrix `i - 1` is built
        from light `i` for every light after the sun. The upload of the light
        buffer is not part of this model. */
    method Update(sunDirection: Float3)
      requires Valid()
      modifies lights, modelMatrices
      ensures Valid()
      ensures lights[SUN_LIGHT_INDEX] == old(lights[SUN_LIGHT_INDEX]).(positionOrDirection := sunDirection)
      ensures forall i | 0 <= i < lights.Length && i != SUN_LIGHT_INDEX :: lights[i] == old(lights[i])
      ensures modelMatrices[..lightCount - 1] == ModelMatrices(Stored())
      ensures forall j | lightCount - 1 <= j < modelMatrices.Length :: modelMatrices[j] == old(modelMatrices[j])
    {
      SetSunDirection(sunDirection);
      WriteModelMatrices();
    }

    /** Lines 100-110 of `update`: only the sun's direction changes. */
    method SetSunDirection(sunDirection: Float3)
      requires Valid()
      modifies lights
      ensures Valid()
      ensures lights[SUN_LIGHT_INDEX] == old(lights[SUN_LIGHT_INDEX]).(positionOrDirection := sunDirection)
      ensures forall i | 0 <= i < lights.Length && i != SUN_LIGHT_INDEX :: lights[i] == old(lights[i])
    {
      lights[SUN_LIGHT_INDEX] := lights[SUN_LIGHT_INDEX].(positionOrDirection := sunDirection);
      assert forall i | 0 <= i < lightCount && i != SUN_LIGHT_INDEX :: lights[..lightCount][i] == old(lights[..lightCount])[i];
    }

    /** Lines 115-126 of `update`: model matrix `i - 1` from light `i`. */
    method WriteModelMatrices()
      requires Valid()
      modifies modelMatrices
      ensures Valid()
      ensures modelMatrices[..lightCount - 1] == ModelMatrices(Stored())
      ensures forall j | lightCount - 1 <= j < modelMatrices.Length :: modelMatrices[j] == old(modelMatrices[j])
    {
      var i := 1;
      while i < lightCount
        invariant 1 <= i <= lightCount
        invariant forall j | 0 <= j < i - 1 :: modelMatrices[j] == ModelMatrixOf(lights[j + 1])
        invariant forall j | i - 1 <= j < modelMatrices.Length :: modelMatrices[j] == old(modelMatrices[j])
      {
        modelMatrices[i - 1] := ModelMatrixOf(lights[i]);
        i := i + 1;
      }
    }

    /** `render`: bind the light pipeline, the render resources and the cube's
        index buffer, then draw one cube instance per light after the sun. */
    method Render(list: CommandList, renderer: Renderer, sceneBufferCbvIndex: nat, rootSignature: nat,
                  pipelineState: nat) returns (r: Outcome)
      requires Valid() && list.Valid()
      modifies list`calls
      ensures list.Valid()
      ensures r.Abort? <==> lightBufferIndex >= |renderer.allocatedBuffers| ||
                            cubePositionBufferIndex >= |renderer.allocatedBuffers| ||
                            cubeIndexBufferIndex >= |renderer.allocatedBuffers|
      ensures r.Abort? ==> r.error == BadIndex
      ensures |list.calls| >= |old(list.calls)| + 2 && list.calls[..|old(list.calls)| + 2] ==
              old(list.calls) + [SetGraphicsRootSignature(rootSignature), SetPipelineState(pipelineState)]
      ensures r.Pass? ==> list.calls == old(list.calls) + LightPassCalls(rootSignature, pipelineState,
        RenderResourcesBytes(sceneBufferCbvIndex, renderer.allocatedBuffers[lightBufferIndex].cbvIndex,
                             renderer.allocatedBuffers[cubePositionBufferIndex].srvIndex),
        renderer.allocatedBuffers[cubeIndexBufferIndex], lightCount - 1)
    {
      r := RecordLightPass(list, renderer.allocatedBuffers, lightBufferIndex, cubePositionBufferIndex,
                           cubeIndexBufferIndex, sceneBufferCbvIndex, rootSignature, pipelineState,
                           Wrap32(lightCount - 1));
    }
  }
}

=== FILE: log.dfy ===
/**
 * The engine's logger: one spdlog logger writing to a console sink and a file
 * sink, plus sinks added and removed by name. The model keeps the records the
 * logger emits (level and text) and the logger's list of sinks; formatting by
 * spdlog and the sinks' output are not part of it.
 */
module EngineLog {
  import opened Common

  /** spdlog's levels, lowest first. */
  datatype Level = Trace | Debug | Info | Warn | Err | Critical | Off

  /** A record the logger emits. */
  datatype Record = Record(level: Level, text: string)

  /** `std::source_location`. */
  datatype SourceLocation = SourceLocation(fileName: string, functionName: string, line: nat)

  /** A sink: a shared pointer, null or pointing at a sink with this identity. */
  type Sink = Option<nat>

  /** The console and the file sink the constructor creates. */
  const CONSOLE_SINK: nat := 0
  const FILE_SINK: nat := 1

  /** The suffix `error` and `critical` append to their message. */
  function FormatSourceLocation(location: SourceLocation): (s: string)
    ensures |s| > 9 + |location.fileName| + 2
    ensures s[..9] == "\n[file : " && s[9..9 + |location.fileName|] == location.fileName
    ensures s[|s| - 2..] == ".]"
  {
    "\n[file : " + location.fileName + ".\nfunction : " + location.functionName + ".\nline : "
      + Decimal(location.line) + ".]"
  }

  /** The list of sinks without any pointer equal to `sink`, the others kept in order. */
  function Without(sinks: seq<Sink>, sink: Sink): (r: seq<Sink>)
    ensures multiset(r)[sink] == 0
    ensures forall other | other != sink :: multiset(r)[other] == multiset(sinks)[other]
    ensures |r| <= |sinks|
    decreases |sinks|
  {
    if sinks == [] then []
    else
      var rest := Without(sinks[1..], sink);
      assert sinks == [sinks[0]] + sinks[1..];
      if sinks[0] == sink then rest else [sinks[0]] + rest
  }

  /** Removing a sink keeps the relative order of the others: removing it from
      a concatenation is removing it from each part. */
  lemma {:induction false} WithoutConcat(a: seq<Sink>, b: seq<Sink>, sink: Sink)
    ensures Without(a + b, sink) == Without(a, sink) + Without(b, sink)
    decreases |a|
  {
    if a != [] {
      assert (a + b)[0] == a[0];
      assert (a + b)[1..] == a[1..] + b;
      WithoutConcat(a[1..], b, sink);
      var tail := Without(a[1..] + b, sink);
      assert Without(a + b, sink) == if a[0] == sink then tail else [a[0]] + tail;
      assert Without(a, sink) == if a[0] == sink then Without(a[1..], sink) else [a[0]] + Without(a[1..], sink);
    } else {
      assert a + b == b;
    }
  }

  /** One more sink examined. */
  lemma WithoutSnoc(sinks: seq<Sink>, i: nat, sink: Sink)
    requires i < |sinks|
    ensures Without(sinks[..i + 1], sink) == Without(sinks[..i], sink) + if sinks[i] == sink then [] else [sinks[i]]
  {
    WithoutConcat(sinks[..i], [sinks[i]], sink);
    assert sinks[..i + 1] == sinks[..i] + [sinks[i]];
    assert Without([sinks[i]], sink) == if sinks[i] == sink then [] else [sinks[i]] by {
      assert [sinks[i]][1..] == [];
    }
  }

  /** `std::erase` on the list of sinks. */
  method Erase(sinks: seq<Sink>, sink: Sink) returns (kept: seq<Sink>)
    ensures kept == Without(sinks, sink)
  {
    kept := [];
    var i := 0;
    while i < |sinks|
      invariant 0 <= i <= |sinks|
      invariant kept == Without(sinks[..i], sink)
    {
      WithoutSnoc(sinks, i, sink);
      if sinks[i] != sink {
        kept := kept + [sinks[i]];
      }
      i := i + 1;
    }
    assert sinks[..i] == sinks;
  }

  /** `core::Log`. */
  class Log {
    /** The logger's sinks, in order. */
    var sinks: seq<Sink>
    /** `m_external_sinks`: the sink added under each name. */
    var externalSinks: map<string, Sink>
    /** The level of the console and of the file sink. */
    var consoleLevel: Level
    var fileLevel: Level
    /** The logger's own level. */
    var loggerLevel: Level
    /** The records emitted so far. */
    var records: seq<Record>

    /** The constructor: the console sink at `info` and the file sink at `trace`,
        each switched off when its flag is false; the logger at `info`; one
        record announcing the logger. */
    constructor (enableConsoleLog: bool, enableFileLog: bool)
      ensures sinks == [Some(CONSOLE_SINK), Some(FILE_SINK)] && externalSinks == map[]
      ensures consoleLevel == (if enableConsoleLog then Info else Off)
      ensures fileLevel == (if enableFileLog then Trace else Off)
      ensures loggerLevel == Info
      ensures records == [Record(Info, "Created logger")]
    {
      sinks := [Some(CONSOLE_SINK), Some(FILE_SINK)];
      externalSinks := map[];
      consoleLevel := if enableConsoleLog then Info else Off;
      fileLevel := if enableFileLog then Trace else Off;
      loggerLevel := Info;
      records := [Record(Info, "Created logger")];
    }

    method LogInfo(message: string)
      modifies this`records
      ensures records == old(records) + [Record(Info, message)]
    {
      records := records + [Record(Info, message)];
    }

    method LogWarn(message: string)
      modifies this`records
      ensures records == old(records) + [Record(Warn, message)]
    {
      records := records + [Record(Warn, message)];
    }

    /** `error`: the message with the caller's location; it does not throw. */
    method LogError(message: string, location: SourceLocation)
      modifies this`records
      ensures records == old(records) + [Record(Err, message + FormatSourceLocation(location))]
    {
      records := records + [Record(Err, message + FormatSourceLocation(location))];
    }

    /** `critical`: the same text as `error`, recorded at critical level, and then
        thrown; the out-parameter is the exception's text. */
    method LogCritical(message: string, location: SourceLocation) returns (thrown: string)
      modifies this`records
      ensures thrown == message + FormatSourceLocation(location)
      ensures records == old(records) + [Record(Critical, thrown)]
    {
      thrown := message + FormatSourceLocation(location);
      records := records + [Record(Critical, thrown)];
    }

    /** `add_sink`: append the sink and record it under the name; a sink added
        earlier under that name stays in the list. */
    method AddSink(sink: Sink, sinkName: string)
      modifies this`sinks, this`externalSinks
      ensures sinks == old(sinks) + [sink]
      ensures externalSinks == old(externalSinks)[sinkName := sink]
    {
      sinks := sinks + [sink];
      externalSinks := externalSinks[sinkName := sink];
    }

    /** `delete_sink`: remove every occurrence of the named sink (a null pointer
        when the name is unknown, since `operator[]` inserts one) and null the
        entry, which keeps its key. */
    method DeleteSink(sinkName: string)
      modifies this`sinks, this`externalSinks
      ensures var named := if sinkName in old(externalSinks) then old(externalSinks)[sinkName] else None;
        sinks == Without(old(sinks), named)
      ensures externalSinks == old(externalSinks)[sinkName := None]
    {
      var named := if sinkName in externalSinks then externalSinks[sinkName] else None;
      sinks := Erase(sinks, named);
      externalSinks := externalSinks[sinkName := None];
    }
  }

  /** Deleting a sink right after adding it under a fresh name leaves the list
      as it was, less any other pointer to the same sink. */
  lemma AddThenDelete(sinks: seq<Sink>, sink: Sink)
    ensures Without(sinks + [sink], sink) == Without(sinks, sink)
  {
    WithoutConcat(sinks, [sink], sink);
  }
}

=== FILE: model_loader.dfy ===
/**
 * The older glTF model loader (`ModelLoader`): a walk of the node tree that
 * gathers one `MeshData` per mesh primitive, one `MaterialData` per material,
 * and `load_model`, which picks the parser by file extension and walks every
 * node of the asset. The parser (fastgltf) and the image decoder (stb_image)
 * are foreign: the parsed asset and the decoders are inputs here.
 */
module ModelLoader {
  import opened Common
  import opened Interop

  // ------------------------------------------------------ what the loader yields

  /** The pixels of a decoded image: 8-bit channels or 32-bit floats. */
  datatype TexelData = Bytes8(bytes: seq<byte>) | Floats(values: seq<F32>)

  /** `TextureData`: dimensions in pixels and the pixels. */
  datatype TextureData = TextureData(width: nat, height: nat, data: TexelData)

  /** A default `TextureData`: no pixels, and the variant holds its first alternative. */
  const EMPTY_TEXTURE: TextureData := TextureData(0, 0, Bytes8([]))

  /** `MeshData` (its transform matrices are not part of this model). */
  datatype MeshData = MeshData(positions: seq<Float3>, normals: seq<Float3>, textureCoords: seq<Float2>,
                               indices: seq<U16>, materialIndex: nat)

  /** `MaterialData`. */
  datatype MaterialData = MaterialData(baseColor: Float4, metallicRoughnessFactor: Float2,
                                       baseColorTexture: TextureData)

  /** `ModelData`. */
  datatype ModelData = ModelData(meshData: seq<MeshData>, materialData: seq<MaterialData>)

  // ------------------------------------------------------------ the parsed asset

  /** A mesh primitive: attribute name to accessor index, and the optional
      index accessor and material. */
  datatype Primitive = Primitive(attributes: map<string, nat>, indicesAccessor: Option<nat>,
                                 materialIndex: Option<nat>)

  datatype Mesh = Mesh(primitives: seq<Primitive>)

  /** A node: its children (node indices) and its optional mesh. */
  datatype Node = Node(children: seq<nat>, meshIndex: Option<nat>)

  datatype Accessor = Accessor(count: nat)

  datatype TextureInfo = TextureInfo(textureIndex: nat)

  datatype Texture = Texture(imageIndex: Option<nat>, fallbackImageIndex: Option<nat>)

  /** Where an image's bytes are: a URI relative to the model, an in-memory
      vector, or a source kind the loader does not handle. */
  datatype ImageSource = Uri(path: string) | Vector(bytes: seq<byte>) | OtherSource

  datatype Material = Material(baseColorFactor: Float4, baseColorTexture: Option<TextureInfo>)

  datatype Asset = Asset(sceneCount: nat, nodes: seq<Node>, meshes: seq<Mesh>, accessors: seq<Accessor>,
                         materials: seq<Material>, textures: seq<Texture>, images: seq<ImageSource>)

  /** What the parser decodes for element `i` of accessor `a`, by element type. */
  datatype AccessorReader = AccessorReader(vec3: (nat, nat) -> Float3, vec2: (nat, nat) -> Float2,
                                           scalar: (nat, nat) -> U16)

  /** The four-channel image decoder: from a file path, or from bytes in memory. */
  datatype TextureDecoder = TextureDecoder(fromFile: string -> TextureData, fromMemory: seq<byte> -> TextureData)

  const POSITION: string := "POSITION"
  const NORMAL: string := "NORMAL"
  const TEXCOORD_0: string := "TEXCOORD_0"

  // -------------------------------------------------------------- accessors

  /** The `count` elements an accessor holds, in index order. */
  function Elements<T>(count: nat, element: nat -> T): (data: seq<T>)
    ensures |data| == count
  {
    seq(count, i requires 0 <= i => element(i))
  }

  /** `get_data_from_accessor`: a vector of `count` default elements, then
      element `i` set to what the parser decodes for index `i`. */
  method DataFromAccessor<T(0)>(count: nat, element: nat -> T) returns (data: seq<T>)
    ensures |data| == count
    ensures forall i | 0 <= i < count :: data[i] == element(i)
    ensures data == Elements(count, element)
  {
    var attributeData := new T[count];
    for index := 0 to count
      invariant forall i | 0 <= i < index :: attributeData[i] == element(i)
    {
      attributeData[index] := element(index);
    }
    data := attributeData[..];
  }

  /** The accessor lookups of a primitive stay inside the accessor array:
      `operator[]` past the end, or a missing attribute, is undefined behaviour. */
  predicate PrimitiveResolves(asset: Asset, p: Primitive)
  {
    POSITION in p.attributes && NORMAL in p.attributes && TEXCOORD_0 in p.attributes &&
    p.attributes[POSITION] < |asset.accessors| && p.attributes[NORMAL] < |asset.accessors| &&
    p.attributes[TEXCOORD_0] < |asset.accessors| &&
    (p.indicesAccessor.Some? ==> p.indicesAccessor.value < |asset.accessors|)
  }

  predicate AttributesResolve(asset: Asset)
  {
    forall m, k | 0 <= m < |asset.meshes| && 0 <= k < |asset.meshes[m].primitives| ::
      PrimitiveResolves(asset, asset.meshes[m].primitives[k])
  }

  /** One primitive's data: positions, normals, first texture coordinates and
      indices, each as long as its accessor's count; the material is the
      primitive's, or 0 when it has none. A primitive without an index
      accessor makes `optional::value` throw. */
  function PrimitiveMeshData(asset: Asset, reader: AccessorReader, p: Primitive): (r: Result<MeshData>)
    requires PrimitiveResolves(asset, p)
    ensures r.Fail? <==> p.indicesAccessor.None?
    ensures r.Fail? ==> r.error == BadOptionalAccess
    ensures r.Ok? ==>
      |r.value.positions| == asset.accessors[p.attributes[POSITION]].count &&
      |r.value.normals| == asset.accessors[p.attributes[NORMAL]].count &&
      |r.value.textureCoords| == asset.accessors[p.attributes[TEXCOORD_0]].count &&
      |r.value.indices| == asset.accessors[p.indicesAccessor.value].count &&
      r.value.materialIndex == (if p.materialIndex.Some? then p.materialIndex.value else 0)
  {
    if p.indicesAccessor.None? then Fail(BadOptionalAccess)
    else
      var positions, normals := p.attributes[POSITION], p.attributes[NORMAL];
      var coords, indices := p.attributes[TEXCOORD_0], p.indicesAccessor.value;
      Ok(MeshData(Elements(asset.accessors[positions].count, (i: nat) => reader.vec3(positions, i)),
                  Elements(asset.accessors[normals].count, (i: nat) => reader.vec3(normals, i)),
                  Elements(asset.accessors[coords].count, (i: nat) => reader.vec2(coords, i)),
                  Elements(asset.accessors[indices].count, (i: nat) => reader.scalar(indices, i)),
                  if p.materialIndex.Some? then p.materialIndex.value else 0))
  }

  /** The data of a mesh's primitives, one `MeshData` each, in primitive order;
      the first primitive without indices ends the walk. */
  function PrimitivesMeshData(asset: Asset, reader: AccessorReader, primitives: seq<Primitive>): (r: Result<seq<MeshData>>)
    requires forall k | 0 <= k < |primitives| :: PrimitiveResolves(asset, primitives[k])
    ensures r.Fail? <==> exists k | 0 <= k < |primitives| :: primitives[k].indicesAccessor.None?
    ensures r.Fail? ==> r.error == BadOptionalAccess
    ensures r.Ok? ==> (|r.value| == |primitives| &&
      forall k | 0 <= k < |primitives| :: r.value[k] == PrimitiveMeshData(asset, reader, primitives[k]).value)
  {
    if primitives == [] then Ok([])
    else
      var init := primitives[..|primitives| - 1];
      var prefix := PrimitivesMeshData(asset, reader, init);
      var last := PrimitiveMeshData(asset, reader, primitives[|primitives| - 1]);
      if prefix.Fail? then
        assert exists k | 0 <= k < |init| :: init[k].indicesAccessor.None?;
        prefix
      else if last.Fail? then Fail(last.error)
      else Ok(prefix.value + [last.value])
  }

  // ------------------------------------------------------------ the node tree

  /** A rank that drops from every node to each of its in-range children: the
      node graph is acyclic, as section 3.5.2 (Nodes and Hierarchy) of glTF 2.0
      requires. On a cyclic graph the walk below never ends. */
  predicate Ranked(asset: Asset, rank: seq<nat>)
  {
    |rank| == |asset.nodes| &&
    forall i, k | 0 <= i < |asset.nodes| && 0 <= k < |asset.nodes[i].children| && asset.nodes[i].children[k] < |asset.nodes| ::
      rank[asset.nodes[i].children[k]] < rank[i]
  }

  /** What the walk demands of a parsed asset. */
  predicate Walkable(asset: Asset, rank: seq<nat>)
  {
    Ranked(asset, rank) && AttributesResolve(asset)
  }

  /** `get_mesh_data_from_node`: the meshes of all children, depth first in
      child order, then one per primitive of the node's own mesh. A child or
      mesh index past its array makes `.at` throw. */
  function NodeMeshData(asset: Asset, reader: AccessorReader, ghost rank: seq<nat>, i: nat): Result<seq<MeshData>>
    requires Walkable(asset, rank) && i < |asset.nodes|
    decreases rank[i], 1
  {
    var children := ChildrenMeshData(asset, reader, rank, i, |asset.nodes[i].children|);
    if children.Fail? || asset.nodes[i].meshIndex.None? then children
    else if asset.nodes[i].meshIndex.value >= |asset.meshes| then Fail(BadIndex)
    else
      var own := PrimitivesMeshData(asset, reader, asset.meshes[asset.nodes[i].meshIndex.value].primitives);
      if own.Fail? then Fail(own.error) else Ok(children.value + own.value)
  }

  /** The meshes of the first `n` children of node `i`, in child order. */
  function ChildrenMeshData(asset: Asset, reader: AccessorReader, ghost rank: seq<nat>, i: nat, n: nat)
    : Result<seq<MeshData>>
    requires Walkable(asset, rank) && i < |asset.nodes| && n <= |asset.nodes[i].children|
    decreases rank[i], 0, n
  {
    if n == 0 then Ok([])
    else
      var prefix := ChildrenMeshData(asset, reader, rank, i, n - 1);
      var c := asset.nodes[i].children[n - 1];
      if prefix.Fail? then prefix
      else if c >= |asset.nodes| then Fail(BadIndex)
      else
        var child := NodeMeshData(asset, reader, rank, c);
        if child.Fail? then child else Ok(prefix.value + child.value)
  }

  /** A failure among the first `k` children is the failure of the whole list. */
  lemma {:induction false} ChildrenFailStays(asset: Asset, reader: AccessorReader, rank: seq<nat>, i: nat, k: nat, n: nat)
    requires Walkable(asset, rank) && i < |asset.nodes| && k <= n <= |asset.nodes[i].children|
    requires ChildrenMeshData(asset, reader, rank, i, k).Fail?
    ensures ChildrenMeshData(asset, reader, rank, i, n) == ChildrenMeshData(asset, reader, rank, i, k)
    decreases n
  {
    if n > k {
      ChildrenFailStays(asset, reader, rank, i, k, n - 1);
    }
  }

  /** The walk as the engine runs it: a loop over the children that recurses and
      appends, then a loop over the primitives of the node's mesh. */
  method MeshDataFromNode(asset: Asset, reader: AccessorReader, ghost rank: seq<nat>, i: nat)
    returns (r: Result<seq<MeshData>>)
    requires Walkable(asset, rank) && i < |asset.nodes|
    ensures r == NodeMeshData(asset, reader, rank, i)
    decreases rank[i]
  {
    var node := asset.nodes[i];
    var resultMeshData: seq<MeshData> := [];
    for k := 0 to |node.children|
      invariant ChildrenMeshData(asset, reader, rank, i, k) == Ok(resultMeshData)
    {
      var c := node.children[k];
      if c >= |asset.nodes| {
        ChildrenFailStays(asset, reader, rank, i, k + 1, |node.children|);
        return Fail(BadIndex);
      }
      var childMeshData := MeshDataFromNode(asset, reader, rank, c);
      if childMeshData.Fail? {
        ChildrenFailStays(asset, reader, rank, i, k + 1, |node.children|);
        return childMeshData;
      }
      resultMeshData := resultMeshData + childMeshData.value;
    }
    if node.meshIndex.Some? {
      if node.meshIndex.value >= |asset.meshes| {
        return Fail(BadIndex);
      }
      var primitives := asset.meshes[node.meshIndex.value].primitives;
      r := AppendPrimitivesMeshData(asset, reader, primitives, resultMeshData);
      return;
    }
    r := Ok(resultMeshData);
  }

  /** The primitive loop of the walk: one `MeshData` per primitive appended to
      what the children gave, in order; a primitive without indices throws. */
  method AppendPrimitivesMeshData(asset: Asset, reader: AccessorReader, primitives: seq<Primitive>,
                                  fromChildren: seq<MeshData>)
    returns (r: Result<seq<MeshData>>)
    requires forall k | 0 <= k < |primitives| :: PrimitiveResolves(asset, primitives[k])
    ensures PrimitivesMeshData(asset, reader, primitives).Fail? ==> r == Fail(BadOptionalAccess)
    ensures PrimitivesMeshData(asset, reader, primitives).Ok? ==>
      r == Ok(fromChildren + PrimitivesMeshData(asset, reader, primitives).value)
  {
    var resultMeshData := fromChildren;
    ghost var own: seq<MeshData> := [];
    assert primitives[..0] == [];
    for k := 0 to |primitives|
      invariant resultMeshData == fromChildren + own
      invariant PrimitivesMeshData(asset, reader, primitives[..k]) == Ok(own)
    {
      assert primitives[..k + 1][..k] == primitives[..k];
      var meshData := PrimitiveMeshData(asset, reader, primitives[k]);
      if meshData.Fail? {
        return Fail(BadOptionalAccess);
      }
      resultMeshData := resultMeshData + [meshData.value];
      own := own + [meshData.value];
    }
    assert primitives[..|primitives|] == primitives;
    r := Ok(resultMeshData);
  }

  /** Child `k`'s meshes sit, unchanged, inside its parent's: right after the
      meshes of the children before it. */
  lemma {:induction false} ChildEmbedded(asset: Asset, reader: AccessorReader, rank: seq<nat>, i: nat, k: nat, n: nat)
    requires Walkable(asset, rank) && i < |asset.nodes| && k < n <= |asset.nodes[i].children|
    requires asset.nodes[i].children[k] < |asset.nodes|
    requires ChildrenMeshData(asset, reader, rank, i, n).Ok?
    ensures ChildrenMeshData(asset, reader, rank, i, k).Ok?
    ensures NodeMeshData(asset, reader, rank, asset.nodes[i].children[k]).Ok?
    ensures var before := |ChildrenMeshData(asset, reader, rank, i, k).value|;
      var child := NodeMeshData(asset, reader, rank, asset.nodes[i].children[k]).value;
      var all := ChildrenMeshData(asset, reader, rank, i, n).value;
      before + |child| <= |all| && all[before..before + |child|] == child
    decreases n
  {
    if n > k + 1 {
      ChildEmbedded(asset, reader, rank, i, k, n - 1);
      var prefix := ChildrenMeshData(asset, reader, rank, i, n - 1).value;
      var all := ChildrenMeshData(asset, reader, rank, i, n).value;
      assert all[..|prefix|] == prefix;
    }
  }

  /** A node's own primitives come after all of its children's meshes, so every
      child's meshes are part of its parent's, at the child's position. */
  lemma NodeContainsChild(asset: Asset, reader: AccessorReader, rank: seq<nat>, i: nat, k: nat)
    requires Walkable(asset, rank) && i < |asset.nodes| && k < |asset.nodes[i].children|
    requires asset.nodes[i].children[k] < |asset.nodes|
    requires NodeMeshData(asset, reader, rank, i).Ok?
    ensures ChildrenMeshData(asset, reader, rank, i, k).Ok?
    ensures NodeMeshData(asset, reader, rank, asset.nodes[i].children[k]).Ok?
    ensures var before := |ChildrenMeshData(asset, reader, rank, i, k).value|;
      var child := NodeMeshData(asset, reader, rank, asset.nodes[i].children[k]).value;
      var all := NodeMeshData(asset, reader, rank, i).value;
      before + |child| <= |all| && all[before..before + |child|] == child
  {
    var n := |asset.nodes[i].children|;
    ChildEmbedded(asset, reader, rank, i, k, n);
    var children := ChildrenMeshData(asset, reader, rank, i, n).value;
    var all := NodeMeshData(asset, reader, rank, i).value;
    assert all[..|children|] == children;
  }

  // ------------------------------------------------------------------ materials

  /** The image of a glTF texture: `imageIndex`, else `fallbackImageIndex`,
      whose `value()` throws when it is empty too. */
  function ImageIndex(texture: Texture): (r: Result<nat>)
    ensures r.Fail? <==> texture.imageIndex.None? && texture.fallbackImageIndex.None?
    ensures r.Ok? ==> r.value == if texture.imageIndex.Some? then texture.imageIndex.value
                                  else texture.fallbackImageIndex.value
  {
    if texture.imageIndex.Some? then Ok(texture.imageIndex.value)
    else if texture.fallbackImageIndex.Some? then Ok(texture.fallbackImageIndex.value)
    else Fail(BadOptionalAccess)
  }

  /** One material: its base colour factor, metallic/roughness left at zero, and
      the base colour texture decoded from the image file (relative to
      `directory`) or from the bytes the asset holds; any other image source
      leaves the texture empty. */
  function MaterialDataOf(asset: Asset, directory: string, decoder: TextureDecoder, material: Material)
    : (r: Result<MaterialData>)
    ensures r.Ok? ==> r.value.baseColor == material.baseColorFactor &&
                      r.value.metallicRoughnessFactor == ZERO_FLOAT2
    ensures material.baseColorTexture.None? ==> r.Ok? && r.value.baseColorTexture == EMPTY_TEXTURE
    ensures material.baseColorTexture.Some? && material.baseColorTexture.value.textureIndex >= |asset.textures| ==>
      r == Fail(BadIndex)
  {
    var empty := MaterialData(material.baseColorFactor, ZERO_FLOAT2, EMPTY_TEXTURE);
    if material.baseColorTexture.None? then Ok(empty)
    else if material.baseColorTexture.value.textureIndex >= |asset.textures| then Fail(BadIndex)
    else
      var image := ImageIndex(asset.textures[material.baseColorTexture.value.textureIndex]);
      if image.Fail? then Fail(image.error)
      else if image.value >= |asset.images| then Fail(BadIndex)
      else match asset.images[image.value]
        case Uri(path) => Ok(empty.(baseColorTexture := decoder.fromFile(directory + "/" + path)))
        case Vector(bytes) => Ok(empty.(baseColorTexture := decoder.fromMemory(bytes)))
        case OtherSource => Ok(empty)
  }

  /** The data of the first `n` materials, one each, in order. */
  function MaterialsData(asset: Asset, directory: string, decoder: TextureDecoder, n: nat): (r: Result<seq<MaterialData>>)
    requires n <= |asset.materials|
    ensures r.Ok? <==> forall k | 0 <= k < n :: MaterialDataOf(asset, directory, decoder, asset.materials[k]).Ok?
    ensures r.Ok? ==> (|r.value| == n &&
      forall k | 0 <= k < n :: r.value[k] == MaterialDataOf(asset, directory, decoder, asset.materials[k]).value)
  {
    if n == 0 then Ok([])
    else
      var prefix := MaterialsData(asset, directory, decoder, n - 1);
      var last := MaterialDataOf(asset, directory, decoder, asset.materials[n - 1]);
      if prefix.Fail? then prefix
      else if last.Fail? then Fail(last.error)
      else Ok(prefix.value + [last.value])
  }

  lemma {:induction false} MaterialsFailStays(asset: Asset, directory: string, decoder: TextureDecoder, k: nat, n: nat)
    requires k <= n <= |asset.materials| && MaterialsData(asset, directory, decoder, k).Fail?
    ensures MaterialsData(asset, directory, decoder, n) == MaterialsData(asset, directory, decoder, k)
    decreases n
  {
    if n > k {
      MaterialsFailStays(asset, directory, decoder, k, n - 1);
    }
  }

  /** `get_material_data_from_asset`. */
  method MaterialDataFromAsset(asset: Asset, directory: string, decoder: TextureDecoder)
    returns (r: Result<seq<MaterialData>>)
    ensures r == MaterialsData(asset, directory, decoder, |asset.materials|)
  {
    var resultMaterialData: seq<MaterialData> := [];
    for k := 0 to |asset.materials|
      invariant MaterialsData(asset, directory, decoder, k) == Ok(resultMaterialData)
    {
      var materialData := MaterialDataOf(asset, directory, decoder, asset.materials[k]);
      if materialData.Fail? {
        MaterialsFailStays(asset, directory, decoder, k + 1, |asset.materials|);
        return Fail(materialData.error);
      }
      resultMaterialData := resultMaterialData + [materialData.value];
    }
    r := Ok(resultMaterialData);
  }

  // --------------------------------------------------------------------- paths

  predicate IsSeparator(c: char)
  {
    c == '/' || c == '\\'
  }

  /** The position of the last separator of `path`, if it has one. */
  function LastSeparator(path: string): (r: Option<nat>)
    ensures r.Some? ==> r.value < |path| && IsSeparator(path[r.value]) &&
                        forall j | r.value < j < |path| :: !IsSeparator(path[j])
    ensures r.None? ==> forall j | 0 <= j < |path| :: !IsSeparator(path[j])
  {
    if path == [] then None
    else if IsSeparator(path[|path| - 1]) then Some(|path| - 1)
    else LastSeparator(path[..|path| - 1])
  }

  /** The position of the last dot of `name`, if it has one. */
  function LastDot(name: string): (r: Option<nat>)
    ensures r.Some? ==> r.value < |name| && name[r.value] == '.' && forall j | r.value < j < |name| :: name[j] != '.'
    ensures r.None? ==> forall j | 0 <= j < |name| :: name[j] != '.'
  {
    if name == [] then None
    else if name[|name| - 1] == '.' then Some(|name| - 1)
    else LastDot(name[..|name| - 1])
  }

  /** `path::filename`: what follows the last separator. */
  function FileName(path: string): string
  {
    match LastSeparator(path)
    case None => path
    case Some(k) => path[k + 1..]
  }

  /** `path::extension`: the file name from its last dot on, unless the name is
      "." or "..", has no dot, or its only dot leads it (a hidden file). */
  function Extension(path: string): (ext: string)
    ensures ext == [] || (ext[0] == '.' && |ext| <= |path| && path[|path| - |ext|..] == ext)
  {
    var name := FileName(path);
    if name == "." || name == ".." then ""
    else match LastDot(name)
      case None => ""
      case Some(k) => if k == 0 then "" else name[k..]
  }

  /** `path::parent_path`: everything before the last separator (the separator
      itself when it is the first character). Root names such as drive letters
      are not modelled. */
  function ParentPath(path: string): string
  {
    match LastSeparator(path)
    case None => ""
    case Some(k) => if k == 0 then path[..1] else path[..k]
  }

  /** A model file `dir/stem.ext` has extension `.ext` and parent `dir`. */
  lemma JoinedPathParts(dir: string, stem: string, ext: string)
    requires |dir| > 0 && |stem| > 0 && |ext| > 0 && ext[0] == '.'
    requires forall j | 0 <= j < |stem| :: !IsSeparator(stem[j]) && stem[j] != '.'
    requires forall j | 0 <= j < |ext| :: !IsSeparator(ext[j]) && (j > 0 ==> ext[j] != '.')
    ensures Extension(dir + "/" + stem + ext) == ext
    ensures ParentPath(dir + "/" + stem + ext) == dir
  {
    var name := stem + ext;
    var path := dir + "/" + stem + ext;
    JoinedSeparator(dir, name);
    assert path == (dir + "/") + name;
    assert FileName(path) == name;
    LastDotOfJoin(stem, ext);
    assert name[0] == stem[0];
    assert name[|stem|..] == ext;
    assert path[..|dir|] == dir;
  }

  /** In `dir/name`, with no separator in `name`, the last separator is the
      joining one. */
  lemma JoinedSeparator(dir: string, name: string)
    requires |dir| > 0 && forall j | 0 <= j < |name| :: !IsSeparator(name[j])
    ensures LastSeparator((dir + "/") + name) == Some(|dir|)
  {
    LastSeparatorOfJoin(dir + "/", name);
  }

  lemma {:induction false} LastSeparatorOfJoin(prefix: string, name: string)
    requires |prefix| > 0 && IsSeparator(prefix[|prefix| - 1])
    requires forall j | 0 <= j < |name| :: !IsSeparator(name[j])
    ensures LastSeparator(prefix + name) == Some(|prefix| - 1)
    decreases |name|
  {
    if name == [] {
      assert prefix + name == prefix;
    } else {
      assert (prefix + name)[..|prefix + name| - 1] == prefix + name[..|name| - 1];
      LastSeparatorOfJoin(prefix, name[..|name| - 1]);
    }
  }

  lemma {:induction false} LastDotOfJoin(stem: string, ext: string)
    requires |ext| > 0 && ext[0] == '.'
    requires forall j | 0 < j < |ext| :: ext[j] != '.'
    ensures LastDot(stem + ext) == Some(|stem|)
    decreases |ext|
  {
    if |ext| == 1 {
      assert (stem + ext)[..|stem|] == stem;
    } else {
      assert (stem + ext)[..|stem + ext| - 1] == stem + ext[..|ext| - 1];
      LastDotOfJoin(stem, ext[..|ext| - 1]);
    }
  }

  // --------------------------------------------------------------- load_model

  /** The parser's verdict on a file: an asset, or an error code. */
  datatype ParseOutcome = Parsed(asset: Asset) | ParseError(code: nat)

  /** The parser choice of `load_model`: text glTF for ".gltf", binary for
      ".glb", `critical` for anything else; a parse error is critical too. */
  function ParsedAsset(path: string, textParse: ParseOutcome, binaryParse: ParseOutcome): (r: Result<Asset>)
    ensures Extension(path) != ".gltf" && Extension(path) != ".glb" ==> r == Fail(UnsupportedModelExtension)
    ensures Extension(path) == ".gltf" ==> r == if textParse.Parsed? then Ok(textParse.asset) else Fail(GltfParseFailed)
    ensures Extension(path) == ".glb" ==> r == if binaryParse.Parsed? then Ok(binaryParse.asset) else Fail(GltfParseFailed)
  {
    var ext := Extension(path);
    var gltf := if ext == ".gltf" then Some(textParse) else if ext == ".glb" then Some(binaryParse) else None;
    if gltf.None? then Fail(UnsupportedModelExtension)
    else if gltf.value.ParseError? then Fail(GltfParseFailed)
    else Ok(gltf.value.asset)
  }

  /** The meshes of the first `n` nodes of the asset, each node walked on its
      own: a node below the top level is walked again as part of each ancestor. */
  function NodesMeshData(asset: Asset, reader: AccessorReader, ghost rank: seq<nat>, n: nat): Result<seq<MeshData>>
    requires Walkable(asset, rank) && n <= |asset.nodes|
  {
    if n == 0 then Ok([])
    else
      var prefix := NodesMeshData(asset, reader, rank, n - 1);
      var node := NodeMeshData(asset, reader, rank, n - 1);
      if prefix.Fail? then prefix
      else if node.Fail? then node
      else Ok(prefix.value + node.value)
  }

  lemma {:induction false} NodesFailStays(asset: Asset, reader: AccessorReader, rank: seq<nat>, k: nat, n: nat)
    requires Walkable(asset, rank) && k <= n <= |asset.nodes| && NodesMeshData(asset, reader, rank, k).Fail?
    ensures NodesMeshData(asset, reader, rank, n) == NodesMeshData(asset, reader, rank, k)
    decreases n
  {
    if n > k {
      NodesFailStays(asset, reader, rank, k, n - 1);
    }
  }

  /** Walking more nodes only adds meshes: each earlier node's meshes stay, in place. */
  lemma {:induction false} NodesGrow(asset: Asset, reader: AccessorReader, rank: seq<nat>, j: nat, n: nat)
    requires Walkable(asset, rank) && j < n <= |asset.nodes| && NodesMeshData(asset, reader, rank, n).Ok?
    ensures NodesMeshData(asset, reader, rank, j + 1).Ok? && NodeMeshData(asset, reader, rank, j).Ok?
    ensures |NodesMeshData(asset, reader, rank, j + 1).value| <= |NodesMeshData(asset, reader, rank, n).value|
    ensures NodesMeshData(asset, reader, rank, j + 1).value ==
            NodesMeshData(asset, reader, rank, j).value + NodeMeshData(asset, reader, rank, j).value
    decreases n
  {
    if n > j + 1 {
      NodesGrow(asset, reader, rank, j, n - 1);
    }
  }

  /** The duplication of `load_model`: a node that is some other node's child
      has its meshes loaded at least twice, once in its parent's walk and once
      in its own. */
  lemma ChildLoadedTwice(asset: Asset, reader: AccessorReader, rank: seq<nat>, p: nat, k: nat)
    requires Walkable(asset, rank) && p < |asset.nodes| && k < |asset.nodes[p].children|
    requires asset.nodes[p].children[k] < |asset.nodes|
    requires NodesMeshData(asset, reader, rank, |asset.nodes|).Ok?
    ensures var c := asset.nodes[p].children[k];
      NodeMeshData(asset, reader, rank, c).Ok? &&
      |NodesMeshData(asset, reader, rank, |asset.nodes|).value| >= 2 * |NodeMeshData(asset, reader, rank, c).value|
  {
    var c := asset.nodes[p].children[k];
    var n := |asset.nodes|;
    assert p != c by {
      assert rank[c] < rank[p];
    }
    var a, b := if p < c then p else c, if p < c then c else p;
    NodesGrow(asset, reader, rank, b, n);
    NodesGrow(asset, reader, rank, a, b);
    NodesGrow(asset, reader, rank, a, n);
    NodeContainsChild(asset, reader, rank, p, k);
  }

  /** The whole model of a parsed asset: every node's meshes, then the materials. */
  function AssetModel(asset: Asset, directory: string, reader: AccessorReader, decoder: TextureDecoder,
                      ghost rank: seq<nat>): Result<ModelData>
    requires Walkable(asset, rank)
  {
    var meshes := NodesMeshData(asset, reader, rank, |asset.nodes|);
    var materials := MaterialsData(asset, directory, decoder, |asset.materials|);
    if meshes.Fail? then Fail(meshes.error)
    else if materials.Fail? then Fail(materials.error)
    else Ok(ModelData(meshes.value, materials.value))
  }

  /** `load_model` on an absolute `path`. `loaded` is whether the file could be
      read; `textParse` and `binaryParse` are what the two parsers make of it. */
  method LoadModel(path: string, loaded: bool, textParse: ParseOutcome, binaryParse: ParseOutcome,
                   reader: AccessorReader, decoder: TextureDecoder, ghost rank: seq<nat>) returns (r: Result<ModelData>)
    requires ParsedAsset(path, textParse, binaryParse).Ok? ==> Walkable(ParsedAsset(path, textParse, binaryParse).value, rank)
    ensures !loaded ==> r == Fail(GltfLoadFailed)
    ensures loaded ==>
      var asset := ParsedAsset(path, textParse, binaryParse);
      r == if asset.Fail? then Fail(asset.error)
           else AssetModel(asset.value, ParentPath(path), reader, decoder, rank)
  {
    if !loaded {
      return Fail(GltfLoadFailed);
    }
    var gltf := ParsedAsset(path, textParse, binaryParse);
    if gltf.Fail? {
      return Fail(gltf.error);
    }
    var asset := gltf.value;
    var meshData: seq<MeshData> := [];
    for n := 0 to |asset.nodes|
      invariant NodesMeshData(asset, reader, rank, n) == Ok(meshData)
    {
      var data := MeshDataFromNode(asset, reader, rank, n);
      if data.Fail? {
        NodesFailStays(asset, reader, rank, n + 1, |asset.nodes|);
        return Fail(data.error);
      }
      meshData := meshData + data.value;
    }
    var materialData := MaterialDataFromAsset(asset, ParentPath(path), decoder);
    if materialData.Fail? {
      return Fail(materialData.error);
    }
    r := Ok(ModelData(meshData, materialData.value));
  }
}

=== FILE: renderer.dfy ===
/**
 * The renderer: the engine's front door to the GPU. It keeps every buffer and
 * texture it creates in a registry and hands out their positions as indices,
 * records each frame (resource transitions around the render passes), and
 * rebuilds the pipelines whose shaders were scheduled for hot reloading.
 *
 * The swapchain, the command queue, the fences and the render passes other than
 * the shading pass are not part of this model; the calls the renderer itself
 * records are.
 */
module Renderer {
  import opened Common
  import opened D3DUtils
  import opened DescriptorHeap
  import opened Buffer
  import opened Device
  import opened CommandList
  import opened Bytes
  import opened Interop
  import EngineLog

  /** `D3D_PRIMITIVE_TOPOLOGY_TRIANGLELIST`. */
  const TOPOLOGY_TRIANGLE_LIST: nat := 4
  /** `DXGI_FORMAT_D32_FLOAT` and `DXGI_FORMAT_R16G16B16A16_FLOAT`. */
  const FORMAT_D32_FLOAT: nat := 40
  const FORMAT_R16G16B16A16_FLOAT: nat := 10
  /** `sizeof(rhi::IndirectCommand)`: a `uint32_t` object id and five 32-bit draw arguments. */
  const INDIRECT_COMMAND_SIZE: nat := 24

  /** `std::vector<IndirectCommand>(n)`: `n` value-initialised commands, as bytes. */
  function ZeroedCommands(n: nat): (commands: seq<seq<byte>>)
    ensures |commands| == n
    ensures forall e | e in commands :: |e| == INDIRECT_COMMAND_SIZE && forall b: byte | b in e :: b == 0
  {
    seq(n, _ => seq(INDIRECT_COMMAND_SIZE, _ => 0 as byte))
  }

  const CLEAR_COLOR: seq<real> := [0.0, 0.0, 0.0, 1.0]

  // ------------------------------------------------------------ pipelines

  /** What a pipeline is built from; the shaders are opaque here. */
  datatype PipelineCreationDesc = PipelineCreationDesc(name: string, shaders: nat)

  /** A pipeline slot: its description, its pipeline state object (`None` for a
      null `ID3D12PipelineState`) and the slot index it believes it has. */
  datatype Pipeline = Pipeline(creationDesc: PipelineCreationDesc, pipelineState: Option<nat>, index: nat)

  /** One pass over a valid index: a rebuilt pipeline without a pipeline state is
      dropped (the old one stays), any other replaces the slot; either way the
      slot is then told its index. */
  function ReloadSlot(pipelines: seq<Pipeline>, index: nat, rebuild: PipelineCreationDesc -> Pipeline): seq<Pipeline>
    requires index < |pipelines|
  {
    var rebuilt := rebuild(pipelines[index].creationDesc);
    var kept := if rebuilt.pipelineState.None? then pipelines[index] else rebuilt;
    pipelines[index := kept.(index := index)]
  }

  /** The pipelines after a reload pass, and whether the pass got to the end of the list. */
  datatype ReloadOutcome = ReloadOutcome(pipelines: seq<Pipeline>, completed: bool)

  /** `reload_pipelines` as a function of the slots and the scheduled indices: they
      are processed in order, and the first index past the last slot stops the pass. */
  function ApplyReloads(pipelines: seq<Pipeline>, indices: seq<nat>, rebuild: PipelineCreationDesc -> Pipeline): ReloadOutcome
    decreases |indices|
  {
    if indices == [] then ReloadOutcome(pipelines, true)
    else if indices[0] >= |pipelines| then ReloadOutcome(pipelines, false)
    else ApplyReloads(ReloadSlot(pipelines, indices[0], rebuild), indices[1..], rebuild)
  }

  /** A reload never adds or removes slots. */
  lemma {:induction false} ApplyReloadsLength(pipelines: seq<Pipeline>, indices: seq<nat>, rebuild: PipelineCreationDesc -> Pipeline)
    ensures |ApplyReloads(pipelines, indices, rebuild).pipelines| == |pipelines|
    decreases |indices|
  {
    if indices != [] && indices[0] < |pipelines| {
      ApplyReloadsLength(ReloadSlot(pipelines, indices[0], rebuild), indices[1..], rebuild);
    }
  }

  /** The pass completes exactly when every scheduled index names a slot. */
  lemma {:induction false} ApplyReloadsCompleted(pipelines: seq<Pipeline>, indices: seq<nat>, rebuild: PipelineCreationDesc -> Pipeline)
    ensures ApplyReloads(pipelines, indices, rebuild).completed <==> forall k | 0 <= k < |indices| :: indices[k] < |pipelines|
    decreases |indices|
  {
    if indices != [] && indices[0] < |pipelines| {
      var next := ReloadSlot(pipelines, indices[0], rebuild);
      ApplyReloadsCompleted(next, indices[1..], rebuild);
      assert forall k | 1 <= k < |indices| :: indices[k] == indices[1..][k - 1];
    }
  }

  /** A slot that is not scheduled is left as it was. */
  lemma {:induction false} ApplyReloadsUntouched(pipelines: seq<Pipeline>, indices: seq<nat>,
                                                 rebuild: PipelineCreationDesc -> Pipeline, j: nat)
    requires j < |pipelines| && j !in indices
    ensures |ApplyReloads(pipelines, indices, rebuild).pipelines| == |pipelines|
    ensures ApplyReloads(pipelines, indices, rebuild).pipelines[j] == pipelines[j]
    decreases |indices|
  {
    ApplyReloadsLength(pipelines, indices, rebuild);
    if indices != [] && indices[0] < |pipelines| {
      assert j !in indices[1..];
      ApplyReloadsUntouched(ReloadSlot(pipelines, indices[0], rebuild), indices[1..], rebuild, j);
    }
  }

  /** After a completed pass, every scheduled slot knows its own index. */
  lemma {:induction false} ApplyReloadsIndexed(pipelines: seq<Pipeline>, indices: seq<nat>,
                                               rebuild: PipelineCreationDesc -> Pipeline, j: nat)
    requires ApplyReloads(pipelines, indices, rebuild).completed
    requires j in indices
    ensures |ApplyReloads(pipelines, indices, rebuild).pipelines| == |pipelines|
    ensures j < |pipelines| && ApplyReloads(pipelines, indices, rebuild).pipelines[j].index == j
    decreases |indices|
  {
    ApplyReloadsLength(pipelines, indices, rebuild);
    var next := ReloadSlot(pipelines, indices[0], rebuild);
    if j in indices[1..] {
      ApplyReloadsIndexed(next, indices[1..], rebuild, j);
    } else {
      ApplyReloadsUntouched(next, indices[1..], rebuild, j);
    }
  }

  /** When an index past the last slot is met, the pass is exactly the pass over the
      entries before it: nothing after it is processed. */
  lemma {:induction false} ApplyReloadsStops(pipelines: seq<Pipeline>, indices: seq<nat>,
                                             rebuild: PipelineCreationDesc -> Pipeline, k: nat)
    requires k < |indices| && indices[k] >= |pipelines|
    requires forall i | 0 <= i < k :: indices[i] < |pipelines|
    ensures !ApplyReloads(pipelines, indices, rebuild).completed
    ensures ApplyReloads(pipelines, indices, rebuild).pipelines == ApplyReloads(pipelines, indices[..k], rebuild).pipelines
    decreases k
  {
    if k > 0 {
      var next := ReloadSlot(pipelines, indices[0], rebuild);
      assert |next| == |pipelines|;
      assert indices[1..][..k - 1] == indices[..k][1..];
      ApplyReloadsStops(next, indices[1..], rebuild, k - 1);
    }
  }

  /** The warning logged for a scheduled index past the last slot, after which the
      pass stops. */
  function InvalidPipelineRecord(index: nat): EngineLog.Record
  {
    EngineLog.Record(EngineLog.Warn, Decimal(index) + " was not a valid pipeline index. No further action is performed")
  }

  /** The warning logged for a rebuild that produced no pipeline state. */
  function FailedReloadRecord(name: string): EngineLog.Record
  {
    EngineLog.Record(EngineLog.Warn, "Failed to reload pipeline " + name + "!")
  }

  /** The records `reload_pipelines` logs during the pass of `ApplyReloads`. */
  function ReloadRecords(pipelines: seq<Pipeline>, indices: seq<nat>, rebuild: PipelineCreationDesc -> Pipeline)
    : seq<EngineLog.Record>
    decreases |indices|
  {
    if indices == [] then []
    else if indices[0] >= |pipelines| then [InvalidPipelineRecord(indices[0])]
    else
      var rebuilt := rebuild(pipelines[indices[0]].creationDesc);
      (if rebuilt.pipelineState.None? then [FailedReloadRecord(rebuilt.creationDesc.name)] else [])
        + ReloadRecords(ReloadSlot(pipelines, indices[0], rebuild), indices[1..], rebuild)
  }

  /** A pass logs only warnings, at most one per scheduled index. */
  lemma {:induction false} ReloadRecordsWarnings(pipelines: seq<Pipeline>, indices: seq<nat>,
                                                 rebuild: PipelineCreationDesc -> Pipeline)
    ensures |ReloadRecords(pipelines, indices, rebuild)| <= |indices|
    ensures forall r | r in ReloadRecords(pipelines, indices, rebuild) :: r.level == EngineLog.Warn
    decreases |indices|
  {
    if indices != [] && indices[0] < |pipelines| {
      ReloadRecordsWarnings(ReloadSlot(pipelines, indices[0], rebuild), indices[1..], rebuild);
    }
  }

  /** A pass that stops at the first index past the last slot ends its log with the
      warning naming that index. */
  lemma {:induction false} ReloadRecordsStop(pipelines: seq<Pipeline>, indices: seq<nat>,
                                             rebuild: PipelineCreationDesc -> Pipeline, k: nat)
    requires k < |indices| && indices[k] >= |pipelines|
    requires forall i | 0 <= i < k :: indices[i] < |pipelines|
    ensures var records := ReloadRecords(pipelines, indices, rebuild);
      records != [] && records[|records| - 1] == InvalidPipelineRecord(indices[k])
    decreases k
  {
    if k > 0 {
      var next := ReloadSlot(pipelines, indices[0], rebuild);
      assert |next| == |pipelines|;
      ReloadRecordsStop(next, indices[1..], rebuild, k - 1);
    }
  }

  /** A pass over valid indices only logs failed rebuilds. */
  lemma {:induction false} ReloadRecordsCompleted(pipelines: seq<Pipeline>, indices: seq<nat>,
                                                  rebuild: PipelineCreationDesc -> Pipeline)
    requires forall i | 0 <= i < |indices| :: indices[i] < |pipelines|
    ensures forall r | r in ReloadRecords(pipelines, indices, rebuild) :: exists name :: r == FailedReloadRecord(name)
    decreases |indices|
  {
    if indices != [] {
      var next := ReloadSlot(pipelines, indices[0], rebuild);
      assert |next| == |pipelines|;
      assert forall i | 0 <= i < |indices| - 1 :: indices[1..][i] == indices[i + 1];
      ReloadRecordsCompleted(next, indices[1..], rebuild);
    }
  }

  // ------------------------------------------------------------ frames

  /** A swapchain back buffer: its resource and its render-target view. */
  datatype BackBuffer = BackBuffer(resource: ResourceId, handle: DescriptorHandle)

  /** The transitions `render` queues in one frame, in order: the back buffer and
      the render texture become render targets, the render texture goes back to
      being read by shaders, and the back buffer goes back to being presented. */
  function FrameBarriers(backBuffer: ResourceId, renderTexture: ResourceId): seq<Barrier>
  {
    [Transition(backBuffer, Present, RenderTarget), Transition(renderTexture, PixelShaderResource, RenderTarget),
     Transition(renderTexture, RenderTarget, PixelShaderResource), Transition(backBuffer, RenderTarget, Present)]
  }

  /** The states resources are in after a sequence of transitions, provided each
      transition starts from the state its resource is in. */
  function ApplyTransitions(states: map<ResourceId, ResourceState>, barriers: seq<Barrier>): Option<map<ResourceId, ResourceState>>
    decreases |barriers|
  {
    if barriers == [] then Some(states)
    else
      var b := barriers[0];
      if b.resource in states && states[b.resource] == b.before
      then ApplyTransitions(states[b.resource := b.after], barriers[1..])
      else None
  }

  /** A frame's transitions are consistent with the states the back buffer (being
      presented) and the render texture (being sampled) start in, and leave
      every resource where it started. */
  lemma FrameBarriersBalanced(states: map<ResourceId, ResourceState>, backBuffer: ResourceId, renderTexture: ResourceId)
    requires backBuffer != renderTexture
    requires backBuffer in states && states[backBuffer] == Present
    requires renderTexture in states && states[renderTexture] == PixelShaderResource
    ensures ApplyTransitions(states, FrameBarriers(backBuffer, renderTexture)) == Some(states)
  {
    var bs := FrameBarriers(backBuffer, renderTexture);
    var s1 := states[backBuffer := RenderTarget];
    var s2 := s1[renderTexture := RenderTarget];
    var s3 := s2[renderTexture := PixelShaderResource];
    var s4 := s3[backBuffer := Present];
    assert s4 == states;
    assert ApplyTransitions(s4, bs[4..]) == Some(s4);
    assert ApplyTransitions(s3, bs[3..]) == ApplyTransitions(s4, bs[4..]);
    assert ApplyTransitions(s2, bs[2..]) == ApplyTransitions(s3, bs[3..]);
    assert ApplyTransitions(s1, bs[1..]) == ApplyTransitions(s2, bs[2..]);
    assert ApplyTransitions(states, bs) == ApplyTransitions(s1, bs[1..]);
  }

  /** What `render` records first: one batch with the two opening transitions
      (after whatever was queued before), then the clears. */
  function FrameOpenCalls(queued: seq<Barrier>, backBuffer: BackBuffer, renderTexture: ResourceId,
                          renderTarget: DescriptorHandle, depth: DescriptorHandle): seq<Call>
  {
    var first := queued + FrameBarriers(backBuffer.resource, renderTexture)[..2];
    [ResourceBarrier(Wrap32(|first|), first),
     ClearRenderTargetView(backBuffer.handle.cpu, CLEAR_COLOR, 0),
     ClearRenderTargetView(renderTarget.cpu, CLEAR_COLOR, 0),
     ClearDepthStencilView(depth.cpu, ClearDepth, 1.0, 1, 0)]
  }

  /** The setup of the render-texture pass: targets, heaps, topology, viewport. */
  function PassSetupCalls(renderTarget: DescriptorHandle, depth: DescriptorHandle, heap: DescriptorHeap,
                          viewport: Viewport, scissor: Rect): seq<Call>
  {
    [OMSetRenderTargets(1, [renderTarget.cpu], true, Some(depth.cpu)),
     SetDescriptorHeaps(1, [heap]),
     IASetPrimitiveTopology(TOPOLOGY_TRIANGLE_LIST),
     RSSetViewports(1, viewport),
     RSSetScissorRects(1, scissor)]
  }

  /** What `render` records before the render passes. */
  function FrameStartCalls(queued: seq<Barrier>, backBuffer: BackBuffer, renderTexture: ResourceId,
                           renderTarget: DescriptorHandle, depth: DescriptorHandle, heap: DescriptorHeap,
                           viewport: Viewport, scissor: Rect): seq<Call>
  {
    FrameOpenCalls(queued, backBuffer, renderTexture, renderTarget, depth) +
    PassSetupCalls(renderTarget, depth, heap, viewport, scissor)
  }

  /** What `render` records after the render passes: the render texture is handed
      back to shaders, the back buffer is targeted, and then made presentable. */
  function FrameEndCalls(backBuffer: BackBuffer, renderTexture: ResourceId): seq<Call>
  {
    [ResourceBarrier(1, [FrameBarriers(backBuffer.resource, renderTexture)[2]]),
     OMSetRenderTargets(1, [backBuffer.handle.cpu], true, None),
     ResourceBarrier(1, [FrameBarriers(backBuffer.resource, renderTexture)[3]])]
  }

  /** Everything `render` itself records on the command list, given the barriers
      already queued and the views it works with. */
  function FrameCalls(queued: seq<Barrier>, backBuffer: BackBuffer, renderTexture: ResourceId,
                      renderTarget: DescriptorHandle, depth: DescriptorHandle, heap: DescriptorHeap,
                      viewport: Viewport, scissor: Rect): seq<Call>
  {
    FrameStartCalls(queued, backBuffer, renderTexture, renderTarget, depth, heap, viewport, scissor) +
    FrameEndCalls(backBuffer, renderTexture)
  }

  /** The barriers a frame submits are the ones queued before it followed by the
      frame's own transitions, in order. */
  lemma {:induction false} FrameCallsSubmit(queued: seq<Barrier>, backBuffer: BackBuffer, renderTexture: ResourceId,
                                            renderTarget: DescriptorHandle, depth: DescriptorHandle, heap: DescriptorHeap,
                                            viewport: Viewport, scissor: Rect)
    ensures Submitted(FrameCalls(queued, backBuffer, renderTexture, renderTarget, depth, heap, viewport, scissor)) ==
            queued + FrameBarriers(backBuffer.resource, renderTexture)
  {
    var fb := FrameBarriers(backBuffer.resource, renderTexture);
    var open := FrameOpenCalls(queued, backBuffer, renderTexture, renderTarget, depth);
    var setup := PassSetupCalls(renderTarget, depth, heap, viewport, scissor);
    var end := FrameEndCalls(backBuffer, renderTexture);
    OpenSubmits(queued, backBuffer, renderTexture, renderTarget, depth);
    SubmittedNone(setup);
    EndSubmits(backBuffer, renderTexture);
    SubmittedAppend(open + setup, end);
    SubmittedAppend(open, setup);
    assert fb == fb[..2] + [fb[2], fb[3]];
  }

  lemma OpenSubmits(queued: seq<Barrier>, backBuffer: BackBuffer, renderTexture: ResourceId,
                    renderTarget: DescriptorHandle, depth: DescriptorHandle)
    ensures Submitted(FrameOpenCalls(queued, backBuffer, renderTexture, renderTarget, depth)) ==
            queued + FrameBarriers(backBuffer.resource, renderTexture)[..2]
  {
    var open := FrameOpenCalls(queued, backBuffer, renderTexture, renderTarget, depth);
    assert open == [open[0]] + open[1..];
    SubmittedAppend([open[0]], open[1..]);
    SubmittedSingle(open[0]);
    SubmittedNone(open[1..]);
  }

  lemma EndSubmits(backBuffer: BackBuffer, renderTexture: ResourceId)
    ensures Submitted(FrameEndCalls(backBuffer, renderTexture)) ==
            FrameBarriers(backBuffer.resource, renderTexture)[2..]
  {
    var end := FrameEndCalls(backBuffer, renderTexture);
    var fb := FrameBarriers(backBuffer.resource, renderTexture);
    assert end == [end[0]] + [end[1]] + [end[2]];
    SubmittedAppend([end[0]] + [end[1]], [end[2]]);
    SubmittedAppend([end[0]], [end[1]]);
    SubmittedSingle(end[0]);
    SubmittedSingle(end[1]);
    SubmittedSingle(end[2]);
    assert fb[2..] == [fb[2], fb[3]];
  }

  /** The recording half of `render` before the render passes. */
  method RecordFrameStart(list: CommandList, backBuffer: BackBuffer, renderTexture: ResourceId,
                          renderTarget: DescriptorHandle, depth: DescriptorHandle, heap: DescriptorHeap,
                          viewport: Viewport, scissor: Rect)
    requires list.Valid()
    modifies list
    ensures list.Valid() && list.pendingBarriers == []
    ensures list.added == old(list.added) + FrameBarriers(backBuffer.resource, renderTexture)[..2]
    ensures list.calls == old(list.calls) +
      FrameStartCalls(old(list.pendingBarriers), backBuffer, renderTexture, renderTarget, depth, heap, viewport, scissor)
  {
    RecordFrameOpen(list, backBuffer, renderTexture, renderTarget, depth);
    RecordPassSetup(list, renderTarget, depth, heap, viewport, scissor);
  }

  method RecordFrameOpen(list: CommandList, backBuffer: BackBuffer, renderTexture: ResourceId,
                         renderTarget: DescriptorHandle, depth: DescriptorHandle)
    requires list.Valid()
    modifies list
    ensures list.Valid() && list.pendingBarriers == []
    ensures list.added == old(list.added) + FrameBarriers(backBuffer.resource, renderTexture)[..2]
    ensures list.calls == old(list.calls) +
      FrameOpenCalls(old(list.pendingBarriers), backBuffer, renderTexture, renderTarget, depth)
  {
    var fb := FrameBarriers(backBuffer.resource, renderTexture);
    list.AddResourceBarrier(backBuffer.resource, Present, RenderTarget);
    list.AddResourceBarrier(renderTexture, PixelShaderResource, RenderTarget);
    assert list.pendingBarriers == old(list.pendingBarriers) + fb[..2];
    list.ExecuteBarriers();
    list.ClearRenderTargetViews(backBuffer.handle, CLEAR_COLOR);
    list.ClearRenderTargetViews(renderTarget, CLEAR_COLOR);
    list.ClearDepthStencil(depth, 1.0, 1);
  }

  method RecordPassSetup(list: CommandList, renderTarget: DescriptorHandle, depth: DescriptorHandle,
                         heap: DescriptorHeap, viewport: Viewport, scissor: Rect)
    requires list.Valid()
    modifies list
    ensures list.Valid() && list.pendingBarriers == old(list.pendingBarriers) && list.added == old(list.added)
    ensures list.calls == old(list.calls) + PassSetupCalls(renderTarget, depth, heap, viewport, scissor)
  {
    assert CpuHandles([renderTarget]) == [renderTarget.cpu];
    list.SetRenderTargets([renderTarget], Some(depth));
    list.SetHeaps([heap]);
    list.SetPrimitiveTopology(TOPOLOGY_TRIANGLE_LIST);
    list.SetViewportAndScissorRect(viewport, scissor);
  }

  /** The recording half of `render` after the render passes. */
  method RecordFrameEnd(list: CommandList, backBuffer: BackBuffer, renderTexture: ResourceId)
    requires list.Valid() && list.pendingBarriers == []
    modifies list
    ensures list.Valid() && list.pendingBarriers == []
    ensures list.added == old(list.added) + FrameBarriers(backBuffer.resource, renderTexture)[2..]
    ensures list.calls == old(list.calls) + FrameEndCalls(backBuffer, renderTexture)
  {
    var fb := FrameBarriers(backBuffer.resource, renderTexture);
    RecordSingleBarrier(list, fb[2]);
    assert CpuHandles([backBuffer.handle]) == [backBuffer.handle.cpu];
    list.SetRenderTargets([backBuffer.handle], None);
    RecordSingleBarrier(list, fb[3]);
    assert fb[2..] == [fb[2], fb[3]];
  }

  /** One transition queued and submitted on its own. */
  method RecordSingleBarrier(list: CommandList, b: Barrier)
    requires list.Valid() && list.pendingBarriers == []
    modifies list
    ensures list.Valid() && list.pendingBarriers == []
    ensures list.added == old(list.added) + [b]
    ensures list.calls == old(list.calls) + [ResourceBarrier(1, [b])]
  {
    list.AddResourceBarrier(b.resource, b.before, b.after);
    assert list.pendingBarriers == [b];
    list.ExecuteBarriers();
    assert Wrap32(1) == 1;
  }

  // ------------------------------------------------------------ the renderer

  /** `interop::PostProcessBuffer`: the post-processing constants the renderer fills in
      each frame, the frame count and the window size as two `float`s. */
  datatype PostProcessBuffer = PostProcessBuffer(frameCount: nat, screenDimensions: Float2)

  /** `sizeof(interop::PostProcessBuffer)`: a `uint32_t` followed by an `XMFLOAT2`. */
  const POST_PROCESS_BUFFER_SIZE: nat := LE32_SIZE + FLOAT2_SIZE

  /** The in-memory image of the post-process constants: the frame count, then the size. */
  function PostProcessBufferBytes(p: PostProcessBuffer): (bytes: seq<byte>)
    requires p.frameCount < U32_LIMIT
    ensures |bytes| == POST_PROCESS_BUFFER_SIZE
    ensures bytes[..LE32_SIZE] == U32Bytes(p.frameCount)
    ensures bytes[LE32_SIZE..] == Float2Bytes(p.screenDimensions)
  {
    U32Bytes(p.frameCount) + Float2Bytes(p.screenDimensions)
  }

  /** Reading the image back field by field gives the frame count and both dimensions. */
  lemma PostProcessBufferRoundTrip(p: PostProcessBuffer)
    requires p.frameCount < U32_LIMIT
    ensures DecodeLE(PostProcessBufferBytes(p)[..4]) == p.frameCount
    ensures DecodeLE(PostProcessBufferBytes(p)[4..8]) == p.screenDimensions.x
    ensures DecodeLE(PostProcessBufferBytes(p)[8..12]) == p.screenDimensions.y
  {
    var bytes := PostProcessBufferBytes(p);
    assert Pow256(4) == U32_LIMIT;
    assert bytes[4..8] == U32Bytes(p.screenDimensions.x);
    assert bytes[8..12] == U32Bytes(p.screenDimensions.y);
    DecodeEncodeLE(p.frameCount, 4);
    DecodeEncodeLE(p.screenDimensions.x, 4);
    DecodeEncodeLE(p.screenDimensions.y, 4);
  }

  class Renderer {
    const device: Device
    /** `m_allocated_buffers` and `m_allocated_textures`: positions are the handles callers keep. */
    var allocatedBuffers: seq<Buffer>
    var allocatedTextures: seq<Texture>
    var pipelines: seq<Pipeline>
    /** Pipeline slots scheduled for rebuilding, in scheduling order. */
    var pipelineReloadBuffer: seq<nat>
    /** One indirect-command buffer per frame in flight. */
    var commandBufferIndices: seq<nat>
    var depthTexture: Texture
    var renderTexture: Texture
    var postProcessBuffer: PostProcessBuffer
    var postProcessBufferIndex: nat

    ghost function Repr(): set<object>
      reads this, device
    {
      {this} + device.Repr()
    }

    ghost predicate Valid()
      reads this, device, device.Repr()
    {
      device.Valid() && renderTexture.rtvIndex < U32_LIMIT && depthTexture.dsvIndex < U32_LIMIT
    }

    /** The renderer before `create_resources`: empty registries and default textures. */
    constructor (device: Device, frames: nat, pipelines: seq<Pipeline>)
      requires device.Valid()
      ensures Valid() && this.device == device
      ensures allocatedBuffers == [] && allocatedTextures == [] && pipelineReloadBuffer == []
      ensures this.pipelines == pipelines && |commandBufferIndices| == frames
      ensures renderTexture == Texture(0, 0, 0, 0, 0) && depthTexture == Texture(0, 0, 0, 0, 0)
    {
      this.device := device;
      allocatedBuffers, allocatedTextures := [], [];
      this.pipelines, pipelineReloadBuffer := pipelines, [];
      commandBufferIndices := seq(frames, _ => 0);
      depthTexture, renderTexture := Texture(0, 0, 0, 0, 0), Texture(0, 0, 0, 0, 0);
      postProcessBuffer, postProcessBufferIndex := PostProcessBuffer(0, ZERO_FLOAT2), 0;
    }

    /** `get_buffer_at_index`: `.at` throws past the end of the registry. */
    function BufferAt(index: nat): (r: Result<Buffer>)
      reads this
      ensures r.Ok? <==> index < |allocatedBuffers|
      ensures r.Ok? ==> r.value == allocatedBuffers[index]
    {
      if index < |allocatedBuffers| then Ok(allocatedBuffers[index]) else Fail(BadIndex)
    }

    /** `get_texture_at_index`. */
    function TextureAt(index: nat): (r: Result<Texture>)
      reads this
      ensures r.Ok? <==> index < |allocatedTextures|
      ensures r.Ok? ==> r.value == allocatedTextures[index]
    {
      if index < |allocatedTextures| then Ok(allocatedTextures[index]) else Fail(BadIndex)
    }

    /** `create_buffer`: the device's buffer goes to the end of the registry and its
        position, narrowed to `uint32_t`, is returned. A device failure escapes
        before anything is appended. */
    method CreateBuffer(desc: BufferCreationDesc, elementSize: nat, data: seq<seq<byte>>) returns (r: Result<nat>)
      requires Valid()
      requires elementSize > 0 && forall e | e in data :: |e| == elementSize
      modifies this`allocatedBuffers, device, device.cbvSrvUavHeap
      ensures Valid()
      ensures r.Fail? <==> desc.usage != ConstantBuffer && |data| == 0
      ensures r.Fail? ==> r.error == EmptyBuffer && allocatedBuffers == old(allocatedBuffers)
      ensures r.Ok? ==>
        r.value == Wrap32(|old(allocatedBuffers)|) && |allocatedBuffers| == |old(allocatedBuffers)| + 1 &&
        allocatedBuffers == old(allocatedBuffers) + [allocatedBuffers[|old(allocatedBuffers)|]] &&
        allocatedBuffers[|old(allocatedBuffers)|].sizeInBytes == BufferSize(elementSize, |data|) &&
        allocatedBuffers[|old(allocatedBuffers)|].resource == BufferResource(desc.usage, old(device.nextResource)) &&
        (allocatedBuffers[|old(allocatedBuffers)|].mapped.Some? <==> desc.usage == ConstantBuffer) &&
        (allocatedBuffers[|old(allocatedBuffers)|].mapped.Some? ==>
           allocatedBuffers[|old(allocatedBuffers)|].mapped.value.Length == BufferSize(elementSize, |data|))
      ensures r.Ok? ==> (device.cbvSrvUavHeap.current.index ==
        if TakesDescriptor(desc.usage) then Wrap32(old(device.cbvSrvUavHeap.current.index) + 1)
        else old(device.cbvSrvUavHeap.current.index))
    {
      var index := |allocatedBuffers|;
      var created := DeviceBuffer(desc, elementSize, data);
      if created.Fail? {
        return Fail(created.error);
      }
      allocatedBuffers := allocatedBuffers + [created.value];
      r := Ok(Wrap32(index));
    }

    /** The device's `create_buffer`, seen from the registry: only what the new
        entry's contract needs. */
    method DeviceBuffer(desc: BufferCreationDesc, elementSize: nat, data: seq<seq<byte>>) returns (r: Result<Buffer>)
      requires device.Valid()
      requires elementSize > 0 && forall e | e in data :: |e| == elementSize
      modifies device, device.cbvSrvUavHeap
      ensures device.Valid()
      ensures r.Fail? <==> desc.usage != ConstantBuffer && |data| == 0
      ensures r.Fail? ==> r.error == EmptyBuffer
      ensures r.Ok? ==>
        r.value.sizeInBytes == BufferSize(elementSize, |data|) &&
        r.value.resource == BufferResource(desc.usage, old(device.nextResource)) &&
        (r.value.mapped.Some? <==> desc.usage == ConstantBuffer) &&
        (r.value.mapped.Some? ==> r.value.mapped.value.Length == r.value.sizeInBytes)
      ensures r.Ok? ==> (device.cbvSrvUavHeap.current.index ==
        if TakesDescriptor(desc.usage) then Wrap32(old(device.cbvSrvUavHeap.current.index) + 1)
        else old(device.cbvSrvUavHeap.current.index))
    {
      r := device.CreateBuffer(desc, elementSize, data);
    }

    /** `create_texture`. */
    method CreateTexture(desc: TextureCreationDesc, data: Option<seq<byte>>) returns (r: Result<nat>)
      requires Valid() && desc.WellFormed()
      requires data.Some? ==> |data.value| >= TextureUploadSize(desc)
      modifies this`allocatedTextures, device, device.cbvSrvUavHeap, device.dsvHeap
      ensures Valid()
      ensures r.Fail? <==> !TextureSupported(desc.usage)
      ensures r.Fail? ==> r.error == NotImplemented && allocatedTextures == old(allocatedTextures)
      ensures r.Ok? ==>
        r.value == Wrap32(|old(allocatedTextures)|) && |allocatedTextures| == |old(allocatedTextures)| + 1 &&
        allocatedTextures == old(allocatedTextures) + [allocatedTextures[|old(allocatedTextures)|]] &&
        allocatedTextures[|old(allocatedTextures)|].resource == old(device.nextResource) &&
        allocatedTextures[|old(allocatedTextures)|].srvIndex ==
          (if desc.usage == DepthStencilTexture then 0 else old(device.cbvSrvUavHeap.current.index)) &&
        device.cbvSrvUavHeap.current ==
          (if desc.usage == DepthStencilTexture then old(device.cbvSrvUavHeap.current)
           else old(device.cbvSrvUavHeap.current).Offset(1))
    {
      var index := |allocatedTextures|;
      var created := device.CreateTexture(desc, data);
      if created.Fail? {
        return Fail(created.error);
      }
      allocatedTextures := allocatedTextures + [created.value];
      r := Ok(Wrap32(index));
    }

    /** `reload_pipelines`: the scheduled slots are rebuilt in order (`rebuild` stands
        for `Device::create_pipeline`). A rebuild without a pipeline state logs a
        warning and keeps the old pipeline; an index past the last slot logs a
        warning and returns at once, leaving the schedule as it was; otherwise the
        schedule is emptied at the end. */
    method ReloadPipelines(rebuild: PipelineCreationDesc -> Pipeline, log: EngineLog.Log)
      modifies this`pipelines, this`pipelineReloadBuffer, log`records
      ensures var outcome := ApplyReloads(old(pipelines), old(pipelineReloadBuffer), rebuild);
        pipelines == outcome.pipelines &&
        pipelineReloadBuffer == (if outcome.completed then [] else old(pipelineReloadBuffer))
      ensures log.records == old(log.records) + ReloadRecords(old(pipelines), old(pipelineReloadBuffer), rebuild)
    {
      var i := 0;
      while i < |pipelineReloadBuffer|
        invariant 0 <= i <= |pipelineReloadBuffer| && pipelineReloadBuffer == old(pipelineReloadBuffer)
        invariant ApplyReloads(pipelines, pipelineReloadBuffer[i..], rebuild) ==
                  ApplyReloads(old(pipelines), old(pipelineReloadBuffer), rebuild)
        invariant log.records + ReloadRecords(pipelines, pipelineReloadBuffer[i..], rebuild) ==
                  old(log.records) + ReloadRecords(old(pipelines), old(pipelineReloadBuffer), rebuild)
      {
        var index := pipelineReloadBuffer[i];
        if index >= |pipelines| {
          log.LogWarn(Decimal(index) + " was not a valid pipeline index. No further action is performed");
          return;
        }
        ghost var before := pipelines;
        var rebuilt := rebuild(pipelines[index].creationDesc);
        if rebuilt.pipelineState.None? {
          log.LogWarn("Failed to reload pipeline " + rebuilt.creationDesc.name + "!");
        } else {
          pipelines := pipelines[index := rebuilt];
        }
        pipelines := pipelines[index := pipelines[index].(index := index)];
        assert pipelines == ReloadSlot(before, index, rebuild);
        assert pipelineReloadBuffer[i..][1..] == pipelineReloadBuffer[i + 1..];
        i := i + 1;
      }
      pipelineReloadBuffer := [];
    }

    /** The part of `render` the renderer records itself, followed by the pipeline
        reload that closes the frame. The render passes recorded between the two
        barrier batches are not part of this method. */
    method Render(list: CommandList, backBuffer: BackBuffer, viewport: Viewport, scissor: Rect,
                  rebuild: PipelineCreationDesc -> Pipeline, log: EngineLog.Log)
      requires Valid() && list.Valid()
      modifies list, this`pipelines, this`pipelineReloadBuffer, log`records
      ensures list.Valid() && list.pendingBarriers == []
      ensures list.added == old(list.added) + FrameBarriers(backBuffer.resource, renderTexture.resource)
      ensures list.calls == old(list.calls) +
        FrameCalls(old(list.pendingBarriers), backBuffer, renderTexture.resource,
                   device.rtvHeap.GetHandleAtIndex(renderTexture.rtvIndex),
                   device.dsvHeap.GetHandleAtIndex(depthTexture.dsvIndex),
                   device.cbvSrvUavHeap, viewport, scissor)
      ensures var outcome := ApplyReloads(old(pipelines), old(pipelineReloadBuffer), rebuild);
        pipelines == outcome.pipelines &&
        pipelineReloadBuffer == (if outcome.completed then [] else old(pipelineReloadBuffer))
      ensures log.records == old(log.records) + ReloadRecords(old(pipelines), old(pipelineReloadBuffer), rebuild)
    {
      var renderTarget := device.rtvHeap.GetHandleAtIndex(renderTexture.rtvIndex);
      var depth := device.dsvHeap.GetHandleAtIndex(depthTexture.dsvIndex);
      RecordFrameStart(list, backBuffer, renderTexture.resource, renderTarget, depth, device.cbvSrvUavHeap, viewport, scissor);
      RecordFrameEnd(list, backBuffer, renderTexture.resource);
      ReloadPipelines(rebuild, log);
    }

    /** The indirect-command buffers of `create_resources`: one dynamic structured
        buffer of `maxPrimitiveCount` zeroed commands per frame in flight, each
        index stored in its frame's slot. */
    method CreateCommandBuffers(maxPrimitiveCount: nat) returns (r: Outcome)
      requires Valid()
      modifies this`allocatedBuffers, this`commandBufferIndices, device, device.cbvSrvUavHeap
      ensures Valid()
      ensures |commandBufferIndices| == |old(commandBufferIndices)|
      ensures r.Abort? <==> maxPrimitiveCount == 0 && |commandBufferIndices| > 0
      ensures r.Abort? ==> r.error == EmptyBuffer
      ensures r.Pass? ==>
        |allocatedBuffers| == |old(allocatedBuffers)| + |commandBufferIndices| &&
        allocatedBuffers[..|old(allocatedBuffers)|] == old(allocatedBuffers) &&
        forall k | 0 <= k < |commandBufferIndices| :: commandBufferIndices[k] == Wrap32(|old(allocatedBuffers)| + k)
    {
      var frames := |commandBufferIndices|;
      var indices;
      indices, r := AllocateCommandBuffers(frames, ZeroedCommands(maxPrimitiveCount));
      commandBufferIndices := indices + commandBufferIndices[|indices|..];
    }

    /** The loop of `CreateCommandBuffers`: `indices` holds the positions made so
        far, the ones a failure leaves already stored. */
    method AllocateCommandBuffers(frames: nat, commands: seq<seq<byte>>) returns (indices: seq<nat>, r: Outcome)
      requires Valid() && forall e | e in commands :: |e| == INDIRECT_COMMAND_SIZE
      modifies this`allocatedBuffers, device, device.cbvSrvUavHeap
      ensures Valid()
      ensures |indices| <= frames
      ensures r.Abort? <==> |commands| == 0 && frames > 0
      ensures r.Abort? ==> r.error == EmptyBuffer
      ensures r.Pass? ==> |indices| == frames
      ensures |allocatedBuffers| == |old(allocatedBuffers)| + |indices|
      ensures allocatedBuffers[..|old(allocatedBuffers)|] == old(allocatedBuffers)
      ensures forall j | 0 <= j < |indices| :: indices[j] == Wrap32(|old(allocatedBuffers)| + j)
    {
      ghost var base := |allocatedBuffers|;
      ghost var added: seq<Buffer> := [];
      indices := [];
      while |indices| < frames
        invariant Valid()
        invariant |indices| <= frames
        invariant |added| == |indices| && allocatedBuffers == old(allocatedBuffers) + added
        invariant forall j | 0 <= j < |indices| :: indices[j] == Wrap32(base + j)
        invariant |indices| > 0 ==> |commands| > 0
      {
        var created := CreateBuffer(BufferCreationDesc(DynamicStructuredBuffer, "Command Buffer"),
                                    INDIRECT_COMMAND_SIZE, commands);
        if created.Fail? {
          return indices, Abort(created.error);
        }
        added := added + [allocatedBuffers[|allocatedBuffers| - 1]];
        indices := indices + [created.value];
      }
      r := Pass;
    }

    /** `create_resources`: the command buffers, then a depth texture and a render
        texture the size of the window. The device rejects render textures, so
        when the command buffers are made the last step always fails. */
    method CreateResources(maxPrimitiveCount: nat, width: nat, height: nat) returns (r: Outcome)
      requires Valid() && width < U32_LIMIT && height < U32_LIMIT
      modifies this`allocatedBuffers, this`commandBufferIndices, this`depthTexture, this`renderTexture,
               device, device.cbvSrvUavHeap, device.dsvHeap
      ensures Valid()
      ensures r.Abort?
      ensures r.error == if maxPrimitiveCount == 0 && |commandBufferIndices| > 0
                           then EmptyBuffer else NotImplemented
      ensures r.error == NotImplemented ==>
        |allocatedBuffers| == |old(allocatedBuffers)| + |commandBufferIndices| &&
        (forall k | 0 <= k < |commandBufferIndices| :: commandBufferIndices[k] == Wrap32(|old(allocatedBuffers)| + k)) &&
        depthTexture.dsvIndex == old(device.dsvHeap.current.index) &&
        device.dsvHeap.current == old(device.dsvHeap.current).Offset(1) &&
        renderTexture == old(renderTexture)
    {
      r := CreateCommandBuffers(maxPrimitiveCount);
      if r.Abort? {
        return;
      }
      var depth := device.CreateTexture(
        DefaultTextureDesc(DepthStencilTexture, FORMAT_D32_FLOAT, width, height, "Depth Texture"), None);
      depthTexture := depth.value;
      var render := device.CreateTexture(
        DefaultTextureDesc(RenderTexture, FORMAT_R16G16B16A16_FLOAT, width, height, "Render Texture"), None);
      r := Abort(render.error);
    }

    /** The post-processing half of `update_renderpasses`: the frame count and the
        window size (already converted to `float`s) go into the post-process constants,
        whose bytes are then copied to the start of the post-process buffer. A bad buffer
        index or a buffer without a mapping ends in an exception. */
    method UpdateRenderpasses(frameCount: nat, screenDimensions: Float2) returns (r: Outcome)
      requires frameCount < U32_LIMIT
      requires BufferAt(postProcessBufferIndex).Ok? && BufferAt(postProcessBufferIndex).value.mapped.Some? ==>
               POST_PROCESS_BUFFER_SIZE <= BufferAt(postProcessBufferIndex).value.mapped.value.Length
      modifies this`postProcessBuffer
      modifies if postProcessBufferIndex < |allocatedBuffers| && allocatedBuffers[postProcessBufferIndex].mapped.Some?
               then {allocatedBuffers[postProcessBufferIndex].mapped.value} else {}
      ensures postProcessBuffer == PostProcessBuffer(frameCount, screenDimensions)
      ensures r.Pass? <==> postProcessBufferIndex < |allocatedBuffers| && allocatedBuffers[postProcessBufferIndex].mapped.Some?
      ensures r.Pass? ==>
        allocatedBuffers[postProcessBufferIndex].mapped.value[..POST_PROCESS_BUFFER_SIZE] == PostProcessBufferBytes(postProcessBuffer)
    {
      postProcessBuffer := PostProcessBuffer(frameCount, screenDimensions);
      var buffer := BufferAt(postProcessBufferIndex);
      if buffer.Fail? {
        return Abort(buffer.error);
      }
      var image := PostProcessBufferBytes(postProcessBuffer);
      r := Update(buffer.value, image, |image|);
      assert image[..|image|] == image;
    }
  }
}

=== FILE: rust_frame_loop.dfy ===
/**
 * The Rust prototype's program: fixed start-up values (a 1080x720 window, a
 * two-buffer swapchain, a depth texture and viewport of the same size, a
 * three-index buffer) and a loop that drains the window's events and then
 * records one frame. A Quit event, or Escape pressed, ends the loop at once.
 * The device context's calls are recorded as commands; SDL, DXGI and D3D11
 * object creation is not part of the model.
 */
module RustFrameLoop {
  import opened Common
  import opened Bytes
  import opened Interop
  import opened D3DUtils
  import opened RustShader

  const WIDTH: nat := 1080
  const HEIGHT: nat := 720
  const WINDOW_TITLE: string := "serenity-engine"

  /** Bit patterns of the `f32` constants. */
  const F32_0_2: F32 := 0x3E4C_CCCD
  const F32_1: F32 := 0x3F80_0000
  const F32_720: F32 := 0x4434_0000
  const F32_1080: F32 := 0x4487_0000

  /** `DXGI_FORMAT_R32_UINT`, `DXGI_FORMAT_R8G8B8A8_UNORM`, `DXGI_FORMAT_D32_FLOAT`. */
  const FORMAT_R32_UINT: nat := 42
  const FORMAT_R8G8B8A8_UNORM: nat := 28
  const FORMAT_D32_FLOAT: nat := 40
  /** `D3D_PRIMITIVE_TOPOLOGY_TRIANGLELIST`. */
  const TOPOLOGY_TRIANGLE_LIST: nat := 4
  /** `D3D11_CLEAR_DEPTH`. */
  const CLEAR_DEPTH: nat := 1
  /** `D3D11_USAGE_DEFAULT`, `D3D11_USAGE_IMMUTABLE`. */
  const USAGE_DEFAULT: nat := 0
  const USAGE_IMMUTABLE: nat := 1
  /** `D3D11_BIND_INDEX_BUFFER`, `D3D11_BIND_DEPTH_STENCIL`. */
  const BIND_INDEX_BUFFER: nat := 2
  const BIND_DEPTH_STENCIL: nat := 0x40

  /** The parts of `DXGI_SWAP_CHAIN_DESC1` the program sets to other than zero. */
  datatype SwapchainDesc = SwapchainDesc(width: nat, height: nat, format: nat, sampleCount: nat, bufferCount: nat)

  /** The parts of the depth texture's `D3D11_TEXTURE2D_DESC`. */
  datatype TextureDesc = TextureDesc(width: nat, height: nat, mipLevels: nat, arraySize: nat, format: nat,
                                     sampleCount: nat, usage: nat, bindFlags: nat, cpuAccessFlags: nat)

  /** `D3D11_BUFFER_DESC`. */
  datatype BufferDesc = BufferDesc(byteWidth: nat, usage: nat, bindFlags: nat, cpuAccessFlags: nat,
                                   miscFlags: nat, structureByteStride: nat)

  /** `D3D11_VIEWPORT`. */
  datatype Viewport = Viewport(topLeftX: F32, topLeftY: F32, width: F32, height: F32, minDepth: F32, maxDepth: F32)

  const SWAPCHAIN_DESC: SwapchainDesc := SwapchainDesc(WIDTH, HEIGHT, FORMAT_R8G8B8A8_UNORM, 1, 2)

  const DEPTH_BUFFER_DESC: TextureDesc :=
    TextureDesc(WIDTH, HEIGHT, 1, 1, FORMAT_D32_FLOAT, 1, USAGE_DEFAULT, BIND_DEPTH_STENCIL, 0)

  const VIEWPORT: Viewport := Viewport(ZERO_F32, ZERO_F32, F32_1080, F32_720, ZERO_F32, F32_1)

  /** `index_buffer_data`. */
  const INDEX_BUFFER_DATA: seq<nat> := [0, 1, 2]

  /** The description of an immutable index buffer over `data`: its byte width
      is the element count times four, cast to `u32`. */
  function IndexBufferDesc(data: seq<nat>): (desc: BufferDesc)
    ensures |data| * LE32_SIZE < U32_LIMIT ==> desc.byteWidth == |data| * LE32_SIZE
    ensures desc.usage == USAGE_IMMUTABLE && desc.bindFlags == BIND_INDEX_BUFFER && desc.cpuAccessFlags == 0
  {
    BufferDesc(Wrap32(|data| * LE32_SIZE), USAGE_IMMUTABLE, BIND_INDEX_BUFFER, 0, 0, 0)
  }

  /** The bytes `pSysMem` points at: each `u32` in little-endian order. */
  function IndexBytes(data: seq<nat>): (bytes: seq<byte>)
    requires forall i | 0 <= i < |data| :: data[i] < U32_LIMIT
    ensures |bytes| == |data| * LE32_SIZE
    ensures forall i | 0 <= i < |data| :: bytes[i * LE32_SIZE..(i + 1) * LE32_SIZE] == U32Bytes(data[i])
  {
    if data == [] then []
    else
      var before := IndexBytes(data[..|data| - 1]);
      var bytes := before + U32Bytes(data[|data| - 1]);
      assert forall i | 0 <= i < |data| - 1 :: bytes[i * LE32_SIZE..(i + 1) * LE32_SIZE] == before[i * LE32_SIZE..(i + 1) * LE32_SIZE];
      bytes
  }

  /** The index buffer is 12 bytes wide, exactly the bytes of its data, and
      each of its indices reads back from them. */
  lemma IndexBufferMatchesData(i: nat)
    requires i < |INDEX_BUFFER_DATA|
    ensures IndexBufferDesc(INDEX_BUFFER_DATA).byteWidth == 12 == |IndexBytes(INDEX_BUFFER_DATA)|
    ensures DecodeLE(IndexBytes(INDEX_BUFFER_DATA)[i * LE32_SIZE..(i + 1) * LE32_SIZE]) == INDEX_BUFFER_DATA[i]
  {
    assert Pow256(LE32_SIZE) == U32_LIMIT;
    DecodeEncodeLE(INDEX_BUFFER_DATA[i], LE32_SIZE);
  }

  /** The window handle SDL gives back. */
  datatype RawWindowHandle = Win32Handle(hwnd: nat) | OtherHandle

  const NO_HWND: string := "Was not able to get HWND from the SDL window!"

  /** The `HWND` the swapchain is created for: anything but a Win32 handle panics. */
  function Hwnd(handle: RawWindowHandle): (r: Run<nat>)
    ensures r.Returned? <==> handle.Win32Handle?
    ensures r.Returned? ==> r.value == handle.hwnd
    ensures r.Panicked? ==> r.message == NO_HWND
  {
    match handle
    case Win32Handle(hwnd) => Returned(hwnd)
    case OtherHandle => Panicked(NO_HWND)
  }

  /** SDL's keycodes, as far as the loop tells them apart. */
  datatype Keycode = EscapeKey | OtherKey(code: nat)

  /** SDL's events, as far as the loop tells them apart. */
  datatype Event = Quit | KeyDown(keycode: Option<Keycode>) | OtherEvent

  /** An event that ends the loop. */
  predicate Ends(event: Event)
  {
    event == Quit || event == KeyDown(Some(EscapeKey))
  }

  /** The position of the first event that ends the loop, if any. */
  function FirstEnding(events: seq<Event>): (r: Option<nat>)
    ensures r.Some? ==> r.value < |events| && Ends(events[r.value])
    ensures r.Some? ==> forall j | 0 <= j < r.value :: !Ends(events[j])
    ensures r.None? <==> forall j | 0 <= j < |events| :: !Ends(events[j])
    decreases |events|
  {
    if events == [] then None
    else if Ends(events[0]) then Some(0)
    else match FirstEnding(events[1..])
      case None => None
      case Some(i) => Some(i + 1)
  }

  /** The `for event in event_pump.poll_iter()` loop: it stops at the first
      event that ends the loop, leaving the rest of the batch unread, and
      ignores every other event. */
  method DrainEvents(events: seq<Event>) returns (quit: bool, processed: nat)
    ensures quit <==> FirstEnding(events).Some?
    ensures quit ==> processed == FirstEnding(events).value + 1
    ensures !quit ==> processed == |events|
  {
    processed := 0;
    while processed < |events|
      invariant processed <= |events|
      invariant forall j | 0 <= j < processed :: !Ends(events[j])
    {
      match events[processed] {
        case Quit =>
          return true, processed + 1;
        case KeyDown(keycode) =>
          if keycode == Some(EscapeKey) {
            return true, processed + 1;
          }
        case OtherEvent =>
      }
      processed := processed + 1;
    }
    quit := false;
  }

  /** A device-context or swapchain call. */
  datatype Command =
    | ClearRenderTargetView(color: seq<F32>)
    | ClearDepthStencilView(clearFlags: nat, depth: F32, stencil: nat)
    | SetRenderTargets
    | SetPrimitiveTopology(topology: nat)
    | SetIndexBuffer(format: nat, offset: nat)
    | SetVertexShader
    | SetPixelShader
    | SetViewports(viewports: seq<Viewport>)
    | DrawIndexedInstanced(indexCountPerInstance: nat, instanceCount: nat, startIndexLocation: nat,
                           baseVertexLocation: int, startInstanceLocation: nat)
    | Present(syncInterval: nat, flags: nat)

  /** The calls of one frame, in order. */
  const FRAME_COMMANDS: seq<Command> := [
    ClearRenderTargetView([F32_0_2, F32_0_2, F32_0_2, F32_1]),
    ClearDepthStencilView(CLEAR_DEPTH, F32_1, 1),
    SetRenderTargets,
    SetPrimitiveTopology(TOPOLOGY_TRIANGLE_LIST),
    SetIndexBuffer(FORMAT_R32_UINT, 0),
    SetVertexShader,
    SetPixelShader,
    SetViewports([VIEWPORT]),
    DrawIndexedInstanced(3, 1, 0, 0, 0),
    Present(1, 0)
  ]

  const PRESENT_FAILED: string := "Swapchain Present failed!"

  /** `n` frames' calls, one frame after another. */
  function Frames(n: nat): (commands: seq<Command>)
    ensures |commands| == n * |FRAME_COMMANDS|
  {
    if n == 0 then [] else Frames(n - 1) + FRAME_COMMANDS
  }

  /** Every frame makes the same calls in the same order. */
  lemma {:induction false} FramesAreFrameCommands(n: nat, k: nat)
    requires k < n
    ensures Frames(n)[k * |FRAME_COMMANDS|..(k + 1) * |FRAME_COMMANDS|] == FRAME_COMMANDS
  {
    if k < n - 1 {
      FramesAreFrameCommands(n - 1, k);
      assert (Frames(n - 1) + FRAME_COMMANDS)[k * |FRAME_COMMANDS|..(k + 1) * |FRAME_COMMANDS|] ==
             Frames(n - 1)[k * |FRAME_COMMANDS|..(k + 1) * |FRAME_COMMANDS|];
    } else {
      assert (Frames(n - 1) + FRAME_COMMANDS)[k * |FRAME_COMMANDS|..(k + 1) * |FRAME_COMMANDS|] == FRAME_COMMANDS;
    }
  }

  /** What one pass of the game loop meets: the batch of events polled, and
      what `Present` returns if the frame gets that far. */
  datatype LoopTurn = LoopTurn(events: seq<Event>, presentResult: HResult)

  /** How the loop ends: an event ended it, after `framesDrawn` frames; a
      `Present` failed and panicked, in the frame after `framesDrawn` frames;
      or the passes ran out. */
  datatype Ending = Terminated(framesDrawn: nat) | PresentPanicked(framesDrawn: nat) | Running(framesDrawn: nat)

  /** The loop's outcome over `passes`, from `drawn` frames already drawn. */
  function LoopEnding(passes: seq<LoopTurn>, drawn: nat): (ending: Ending)
    ensures ending.framesDrawn - drawn <= |passes|
    ensures ending.framesDrawn >= drawn
    decreases |passes|
  {
    if passes == [] then Running(drawn)
    else if FirstEnding(passes[0].events).Some? then Terminated(drawn)
    else if passes[0].presentResult != S_OK then PresentPanicked(drawn)
    else LoopEnding(passes[1..], drawn + 1)
  }

  /** The calls made before the loop ended: the frames completed, and the
      whole of a frame whose `Present` panicked, `Present` included. */
  function CommandsMade(ending: Ending): seq<Command>
  {
    match ending
    case PresentPanicked(n) => Frames(n + 1)
    case Terminated(n) => Frames(n)
    case Running(n) => Frames(n)
  }

  /** The loop ends on the first pass with an ending event, with no call made
      in that pass, unless a `Present` failed first; a pass whose events are
      all ignored draws a frame. */
  lemma {:induction false} EndingPass(passes: seq<LoopTurn>, drawn: nat, k: nat)
    requires k < |passes| && FirstEnding(passes[k].events).Some?
    requires forall j | 0 <= j < k :: FirstEnding(passes[j].events).None? && passes[j].presentResult == S_OK
    ensures LoopEnding(passes, drawn) == Terminated(drawn + k)
    decreases k
  {
    if k > 0 {
      assert forall j | 0 <= j < k - 1 :: passes[1..][j] == passes[j + 1];
      EndingPass(passes[1..], drawn + 1, k - 1);
    }
  }

  /** The game loop over `passes`: drain the events, and unless one ended the
      loop record the frame; a failed `Present` panics. */
  method GameLoop(passes: seq<LoopTurn>) returns (ending: Ending, commands: seq<Command>)
    ensures ending == LoopEnding(passes, 0)
    ensures commands == CommandsMade(ending)
  {
    commands := [];
    var i := 0;
    while i < |passes|
      invariant i <= |passes|
      invariant LoopEnding(passes[i..], i) == LoopEnding(passes, 0)
      invariant commands == Frames(i)
    {
      var quit, _ := DrainEvents(passes[i].events);
      if quit {
        return Terminated(i), commands;
      }
      commands := commands + FRAME_COMMANDS;
      if passes[i].presentResult != S_OK {
        return PresentPanicked(i), commands;
      }
      assert passes[i..][1..] == passes[i + 1..];
      i := i + 1;
    }
    ending := Running(i);
  }
}

=== FILE: rust_shader.dfy ===
/**
 * Shader compilation in the Rust prototype: `compile_shader` picks the entry
 * point and target profile from the stage and calls `D3DCompileFromFile`;
 * `create_vertex_shader` and `create_pixel_shader` turn the bytecode into
 * shader objects. The compiler and the device are parameters; printing is
 * modelled as the lines printed; a panic is an outcome carrying its message.
 */
module RustShader {
  import opened Common

  /** How a Rust call ends: with a value, or with a panic and its message. */
  datatype Run<T> = Returned(value: T) | Panicked(message: string)

  /** `ShaderType`: the stage, with the shader's path. */
  datatype ShaderType = Vertex(path: string) | Pixel(path: string)

  /** `D3DCOMPILE_DEBUG` and `D3DCOMPILE_SKIP_OPTIMIZATION`. */
  const D3DCOMPILE_DEBUG: nat := 1
  const D3DCOMPILE_SKIP_OPTIMIZATION: nat := 4

  const VS_ENTRY_POINT: string := "vs_main\0"
  const VS_TARGET_PROFILE: string := "vs_5_0\0"
  const PS_ENTRY_POINT: string := "ps_main\0"
  const PS_TARGET_PROFILE: string := "ps_5_0\0"

  const CONVERSION_FAILED: string := "Failed to converot String to U16CString."
  const ERROR_BLOB_NULL: string := "Error Blob was Null"
  const NOT_UTF8: string := "Failed to convert CString to String."

  /** The arguments `compile_shader` hands to `D3DCompileFromFile`. */
  datatype CompileRequest = CompileRequest(path: string, entryPoint: string, targetProfile: string, flags: nat)

  /** An `ID3DBlob` holding bytecode. */
  datatype Blob = Blob(bytes: seq<byte>)

  /** The compiler's error blob: its text up to the terminating NUL, and
      whether that text is valid UTF-8. */
  datatype ErrorBlob = ErrorBlob(text: string, validUtf8: bool)

  /** What one `D3DCompileFromFile` call yields: success or the error's
      message, and the two out-parameters. */
  datatype FxcResult = FxcResult(succeeded: bool, errorMessage: string, compiled: Option<Blob>, errors: Option<ErrorBlob>)

  /** A line printed to standard output. */
  datatype Printed = ErrorCode(message: string) | ErrorText(text: string)

  /** The compile flags: debug information and no optimisation in a build with
      debug assertions, none otherwise. */
  function CompileFlags(debugAssertions: bool): (flags: nat)
    ensures debugAssertions ==> flags == D3DCOMPILE_DEBUG + D3DCOMPILE_SKIP_OPTIMIZATION
    ensures !debugAssertions ==> flags == 0
  {
    if debugAssertions then D3DCOMPILE_DEBUG + D3DCOMPILE_SKIP_OPTIMIZATION else 0
  }

  /** The stage `match` of `compile_shader`: the entry point and profile by
      stage, and the path converted to a wide string, which fails, and
      panics, when the path holds a NUL. */
  function Request(shaderType: ShaderType, debugAssertions: bool): (r: Run<CompileRequest>)
    ensures r.Panicked? <==> '\0' in shaderType.path
    ensures r.Panicked? ==> r.message == CONVERSION_FAILED
    ensures r.Returned? ==> r.value.path == shaderType.path && r.value.flags == CompileFlags(debugAssertions)
    ensures r.Returned? && shaderType.Vertex? ==>
      r.value.entryPoint == VS_ENTRY_POINT && r.value.targetProfile == VS_TARGET_PROFILE
    ensures r.Returned? && shaderType.Pixel? ==>
      r.value.entryPoint == PS_ENTRY_POINT && r.value.targetProfile == PS_TARGET_PROFILE
  {
    if '\0' in shaderType.path then Panicked(CONVERSION_FAILED)
    else match shaderType
      case Vertex(path) => Returned(CompileRequest(path, VS_ENTRY_POINT, VS_TARGET_PROFILE, CompileFlags(debugAssertions)))
      case Pixel(path) => Returned(CompileRequest(path, PS_ENTRY_POINT, PS_TARGET_PROFILE, CompileFlags(debugAssertions)))
  }

  /** A string handed to the compiler as a C string: one NUL, at its end. */
  predicate NulTerminated(s: string)
  {
    |s| > 0 && s[|s| - 1] == '\0' && forall i | 0 <= i < |s| - 1 :: s[i] != '\0'
  }

  /** Whichever the stage, the entry point and the profile are C strings, the
      two stages ask for different ones, and the entry point's first two
      letters name the profile's stage. */
  lemma RequestStrings(path: string, debugAssertions: bool)
    requires '\0' !in path
    ensures var vs := Request(Vertex(path), debugAssertions).value;
      var ps := Request(Pixel(path), debugAssertions).value;
      NulTerminated(vs.entryPoint) && NulTerminated(vs.targetProfile) &&
      NulTerminated(ps.entryPoint) && NulTerminated(ps.targetProfile) &&
      vs.entryPoint != ps.entryPoint && vs.targetProfile != ps.targetProfile &&
      vs.entryPoint[..2] == vs.targetProfile[..2] && ps.entryPoint[..2] == ps.targetProfile[..2]
  {
  }

  /** `check_errors`: the error blob's text printed; a missing blob, or text
      that is not UTF-8, panics. */
  function CheckErrors(errors: Option<ErrorBlob>): (r: Run<Printed>)
    ensures r.Panicked? <==> errors.None? || !errors.value.validUtf8
    ensures errors.None? ==> r == Panicked(ERROR_BLOB_NULL)
    ensures r.Returned? ==> r.value == ErrorText(errors.value.text)
  {
    match errors
    case None => Panicked(ERROR_BLOB_NULL)
    case Some(blob) => if blob.validUtf8 then Returned(ErrorText(blob.text)) else Panicked(NOT_UTF8)
  }

  /** What `compile_shader` does with the compiler's answer: on failure it
      prints the error code and the diagnostics, and in every case that does
      not panic it returns the compiled blob as the compiler left it. */
  function AfterCompile(fxc: FxcResult): (r: (Run<Option<Blob>>, seq<Printed>))
    ensures fxc.succeeded ==> r == (Returned(fxc.compiled), [])
    ensures !fxc.succeeded ==> |r.1| >= 1 && r.1[0] == ErrorCode(fxc.errorMessage)
    ensures !fxc.succeeded && CheckErrors(fxc.errors).Returned? ==>
      r == (Returned(fxc.compiled), [ErrorCode(fxc.errorMessage), CheckErrors(fxc.errors).value])
    ensures !fxc.succeeded && CheckErrors(fxc.errors).Panicked? ==>
      r == (Panicked(CheckErrors(fxc.errors).message), [ErrorCode(fxc.errorMessage)])
  {
    if fxc.succeeded then (Returned(fxc.compiled), [])
    else match CheckErrors(fxc.errors)
      case Panicked(message) => (Panicked(message), [ErrorCode(fxc.errorMessage)])
      case Returned(line) => (Returned(fxc.compiled), [ErrorCode(fxc.errorMessage), line])
  }

  /** `compile_shader`, with the compiler as a parameter. */
  method CompileShader(shaderType: ShaderType, debugAssertions: bool, compiler: CompileRequest -> FxcResult)
    returns (r: Run<Option<Blob>>, printed: seq<Printed>)
    ensures Request(shaderType, debugAssertions).Panicked? ==>
      r == Panicked(CONVERSION_FAILED) && printed == []
    ensures Request(shaderType, debugAssertions).Returned? ==>
      (r, printed) == AfterCompile(compiler(Request(shaderType, debugAssertions).value))
  {
    var compileFlags := CompileFlags(debugAssertions);
    var entryPoint := "";
    var targetProfile := "";
    var shaderPath := "";
    match shaderType {
      case Vertex(vsShaderPath) =>
        entryPoint := VS_ENTRY_POINT;
        targetProfile := VS_TARGET_PROFILE;
        if '\0' in vsShaderPath {
          return Panicked(CONVERSION_FAILED), [];
        }
        shaderPath := vsShaderPath;
      case Pixel(psShaderPath) =>
        entryPoint := PS_ENTRY_POINT;
        targetProfile := PS_TARGET_PROFILE;
        if '\0' in psShaderPath {
          return Panicked(CONVERSION_FAILED), [];
        }
        shaderPath := psShaderPath;
    }
    var request := CompileRequest(shaderPath, entryPoint, targetProfile, compileFlags);
    assert request == Request(shaderType, debugAssertions).value;
    var fxc := compiler(request);
    printed := [];
    if !fxc.succeeded {
      printed := printed + [ErrorCode(fxc.errorMessage)];
      var checked := CheckErrors(fxc.errors);
      if checked.Panicked? {
        assert printed == [ErrorCode(fxc.errorMessage)];
        return Panicked(checked.message), printed;
      }
      printed := printed + [checked.value];
      assert printed == [ErrorCode(fxc.errorMessage), checked.value];
    }
    r := Returned(fxc.compiled);
    assert (r, printed) == AfterCompile(fxc);
  }

  /** A shader object created from bytecode. */
  datatype ShaderObject = ShaderObject(stage: ShaderType, bytecode: seq<byte>)

  /** The panic messages of `create_vertex_shader` / `create_pixel_shader`;
      `expect` does not format, so the braces are part of the text. */
  function CompileFailedMessage(shaderType: ShaderType): string
  {
    match shaderType
    case Vertex(_) => "Failed to compile vertex shader : {shader_path}."
    case Pixel(_) => "Failed to compile pixel shader : {shader_path}."
  }

  function CreateFailedMessage(shaderType: ShaderType): string
  {
    match shaderType
    case Vertex(_) => "Failed to create vertex shader."
    case Pixel(_) => "Failed to create pixel shader."
  }

  /** `create_vertex_shader` / `create_pixel_shader`, after compilation
      returned `compiled`: no blob panics; otherwise the bytecode, as many
      bytes as the blob holds, goes to the device, whose refusal panics. */
  function CreateShader(shaderType: ShaderType, compiled: Run<Option<Blob>>, deviceAccepts: seq<byte> -> bool)
    : (r: Run<ShaderObject>)
    ensures compiled.Panicked? ==> r == Panicked(compiled.message)
    ensures compiled == Returned(None) ==> r == Panicked(CompileFailedMessage(shaderType))
    ensures r.Returned? ==>
      compiled.Returned? && compiled.value.Some? &&
      r.value == ShaderObject(shaderType, compiled.value.value.bytes) && deviceAccepts(r.value.bytecode)
    ensures compiled.Returned? && compiled.value.Some? && !deviceAccepts(compiled.value.value.bytes) ==>
      r == Panicked(CreateFailedMessage(shaderType))
  {
    match compiled
    case Panicked(message) => Panicked(message)
    case Returned(None) => Panicked(CompileFailedMessage(shaderType))
    case Returned(Some(blob)) =>
      var bufferSize := |blob.bytes|;
      var bytecode := blob.bytes[..bufferSize];
      if deviceAccepts(bytecode) then Returned(ShaderObject(shaderType, bytecode))
      else Panicked(CreateFailedMessage(shaderType))
  }

  /** A compile error with diagnostics does not end the program by itself:
      the shader is created exactly when the compiler still left a blob that
      the device accepts. */
  lemma CompileErrorStillCreates(path: string, debugAssertions: bool, fxc: FxcResult, deviceAccepts: seq<byte> -> bool)
    requires !fxc.succeeded && fxc.errors.Some? && fxc.errors.value.validUtf8
    ensures var (compiled, printed) := AfterCompile(fxc);
      printed == [ErrorCode(fxc.errorMessage), ErrorText(fxc.errors.value.text)] &&
      (CreateShader(Vertex(path), compiled, deviceAccepts).Returned? <==>
         fxc.compiled.Some? && deviceAccepts(fxc.compiled.value.bytes))
  {
    if fxc.compiled.Some? {
      var bytes := fxc.compiled.value.bytes;
      assert bytes[..|bytes|] == bytes;
    }
  }
}

=== FILE: scene.dfy ===
/**
 * The newer engine's scene: scene-global arrays of positions, normals,
 * texture coordinates and indices that every game object's meshes are
 * flattened into, the per-mesh and per-material records that locate each
 * mesh's data in them, and the per-object transform records rebuilt every
 * frame. Game objects are created from already-loaded model data; the Lua
 * scene script that names them is not part of this model.
 */
module Scene {
  import opened Common
  import opened Interop
  import opened ModelLoader
  import opened DescriptorHeap
  import opened Device
  import opened Renderer
  import FileSystem
  import ScriptManagement
  import EngineLog

  const MAX_GAME_OBJECTS: nat := 100

  /** `DXGI_FORMAT_R8G8B8A8_UNORM_SRGB`. */
  const FORMAT_R8G8B8A8_UNORM_SRGB: nat := 29

  /** The game object record `create_game_object` fills in: its number, its
      name, how many meshes and materials it brought, where its first mesh and
      material record are, and the transform its last update computed. */
  datatype GameObject = GameObject(gameObjectIndex: nat, name: string, meshCount: nat, materialCount: nat,
                                   meshBufferOffset: nat, materialBufferOffset: nat,
                                   transformBufferData: TransformBufferData)

  /** `order` lists each of `names` exactly once: an iteration order of an
      `std::unordered_map` with those keys, which the language leaves open. */
  predicate EnumeratesOnce(order: seq<string>, names: set<string>)
  {
    (forall i | 0 <= i < |order| :: order[i] in names) &&
    (forall n | n in names :: n in order) &&
    (forall i, j | 0 <= i < j < |order| :: order[i] != order[j])
  }

  /** A list naming every key once is as long as the key set is large. */
  lemma {:induction false} EnumerationLength(order: seq<string>, names: set<string>)
    requires EnumeratesOnce(order, names)
    ensures |order| == |names|
    decreases |order|
  {
    if order != [] {
      var last := order[|order| - 1];
      var rest := order[..|order| - 1];
      assert EnumeratesOnce(rest, names - {last}) by {
        forall n | n in names - {last} ensures n in rest {
          var i :| 0 <= i < |order| && order[i] == n;
          assert i != |order| - 1;
          assert rest[i] == n;
        }
      }
      EnumerationLength(rest, names - {last});
    } else {
      assert forall n | n in names :: false;
      assert names == {};
    }
  }

  // ------------------------------------------------------ flattening meshes

  function PositionsPart(m: MeshData): seq<Float3> { m.positions }
  function NormalsPart(m: MeshData): seq<Float3> { m.normals }
  function TextureCoordsPart(m: MeshData): seq<Float2> { m.textureCoords }
  function IndicesPart(m: MeshData): seq<U16> { m.indices }

  /** One attribute of each mesh, concatenated in mesh order. */
  function Gather<T>(meshes: seq<MeshData>, part: MeshData -> seq<T>): seq<T>
  {
    if meshes == [] then [] else Gather(meshes[..|meshes| - 1], part) + part(meshes[|meshes| - 1])
  }

  /** Gathering one more mesh appends that mesh's part. */
  lemma GatherStep<T>(meshes: seq<MeshData>, part: MeshData -> seq<T>, k: nat)
    requires k < |meshes|
    ensures Gather(meshes[..k + 1], part) == Gather(meshes[..k], part) + part(meshes[k])
  {
    assert meshes[..k + 1][..k] == meshes[..k];
  }

  /** Appending mesh `k`'s part to the gathered parts of the meshes before it
      gathers one mesh more. */
  lemma AppendGathered<T>(prefix: seq<T>, acc: seq<T>, meshes: seq<MeshData>, part: MeshData -> seq<T>, k: nat)
    requires k < |meshes| && acc == prefix + Gather(meshes[..k], part)
    ensures acc + part(meshes[k]) == prefix + Gather(meshes[..k + 1], part)
  {
    GatherStep(meshes, part, k);
  }

  /** Mesh `k`'s part sits in the gathered sequence right after the parts of the
      meshes before it. */
  lemma {:induction false} GatherSlice<T>(meshes: seq<MeshData>, part: MeshData -> seq<T>, k: nat)
    requires k < |meshes|
    ensures var start := |Gather(meshes[..k], part)|;
      start + |part(meshes[k])| <= |Gather(meshes, part)| &&
      Gather(meshes, part)[start..start + |part(meshes[k])|] == part(meshes[k])
    decreases |meshes|
  {
    GatherStep(meshes, part, k);
    var upTo := Gather(meshes[..k + 1], part);
    if k + 1 < |meshes| {
      var init := meshes[..|meshes| - 1];
      GatherSlice(init, part, k);
      assert init[..k] == meshes[..k];
    } else {
      assert meshes[..k + 1] == meshes;
    }
  }

  /** The lengths of the scene arrays a game object's records are based on. */
  datatype Sizes = Sizes(positions: nat, normals: nat, textureCoords: nat, indices: nat, meshes: nat, materials: nat)

  /** The record of a mesh whose data starts where each scene array ends, as
      `sizes` gives them: its global mesh number, its offsets, its index count,
      and its local material index rebased past the materials already in the
      scene. All fields are narrowed to `uint32_t`. */
  function MeshBufferAt(meshData: MeshData, gameObjectIndex: nat, sizes: Sizes): MeshBuffer
  {
    MeshBuffer(Wrap32(sizes.meshes), gameObjectIndex, Wrap32(sizes.positions), Wrap32(sizes.normals),
               Wrap32(sizes.textureCoords), Wrap32(sizes.indices), Wrap32(|meshData.indices|),
               Wrap32(sizes.materials + meshData.materialIndex))
  }

  /** The array sizes just before mesh `k` of a game object is appended: the
      sizes before the object, grown by the meshes before `k`. */
  function SizesBefore(meshes: seq<MeshData>, k: nat, base: Sizes): Sizes
    requires k <= |meshes|
  {
    var before := meshes[..k];
    Sizes(base.positions + |Gather(before, PositionsPart)|, base.normals + |Gather(before, NormalsPart)|,
          base.textureCoords + |Gather(before, TextureCoordsPart)|, base.indices + |Gather(before, IndicesPart)|,
          base.meshes + k, base.materials)
  }

  /** The record of mesh `k` of a game object. */
  function MeshBufferOf(meshes: seq<MeshData>, k: nat, gameObjectIndex: nat, base: Sizes): MeshBuffer
    requires k < |meshes|
  {
    MeshBufferAt(meshes[k], gameObjectIndex, SizesBefore(meshes, k, base))
  }

  /** Where the mesh data is, as seen from its record: an offset into the old
      array followed by the gathered parts finds exactly that mesh's part, as
      long as the array fits in `uint32_t`. */
  lemma PartAtOffset<T>(existing: seq<T>, meshes: seq<MeshData>, part: MeshData -> seq<T>, k: nat, offset: nat)
    requires k < |meshes| && |existing| + |Gather(meshes, part)| < U32_LIMIT
    requires offset == Wrap32(|existing| + |Gather(meshes[..k], part)|)
    ensures offset + |part(meshes[k])| <= |existing + Gather(meshes, part)|
    ensures (existing + Gather(meshes, part))[offset..offset + |part(meshes[k])|] == part(meshes[k])
  {
    GatherSlice(meshes, part, k);
    var start := |Gather(meshes[..k], part)|;
    assert offset == |existing| + start;
    var all := existing + Gather(meshes, part);
    assert all[offset..offset + |part(meshes[k])|] == Gather(meshes, part)[start..start + |part(meshes[k])|];
  }

  /** The records locate the flattened data: mesh `k`'s positions and indices
      are found at its offsets, and its index count is its own. */
  lemma MeshBuffersLocateData(positions: seq<Float3>, indices: seq<U16>, meshes: seq<MeshData>, k: nat,
                              gameObjectIndex: nat, base: Sizes)
    requires k < |meshes| && base.positions == |positions| && base.indices == |indices|
    requires |positions| + |Gather(meshes, PositionsPart)| < U32_LIMIT
    requires |indices| + |Gather(meshes, IndicesPart)| < U32_LIMIT
    ensures var record := MeshBufferOf(meshes, k, gameObjectIndex, base);
      var allPositions := positions + Gather(meshes, PositionsPart);
      var allIndices := indices + Gather(meshes, IndicesPart);
      record.positionOffset + |meshes[k].positions| <= |allPositions| &&
      allPositions[record.positionOffset..record.positionOffset + |meshes[k].positions|] == meshes[k].positions &&
      record.indicesOffset + record.indicesCount <= |allIndices| &&
      allIndices[record.indicesOffset..record.indicesOffset + record.indicesCount] == meshes[k].indices
  {
    var record := MeshBufferOf(meshes, k, gameObjectIndex, base);
    var positionsBefore := |Gather(meshes[..k], PositionsPart)|;
    var indicesBefore := |Gather(meshes[..k], IndicesPart)|;
    GatherSlice(meshes, PositionsPart, k);
    GatherSlice(meshes, IndicesPart, k);
    assert record.positionOffset == |positions| + positionsBefore;
    assert record.indicesOffset == |indices| + indicesBefore && record.indicesCount == |IndicesPart(meshes[k])|;
    PartAtOffset(positions, meshes, PositionsPart, k, record.positionOffset);
    PartAtOffset(indices, meshes, IndicesPart, k, record.indicesOffset);
  }

  // --------------------------------------------------------------- materials

  /** Whether a material gets an albedo texture: both dimensions non-zero. */
  predicate HasAlbedo(texture: TextureData)
  {
    texture.width != 0 && texture.height != 0
  }

  /** How many of `materials` get an albedo texture. */
  function TexturedCount(materials: seq<MaterialData>): (n: nat)
    ensures n <= |materials|
  {
    if materials == [] then 0
    else TexturedCount(materials[..|materials| - 1]) + (if HasAlbedo(materials[|materials| - 1].baseColorTexture) then 1 else 0)
  }

  /** Counting one material more. */
  lemma TexturedCountStep(materials: seq<MaterialData>, k: nat)
    requires k < |materials|
    ensures TexturedCount(materials[..k + 1]) ==
      TexturedCount(materials[..k]) + if HasAlbedo(materials[k].baseColorTexture) then 1 else 0
  {
    assert materials[..k + 1][..k] == materials[..k];
  }

  /** The texture a material asks for, under the given debug name: a
      four-byte-per-pixel sRGB shader resource. */
  function AlbedoDesc(name: string, texture: TextureData): (desc: TextureCreationDesc)
    ensures desc.usage == ShaderResourceTexture && desc.width == texture.width && desc.height == texture.height
    ensures desc.format == FORMAT_R8G8B8A8_UNORM_SRGB && desc.bytesPerPixel == 4
    ensures TextureUploadSize(desc) == Wrap32(texture.width * texture.height * 4)
  {
    DefaultTextureDesc(ShaderResourceTexture, FORMAT_R8G8B8A8_UNORM_SRGB, texture.width, texture.height, name)
  }

  /** What the texture upload reads from a material's pixels stays inside
      them; reading past the vector is undefined behaviour. Dimensions are
      `uint32_t`. */
  predicate TextureReadable(texture: TextureData)
  {
    texture.width < U32_LIMIT && texture.height < U32_LIMIT &&
    (HasAlbedo(texture) && texture.data.Bytes8? ==>
       |texture.data.bytes| >= Wrap32(texture.width * texture.height * 4))
  }

  /** The loop that flattens a game object's meshes into the scene arrays
      `positions`, `normals`, `textureCoords` and `indices`, whose sizes
      before it, together with the mesh and material counts, are `base`. */
  method FlattenMeshes(meshes: seq<MeshData>, gameObjectIndex: nat, base: Sizes,
                       positions: seq<Float3>, normals: seq<Float3>, textureCoords: seq<Float2>, indices: seq<U16>)
    returns (records: seq<MeshBuffer>, positions': seq<Float3>, normals': seq<Float3>,
             textureCoords': seq<Float2>, indices': seq<U16>)
    requires base.positions == |positions| && base.normals == |normals|
    requires base.textureCoords == |textureCoords| && base.indices == |indices|
    ensures positions' == positions + Gather(meshes, PositionsPart)
    ensures normals' == normals + Gather(meshes, NormalsPart)
    ensures textureCoords' == textureCoords + Gather(meshes, TextureCoordsPart)
    ensures indices' == indices + Gather(meshes, IndicesPart)
    ensures |records| == |meshes| && forall k | 0 <= k < |meshes| :: records[k] == MeshBufferOf(meshes, k, gameObjectIndex, base)
  {
    records := [];
    positions', normals', textureCoords', indices' := positions, normals, textureCoords, indices;
    for k := 0 to |meshes|
      invariant |records| == k
      invariant positions' == positions + Gather(meshes[..k], PositionsPart)
      invariant normals' == normals + Gather(meshes[..k], NormalsPart)
      invariant textureCoords' == textureCoords + Gather(meshes[..k], TextureCoordsPart)
      invariant indices' == indices + Gather(meshes[..k], IndicesPart)
      invariant forall j | 0 <= j < k :: records[j] == MeshBufferOf(meshes, j, gameObjectIndex, base)
    {
      var sizes := Sizes(|positions'|, |normals'|, |textureCoords'|, |indices'|, base.meshes + |records|, base.materials);
      assert sizes == SizesBefore(meshes, k, base);
      records := records + [MeshBufferAt(meshes[k], gameObjectIndex, sizes)];
      AppendGathered(positions, positions', meshes, PositionsPart, k);
      AppendGathered(normals, normals', meshes, NormalsPart, k);
      AppendGathered(textureCoords, textureCoords', meshes, TextureCoordsPart, k);
      AppendGathered(indices, indices', meshes, IndicesPart, k);
      positions' := positions' + meshes[k].positions;
      normals' := normals' + meshes[k].normals;
      textureCoords' := textureCoords' + meshes[k].textureCoords;
      indices' := indices' + meshes[k].indices;
    }
    assert meshes[..|meshes|] == meshes;
  }

  /** The record built for material `k`, whose albedo texture (if any) was
      the `TexturedCount(materials[..k])`-th one created after `firstSrv`. The
      slot is known only while the texture registry's positions fit in
      `uint32_t` (`noWrap`). */
  predicate MaterialRecordOf(record: MaterialBuffer, materials: seq<MaterialData>, k: nat, firstSrv: nat, noWrap: bool)
    requires k < |materials|
  {
    record.baseColor == materials[k].baseColor &&
    record.metallicRoughnessFactor == materials[k].metallicRoughnessFactor &&
    (!HasAlbedo(materials[k].baseColorTexture) ==> record.albedoTextureSrvIndex == INVALID_INDEX_U32) &&
    (noWrap && HasAlbedo(materials[k].baseColorTexture) ==>
       record.albedoTextureSrvIndex == Wrap32(firstSrv + TexturedCount(materials[..k])))
  }

  /** The records of the first `|records|` materials. */
  predicate MaterialRecordsOf(records: seq<MaterialBuffer>, materials: seq<MaterialData>, firstSrv: nat, noWrap: bool)
  {
    |records| <= |materials| &&
    forall j | 0 <= j < |records| :: MaterialRecordOf(records[j], materials, j, firstSrv, noWrap)
  }

  /** What a game object's own `update` leaves behind: the object as it then
      is, and whether it threw (an unknown script index, or a material buffer
      with no mapping). A throwing update may already have changed the object. */
  datatype Stepped = Stepped(gameObject: GameObject, outcome: Outcome)

  /** How many objects of `order`, from the `k`-th on, update without
      throwing before the first that throws: the position of that object, or
      the end of `order`. */
  function CompletedFrom(order: seq<string>, before: map<string, GameObject>, step: GameObject -> Stepped, k: nat)
    : (c: nat)
    requires k <= |order| && EnumeratesOnce(order, before.Keys)
    ensures k <= c <= |order|
    ensures forall j | k <= j < c :: step(before[order[j]]).outcome.Pass?
    ensures c < |order| ==> step(before[order[c]]).outcome.Abort?
    decreases |order| - k
  {
    if k == |order| || step(before[order[k]]).outcome.Abort? then k
    else CompletedFrom(order, before, step, k + 1)
  }

  /** `objects` is `before` with the first `k` objects of `order` updated by
      `step` and the others untouched. */
  predicate UpdatedUpTo(order: seq<string>, k: nat, before: map<string, GameObject>, objects: map<string, GameObject>,
                        step: GameObject -> Stepped)
    requires k <= |order| && EnumeratesOnce(order, before.Keys)
  {
    objects.Keys == before.Keys &&
    (forall j | 0 <= j < k :: objects[order[j]] == step(before[order[j]]).gameObject) &&
    (forall j | k <= j < |order| :: objects[order[j]] == before[order[j]])
  }

  /** Updating the next object of the iteration order. */
  lemma UpdatedStep(order: seq<string>, k: nat, before: map<string, GameObject>, objects: map<string, GameObject>,
                    step: GameObject -> Stepped)
    requires k < |order| && EnumeratesOnce(order, before.Keys) && UpdatedUpTo(order, k, before, objects, step)
    ensures UpdatedUpTo(order, k + 1, before, objects[order[k] := step(objects[order[k]]).gameObject], step)
  {
  }

  /** Once every object of the iteration order is updated, every object is. */
  lemma UpdatedAll(order: seq<string>, before: map<string, GameObject>, objects: map<string, GameObject>,
                   step: GameObject -> Stepped)
    requires EnumeratesOnce(order, before.Keys) && UpdatedUpTo(order, |order|, before, objects, step)
    ensures forall n | n in objects :: objects[n] == step(before[n]).gameObject
  {
    forall n | n in objects ensures objects[n] == step(before[n]).gameObject {
      var i :| 0 <= i < |order| && order[i] == n;
    }
  }

  /** How many objects the loop has updated when it ends: those that did not
      throw, and the one that did. */
  function Touched(order: seq<string>, before: map<string, GameObject>, step: GameObject -> Stepped): (t: nat)
    requires EnumeratesOnce(order, before.Keys)
    ensures t <= |order|
  {
    var c := CompletedFrom(order, before, step, 0);
    if c < |order| then c + 1 else c
  }

  /** The transform records of the first `k` objects of `order`. */
  predicate RecordsOf(order: seq<string>, objects: map<string, GameObject>, buffers: seq<GameObjectBuffer>, k: nat)
    requires k <= |order| && forall i | 0 <= i < |order| :: order[i] in objects
  {
    |buffers| == k && forall i | 0 <= i < k :: buffers[i] == GameObjectBuffer(objects[order[i]].transformBufferData)
  }

  /** The loop of `update` over the objects, on values: the objects updated,
      the transform records pushed, and whether an update threw. */
  method UpdateObjects(order: seq<string>, before: map<string, GameObject>, step: GameObject -> Stepped)
    returns (objects: map<string, GameObject>, buffers: seq<GameObjectBuffer>, r: Outcome)
    requires EnumeratesOnce(order, before.Keys)
    ensures UpdatedUpTo(order, Touched(order, before, step), before, objects, step)
    ensures var c := CompletedFrom(order, before, step, 0);
      (r.Pass? <==> c == |order|) && (r.Abort? ==> r == step(before[order[c]]).outcome) &&
      RecordsOf(order, objects, buffers, c)
  {
    ghost var c := CompletedFrom(order, before, step, 0);
    objects, buffers := before, [];
    var k := 0;
    while k < |order|
      invariant k <= c && UpdatedUpTo(order, k, before, objects, step) && RecordsOf(order, objects, buffers, k)
    {
      var name := order[k];
      var updated := step(objects[name]);
      UpdatedStep(order, k, before, objects, step);
      objects := objects[name := updated.gameObject];
      if updated.outcome.Abort? {
        return objects, buffers, updated.outcome;
      }
      buffers := buffers + [GameObjectBuffer(updated.gameObject.transformBufferData)];
      k := k + 1;
    }
    r := Pass;
  }

  /** `create_texture` for an albedo texture, then `get_texture_at_index` on
      the returned position: the SRV slot the texture received. */
  method CreateAlbedoTexture(renderer: Renderer, desc: TextureCreationDesc, pixels: seq<byte>) returns (srv: nat)
    requires renderer.Valid() && desc.usage == ShaderResourceTexture && desc.WellFormed()
    requires |pixels| >= TextureUploadSize(desc)
    modifies renderer`allocatedTextures, renderer.device, renderer.device.cbvSrvUavHeap, renderer.device.dsvHeap
    ensures renderer.Valid() && renderer.allocatedBuffers == old(renderer.allocatedBuffers)
    ensures |renderer.allocatedTextures| == |old(renderer.allocatedTextures)| + 1
    ensures renderer.device.cbvSrvUavHeap.current == old(renderer.device.cbvSrvUavHeap.current).Offset(1)
    ensures |old(renderer.allocatedTextures)| < U32_LIMIT ==> srv == old(renderer.device.cbvSrvUavHeap.current.index)
  {
    var index := renderer.CreateTexture(desc, Some(pixels));
    var texture := renderer.TextureAt(index.value);
    srv := texture.value.srvIndex;
  }

  class Scene {
    const renderer: Renderer
    /** `m_scene_name`. */
    const sceneName: string
    /** `m_scene_init_script_index`: where the script manager keeps the init script. */
    const sceneInitScriptIndex: nat
    /** The scene-global arrays of `SceneResources`. */
    var positions: seq<Float3>
    var normals: seq<Float3>
    var textureCoords: seq<Float2>
    var indices: seq<U16>
    var materialBuffers: seq<MaterialBuffer>
    var meshBuffers: seq<MeshBuffer>
    var gameObjectBuffers: seq<GameObjectBuffer>
    /** `m_game_objects`, by name. */
    var gameObjects: map<string, GameObject>

    ghost predicate Valid()
      reads this, renderer, renderer.device, renderer.device.Repr()
    {
      renderer.Valid()
    }

    /** The scene before its script runs: empty arrays and no game objects, with
        `MAX_GAME_OBJECTS` default transform records. The init script, named after
        the scene and found through the file system, is registered with the script
        manager, and the scene's creation is logged. */
    constructor (renderer: Renderer, sceneName: string, sceneInitScriptPath: string, fileSystem: FileSystem.FileSystem,
                 scripts: ScriptManagement.ScriptManager, log: EngineLog.Log)
      requires renderer.Valid()
      modifies scripts, log`records
      ensures Valid() && this.renderer == renderer && this.sceneName == sceneName
      ensures var script := ScriptManagement.Script(sceneName + " init script", fileSystem.AbsolutePath(sceneInitScriptPath));
        scripts.scripts == ScriptManagement.Registered(old(scripts.scripts), script).0 &&
        sceneInitScriptIndex == Wrap32(ScriptManagement.Registered(old(scripts.scripts), script).1)
      ensures log.records == old(log.records) + [EngineLog.Record(EngineLog.Info, "Created scene " + sceneName)]
      ensures positions == [] && normals == [] && textureCoords == [] && indices == []
      ensures materialBuffers == [] && meshBuffers == [] && gameObjects == map[]
      ensures gameObjectBuffers == seq(MAX_GAME_OBJECTS, _ => DEFAULT_GAME_OBJECT_BUFFER)
    {
      this.renderer, this.sceneName := renderer, sceneName;
      positions, normals, textureCoords, indices := [], [], [], [];
      materialBuffers, meshBuffers, gameObjects := [], [], map[];
      gameObjectBuffers := seq(MAX_GAME_OBJECTS, _ => DEFAULT_GAME_OBJECT_BUFFER);
      var scriptPath := fileSystem.AbsolutePath(sceneInitScriptPath);
      var scriptIndex := scripts.CreateScript(ScriptManagement.Script(sceneName + " init script", scriptPath));
      sceneInitScriptIndex := scriptIndex;
      new;
      log.LogInfo("Created scene " + sceneName);
    }

    function ArraySizes(): Sizes
      reads this
    {
      Sizes(|positions|, |normals|, |textureCoords|, |indices|, |meshBuffers|, |materialBuffers|)
    }

    /** `reload`: all seven arrays and the game objects are cleared, then the
        transform records are sized back to `MAX_GAME_OBJECTS` defaults (the
        script that refills the scene is not part of this model). */
    method Reload()
      modifies this
      ensures positions == [] && normals == [] && textureCoords == [] && indices == []
      ensures materialBuffers == [] && meshBuffers == [] && gameObjects == map[]
      ensures gameObjectBuffers == seq(MAX_GAME_OBJECTS, _ => DEFAULT_GAME_OBJECT_BUFFER)
    {
      gameObjectBuffers := [];
      indices := [];
      materialBuffers := [];
      meshBuffers := [];
      normals := [];
      positions := [];
      textureCoords := [];
      gameObjects := map[];
      gameObjectBuffers := seq(MAX_GAME_OBJECTS, _ => DEFAULT_GAME_OBJECT_BUFFER);
    }

    /** The mesh loop of `create_game_object`: one record per mesh, then the
        mesh's data appended to each scene array; the records go to the end of
        `meshBuffers` together. */
    method AppendMeshes(gameObjectIndex: nat, meshes: seq<MeshData>)
      modifies this`positions, this`normals, this`textureCoords, this`indices, this`meshBuffers
      ensures positions == old(positions) + Gather(meshes, PositionsPart)
      ensures normals == old(normals) + Gather(meshes, NormalsPart)
      ensures textureCoords == old(textureCoords) + Gather(meshes, TextureCoordsPart)
      ensures indices == old(indices) + Gather(meshes, IndicesPart)
      ensures |meshBuffers| == |old(meshBuffers)| + |meshes|
      ensures meshBuffers[..|old(meshBuffers)|] == old(meshBuffers)
      ensures forall k | 0 <= k < |meshes| ::
        meshBuffers[|old(meshBuffers)| + k] == MeshBufferOf(meshes, k, gameObjectIndex, old(ArraySizes()))
    {
      var records;
      records, positions, normals, textureCoords, indices :=
        FlattenMeshes(meshes, gameObjectIndex, ArraySizes(), positions, normals, textureCoords, indices);
      meshBuffers := meshBuffers + records;
    }

    /** One step of the material loop: material `k`'s pixels must be 8-bit
        (`std::get` throws otherwise), an albedo texture is created when both
        its dimensions are non-zero, and its record goes after the earlier
        ones. `firstSrv` and `firstCount` are the SRV slot and the texture
        count before the loop. */
    method AppendMaterial(objectName: string, materials: seq<MaterialData>, k: nat, records: seq<MaterialBuffer>,
                          ghost firstSrv: nat, ghost firstCount: nat, ghost noWrap: bool)
      returns (r: Result<seq<MaterialBuffer>>)
      requires Valid() && k < |materials| && |records| == k && TextureReadable(materials[k].baseColorTexture)
      requires noWrap ==> firstCount + |materials| < U32_LIMIT
      requires |renderer.allocatedTextures| == firstCount + TexturedCount(materials[..k])
      requires renderer.device.cbvSrvUavHeap.current.index == Wrap32(firstSrv + TexturedCount(materials[..k]))
      requires MaterialRecordsOf(records, materials, firstSrv, noWrap)
      modifies renderer`allocatedTextures, renderer.device, renderer.device.cbvSrvUavHeap, renderer.device.dsvHeap
      ensures Valid()
      ensures r.Fail? <==> materials[k].baseColorTexture.data.Floats?
      ensures r.Fail? ==> r.error == BadVariantAccess
      ensures r.Ok? ==> |r.value| == k + 1 && MaterialRecordsOf(r.value, materials, firstSrv, noWrap)
      ensures r.Ok? ==> |renderer.allocatedTextures| == firstCount + TexturedCount(materials[..k + 1])
      ensures r.Ok? ==>
        renderer.device.cbvSrvUavHeap.current.index == Wrap32(firstSrv + TexturedCount(materials[..k + 1]))
    {
      var texture := materials[k].baseColorTexture;
      if texture.data.Floats? {
        return Fail(BadVariantAccess);
      }
      TexturedCountStep(materials, k);
      ghost var counted := TexturedCount(materials[..k]);
      var srv := INVALID_INDEX_U32;
      if HasAlbedo(texture) {
        srv := CreateAlbedoTexture(renderer, AlbedoDesc(objectName + " Albedo Texture Material " + Decimal(k), texture),
                                   texture.data.bytes);
        Wrap32Add(firstSrv + counted, 1);
      }
      var record := MaterialBuffer(materials[k].baseColor, materials[k].metallicRoughnessFactor, srv);
      assert MaterialRecordOf(record, materials, k, firstSrv, noWrap);
      r := Ok(records + [record]);
    }

    /** The material loop of `create_game_object`: the records of all the
        materials, or `BadVariantAccess` at the first one whose pixels are
        not 8-bit (the textures of the materials before it stay created). */
    method BuildMaterials(objectName: string, materials: seq<MaterialData>) returns (r: Result<seq<MaterialBuffer>>)
      requires Valid() && forall k | 0 <= k < |materials| :: TextureReadable(materials[k].baseColorTexture)
      modifies renderer`allocatedTextures, renderer.device, renderer.device.cbvSrvUavHeap, renderer.device.dsvHeap
      ensures Valid()
      ensures r.Fail? <==> exists k | 0 <= k < |materials| :: materials[k].baseColorTexture.data.Floats?
      ensures r.Fail? ==> r.error == BadVariantAccess
      ensures r.Ok? ==> (|r.value| == |materials| &&
        |renderer.allocatedTextures| == |old(renderer.allocatedTextures)| + TexturedCount(materials))
      ensures r.Ok? ==> MaterialRecordsOf(r.value, materials, old(renderer.device.cbvSrvUavHeap.current.index),
                                          |old(renderer.allocatedTextures)| + |materials| < U32_LIMIT)
    {
      ghost var firstSrv := renderer.device.cbvSrvUavHeap.current.index;
      ghost var firstCount := |renderer.allocatedTextures|;
      ghost var noWrap := firstCount + |materials| < U32_LIMIT;
      var records: seq<MaterialBuffer> := [];
      for k := 0 to |materials|
        invariant Valid() && |records| == k
        invariant forall j | 0 <= j < k :: materials[j].baseColorTexture.data.Bytes8?
        invariant |renderer.allocatedTextures| == firstCount + TexturedCount(materials[..k])
        invariant renderer.device.cbvSrvUavHeap.current.index == Wrap32(firstSrv + TexturedCount(materials[..k]))
        invariant MaterialRecordsOf(records, materials, firstSrv, noWrap)
      {
        var next := AppendMaterial(objectName, materials, k, records, firstSrv, firstCount, noWrap);
        if next.Fail? {
          return next;
        }
        records := next.value;
      }
      assert materials[..|materials|] == materials;
      r := Ok(records);
    }

    /** `create_game_object` on loaded model data: the object's number is the
        number of game objects so far (narrowed to `uint32_t`), its meshes are
        flattened into the scene arrays and its materials appended after the
        existing ones. The object is returned, not yet stored. A material whose
        pixels are not 8-bit throws after the meshes were appended. */
    method CreateGameObject(name: string, model: ModelData) returns (r: Result<GameObject>)
      requires Valid() && forall k | 0 <= k < |model.materialData| :: TextureReadable(model.materialData[k].baseColorTexture)
      modifies this`positions, this`normals, this`textureCoords, this`indices, this`meshBuffers, this`materialBuffers
      modifies renderer`allocatedTextures, renderer.device, renderer.device.cbvSrvUavHeap, renderer.device.dsvHeap
      ensures Valid()
      ensures positions == old(positions) + Gather(model.meshData, PositionsPart)
      ensures normals == old(normals) + Gather(model.meshData, NormalsPart)
      ensures textureCoords == old(textureCoords) + Gather(model.meshData, TextureCoordsPart)
      ensures indices == old(indices) + Gather(model.meshData, IndicesPart)
      ensures |meshBuffers| == |old(meshBuffers)| + |model.meshData|
      ensures meshBuffers[..|old(meshBuffers)|] == old(meshBuffers)
      ensures forall k | 0 <= k < |model.meshData| ::
        meshBuffers[|old(meshBuffers)| + k] ==
          MeshBufferOf(model.meshData, k, Wrap32(|gameObjects|), old(ArraySizes()))
      ensures r.Fail? <==> exists k | 0 <= k < |model.materialData| :: model.materialData[k].baseColorTexture.data.Floats?
      ensures r.Fail? ==> r.error == BadVariantAccess && materialBuffers == old(materialBuffers)
      ensures r.Ok? ==>
        r.value == GameObject(Wrap32(|gameObjects|), name, |model.meshData|, |model.materialData|,
                              |old(meshBuffers)|, |old(materialBuffers)|, ZERO_TRANSFORM)
      ensures r.Ok? ==> (|materialBuffers| == |old(materialBuffers)| + |model.materialData| &&
        materialBuffers[..|old(materialBuffers)|] == old(materialBuffers) &&
        |renderer.allocatedTextures| == |old(renderer.allocatedTextures)| + TexturedCount(model.materialData))
      ensures r.Ok? ==> MaterialRecordsOf(materialBuffers[|old(materialBuffers)|..], model.materialData,
                                          old(renderer.device.cbvSrvUavHeap.current.index),
                                          |old(renderer.allocatedTextures)| + |model.materialData| < U32_LIMIT)
    {
      var gameObject := GameObject(Wrap32(|gameObjects|), name, |model.meshData|, |model.materialData|,
                                   |meshBuffers|, |materialBuffers|, ZERO_TRANSFORM);
      AppendMeshes(gameObject.gameObjectIndex, model.meshData);
      var materials := BuildMaterials(name, model.materialData);
      if materials.Fail? {
        return Fail(materials.error);
      }
      materialBuffers := materialBuffers + materials.value;
      assert materialBuffers[|old(materialBuffers)|..] == materials.value;
      r := Ok(gameObject);
    }

    /** `m_game_objects[name] = game_object`: stores the object under its name,
        replacing an object of the same name. */
    method InsertGameObject(name: string, gameObject: GameObject)
      modifies this`gameObjects
      ensures gameObjects == old(gameObjects)[name := gameObject]
      ensures |gameObjects| == |old(gameObjects)| + (if name in old(gameObjects) then 0 else 1)
    {
      gameObjects := gameObjects[name := gameObject];
    }

    /** The game-object part of `update`: the transform records are cleared
        and rebuilt, one per game object in the map's iteration order `order`,
        after that object's own update `step` (its script, its transform
        matrices and its material uploads) has run. An object whose update
        throws ends the loop: the objects before it are updated and have their
        records, it keeps whatever its update changed, and the later ones are
        untouched. */
    method Update(order: seq<string>, step: GameObject -> Stepped) returns (r: Outcome)
      requires EnumeratesOnce(order, gameObjects.Keys)
      modifies this`gameObjects, this`gameObjectBuffers
      ensures UpdatedUpTo(order, Touched(order, old(gameObjects), step), old(gameObjects), gameObjects, step)
      ensures var c := CompletedFrom(order, old(gameObjects), step, 0);
        (r.Pass? <==> c == |order|) && (r.Abort? ==> r == step(old(gameObjects)[order[c]]).outcome) &&
        RecordsOf(order, gameObjects, gameObjectBuffers, c)
      ensures r.Pass? ==>
        |gameObjectBuffers| == |gameObjects| &&
        forall n | n in gameObjects :: gameObjects[n] == step(old(gameObjects)[n]).gameObject
    {
      EnumerationLength(order, gameObjects.Keys);
      var before := gameObjects;
      var objects, buffers, outcome := UpdateObjects(order, gameObjects, step);
      if outcome.Pass? {
        UpdatedAll(order, before, objects, step);
      }
      gameObjects, gameObjectBuffers, r := objects, buffers, outcome;
    }
  }
}

=== FILE: scene_manager.dfy ===
/**
 * The older engine's scene manager: scenes by name in an `unordered_map`, and
 * an iterator to the current one. The current scene is kept here as the name
 * the iterator points at, or none while the iterator is still the default
 * one. The map's iteration order is unspecified; where `begin()` matters it is
 * the first name of an iteration order the caller supplies.
 */
module SceneManagement {
  import opened Common
  import Scene

  /** What `set_current_scene` logs: nothing, the warning that it fell back to
      the first scene, or the error that there is no scene at all (`Log::error`
      does not throw, so the engine carries on). */
  datatype Report = Selected | FellBack(firstScene: string) | NoScenes

  /** The scene names and the current scene after `add_scene(name)`. Only the
      first scene becomes current: the map's size is one right after adding it,
      and again only when that same scene is replaced. */
  function AddedScene(names: set<string>, current: Option<string>, name: string): (set<string>, Option<string>)
  {
    var after := names + {name};
    (after, if |after| == 1 then Some(name) else current)
  }

  /** A sequence of `add_scene` calls. */
  function AddedScenes(names: set<string>, current: Option<string>, added: seq<string>): (set<string>, Option<string>)
    decreases |added|
  {
    if added == [] then (names, current)
    else
      var next := AddedScene(names, current, added[0]);
      AddedScenes(next.0, next.1, added[1..])
  }

  /** Once a manager has a current scene, adding scenes never moves it. */
  lemma {:induction false} AddedScenesKeepCurrent(names: set<string>, current: string, added: seq<string>)
    requires current in names
    ensures AddedScenes(names, Some(current), added).1 == Some(current)
    ensures current in AddedScenes(names, Some(current), added).0
    decreases |added|
  {
    if added != [] {
      var next := AddedScene(names, Some(current), added[0]);
      if added[0] != current {
        var others := (names + {added[0]}) - {added[0]};
        assert current in others;
        assert |names + {added[0]}| == |others| + 1;
      }
      assert next == (names + {added[0]}, Some(current));
      AddedScenesKeepCurrent(next.0, current, added[1..]);
      assert AddedScenes(names, Some(current), added) == AddedScenes(next.0, next.1, added[1..]);
    }
  }

  /** Starting from an empty manager, the current scene is the first one added,
      whatever is added after it (including scenes with the same name). */
  lemma FirstAddedIsCurrent(added: seq<string>)
    requires added != []
    ensures AddedScenes({}, None, added).1 == Some(added[0])
  {
    var next := AddedScene({}, None, added[0]);
    assert next.0 == {added[0]};
    AddedScenesKeepCurrent(next.0, added[0], added[1..]);
  }

  /** The scene `set_current_scene(name)` selects, and what it logs, given the
      name `begin()` points at. */
  function Selection(names: set<string>, current: Option<string>, name: string, first: string): (Option<string>, Report)
  {
    if name in names then (Some(name), Selected)
    else if names != {} then (Some(first), FellBack(first))
    else (current, NoScenes)
  }

  /** A selection always leaves the current scene among the scenes, once there is one. */
  lemma SelectionKeepsValid(names: set<string>, current: Option<string>, name: string, first: string)
    requires current.Some? ==> current.value in names
    requires names != {} ==> first in names
    ensures var selected := Selection(names, current, name, first).0;
      selected.Some? ==> selected.value in names
    ensures names != {} ==> Selection(names, current, name, first).0.Some?
  {
  }

  /** `scene::SceneManager`, over any kind of scene. */
  class SceneManager<S> {
    /** `m_scenes`: each scene under its name. */
    var scenes: map<string, S>
    /** The name `m_current_scene` points at. */
    var current: Option<string>

    ghost predicate Valid()
      reads this
    {
      current.Some? ==> current.value in scenes
    }

    constructor ()
      ensures Valid() && scenes == map[] && current == None
    {
      scenes := map[];
      current := None;
    }

    /** `add_scene`: store the scene under its name, replacing a scene of the same
        name; the first scene becomes current. */
    method AddScene(name: string, scene: S)
      requires Valid()
      modifies this
      ensures Valid()
      ensures scenes == old(scenes)[name := scene]
      ensures (scenes.Keys, current) == AddedScene(old(scenes).Keys, old(current), name)
    {
      scenes := scenes[name := scene];
      assert scenes.Keys == old(scenes).Keys + {name};
      if |scenes| == 1 {
        current := Some(name);
      }
    }

    /** `set_current_scene`: a known name becomes current; an unknown one falls
        back to the scene `begin()` points at (the first name of `order`), or,
        with no scenes at all, is only reported. */
    method SetCurrentScene(name: string, order: seq<string>) returns (report: Report)
      requires Valid() && Scene.EnumeratesOnce(order, scenes.Keys)
      modifies this`current
      ensures Valid()
      ensures scenes.Keys != {} ==> |order| > 0
      ensures (current, report) == Selection(scenes.Keys, old(current), name, if order == [] then "" else order[0])
    {
      if name in scenes {
        current := Some(name);
        return Selected;
      }
      if |scenes| != 0 {
        assert scenes.Keys != {};
        var someName :| someName in scenes.Keys;
        assert someName in order;
        current := Some(order[0]);
        return FellBack(order[0]);
      }
      assert scenes.Keys == {};
      report := NoScenes;
    }
  }
}

=== FILE: script_manager.dfy ===
/**
 * The script registry of the newer engine: scripts are kept in a vector and
 * referred to by index; registering a script whose path is already known
 * returns the existing entry's index instead of adding a second one. Running a
 * script hands its path to the Lua state, which is not part of this model.
 */
module ScriptManagement {
  import opened Common

  /** `Script`: a display name and the path of the Lua file. */
  datatype Script = Script(scriptName: string, scriptPath: string)

  /** The lowest index of a script with this path, if there is one. */
  function FirstWithPath(scripts: seq<Script>, path: string): (r: Option<nat>)
    ensures r.Some? ==> r.value < |scripts| && scripts[r.value].scriptPath == path
    ensures r.Some? ==> forall j | 0 <= j < r.value :: scripts[j].scriptPath != path
    ensures r.None? <==> forall j | 0 <= j < |scripts| :: scripts[j].scriptPath != path
    decreases |scripts|
  {
    if scripts == [] then None
    else if scripts[0].scriptPath == path then Some(0)
    else match FirstWithPath(scripts[1..], path)
      case None => None
      case Some(i) => Some(i + 1)
  }

  /** The registry and the index after `create_script(script)`: the first entry
      with the same path, or the script appended at the end. */
  function Registered(scripts: seq<Script>, script: Script): (seq<Script>, nat)
  {
    match FirstWithPath(scripts, script.scriptPath)
    case Some(i) => (scripts, i)
    case None => (scripts + [script], |scripts|)
  }

  /** A registration adds at most one entry, changes no existing one, and the
      index it returns names an entry with the script's path. */
  lemma RegisteredGrowsByAtMostOne(scripts: seq<Script>, script: Script)
    ensures var (after, index) := Registered(scripts, script);
      |scripts| <= |after| <= |scripts| + 1 && after[..|scripts|] == scripts &&
      index < |after| && after[index].scriptPath == script.scriptPath
  {
  }

  /** The entry's name is not compared: registering a second name for a known
      path returns the old entry and keeps its old name. */
  lemma RegisteredIgnoresName(scripts: seq<Script>, script: Script, i: nat)
    requires i < |scripts| && scripts[i].scriptPath == script.scriptPath
    ensures Registered(scripts, script).0 == scripts
    ensures var index := Registered(scripts, script).1;
      index <= i && scripts[index].scriptPath == script.scriptPath
  {
  }

  /** Registering two scripts with the same path gives one entry and the same
      index twice. */
  lemma RegisteredIdempotent(scripts: seq<Script>, first: Script, second: Script)
    requires first.scriptPath == second.scriptPath
    ensures var (once, index) := Registered(scripts, first);
      Registered(once, second) == (once, index)
  {
    var (once, index) := Registered(scripts, first);
    if FirstWithPath(scripts, first.scriptPath).None? {
      assert FirstWithPath(once, first.scriptPath) == Some(|scripts|) by {
        assert once[|scripts|].scriptPath == first.scriptPath;
        assert forall j | 0 <= j < |scripts| :: once[j] == scripts[j];
      }
    }
  }

  /** The path `execute_script(index)` hands to Lua: `.at` throws past the end. */
  function ScriptPathAt(scripts: seq<Script>, index: nat): (r: Result<string>)
    ensures r.Fail? <==> index >= |scripts|
    ensures r.Fail? ==> r.error == BadIndex
    ensures r.Ok? ==> r.value == scripts[index].scriptPath
  {
    if index < |scripts| then Ok(scripts[index].scriptPath) else Fail(BadIndex)
  }

  /** `scripting::ScriptManager`. */
  class ScriptManager {
    /** `m_scripts`. */
    var scripts: seq<Script>

    constructor ()
      ensures scripts == []
    {
      scripts := [];
    }

    /** The search of `create_script`: the lowest index whose path matches. */
    method FindScript(path: string) returns (found: Option<nat>)
      ensures found == FirstWithPath(scripts, path)
    {
      var i := 0;
      while i < |scripts|
        invariant 0 <= i <= |scripts|
        invariant forall j | 0 <= j < i :: scripts[j].scriptPath != path
      {
        if scripts[i].scriptPath == path {
          return Some(i);
        }
        i := i + 1;
      }
      return None;
    }

    /** `create_script`: the index of the entry with this path, appending the
        script when there is none; the index is returned as a `uint32_t`. */
    method CreateScript(script: Script) returns (index: nat)
      modifies this
      ensures scripts == Registered(old(scripts), script).0
      ensures index == Wrap32(Registered(old(scripts), script).1)
    {
      var found := FindScript(script.scriptPath);
      if found.Some? {
        return Wrap32(found.value);
      }
      index := Wrap32(|scripts|);
      scripts := scripts + [script];
    }

    /** `execute_script`: the path of the script to run. */
    method ExecuteScript(index: nat) returns (r: Result<string>)
      ensures r == ScriptPathAt(scripts, index)
    {
      if index >= |scripts| {
        return Fail(BadIndex);
      }
      r := Ok(scripts[index].scriptPath);
    }
  }
}

/**
 * The older engine's script registry: every registration appends, so a path
 * registered twice has two entries.
 */
module LegacyScriptManagement {
  import opened Common
  import opened ScriptManagement

  /** The registry and the index after the older `create_script`. */
  function Appended(scripts: seq<Script>, script: Script): (seq<Script>, nat)
  {
    (scripts + [script], |scripts|)
  }

  /** Every registration gets its own entry: two registrations in a row, of
      any scripts, return different indices and keep both scripts and every
      older entry. */
  lemma AppendedDistinct(scripts: seq<Script>, first: Script, second: Script)
    ensures var (once, i) := Appended(scripts, first);
      var (twice, j) := Appended(once, second);
      i != j && twice[i] == first && twice[j] == second && twice[..|scripts|] == scripts
  {
  }

  /** The older `scripting::ScriptManager`. */
  class ScriptManager {
    /** `m_scripts`. */
    var scripts: seq<Script>

    constructor ()
      ensures scripts == []
    {
      scripts := [];
    }

    /** `create_script`: append and return the old length, as a `uint32_t`. */
    method CreateScript(script: Script) returns (index: nat)
      modifies this
      ensures scripts == Appended(old(scripts), script).0
      ensures index == Wrap32(Appended(old(scripts), script).1)
    {
      index := Wrap32(|scripts|);
      scripts := scripts + [script];
    }

    /** `execute_script`: the path of the script to run. */
    method ExecuteScript(index: nat) returns (r: Result<string>)
      ensures r == ScriptPathAt(scripts, index)
    {
      if index >= |scripts| {
        return Fail(BadIndex);
      }
      r := Ok(scripts[index].scriptPath);
    }
  }
}

=== FILE: shader_compiler.dfy ===
/**
 * The DXC shader compiler wrapper. A compile builds a fixed argument list,
 * loads the source file, compiles it, reads the compiler's diagnostics and
 * then its object output, which becomes the shader's blob. DXC itself is not
 * part of the model: what it returns for a given source path and argument list
 * is a parameter.
 */
module ShaderCompilation {
  import opened Common
  import opened D3DUtils
  import opened EngineLog
  import opened FileSystem

  /** `ShaderTypes` is an 8-bit enumeration; these are its named values. */
  type ShaderType = x: nat | x < 256
  const VERTEX: ShaderType := 0
  const PIXEL: ShaderType := 1
  const COMPUTE: ShaderType := 2

  /** The spellings of DXC's argument macros. */
  const ARG_PACK_MATRIX_ROW_MAJOR: string := "-Zpr"
  const ARG_WARNINGS_ARE_ERRORS: string := "-WX"
  const ARG_ALL_RESOURCES_BOUND: string := "-all_resources_bound"
  const ARG_DEBUG: string := "-Zi"
  const ARG_OPTIMIZATION_LEVEL3: string := "-O3"

  /** The directory the newer engine gives DXC for `#include`, relative to the root. */
  const SHADER_DIRECTORY: string := "shaders/"

  /** The target profile for each shader type; an unnamed value gets none. */
  function TargetProfile(shaderType: ShaderType): (profile: string)
    ensures shaderType == VERTEX <==> profile == "vs_6_6"
    ensures shaderType == PIXEL <==> profile == "ps_6_6"
    ensures shaderType == COMPUTE <==> profile == "cs_6_6"
    ensures shaderType > COMPUTE <==> profile == ""
  {
    if shaderType == VERTEX then "vs_6_6"
    else if shaderType == PIXEL then "ps_6_6"
    else if shaderType == COMPUTE then "cs_6_6"
    else ""
  }

  /** `shader_type_to_string`. */
  function ShaderTypeName(shaderType: ShaderType): (name: string)
    ensures shaderType == VERTEX <==> name == "Vertex Shader"
    ensures shaderType == PIXEL <==> name == "Pixel Shader"
    ensures shaderType == COMPUTE <==> name == "Compute Shader"
    ensures shaderType > COMPUTE <==> name == ""
  {
    if shaderType == VERTEX then "Vertex Shader"
    else if shaderType == PIXEL then "Pixel Shader"
    else if shaderType == COMPUTE then "Compute Shader"
    else ""
  }

  /** The argument list: entry point, profile, row-major matrices, warnings as
      errors, all resources bound, no debug or reflection data in the object,
      the include directory, and then debug information in a debug build or
      full optimisation otherwise. */
  function CompilationArguments(entryPoint: string, profile: string, includeDirectory: string, debugBuild: bool)
    : (args: seq<string>)
    ensures |args| == 12
    ensures args[0] == "-E" && args[1] == entryPoint && args[2] == "-T" && args[3] == profile
    ensures args[9] == "-I" && args[10] == includeDirectory
    ensures args[|args| - 1] == if debugBuild then ARG_DEBUG else ARG_OPTIMIZATION_LEVEL3
  {
    ["-E", entryPoint, "-T", profile, ARG_PACK_MATRIX_ROW_MAJOR, ARG_WARNINGS_ARE_ERRORS, ARG_ALL_RESOURCES_BOUND,
     "-Qstrip_debug", "-Qstrip_reflect", "-I", includeDirectory] +
    [if debugBuild then ARG_DEBUG else ARG_OPTIMIZATION_LEVEL3]
  }

  /** The argument vector, built and then extended with the build's last flag. */
  method BuildArguments(entryPoint: string, profile: string, includeDirectory: string, debugBuild: bool)
    returns (args: seq<string>)
    ensures args == CompilationArguments(entryPoint, profile, includeDirectory, debugBuild)
  {
    args := ["-E", entryPoint, "-T", profile, ARG_PACK_MATRIX_ROW_MAJOR, ARG_WARNINGS_ARE_ERRORS,
             ARG_ALL_RESOURCES_BOUND, "-Qstrip_debug", "-Qstrip_reflect", "-I", includeDirectory];
    if debugBuild {
      args := args + [ARG_DEBUG];
    } else {
      args := args + [ARG_OPTIMIZATION_LEVEL3];
    }
  }

  /** What DXC gives back for one source file and argument list: the result of
      each call, the diagnostics text (empty when there are none) and the object. */
  datatype DxcRun = DxcRun(loadFile: HResult, compile: HResult, errorsOutput: HResult, diagnostics: string,
                           objectOutput: HResult, objectBlob: nat)

  /** How a failed call is handled: through `throw_if_failed`, or through
      `critical` with the message that the shader failed to compile. Both
      record a critical message and throw. */
  datatype Handling = ThrowIfFailedCall | CriticalCall

  /** The handling of each step of a compile, and whether diagnostics are critical
      (otherwise they are a warning). */
  datatype Policy = Policy(loadFile: Handling, compile: Handling, errorsOutput: Handling, objectOutput: Handling,
                           diagnosticsCritical: bool)

  /** One call's outcome under its handling. */
  function Handled(hr: HResult, handling: Handling): (r: Outcome)
    ensures r.Abort? <==> Failed(hr)
    ensures r.Abort? ==> r.error == (if handling == ThrowIfFailedCall then HResultFailed else ShaderCompileFailed)
  {
    if !Failed(hr) then Pass
    else if handling == ThrowIfFailedCall then ThrowIfFailed(hr)
    else Abort(ShaderCompileFailed)
  }

  /** What one call records. */
  function HandledRecords(hr: HResult, handling: Handling, shaderPath: string, location: SourceLocation): seq<Record>
  {
    if !Failed(hr) then []
    else if handling == ThrowIfFailedCall then [Record(Critical, "Hresult failed" + FormatSourceLocation(location))]
    else [Record(Critical, "Failed to compile shader with path : " + shaderPath + FormatSourceLocation(location))]
  }

  /** The message about non-empty diagnostics. */
  function DiagnosticsMessage(shaderPath: string, diagnostics: string): string
  {
    "Shader path : " + shaderPath + ", Error : " + diagnostics
  }

  /** The compile's outcome: the object blob, unless a call fails or the
      diagnostics are non-empty and critical. */
  function CompileResult(run: DxcRun, policy: Policy): (r: Result<nat>)
    ensures r.Ok? <==> !Failed(run.loadFile) && !Failed(run.compile) && !Failed(run.errorsOutput) &&
                       !Failed(run.objectOutput) && (run.diagnostics == [] || !policy.diagnosticsCritical)
    ensures r.Ok? ==> r.value == run.objectBlob
    ensures (r.Fail? && !Failed(run.loadFile) && !Failed(run.compile) && !Failed(run.errorsOutput) &&
             run.diagnostics != [] && policy.diagnosticsCritical) ==> r.error == ShaderDiagnostics
  {
    if Failed(run.loadFile) then Fail(Handled(run.loadFile, policy.loadFile).error)
    else if Failed(run.compile) then Fail(Handled(run.compile, policy.compile).error)
    else if Failed(run.errorsOutput) then Fail(Handled(run.errorsOutput, policy.errorsOutput).error)
    else if run.diagnostics != [] && policy.diagnosticsCritical then Fail(ShaderDiagnostics)
    else if Failed(run.objectOutput) then Fail(Handled(run.objectOutput, policy.objectOutput).error)
    else Ok(run.objectBlob)
  }

  /** What the steps from reading the diagnostics onwards record. */
  function LaterRecords(run: DxcRun, policy: Policy, shaderPath: string, typeName: string,
                        location: SourceLocation): seq<Record>
  {
    HandledRecords(run.errorsOutput, policy.errorsOutput, shaderPath, location) +
    if Failed(run.errorsOutput) then []
    else if run.diagnostics != [] && policy.diagnosticsCritical then
      [Record(Critical, DiagnosticsMessage(shaderPath, run.diagnostics) + FormatSourceLocation(location))]
    else
      (if run.diagnostics != [] then [Record(Warn, DiagnosticsMessage(shaderPath, run.diagnostics))] else []) +
      HandledRecords(run.objectOutput, policy.objectOutput, shaderPath, location) +
      if Failed(run.objectOutput) then []
      else [Record(Info, "Compiled " + typeName + " shader with path : " + shaderPath)]
  }

  /** What a compile records, in order, up to the first thrown exception. */
  function CompileRecords(run: DxcRun, policy: Policy, shaderPath: string, typeName: string,
                          location: SourceLocation): seq<Record>
  {
    HandledRecords(run.loadFile, policy.loadFile, shaderPath, location) +
    if Failed(run.loadFile) then []
    else
      HandledRecords(run.compile, policy.compile, shaderPath, location) +
      if Failed(run.compile) then [] else LaterRecords(run, policy, shaderPath, typeName, location)
  }

  /** One HRESULT through its handler. */
  method HandleResult(log: Log, hr: HResult, handling: Handling, shaderPath: string, location: SourceLocation)
    returns (r: Outcome)
    modifies log`records
    ensures r == Handled(hr, handling)
    ensures log.records == old(log.records) + HandledRecords(hr, handling, shaderPath, location)
  {
    if Failed(hr) {
      if handling == ThrowIfFailedCall {
        var _ := log.LogCritical("Hresult failed", location);
      } else {
        var _ := log.LogCritical("Failed to compile shader with path : " + shaderPath, location);
      }
      return Handled(hr, handling);
    }
    r := Pass;
  }

  /** Reading the diagnostics and the object, once the source has compiled. */
  method FinishCompile(log: Log, run: DxcRun, policy: Policy, shaderPath: string, typeName: string,
                       location: SourceLocation)
    returns (r: Result<nat>)
    requires !Failed(run.loadFile) && !Failed(run.compile)
    modifies log`records
    ensures r == CompileResult(run, policy)
    ensures log.records == old(log.records) + LaterRecords(run, policy, shaderPath, typeName, location)
  {
    var o := HandleResult(log, run.errorsOutput, policy.errorsOutput, shaderPath, location);
    if o.Abort? {
      return Fail(o.error);
    }
    if run.diagnostics != [] {
      if policy.diagnosticsCritical {
        var _ := log.LogCritical(DiagnosticsMessage(shaderPath, run.diagnostics), location);
        return Fail(ShaderDiagnostics);
      }
      log.LogWarn(DiagnosticsMessage(shaderPath, run.diagnostics));
    }
    o := HandleResult(log, run.objectOutput, policy.objectOutput, shaderPath, location);
    if o.Abort? {
      return Fail(o.error);
    }
    log.LogInfo("Compiled " + typeName + " shader with path : " + shaderPath);
    r := Ok(run.objectBlob);
  }

  /** The steps of a compile, given what DXC returns. */
  method RunCompile(log: Log, run: DxcRun, policy: Policy, shaderPath: string, typeName: string,
                    location: SourceLocation)
    returns (r: Result<nat>)
    modifies log`records
    ensures r == CompileResult(run, policy)
    ensures log.records == old(log.records) + CompileRecords(run, policy, shaderPath, typeName, location)
  {
    var o := HandleResult(log, run.loadFile, policy.loadFile, shaderPath, location);
    if o.Abort? {
      return Fail(o.error);
    }
    o := HandleResult(log, run.compile, policy.compile, shaderPath, location);
    if o.Abort? {
      return Fail(o.error);
    }
    r := FinishCompile(log, run, policy, shaderPath, typeName, location);
  }

  /** The newer engine's handling: with `ignore_error` every failed call goes
      through `throw_if_failed` and diagnostics are a warning; without it every
      failed call and any diagnostics are critical. */
  function NewerPolicy(ignoreError: bool): Policy
  {
    var handling := if ignoreError then ThrowIfFailedCall else CriticalCall;
    Policy(handling, handling, handling, handling, !ignoreError)
  }

  /** `ignore_error` does not keep a failed call from aborting the compile. */
  lemma IgnoreErrorStillAborts(run: DxcRun)
    requires Failed(run.loadFile) || Failed(run.compile) || Failed(run.errorsOutput) || Failed(run.objectOutput)
    ensures CompileResult(run, NewerPolicy(true)).Fail? && CompileResult(run, NewerPolicy(false)).Fail?
  {
  }

  /** `ignore_error` tolerates exactly the diagnostics: a compile that fails
      with it fails without it too, and one that fails only without it had
      diagnostics. */
  lemma IgnoreErrorOnlyToleratesDiagnostics(run: DxcRun)
    ensures CompileResult(run, NewerPolicy(true)).Fail? ==> CompileResult(run, NewerPolicy(false)).Fail?
    ensures CompileResult(run, NewerPolicy(false)).Fail? && CompileResult(run, NewerPolicy(true)).Ok? ==>
              run.diagnostics != [] && CompileResult(run, NewerPolicy(false)).error == ShaderDiagnostics
  {
  }

  /** `ShaderCreationDesc`. */
  datatype ShaderCreationDesc = ShaderCreationDesc(shaderType: ShaderType, shaderPath: string, entryPoint: string)

  /** `renderer::ShaderCompiler`. */
  class ShaderCompiler {
    /** The include directory: the absolute path of the shader directory. */
    const shaderDirectory: string
    const fileSystem: FileSystem

    /** The constructor, past creating the DXC objects. */
    constructor (log: Log, fileSystem: FileSystem)
      modifies log`records
      ensures this.fileSystem == fileSystem
      ensures shaderDirectory == fileSystem.AbsolutePath(SHADER_DIRECTORY)
      ensures log.records == old(log.records) + [Record(Info, "Created shader compiler")]
    {
      this.fileSystem := fileSystem;
      shaderDirectory := fileSystem.AbsolutePath(SHADER_DIRECTORY);
      new;
      log.LogInfo("Created shader compiler");
    }

    /** `compile`: the arguments and source path DXC is given, and the blob of
        its object output. `dxc` is what DXC does with a source path and an
        argument list. */
    method Compile(log: Log, desc: ShaderCreationDesc, ignoreError: bool, debugBuild: bool,
                   dxc: (string, seq<string>) -> DxcRun, location: SourceLocation)
      returns (r: Result<nat>)
      modifies log`records
      ensures var args := CompilationArguments(desc.entryPoint, TargetProfile(desc.shaderType), shaderDirectory, debugBuild);
        var run := dxc(fileSystem.AbsolutePath(desc.shaderPath), args);
        r == CompileResult(run, NewerPolicy(ignoreError)) &&
        log.records == old(log.records) + CompileRecords(run, NewerPolicy(ignoreError), desc.shaderPath,
                                                         ShaderTypeName(desc.shaderType), location)
    {
      var args := BuildArguments(desc.entryPoint, TargetProfile(desc.shaderType), shaderDirectory, debugBuild);
      var fullShaderPath := fileSystem.AbsolutePath(desc.shaderPath);
      r := RunCompile(log, dxc(fullShaderPath, args), NewerPolicy(ignoreError), desc.shaderPath,
                      ShaderTypeName(desc.shaderType), location);
    }
  }
}

/**
 * The older engine's shader compiler: vertex and pixel shaders only, the root
 * directory as the include directory, and no tolerant mode.
 */
module LegacyShaderCompilation {
  import opened Common
  import opened D3DUtils
  import opened EngineLog
  import opened LegacyFileSystem
  import opened ShaderCompilation

  /** The older profiles: vertex and pixel only. */
  function LegacyTargetProfile(shaderType: ShaderType): (profile: string)
    ensures shaderType == VERTEX <==> profile == "vs_6_6"
    ensures shaderType == PIXEL <==> profile == "ps_6_6"
    ensures shaderType > PIXEL <==> profile == ""
  {
    if shaderType == VERTEX then "vs_6_6"
    else if shaderType == PIXEL then "ps_6_6"
    else ""
  }

  /** The label of the log message after a compile. */
  function LegacyShaderTypeName(shaderType: ShaderType): (name: string)
    ensures shaderType == VERTEX <==> name == "Vertex"
    ensures shaderType == PIXEL <==> name == "Pixel"
    ensures shaderType > PIXEL <==> name == ""
  {
    if shaderType == VERTEX then "Vertex"
    else if shaderType == PIXEL then "Pixel"
    else ""
  }

  /** Loading the file and reading the outputs go through `throw_if_failed`; a
      failed compile call and any diagnostics are critical. */
  const LEGACY_POLICY: Policy := Policy(ThrowIfFailedCall, CriticalCall, ThrowIfFailedCall, ThrowIfFailedCall, true)

  /** The older compiler fails on any diagnostics: a compile that succeeds had
      every call succeed and no diagnostics at all. */
  lemma LegacyNoTolerance(run: DxcRun)
    ensures CompileResult(run, LEGACY_POLICY).Ok? ==> run.diagnostics == []
    ensures CompileResult(run, LEGACY_POLICY).Fail? && !Failed(run.loadFile) && Failed(run.compile) ==>
              CompileResult(run, LEGACY_POLICY).error == ShaderCompileFailed
  {
  }

  /** `graphics::ShaderCompiler`. */
  class LegacyShaderCompiler {
    /** The include directory: the root directory. */
    const rootDirectory: string
    const fileSystem: LegacyFileSystem

    constructor (log: Log, fileSystem: LegacyFileSystem)
      modifies log`records
      ensures this.fileSystem == fileSystem && rootDirectory == fileSystem.rootDirectory
      ensures log.records == old(log.records) + [Record(Info, "Created shader compiler")]
    {
      this.fileSystem := fileSystem;
      rootDirectory := fileSystem.rootDirectory;
      new;
      log.LogInfo("Created shader compiler");
    }

    /** `compile`: the source path is the root-relative one. */
    method Compile(log: Log, shaderType: ShaderType, shaderPath: string, entryPoint: string, debugBuild: bool,
                   dxc: (string, seq<string>) -> DxcRun, location: SourceLocation)
      returns (r: Result<nat>)
      modifies log`records
      ensures var args := CompilationArguments(entryPoint, LegacyTargetProfile(shaderType), rootDirectory, debugBuild);
        var run := dxc(fileSystem.RelativePath(shaderPath), args);
        r == CompileResult(run, LEGACY_POLICY) &&
        log.records == old(log.records) + CompileRecords(run, LEGACY_POLICY, shaderPath,
                                                         LegacyShaderTypeName(shaderType), location)
    {
      var args := BuildArguments(entryPoint, LegacyTargetProfile(shaderType), rootDirectory, debugBuild);
      var fullShaderPath := fileSystem.RelativePath(shaderPath);
      r := RunCompile(log, dxc(fullShaderPath, args), LEGACY_POLICY, shaderPath, LegacyShaderTypeName(shaderType),
                      location);
    }
  }
}

=== FILE: shading_renderpass.dfy ===
/**
 * The indirect draw of the shading pass. Every frame the pass rebuilds the
 * command signature's list of indirect commands, one per mesh part of the
 * current scene, copies the list into this frame's command buffer, and asks
 * the command list to execute as many commands as the list holds.
 *
 * An indirect command is a 32-bit root constant (the game object the mesh part
 * belongs to, which the shaders use to find its transform) followed by the
 * five arguments of `DrawIndexedInstanced`.
 */
module ShadingRenderpass {
  import opened Common
  import opened Bytes
  import opened DescriptorHeap
  import Buffers = Buffer
  import opened CommandList
  import opened Renderer

  /** A `uint32_t`. */
  type U32 = x: nat | x < U32_LIMIT

  /** The lowest and one past the highest `INT` value. */
  const I32_MIN: int := -0x8000_0000
  const I32_LIMIT: int := 0x8000_0000

  /** What the pass reads of one of the scene's mesh parts: the game object it
      belongs to and its span of the scene's index buffer. */
  datatype MeshPart = MeshPart(gameObjectIndex: U32, startIndex: U32, indicesCount: U32)

  /** `rhi::IndirectCommand`: the object id, then `D3D12_DRAW_INDEXED_ARGUMENTS`
      (whose base vertex is a signed `INT`). */
  datatype IndirectCommand = IndirectCommand(objectId: U32, indexCountPerInstance: U32, instanceCount: U32,
                                             startIndexLocation: U32, baseVertexLocation: int,
                                             startInstanceLocation: U32)

  /** Six 32-bit fields. */
  const INDIRECT_COMMAND_FIELDS: nat := 6

  /** The command that draws one mesh part: a single instance of its indices, from
      the start of its span, with no vertex or instance offset. */
  function CommandOf(part: MeshPart): IndirectCommand
  {
    IndirectCommand(part.gameObjectIndex, part.indicesCount, 1, part.startIndex, 0, 0)
  }

  /** A command's six fields as 32-bit words, the base vertex in two's complement. */
  function CommandWords(c: IndirectCommand): (words: seq<U32>)
    ensures |words| == INDIRECT_COMMAND_FIELDS
  {
    [c.objectId, c.indexCountPerInstance, c.instanceCount, c.startIndexLocation, Wrap32(c.baseVertexLocation),
     c.startInstanceLocation]
  }

  /** 32-bit words laid out one after the other, each little-endian. */
  function WordsBytes(words: seq<U32>): (bytes: seq<byte>)
    ensures |bytes| == LE32_SIZE * |words|
  {
    if words == [] then [] else WordsBytes(words[..|words| - 1]) + U32Bytes(words[|words| - 1])
  }

  /** The in-memory image of a command. */
  function CommandBytes(c: IndirectCommand): (bytes: seq<byte>)
    ensures |bytes| == INDIRECT_COMMAND_SIZE
  {
    WordsBytes(CommandWords(c))
  }

  /** The 32-bit word at word position `i` of a byte string. */
  function Word(bytes: seq<byte>, i: nat): (w: U32)
    requires LE32_SIZE * (i + 1) <= |bytes|
  {
    DecodeLEBound(bytes[LE32_SIZE * i..LE32_SIZE * (i + 1)]);
    DecodeLE(bytes[LE32_SIZE * i..LE32_SIZE * (i + 1)])
  }

  /** A 32-bit word read as an `INT`. */
  function Signed(w: U32): (v: int)
    ensures I32_MIN <= v < I32_LIMIT
  {
    if w < I32_LIMIT then w else w - U32_LIMIT
  }

  /** How the GPU reads a command out of its 24 bytes. */
  function DecodeCommand(bytes: seq<byte>): IndirectCommand
    requires |bytes| == INDIRECT_COMMAND_SIZE
  {
    IndirectCommand(Word(bytes, 0), Word(bytes, 1), Word(bytes, 2), Word(bytes, 3), Signed(Word(bytes, 4)),
                    Word(bytes, 5))
  }

  /** Word `i` of a laid-out sequence of words reads back as the `i`-th word. */
  lemma {:induction false} WordsBytesAt(words: seq<U32>, i: nat)
    requires i < |words|
    ensures Word(WordsBytes(words), i) == words[i]
    decreases |words|
  {
    var bytes := WordsBytes(words);
    var front := words[..|words| - 1];
    if i < |words| - 1 {
      WordsBytesAt(front, i);
      assert bytes[LE32_SIZE * i..LE32_SIZE * (i + 1)] == WordsBytes(front)[LE32_SIZE * i..LE32_SIZE * (i + 1)];
    } else {
      assert bytes[LE32_SIZE * i..LE32_SIZE * (i + 1)] == U32Bytes(words[i]);
      assert Pow256(LE32_SIZE) == U32_LIMIT;
      DecodeEncodeLE(words[i], LE32_SIZE);
    }
  }

  /** An `INT` stored in two's complement reads back as itself. */
  lemma SignedWrap32(v: int)
    requires I32_MIN <= v < I32_LIMIT
    ensures Signed(Wrap32(v)) == v
  {
  }

  /** Round trip: the GPU reads back every field of a command the pass wrote, as
      long as its base vertex fits an `INT`. */
  lemma DecodeCommandBytes(c: IndirectCommand)
    requires I32_MIN <= c.baseVertexLocation < I32_LIMIT
    ensures DecodeCommand(CommandBytes(c)) == c
  {
    var words := CommandWords(c);
    WordsBytesAt(words, 0);
    WordsBytesAt(words, 1);
    WordsBytesAt(words, 2);
    WordsBytesAt(words, 3);
    WordsBytesAt(words, 4);
    WordsBytesAt(words, 5);
    SignedWrap32(c.baseVertexLocation);
  }

  /** The in-memory image of a list of commands: their images one after the other. */
  function CommandsBytes(commands: seq<IndirectCommand>): (bytes: seq<byte>)
    ensures |bytes| == INDIRECT_COMMAND_SIZE * |commands|
  {
    if commands == [] then []
    else CommandsBytes(commands[..|commands| - 1]) + CommandBytes(commands[|commands| - 1])
  }

  /** Command `k` of a list occupies bytes `24k` to `24k + 24` of its image. */
  lemma {:induction false} CommandsBytesAt(commands: seq<IndirectCommand>, k: nat)
    requires k < |commands|
    ensures INDIRECT_COMMAND_SIZE * (k + 1) <= |CommandsBytes(commands)|
    ensures CommandsBytes(commands)[INDIRECT_COMMAND_SIZE * k..INDIRECT_COMMAND_SIZE * (k + 1)] ==
            CommandBytes(commands[k])
    decreases |commands|
  {
    var front := commands[..|commands| - 1];
    if k < |commands| - 1 {
      CommandsBytesAt(front, k);
      assert front[k] == commands[k];
    }
  }

  /** `CommandSignature`: the D3D signature object and the list of commands the
      shading pass rebuilds every frame. */
  class CommandSignature {
    /** The opaque `ID3D12CommandSignature`. */
    const signature: nat
    /** `m_indirect_commands`. */
    var indirectCommands: seq<IndirectCommand>

    constructor (signature: nat)
      ensures this.signature == signature && indirectCommands == []
    {
      this.signature := signature;
      indirectCommands := [];
    }

    /** Lines 77-93 of `render`: clear the list, then append one command per mesh
        part, in mesh-part order. */
    method RebuildCommands(parts: seq<MeshPart>)
      modifies this`indirectCommands
      ensures |indirectCommands| == |parts|
      ensures forall k | 0 <= k < |parts| ::
        indirectCommands[k].objectId == parts[k].gameObjectIndex &&
        indirectCommands[k].indexCountPerInstance == parts[k].indicesCount &&
        indirectCommands[k].instanceCount == 1 &&
        indirectCommands[k].startIndexLocation == parts[k].startIndex &&
        indirectCommands[k].baseVertexLocation == 0 && indirectCommands[k].startInstanceLocation == 0
    {
      indirectCommands := [];
      for i := 0 to |parts|
        invariant |indirectCommands| == i
        invariant forall k | 0 <= k < i :: indirectCommands[k] == CommandOf(parts[k])
      {
        indirectCommands := indirectCommands + [CommandOf(parts[i])];
      }
    }
  }

  /** The memory `update` may write: the mapping of the buffer at `index`, if any. */
  ghost function MappedMemory(buffers: seq<Buffers.Buffer>, index: nat): set<object>
  {
    if index < |buffers| && buffers[index].mapped.Some? then {buffers[index].mapped.value} else {}
  }

  /** A command buffer whose mapping, if it has one, can take `count` commands:
      `update` never checks, and copying past the mapping is undefined behaviour. */
  predicate FitsCommands(buffers: seq<Buffers.Buffer>, index: nat, count: nat)
  {
    index < |buffers| && buffers[index].mapped.Some? ==>
      INDIRECT_COMMAND_SIZE * count <= buffers[index].mapped.value.Length
  }

  /** Lines 98-101 of `render`: look the frame's command buffer up and copy the
      image of every command into it, `size * sizeof(IndirectCommand)` bytes. */
  method UploadCommands(buffers: seq<Buffers.Buffer>, index: nat, commands: seq<IndirectCommand>) returns (r: Outcome)
    requires FitsCommands(buffers, index, |commands|)
    modifies MappedMemory(buffers, index)
    ensures r.Abort? <==> index >= |buffers| || buffers[index].mapped.None?
    ensures r.Abort? ==> r.error == (if index >= |buffers| then BadIndex else BadOptionalAccess)
    ensures r.Pass? ==>
      var memory := buffers[index].mapped.value;
      memory[..INDIRECT_COMMAND_SIZE * |commands|] == CommandsBytes(commands) &&
      memory[INDIRECT_COMMAND_SIZE * |commands|..] == old(memory[INDIRECT_COMMAND_SIZE * |commands|..])
  {
    if index >= |buffers| {
      return Abort(BadIndex);
    }
    var bytes := CommandsBytes(commands);
    r := Buffers.Update(buffers[index], bytes, |commands| * INDIRECT_COMMAND_SIZE);
    assert bytes[..INDIRECT_COMMAND_SIZE * |commands|] == bytes;
  }

  /** Lines 77-105 of `ShadingRenderpass::render`: rebuild the indirect commands,
      set the render resources as root constants, copy the commands into the
      frame's command buffer and execute them. Looking the command buffer up
      fails past the end of the registry (`.at` throws), and `update` fails on a
      buffer without a mapping (`optional::value` throws); the root constants are
      set before either can fail. */
  method Render(list: CommandList, signature: CommandSignature, renderer: Renderer, commandBufferIndex: nat,
                renderResources: seq<byte>, parts: seq<MeshPart>) returns (r: Outcome)
    requires list.Valid()
    requires FitsCommands(renderer.allocatedBuffers, commandBufferIndex, |parts|)
    modifies list`calls, signature`indirectCommands, MappedMemory(renderer.allocatedBuffers, commandBufferIndex)
    ensures list.Valid()
    ensures |signature.indirectCommands| == |parts|
    ensures forall k | 0 <= k < |parts| :: signature.indirectCommands[k] == CommandOf(parts[k])
    ensures r.Abort? <==> commandBufferIndex >= |renderer.allocatedBuffers| ||
                          renderer.allocatedBuffers[commandBufferIndex].mapped.None?
    ensures r.Abort? ==> r.error == (if commandBufferIndex >= |renderer.allocatedBuffers| then BadIndex
                                     else BadOptionalAccess)
    ensures list.calls == old(list.calls) +
      [SetGraphicsRoot32BitConstants(0, NUM_32_BIT_ROOT_CONSTANTS, renderResources, 0)] +
      (if r.Abort? then []
       else [ExecuteIndirect(signature.signature, Wrap32(|parts|),
                             renderer.allocatedBuffers[commandBufferIndex].resource, 0, None, 0)])
    ensures r.Pass? ==>
      var memory := renderer.allocatedBuffers[commandBufferIndex].mapped.value;
      memory[..INDIRECT_COMMAND_SIZE * |parts|] == CommandsBytes(signature.indirectCommands) &&
      memory[INDIRECT_COMMAND_SIZE * |parts|..] == old(memory[INDIRECT_COMMAND_SIZE * |parts|..])
  {
    signature.RebuildCommands(parts);
    assert forall k | 0 <= k < |parts| :: signature.indirectCommands[k] == CommandOf(parts[k]);
    list.SetGraphicsRootConstants(renderResources);
    r := UploadCommands(renderer.allocatedBuffers, commandBufferIndex, signature.indirectCommands);
    if r.Abort? {
      return;
    }
    list.Record(ExecuteIndirect(signature.signature, Wrap32(|signature.indirectCommands|),
                                renderer.allocatedBuffers[commandBufferIndex].resource, 0, None, 0));
  }

  /** What the GPU executes after a successful pass: command `k` of the buffer,
      read back from its bytes, draws mesh part `k`. */
  lemma {:induction false} UploadedCommandDrawsPart(memory: seq<byte>, commands: seq<IndirectCommand>, parts: seq<MeshPart>, k: nat)
    requires |commands| == |parts| && forall j | 0 <= j < |parts| :: commands[j] == CommandOf(parts[j])
    requires INDIRECT_COMMAND_SIZE * |parts| <= |memory|
    requires memory[..INDIRECT_COMMAND_SIZE * |parts|] == CommandsBytes(commands)
    requires k < |parts|
    ensures INDIRECT_COMMAND_SIZE * (k + 1) <= |memory|
    ensures DecodeCommand(memory[INDIRECT_COMMAND_SIZE * k..INDIRECT_COMMAND_SIZE * (k + 1)]) == CommandOf(parts[k])
  {
    CommandsBytesAt(commands, k);
    assert memory[INDIRECT_COMMAND_SIZE * k..INDIRECT_COMMAND_SIZE * (k + 1)] ==
           CommandsBytes(commands)[INDIRECT_COMMAND_SIZE * k..INDIRECT_COMMAND_SIZE * (k + 1)];
    DecodeCommandBytes(commands[k]);
  }
}

=== FILE: singleton.dfy ===
/**
 * `SingletonInstance<T>`: a base class that lets at most one object of each
 * type exist at a time, and hands that object out to everyone. The model keeps
 * one slot per type, holding the live instance or nothing.
 */
module Singleton {
  import opened Common

  /** The slot and the outcome after constructing `candidate` in a slot holding
      `slot`: a live instance makes the construction throw and stay unset. */
  function Constructed<T>(slot: Option<T>, candidate: T): (r: (Option<T>, Outcome))
    ensures r.1 == Pass <==> slot.None?
    ensures r.1 == Pass ==> r.0 == Some(candidate)
    ensures r.1 != Pass ==> r.0 == slot && r.1 == Abort(InstanceAlreadyExists)
  {
    if slot.Some? then (slot, Abort(InstanceAlreadyExists)) else (Some(candidate), Pass)
  }

  /** `get()` on a slot holding `slot`. */
  function Got<T>(slot: Option<T>): (r: Result<T>)
    ensures r.Ok? <==> slot.Some?
    ensures r.Ok? ==> r.value == slot.value
    ensures r.Fail? ==> r.error == InstanceDoesNotExist
  {
    if slot.None? then Fail(InstanceDoesNotExist) else Ok(slot.value)
  }

  /** After a construction that passed, `get()` returns the candidate constructed. */
  lemma GetAfterConstruct<T>(slot: Option<T>, candidate: T)
    requires Constructed(slot, candidate).1 == Pass
    ensures Got(Constructed(slot, candidate).0) == Ok(candidate)
  {
  }

  /** Of two constructions in a row, the second always throws and the first
      candidate stays the instance. */
  lemma SecondConstructFails<T>(slot: Option<T>, first: T, second: T)
    ensures var (once, _) := Constructed(slot, first);
      Constructed(once, second).1 == Abort(InstanceAlreadyExists) &&
      Constructed(once, second).0 == once && once.Some?
  {
  }

  /** Once the instance is destroyed, a new one can be constructed. */
  lemma DestroyThenConstruct<T>(candidate: T)
    ensures Constructed(None, candidate) == (Some(candidate), Pass)
    ensures Got<T>(None) == Fail(InstanceDoesNotExist)
  {
  }

  /** The static `s_instance` of one type `T`. */
  class SingletonSlot<T> {
    var instance: Option<T>

    /** `s_instance{}`: no instance at start. */
    constructor ()
      ensures instance == None
    {
      instance := None;
    }

    /** The base-class constructor run for `candidate`. */
    method Construct(candidate: T) returns (r: Outcome)
      modifies this
      ensures (instance, r) == Constructed(old(instance), candidate)
    {
      if instance.Some? {
        return Abort(InstanceAlreadyExists);
      }
      instance := Some(candidate);
      r := Pass;
    }

    /** The destructor: the slot is emptied. */
    method Destroy()
      modifies this
      ensures instance == None
    {
      instance := None;
    }

    /** `exists()`. */
    predicate Exists()
      reads this
    {
      instance != None
    }

    /** `get()`. */
    method Get() returns (r: Result<T>)
      ensures r == Got(instance)
      ensures r.Ok? <==> Exists()
    {
      if instance.None? {
        return Fail(InstanceDoesNotExist);
      }
      r := Ok(instance.value);
    }
  }
}

=== FILE: timer.dfy ===
/**
 * The frame timer. `tick` moves the last start time into the end time and
 * reads the clock into the start time; `get_delta_time` is the time between
 * the two in whole milliseconds (`duration_cast` truncates towards zero). Time
 * points are nanoseconds on the high-resolution clock, whose reading is a
 * parameter; a default-constructed time point is 0.
 */
module Timing {
  import opened Common

  const NS_PER_MS: nat := 1_000_000

  /** `duration_cast<milliseconds>` of a duration in nanoseconds. */
  function WholeMilliseconds(duration: int): (ms: int)
    ensures duration >= 0 ==> ms >= 0 && ms * NS_PER_MS <= duration < (ms + 1) * NS_PER_MS
    ensures duration <= 0 ==> ms <= 0 && (ms - 1) * NS_PER_MS < duration <= ms * NS_PER_MS
  {
    TruncDiv(duration, NS_PER_MS)
  }

  /** A duration of exactly `k` milliseconds converts to `k`. */
  lemma WholeMillisecondsExact(k: int)
    ensures WholeMilliseconds(k * NS_PER_MS) == k
  {
    var ms := WholeMilliseconds(k * NS_PER_MS);
    if k >= 0 {
      assert ms * NS_PER_MS <= k * NS_PER_MS < (ms + 1) * NS_PER_MS;
      MultipliedOrder(ms, k);
      MultipliedOrder(k, ms + 1);
    } else {
      assert (ms - 1) * NS_PER_MS < k * NS_PER_MS <= ms * NS_PER_MS;
      MultipliedOrder(ms - 1, k);
      MultipliedOrder(k, ms);
    }
  }

  /** Multiplying by the positive constant keeps the order. */
  lemma MultipliedOrder(a: int, b: int)
    requires a * NS_PER_MS <= b * NS_PER_MS
    ensures a <= b
  {
  }

  /** `serenity::Timer`. */
  class Timer {
    /** `m_start_time` and `m_end_time`, in nanoseconds. */
    var startTime: int
    var endTime: int

    constructor ()
      ensures startTime == 0 && endTime == 0
    {
      startTime := 0;
      endTime := 0;
    }

    /** `tick`, with the clock reading `now`. */
    method Tick(now: int)
      modifies this
      ensures endTime == old(startTime) && startTime == now
    {
      endTime := startTime;
      startTime := now;
    }

    /** `get_delta_time`: the whole milliseconds from the end time to the start
        time, never negative on a clock that does not go back. */
    function DeltaTime(): (ms: int)
      reads this
      ensures endTime <= startTime ==> 0 <= ms && ms * NS_PER_MS <= startTime - endTime < (ms + 1) * NS_PER_MS
    {
      WholeMilliseconds(startTime - endTime)
    }
  }

  /** Two ticks `k` whole milliseconds apart give a delta of `k`. */
  lemma TicksApart(timer: Timer, earlier: int, k: int)
    requires timer.endTime == earlier && timer.startTime == earlier + k * NS_PER_MS
    ensures timer.DeltaTime() == k
  {
    WholeMillisecondsExact(k);
  }
}

/**
 * The older engine's timer: the same ticks, but `get_delta_time` subtracts
 * the start time from the end time, so on a clock that does not go back every
 * delta is zero or negative. The older application's loop passes that
 * as-written delta on; `IntendedDeltaTime` is the corrected delta that the header
 * comment and the newer engine describe.
 */
module LegacyTiming {
  import opened Common
  import opened Timing

  /** `get_delta_time` as written: end time minus start time. */
  function AsWrittenDelta(frameStartTime: int, frameEndTime: int): (ms: int)
    ensures frameEndTime <= frameStartTime ==> ms <= 0
  {
    WholeMilliseconds(frameEndTime - frameStartTime)
  }

  /** The intended delta: start time minus end time. */
  function IntendedDelta(frameStartTime: int, frameEndTime: int): (ms: int)
    ensures frameEndTime <= frameStartTime ==>
      0 <= ms && ms * NS_PER_MS <= frameStartTime - frameEndTime < (ms + 1) * NS_PER_MS
  {
    WholeMilliseconds(frameStartTime - frameEndTime)
  }

  /** The two differ exactly in sign. */
  lemma AsWrittenIsNegated(frameStartTime: int, frameEndTime: int)
    ensures AsWrittenDelta(frameStartTime, frameEndTime) == -IntendedDelta(frameStartTime, frameEndTime)
  {
    TruncDivNegate(frameStartTime - frameEndTime, NS_PER_MS);
  }

  /** The discrepancy: frames that start 5 ms apart report a delta of -5 ms
      instead of 5 ms. */
  lemma AsWrittenDeltaIsNegative(earlier: int)
    ensures AsWrittenDelta(earlier + 5 * NS_PER_MS, earlier) == -5
    ensures IntendedDelta(earlier + 5 * NS_PER_MS, earlier) == 5
  {
    WholeMillisecondsExact(5);
    WholeMillisecondsExact(-5);
  }

  /** The older `serenity::Timer`. */
  class LegacyTimer {
    /** `m_frame_start_time` and `m_frame_end_time`, in nanoseconds. */
    var frameStartTime: int
    var frameEndTime: int

    constructor ()
      ensures frameStartTime == 0 && frameEndTime == 0
    {
      frameStartTime := 0;
      frameEndTime := 0;
    }

    /** `tick`, with the clock reading `now`. */
    method Tick(now: int)
      modifies this
      ensures frameEndTime == old(frameStartTime) && frameStartTime == now
    {
      frameEndTime := frameStartTime;
      frameStartTime := now;
    }

    /** `get_delta_time` as written. */
    function AsWrittenDeltaTime(): (ms: int)
      reads this
      ensures frameEndTime <= frameStartTime ==> ms <= 0
    {
      AsWrittenDelta(frameStartTime, frameEndTime)
    }

    /** `get_delta_time` corrected. */
    function IntendedDeltaTime(): (ms: int)
      reads this
      ensures frameEndTime <= frameStartTime ==> 0 <= ms
      ensures ms == -AsWrittenDeltaTime()
    {
      AsWrittenIsNegated(frameStartTime, frameEndTime);
      IntendedDelta(frameStartTime, frameEndTime)
    }
  }
}
